=== FILE: README.md ===
# TextProc, modelled in Dafny

TextProc is a command-line text processing pipeline. It reads an XML
process declaration, runs the declared steps one after another, and each
step pages through a database table of documents in batches. Steps
tokenize, lemmatize, filter empty documents, strip user mentions, extract
named entities into a mapping file, build a Lucene index, or tokenize
through a remote text processing service. This project models, as pure
Dafny functions over immutable state, the parts of TextProc that decide
what happens to the documents and the process:

- the command-line driver: argument handling, input choice and the exit
  status (`Application`), and the elapsed-time line (`ElapsedTime`);
- the persistence registry, with its per-thread entity managers, dirty
  transaction records, flush, start and stop (`Persistence`), the
  transaction-recording decorator (`TransactionDecorator`) and the
  creation-ordered transaction wrapper (`TimestampedTransaction`);
- step declarations and their parameters (`StepDefinitions`) and the
  sequential execution of a process (`ProcessExecution`);
- the common step driver: parameter validation, `execute`, SELECT
  generation, reflective saving and deletion (`StepDriver`), and the paged
  batch scanner (`BatchScanner`);
- row-to-document conversion and saving shared by the steps
  (`DocumentRows`), and the processed document entities
  (`ProcessedDocuments`);
- the step bodies: CoreNLP tokenization and lemmatization, empty and
  mention filtering, entity extraction with its dictionaries and NER
  mapping writer, Lucene indexing, and the remote-service demultiplexer
  with its tokenization step;
- the write-once logger holder (`Logging`).

The Java library behaviour the model relies on (32-bit integer
arithmetic, `Integer.parseInt`, `String.split`, `trim`, `strip`, case
mapping, `Map.put` order) lives in `JavaLang`, `JavaText` and
`JavaCollections`. Every library's opaque effect (a regular expression
engine, an NLP pipeline, a database query, a web call) is a function
parameter.

## Model

| member | source | states |
|---|---|---|
| Application.ExitStatusAsWritten | TextProcMain/src/main/java/es/uvigo/esei/sing/textproc/TextProc.java:145 | the status as written: for every hash code except the smallest `int`, one more than its absolute value modulo 255; for the smallest `int`, the negative status -127 |
| Application.ExitStatusAsWrittenInRange | TextProcMain/src/main/java/es/uvigo/esei/sing/textproc/TextProc.java:145 | for every hash code except the smallest `int`, the status as written lies in 1..255 |
| Application.ExitStatus | TextProcMain/src/main/java/es/uvigo/esei/sing/textproc/TextProc.java:145 | the corrected status is always in 1..255, so a failed run never reports success |
| Application.ExitStatusAgrees | TextProcMain/src/main/java/es/uvigo/esei/sing/textproc/TextProc.java:145 | the corrected status equals the status as written on every hash code the original handles |
| ElapsedTime.ElapsedParts | TextProcMain/src/main/java/es/uvigo/esei/sing/textproc/TextProc.java:123-131 | the elapsed time, taken as whole seconds rounded down, splits into days, hours of magnitude below 24, and minutes and seconds of magnitude below 60, which add back up to those seconds; a non-negative duration has non-negative parts, and a negative one, from a clock that stepped back, has none positive |
| ElapsedTime.ElapsedText | TextProcMain/src/main/java/es/uvigo/esei/sing/textproc/TextProc.java:123-131 | for a non-negative duration the line is "D day/s, HH:MM:SS" built from those parts, with two-digit clock fields; for a negative one the line ends with the seconds part as `%02d` writes it, after a colon |
| ElapsedTime.BackwardClockExample | TextProcMain/src/main/java/es/uvigo/esei/sing/textproc/TextProc.java:123-131 | a clock that stepped back one millisecond prints "0 day/s, 00:00:-1" |
| ElapsedTime.ElapsedTextRecoversSeconds | TextProcMain/src/main/java/es/uvigo/esei/sing/textproc/TextProc.java:123-131 | for a non-negative duration the day count and the three clock fields can be read back from the line and give the whole seconds elapsed |
| ElapsedTime.ElapsedTextExample | TextProcMain/src/main/java/es/uvigo/esei/sing/textproc/TextProc.java:123-131 | 90061.5 seconds print as "1 day/s, 01:01:01" |
| Application.InputSourceAsWritten | TextProcMain/src/main/java/es/uvigo/esei/sing/textproc/TextProc.java:110-116 | as written, standard input is read only when there is no argument or the argument is the very "-" literal object; any other argument names a file |
| Application.DashOpensFile | TextProcMain/src/main/java/es/uvigo/esei/sing/textproc/TextProc.java:110-116 | as written, a "-" argument that is an equal but distinct string opens a file named "-" |
| Application.InputSource | TextProcMain/src/main/java/es/uvigo/esei/sing/textproc/TextProc.java:110-116 | corrected: standard input exactly when there is no argument or the argument equals "-"; otherwise the argument is the file path |
| Application.InputSourceAgrees | TextProcMain/src/main/java/es/uvigo/esei/sing/textproc/TextProc.java:110-116 | the corrected choice and the choice as written agree on every argument list that is not "-" |
| Application.DocumentTypes | TextProcMain/src/main/java/es/uvigo/esei/sing/textproc/TextProc.java:102-106 | the document types handed to persistence are exactly those declared by some step service |
| Application.TryFailure | TextProcMain/src/main/java/es/uvigo/esei/sing/textproc/TextProc.java:99-140 | the `try` block fails exactly when starting persistence, opening the input file or executing the process fails, and a start failure is the one reported |
| Application.Run | TextProcMain/src/main/java/es/uvigo/esei/sing/textproc/TextProc.java:87-155 | more than one argument is rejected before anything starts; otherwise persistence is always stopped, the input is chosen with the by-reference "-" test, the status is 0 exactly when the elapsed time is printed, any other status is in 1..255 or is -127, and status 0 means every stage succeeded |
| Application.FailureStatus | TextProcMain/src/main/java/es/uvigo/esei/sing/textproc/TextProc.java:140-152 | a failure anywhere in the `try` gives the status as written of that exception's hash code, in 1..255 unless the hash code is the smallest `int`, and persistence is stopped as after a success |
| Application.RunCorrected | TextProcMain/src/main/java/es/uvigo/esei/sing/textproc/TextProc.java:87-155 | the run with "-" compared by value and the intended status: every failure exits with a status in 1..255 and a "-" argument reads standard input |
| Application.RunAgrees | TextProcMain/src/main/java/es/uvigo/esei/sing/textproc/TextProc.java:87-155 | the run as written and the corrected run end alike on every argument list but "-" when no failure has the smallest `int` as hash code |
| Application.NullDocumentTypeFails | TextProcMain/src/main/java/es/uvigo/esei/sing/textproc/TextProc.java:102-106 | a null document type from any service makes `start` fail and the run end with a non-zero status before the input is read, a positive one unless the exception's hash code is the smallest `int` |
| Persistence.Initial | TextProcPersistence/src/main/java/es/uvigo/esei/sing/textproc/persistence/TextProcPersistence.java:37-39 | a new registry is stopped, holds no records, threads or managers, and satisfies the registry invariant |
| Persistence.DirtyInCreationOrder | TextProcPersistence/src/main/java/es/uvigo/esei/sing/textproc/persistence/TextProcPersistence.java:37-39 | the dirty transaction records of a valid registry are ordered by creation under the corrected comparison |
| Persistence.Start | TextProcPersistence/src/main/java/es/uvigo/esei/sing/textproc/persistence/TextProcPersistence.java:88-131 | starting a running registry does nothing; otherwise a null entity type or a missing descriptor fails and leaves the registry unchanged, and success only marks it running |
| Persistence.Stop | TextProcPersistence/src/main/java/es/uvigo/esei/sing/textproc/persistence/TextProcPersistence.java:138-150 | stopping always leaves the registry stopped and keeps every dirty record; a running registry is flushed as written, which clears the threads, and a stopped one is left unchanged |
| Persistence.GetEntityManager | TextProcPersistence/src/main/java/es/uvigo/esei/sing/textproc/persistence/TextProcPersistence.java:159-176 | fails unless running; a thread that already has a manager gets the same one; otherwise a new open manager with an inactive transaction is recorded for the thread |
| Persistence.GetTransaction | TextProcPersistence/src/main/java/es/uvigo/esei/sing/textproc/persistence/TextProcPersistence.java:170-171 | every call through the decorator appends one dirty record for that manager's transaction and changes nothing else |
| Persistence.SameThreadSameManager | TextProcPersistence/src/main/java/es/uvigo/esei/sing/textproc/persistence/TextProcPersistence.java:164-175 | a thread asking twice gets the same manager, and the second request changes nothing |
| Persistence.EveryGetTransactionIsRecorded | TextProcPersistence/src/main/java/es/uvigo/esei/sing/textproc/persistence/TextProcPersistence.java:170-171 | asking for a transaction twice leaves two equal records for the same transaction, not one |
| Persistence.Begin | TextProcPersistence/src/main/java/es/uvigo/esei/sing/textproc/persistence/TextProcPersistence.java:159-176 | `begin` activates the manager's transaction and leaves records and threads alone |
| Persistence.SetRollbackOnly | TextProcPersistence/src/main/java/es/uvigo/esei/sing/textproc/persistence/TextProcPersistence.java:159-176 | `setRollbackOnly` marks the manager's transaction and leaves records and threads alone |
| Persistence.SettleRecords | TextProcPersistence/src/main/java/es/uvigo/esei/sing/textproc/persistence/TextProcPersistence.java:223-244 | each record is settled against its own transaction; transactions no record names are untouched and those named end inactive; open flags are not changed here |
| Persistence.SettlementOfRecord | TextProcPersistence/src/main/java/es/uvigo/esei/sing/textproc/persistence/TextProcPersistence.java:228-234 | the first record naming a transaction rolls it back or commits it according to its state before the flush; later records naming it find it inactive and do nothing |
| Persistence.Remove | TextProcPersistence/src/main/java/es/uvigo/esei/sing/textproc/persistence/TextProcPersistence.java:243 | the record set's `remove` looks its key up through the comparison and removes at most one record |
| Persistence.RemoveAsWrittenKeepsAll | TextProcPersistence/src/main/java/es/uvigo/esei/sing/textproc/persistence/TextProcPersistence.java:243 | under the comparison as written, `remove` removes nothing, whatever the key |
| Persistence.DrainAsWrittenKeepsAll | TextProcPersistence/src/main/java/es/uvigo/esei/sing/textproc/persistence/TextProcPersistence.java:223-244 | as written, the flush loop's removals leave the record set exactly as it was |
| Persistence.DrainCorrectedEmpties | TextProcPersistence/src/main/java/es/uvigo/esei/sing/textproc/persistence/TextProcPersistence.java:223-244 | under the corrected comparison, removing each visited record empties the set |
| Persistence.FlushWith | TextProcPersistence/src/main/java/es/uvigo/esei/sing/textproc/persistence/TextProcPersistence.java:213-262 | under either comparison a flush clears the threads, keeps the running flag and counter, closes exactly the managers handed to threads, leaves every transaction a record named inactive and the others unchanged |
| Persistence.FlushAll | TextProcPersistence/src/main/java/es/uvigo/esei/sing/textproc/persistence/TextProcPersistence.java:213-262 | corrected: after a flush no record or thread remains, the running flag is kept, and exactly the managers handed to threads are closed |
| Persistence.FlushAsWritten | TextProcPersistence/src/main/java/es/uvigo/esei/sing/textproc/persistence/TextProcPersistence.java:213-262 | as written: the flush keeps every dirty record, and otherwise leaves the registry and reports the settlements exactly as the corrected flush does |
| Persistence.KeptRecordExample | TextProcPersistence/src/main/java/es/uvigo/esei/sing/textproc/persistence/TextProcPersistence.java:223-244 | one manager asked once for its active transaction: the record is still there after the flush as written, and gone after the corrected one |
| Persistence.Flush | TextProcPersistence/src/main/java/es/uvigo/esei/sing/textproc/persistence/TextProcPersistence.java:213-262 | flushing a stopped registry fails with an `IllegalStateException` unless the running check is bypassed; otherwise it is the flush as written, which clears the threads and keeps every dirty record |
| Persistence.FlushLeavesNothingOpen | TextProcPersistence/src/main/java/es/uvigo/esei/sing/textproc/persistence/TextProcPersistence.java:213-262 | after flushing a valid registry as written every dirty record is still held, no thread remains, no manager is open, every transaction a record named is inactive, the others are unchanged, and the registry stays valid |
| Persistence.FlushTwiceIsFlushOnce | TextProcPersistence/src/main/java/es/uvigo/esei/sing/textproc/persistence/TextProcPersistence.java:213-262 | a second flush with no activity in between walks every kept record again, reports each one untouched and changes nothing |
| Persistence.SettledRecordsChangeNothing | TextProcPersistence/src/main/java/es/uvigo/esei/sing/textproc/persistence/TextProcPersistence.java:223-244 | records whose transactions are already inactive, walked before other records, change no manager and are reported untouched |
| Persistence.LaterFlushRewalksKeptRecords | TextProcPersistence/src/main/java/es/uvigo/esei/sing/textproc/persistence/TextProcPersistence.java:213-262 | a later flush as written walks again the records an earlier flush kept, reports them untouched, and leaves the registry as the corrected flush of the newer records would, except that it keeps all the records |
| Persistence.StopEndsTheSession | TextProcPersistence/src/main/java/es/uvigo/esei/sing/textproc/persistence/TextProcPersistence.java:138-150 | after `stop` the registry is valid and stopped, holds no thread and no open manager, still holds every dirty record, and `getEntityManager` fails |
| Persistence.StartPreservesValid | TextProcPersistence/src/main/java/es/uvigo/esei/sing/textproc/persistence/TextProcPersistence.java:88-131 | `start` preserves the registry invariant |
| Persistence.GetEntityManagerPreservesValid | TextProcPersistence/src/main/java/es/uvigo/esei/sing/textproc/persistence/TextProcPersistence.java:159-176 | `getEntityManager` preserves the registry invariant |
| Persistence.GetTransactionPreservesValid | TextProcPersistence/src/main/java/es/uvigo/esei/sing/textproc/persistence/TextProcPersistence.java:170-171 | recording a transaction preserves the registry invariant |
| Persistence.TransactionCallsPreserveValid | TextProcPersistence/src/main/java/es/uvigo/esei/sing/textproc/persistence/TextProcPersistence.java:159-176 | `begin` and `setRollbackOnly` preserve the registry invariant |
| TransactionDecorator.Make | TextProcPersistence/src/main/java/es/uvigo/esei/sing/textproc/persistence/EntityManagerTransactionDecorator.java:33-38 | a decorator is built only from a non-null manager and hook, and then delegates to that manager |
| TransactionDecorator.Decorated | TextProcPersistence/src/main/java/es/uvigo/esei/sing/textproc/persistence/EntityManagerTransactionDecorator.java:40-264 | every call returns what the decorated manager returns, and only `getTransaction` passes its result to the hook |
| TransactionDecorator.DecoratedCalls | TextProcPersistence/src/main/java/es/uvigo/esei/sing/textproc/persistence/EntityManagerTransactionDecorator.java:40-264 | over a sequence of calls, each result is the decorated manager's result for that call |
| TransactionDecorator.TransactionCalls | TextProcPersistence/src/main/java/es/uvigo/esei/sing/textproc/persistence/EntityManagerTransactionDecorator.java:260-264 | every position it lists is a `getTransaction` call within the sequence |
| TransactionDecorator.TransactionCallsComplete | TextProcPersistence/src/main/java/es/uvigo/esei/sing/textproc/persistence/EntityManagerTransactionDecorator.java:260-264 | a call is a `getTransaction` call exactly when its position is listed, so every such call is counted |
| TransactionDecorator.TransactionCallsIncrease | TextProcPersistence/src/main/java/es/uvigo/esei/sing/textproc/persistence/EntityManagerTransactionDecorator.java:260-264 | the listed positions strictly increase: call order, each call once |
| TransactionDecorator.HookSeesOneReplyPerPosition | TextProcPersistence/src/main/java/es/uvigo/esei/sing/textproc/persistence/EntityManagerTransactionDecorator.java:260-264 | the k-th value the hook receives is the reply of the k-th listed `getTransaction` call |
| TransactionDecorator.HookSeesEveryTransaction | TextProcPersistence/src/main/java/es/uvigo/esei/sing/textproc/persistence/EntityManagerTransactionDecorator.java:260-264 | the hook receives the reply of every `getTransaction` call, one value per call, in strictly increasing call order, and nothing else |
| TransactionDecorator.OtherCallsOnlyDelegate | TextProcPersistence/src/main/java/es/uvigo/esei/sing/textproc/persistence/EntityManagerTransactionDecorator.java:40-258 | calls other than `getTransaction` only delegate and never reach the hook |
| TimestampedTransaction.Create | TextProcPersistence/src/main/java/es/uvigo/esei/sing/textproc/persistence/TimestampedEntityTransaction.java:21 | a wrapper takes the next creation id from the shared counter, which grows by one, and a null transaction is rejected |
| TimestampedTransaction.CreationIdsIncrease | TextProcPersistence/src/main/java/es/uvigo/esei/sing/textproc/persistence/TimestampedEntityTransaction.java:21 | a wrapper created later has a larger creation id, while the 64-bit counter has not wrapped |
| TimestampedTransaction.CompareToAsWrittenIsConstant | TextProcPersistence/src/main/java/es/uvigo/esei/sing/textproc/persistence/TimestampedEntityTransaction.java:40-42 | as written, `compareTo` is the largest `int` for every pair, so it is not antisymmetric and not reflexive |
| TimestampedTransaction.CompareToAsWritten | TextProcPersistence/src/main/java/es/uvigo/esei/sing/textproc/persistence/TimestampedEntityTransaction.java:40-42 | as written, the comparison is the largest `int` whatever the two records |
| TimestampedTransaction.CompareTo | TextProcPersistence/src/main/java/es/uvigo/esei/sing/textproc/persistence/TimestampedEntityTransaction.java:40-42 | the corrected comparison returns an `int` that, for the non-negative ids the counter hands out, is negative exactly when the first record was created earlier and zero exactly when both have the same id |
| TimestampedTransaction.CompareToOrdersByCreation | TextProcPersistence/src/main/java/es/uvigo/esei/sing/textproc/persistence/TimestampedEntityTransaction.java:40-42 | the corrected comparison is negative, zero or positive exactly when the first creation id is smaller, equal or larger, and it is antisymmetric |
| TimestampedTransaction.EqualsAndHashCode | TextProcPersistence/src/main/java/es/uvigo/esei/sing/textproc/persistence/TimestampedEntityTransaction.java:45-53 | wrappers are equal exactly when they wrap the same transaction, whatever their creation ids, and equal wrappers have equal hash codes |
| StepDefinitions.ConvertValueToBoolean | TextProcStep/src/main/java/es/uvigo/esei/sing/textproc/step/xml/definition/AbstractProcessingStepParameter.java:43-45 | a missing value is false, and a true value has four characters or is "1" |
| StepDefinitions.ConvertValueToBooleanIff | TextProcStep/src/main/java/es/uvigo/esei/sing/textproc/step/xml/definition/AbstractProcessingStepParameter.java:43-45 | a value is true exactly when it is "true" ignoring case, or exactly "1" |
| StepDefinitions.ConvertValueToBooleanExamples | TextProcStep/src/main/java/es/uvigo/esei/sing/textproc/step/xml/definition/AbstractProcessingStepParameter.java:43-45 | "TRUE", "tRuE" and "1" are true; "01", " true", "yes" and a missing value are false |
| StepDefinitions.ResolvedParameters | TextProcStep/src/main/java/es/uvigo/esei/sing/textproc/step/xml/definition/ProcessingStepDefinition.java:60-76 | only the parameter elements JAXB resolved are kept, none is invented, and if all resolved none is lost |
| StepDefinitions.ResolvedParametersInOrder | TextProcStep/src/main/java/es/uvigo/esei/sing/textproc/step/xml/definition/ProcessingStepDefinition.java:60-76 | the kept parameters are exactly the resolved elements' parameters, in order: a strictly increasing map from kept parameters to element positions reaches every resolved element |
| StepDefinitions.GetParameters | TextProcStep/src/main/java/es/uvigo/esei/sing/textproc/step/xml/definition/ProcessingStepDefinition.java:60-76 | the first call resolves the element list, or gives an empty list without one, and stores it; later calls return the stored list |
| StepDefinitions.GetParametersIsStable | TextProcStep/src/main/java/es/uvigo/esei/sing/textproc/step/xml/definition/ProcessingStepDefinition.java:60-76 | calling `getParameters` a second time returns the same list and state |
| StepDefinitions.GetParametersKeepsResolved | TextProcStep/src/main/java/es/uvigo/esei/sing/textproc/step/xml/definition/ProcessingStepDefinition.java:60-76 | an element list that is all resolved parameters gives back those parameters |
| StepDefinitions.ResolvedOfResolved | TextProcStep/src/main/java/es/uvigo/esei/sing/textproc/step/xml/definition/ProcessingStepDefinition.java:60-76 | keeping the resolved elements of a list of resolved parameters is the identity |
| StepDefinitions.FirstNamed | TextProcStep/src/main/java/es/uvigo/esei/sing/textproc/step/xml/definition/ProcessingStepDefinition.java:86-95 | finds the first step service whose name matches, or reports that none matches |
| StepDefinitions.Unmarshal | TextProcStep/src/main/java/es/uvigo/esei/sing/textproc/step/xml/definition/ProcessingStepDefinition.java:86-95 | a null value gives a `NullPointerException`; otherwise it succeeds exactly when some service has that name, and fails with the fixed invalid-step message |
| StepDefinitions.Marshal | TextProcStep/src/main/java/es/uvigo/esei/sing/textproc/step/xml/definition/ProcessingStepDefinition.java:98-107 | a null class gives a `NullPointerException`; an abstract class or interface is rejected; any other class marshals to its simple name |
| StepDefinitions.MarshalThenUnmarshal | TextProcStep/src/main/java/es/uvigo/esei/sing/textproc/step/xml/definition/ProcessingStepDefinition.java:86-107 | a concrete step class marshals and unmarshals back to the first service of that name |
| ProcessExecution.ParameterMap | TextProcStep/src/main/java/es/uvigo/esei/sing/textproc/process/ProcessingProcess.java:124-129 | the parameter map holds exactly the declared names, each with the value of its last declaration |
| ProcessExecution.RepeatedParameterExample | TextProcStep/src/main/java/es/uvigo/esei/sing/textproc/process/ProcessingProcess.java:124-129 | a parameter declared twice keeps its second value |
| ProcessExecution.Calls | TextProcStep/src/main/java/es/uvigo/esei/sing/textproc/process/ProcessingProcess.java:119-132 | one step call per declared step |
| ProcessExecution.RunSteps | TextProcStep/src/main/java/es/uvigo/esei/sing/textproc/process/ProcessingProcess.java:119-132 | steps run in declaration order up to and including the first that fails; the run succeeds exactly when every step does, and reports the failing step's exception |
| ProcessExecution.RunStopsAtFirstFailure | TextProcStep/src/main/java/es/uvigo/esei/sing/textproc/process/ProcessingProcess.java:119-132 | when step i is the first to fail, exactly steps 0..i run and the run reports step i's exception |
| ProcessExecution.ExecuteDeclaration | TextProcStep/src/main/java/es/uvigo/esei/sing/textproc/process/ProcessingProcess.java:55-133 | a null input is a `NullPointerException`; a caught reading failure is a `ProcessingException` with the fixed message; other reading exceptions pass through; otherwise the declared steps run in order |
| StepDriver.GetOrDefault | TextProcStep/src/main/java/es/uvigo/esei/sing/textproc/step/AbstractProcessingStep.java:325-330 | a parameter that is present gives its value, even a null one; a missing one gives the default |
| StepDriver.Get | TextProcStep/src/main/java/es/uvigo/esei/sing/textproc/step/AbstractProcessingStep.java:279-281 | a non-null value exactly when the parameter is present with a value |
| StepDriver.ParseValue | TextProcStep/src/main/java/es/uvigo/esei/sing/textproc/step/AbstractProcessingStep.java:141-166 | a parsed size is an `int` parsed from a present value |
| StepDriver.Test | TextProcStep/src/main/java/es/uvigo/esei/sing/textproc/step/AbstractProcessingStep.java:141-176 | applying a validation predicate: only the key-of-table predicate throws, a `NullPointerException` on a null value; any value that passes is present, a passing page size is a positive `int`, a passing batch size lies between 1 and the page size, and a passing non-blank value is non-blank |
| StepDriver.MakeSpec | TextProcStep/src/main/java/es/uvigo/esei/sing/textproc/step/AbstractProcessingStep.java:137-198 | a step's validation table is the common predicates overridden by the step's own; its required names are the common ones, which include the two table names, plus the step's |
| StepDriver.CheckEntries | TextProcStep/src/main/java/es/uvigo/esei/sing/textproc/step/AbstractProcessingStep.java:264-270 | the entries pass exactly when each has a passing predicate; a failure names an entry that does not pass |
| StepDriver.Validate | TextProcStep/src/main/java/es/uvigo/esei/sing/textproc/step/AbstractProcessingStep.java:257-271 | a missing required parameter gives a `ProcessingException` naming the step |
| StepDriver.ValidateOkIff | TextProcStep/src/main/java/es/uvigo/esei/sing/textproc/step/AbstractProcessingStep.java:257-271 | validation succeeds exactly when every required name is present and every entry has a predicate that accepts it |
| StepDriver.NamesDistinct | TextProcStep/src/main/java/es/uvigo/esei/sing/textproc/step/AbstractProcessingStep.java:53-59 | the common parameter names are pairwise distinct, the column-name parameters differ from them and from one another, and the size parameter is case sensitive |
| StepDriver.CommonCheckEntries | TextProcStep/src/main/java/es/uvigo/esei/sing/textproc/step/AbstractProcessingStep.java:137-198 | the common table checks both table names for non-blankness and the page size for a positive `int`; a misspelled name has no predicate |
| StepDriver.UnknownParameterIsNullPointer | TextProcStep/src/main/java/es/uvigo/esei/sing/textproc/step/AbstractProcessingStep.java:264-270 | a parameter with no validation predicate makes validation fail with a `NullPointerException` |
| StepDriver.ValidatedSizes | TextProcStep/src/main/java/es/uvigo/esei/sing/textproc/step/AbstractProcessingStep.java:141-166 | after validation the page size is a positive `int`, the batch size is positive, and an explicit batch size does not exceed the page size |
| StepDriver.DefaultSizesParse | TextProcStep/src/main/java/es/uvigo/esei/sing/textproc/step/AbstractProcessingStep.java:67-76 | the default page size parses to 32768 and the default batch size to 512 |
| StepDriver.SizeValuesParseDefaults | TextProcStep/src/main/java/es/uvigo/esei/sing/textproc/step/AbstractProcessingStep.java:325-330 | the sizes the scanner uses are the parameter values or the defaults, parsed |
| StepDriver.DefaultBatchMayExceedPage | TextProcStep/src/main/java/es/uvigo/esei/sing/textproc/step/AbstractProcessingStep.java:152-166 | a page size of 100 with no batch size passes validation although the default batch of 512 is larger |
| StepDriver.ExecuteValidatesFirst | TextProcStep/src/main/java/es/uvigo/esei/sing/textproc/step/AbstractProcessingStep.java:208-249 | when validation fails, `execute` reports that failure and never begins a transaction, runs the step or flushes |
| StepDriver.ExecuteBracket | TextProcStep/src/main/java/es/uvigo/esei/sing/textproc/step/AbstractProcessingStep.java:208-249 | after validation `execute` begins a transaction exactly when none is active, runs the step and always flushes; a transaction it began is marked rollback-only when the step throws a processing or persistence exception; a `PersistenceException` leaves as the data-access `ProcessingException`, any other exception unchanged |
| StepDriver.SetterName | TextProcStep/src/main/java/es/uvigo/esei/sing/textproc/step/AbstractProcessingStep.java:510 | the setter name is "set" followed by the attribute with its first character upper-cased; an empty attribute name fails |
| StepDriver.SetterNameRoundTrip | TextProcStep/src/main/java/es/uvigo/esei/sing/textproc/step/AbstractProcessingStep.java:510 | an attribute name starting with a non-capital is recovered from its setter name, and two attributes share a setter exactly when they differ only in the case of their first character |
| StepDriver.AssignAttributes | TextProcStep/src/main/java/es/uvigo/esei/sing/textproc/step/AbstractProcessingStep.java:505-517 | attributes are assigned in order until one fails, and all before it were assigned; an empty name fails with the index exception of the name derivation, which escapes the reflective `catch`, and a missing setter with the fixed `ProcessingException` |
| StepDriver.EmptyAttributeNameEscapes | TextProcStep/src/main/java/es/uvigo/esei/sing/textproc/step/AbstractProcessingStep.java:225-245 | an empty attribute name throws the index exception after the document was persisted, and `execute`, which catches only processing and persistence exceptions, does not mark the transaction it began rollback-only |
| StepDriver.SaveSetsFlagIffPersisted | TextProcStep/src/main/java/es/uvigo/esei/sing/textproc/step/AbstractProcessingStep.java:470-518 | a document is persisted exactly when it can be constructed and `persist` succeeds; the changed flag is then set; a transaction begun by the save is marked rollback-only exactly when `persist` fails; the save succeeds exactly when the document is persisted and every attribute assigned |
| StepDriver.DeleteAll | TextProcStep/src/main/java/es/uvigo/esei/sing/textproc/step/AbstractProcessingStep.java:615-625 | the delete fails exactly when the statement fails, and the changed flag is set on success |
| StepDriver.SelectParts | TextProcStep/src/main/java/es/uvigo/esei/sing/textproc/step/AbstractProcessingStep.java:526-574 | the with-title query selects three columns and the plain one two |
| StepDriver.SelectStatement | TextProcStep/src/main/java/es/uvigo/esei/sing/textproc/step/AbstractProcessingStep.java:526-574 | the query is "SELECT", the columns joined with ", ", "FROM" and the table |
| StepDriver.SelectDefaults | TextProcStep/src/main/java/es/uvigo/esei/sing/textproc/step/AbstractProcessingStep.java:526-574 | with default column names the columns are id, title, text and id, text, from the respective table |
| StepDriver.PassingSelectParts | TextProcStep/src/main/java/es/uvigo/esei/sing/textproc/step/AbstractProcessingStep.java:526-574 | when every entry passes its predicate, every selected column name and the table name are non-blank |
| StepDriver.ValidatedSelectParts | TextProcStep/src/main/java/es/uvigo/esei/sing/textproc/step/AbstractProcessingStep.java:526-574 | after validation the generated query names non-blank columns and a non-blank table |
| BatchScanner.PageCount | TextProcStep/src/main/java/es/uvigo/esei/sing/textproc/step/AbstractProcessingStep.java:333 | the number of pages is the least number of pages of that size that cover all documents, and 0 for none |
| BatchScanner.StepCountOfEmptyTable | TextProcStep/src/main/java/es/uvigo/esei/sing/textproc/step/AbstractProcessingStep.java:334-341 | for an empty table the progress step count is -1 whenever the batch size does not divide the page size |
| BatchScanner.StepCountExample | TextProcStep/src/main/java/es/uvigo/esei/sing/textproc/step/AbstractProcessingStep.java:334-341 | 10 documents, pages of 4 and batches of 3 give 6 progress steps |
| BatchScanner.PageOffset | TextProcStep/src/main/java/es/uvigo/esei/sing/textproc/step/AbstractProcessingStep.java:351 | the first-result offset is `page * pageSize` with 32-bit wrap-around, and exact when that product fits |
| BatchScanner.IntPageLoop | TextProcStep/src/main/java/es/uvigo/esei/sing/textproc/step/AbstractProcessingStep.java:344 | as written, the `int` page counter visits only pages below the page count, and with more pages than `int` can count it never leaves the loop |
| BatchScanner.IntPageLoopCounts | TextProcStep/src/main/java/es/uvigo/esei/sing/textproc/step/AbstractProcessingStep.java:344 | as written, with more than 2^31-1 pages the counter runs 0, 1, ... up to the largest `int` and then wraps to the smallest |
| BatchScanner.PageLoopWrapExample | TextProcStep/src/main/java/es/uvigo/esei/sing/textproc/step/AbstractProcessingStep.java:333-344 | one document per page and 2^31 documents: the loop as written never ends, and after page 2^31-1 it visits page -2^31 |
| BatchScanner.LongPageLoopVisitsEachPage | TextProcStep/src/main/java/es/uvigo/esei/sing/textproc/step/AbstractProcessingStep.java:344 | corrected: a `long` counter visits every page once, in order, and stops |
| BatchScanner.PageLoopsAgree | TextProcStep/src/main/java/es/uvigo/esei/sing/textproc/step/AbstractProcessingStep.java:344 | whenever the page count fits in an `int`, the loop as written and the corrected loop visit the same pages |
| BatchScanner.PageOffsetOverflowExample | TextProcStep/src/main/java/es/uvigo/esei/sing/textproc/step/AbstractProcessingStep.java:351 | page 2 with a page size of 2^30 gives the offset -2^31 |
| BatchScanner.TableWindow | TextProcStep/src/main/java/es/uvigo/esei/sing/textproc/step/AbstractProcessingStep.java:351-352 | a page is the rows from the offset, at most the page size of them, all of them when the table has enough |
| BatchScanner.PagesCoverTable | TextProcStep/src/main/java/es/uvigo/esei/sing/textproc/step/AbstractProcessingStep.java:344-352 | the pages, read in order, give back the whole table |
| BatchScanner.WindowsPrefix | TextProcStep/src/main/java/es/uvigo/esei/sing/textproc/step/AbstractProcessingStep.java:344-352 | the first pages read in order give a prefix of the table |
| BatchScanner.ColumnToString | TextProcStep/src/main/java/es/uvigo/esei/sing/textproc/step/AbstractProcessingStep.java:644-650 | a present column value is returned; a null one fails with the unexpected-column message |
| BatchScanner.ConvertRow | TextProcStep/src/main/java/es/uvigo/esei/sing/textproc/step/AbstractProcessingStep.java:369-380 | a row converts exactly when none of its columns is null, column by column; a scalar row gives one attribute |
| BatchScanner.Converted | TextProcStep/src/main/java/es/uvigo/esei/sing/textproc/step/AbstractProcessingStep.java:369-404 | the rows that convert, in order; a row that fails is skipped |
| BatchScanner.StreamRow | TextProcStep/src/main/java/es/uvigo/esei/sing/textproc/step/AbstractProcessingStep.java:382-397 | a row joins the held batch; a full batch is handed to the action and the held batch never reaches the batch size |
| BatchScanner.StreamRows | TextProcStep/src/main/java/es/uvigo/esei/sing/textproc/step/AbstractProcessingStep.java:364-405 | the batches handed to the action, followed by the held rows, are exactly the held rows before plus the converted rows; every batch handed on is full |
| BatchScanner.StreamRowsChanged | TextProcStep/src/main/java/es/uvigo/esei/sing/textproc/step/AbstractProcessingStep.java:382-397 | the changed flag is set after the page exactly when it was set before or some batch action saved a document |
| BatchScanner.LeftoverSize | TextProcStep/src/main/java/es/uvigo/esei/sing/textproc/step/AbstractProcessingStep.java:382-397 | the rows held after a page are the total rows modulo the batch size |
| BatchScanner.WrapPersistence | TextProcStep/src/main/java/es/uvigo/esei/sing/textproc/step/AbstractProcessingStep.java:446-448 | a `PersistenceException` becomes a `ProcessingException` with the data-access message; any other exception passes through |
| BatchScanner.ScanPage | TextProcStep/src/main/java/es/uvigo/esei/sing/textproc/step/AbstractProcessingStep.java:344-445 | a null query or a failed query ends the scan with the right exception and no checkpoint; after a completed page the changed flag is clear and the page-end action ran exactly when given |
| BatchScanner.CheckpointIffChanged | TextProcStep/src/main/java/es/uvigo/esei/sing/textproc/step/AbstractProcessingStep.java:434-440 | a page commits exactly when the changed flag was set before it or one of its batch actions saved |
| BatchScanner.BatchSizes | TextProcStep/src/main/java/es/uvigo/esei/sing/textproc/step/AbstractProcessingStep.java:382-426 | every batch handed on during a page is full except the leftover one at its end, which is not empty |
| BatchScanner.PageDeliversHeldRows | TextProcStep/src/main/java/es/uvigo/esei/sing/textproc/step/AbstractProcessingStep.java:364-426 | the batches handed on during a page hold exactly the held rows plus the page's converted rows |
| BatchScanner.PageLeftovers | TextProcStep/src/main/java/es/uvigo/esei/sing/textproc/step/AbstractProcessingStep.java:408-426 | after the leftover batch the held rows are cleared only when clearing is modelled; as written they are kept |
| BatchScanner.ScanPages | TextProcStep/src/main/java/es/uvigo/esei/sing/textproc/step/AbstractProcessingStep.java:344-445 | one page trace per page until the first error; after the last page the changed flag is clear |
| BatchScanner.Scan | TextProcStep/src/main/java/es/uvigo/esei/sing/textproc/step/AbstractProcessingStep.java:318-449 | for any document count whose page count fits in an `int`, the scan reads at most the page count of pages, and exactly that many when nothing fails |
| BatchScanner.PageAnswers | TextProcStep/src/main/java/es/uvigo/esei/sing/textproc/step/AbstractProcessingStep.java:344-352 | one query per page, at that page's wrapped offset with the page size as limit |
| BatchScanner.CorrectedScanDeliversEachRowOnce | TextProcStep/src/main/java/es/uvigo/esei/sing/textproc/step/AbstractProcessingStep.java:408-426 | corrected: with leftovers cleared, the rows handed to the action over the whole scan are each converted row exactly once, in order |
| BatchScanner.CorrectedScan | TextProcStep/src/main/java/es/uvigo/esei/sing/textproc/step/AbstractProcessingStep.java:318-449 | corrected: the scan with leftovers cleared after each page, which on completion has handed the action every converted row of every page exactly once, in order |
| BatchScanner.ScanCompletes | TextProcStep/src/main/java/es/uvigo/esei/sing/textproc/step/AbstractProcessingStep.java:344-445 | when every query answers and no action aborts, the scan ends without an error |
| BatchScanner.AsWrittenScanDelivers | TextProcStep/src/main/java/es/uvigo/esei/sing/textproc/step/AbstractProcessingStep.java:408-426 | as written, each page hands on the rows still held from earlier pages again, together with its own rows |
| BatchScanner.FilledPagesNeedNoCorrection | TextProcStep/src/main/java/es/uvigo/esei/sing/textproc/step/AbstractProcessingStep.java:408-426 | when every page fills whole batches, the scan as written and the corrected scan behave the same |
| BatchScanner.TenFourThreeExample | TextProcStep/src/main/java/es/uvigo/esei/sing/textproc/step/AbstractProcessingStep.java:318-449 | 10 documents with pages of 4 and batches of 3: the action receives 13 rows, and rows 3, 6 and 7 twice |
| BatchScanner.ExampleAsWrittenRows | TextProcStep/src/main/java/es/uvigo/esei/sing/textproc/step/AbstractProcessingStep.java:408-426 | the same run, as a row sequence: rows 0-3, then 3-7, then 6-9 |
| DocumentRows.AttributeColumns | CoreNLPTokenizationTextProcStep/src/main/java/es/uvigo/esei/sing/textproc/step/corenlptokenization/CoreNLPTokenizationProcessingStep.java:92-101 | the attribute values of a row are the columns after the key column |
| DocumentRows.Transformed | CoreNLPTokenizationTextProcStep/src/main/java/es/uvigo/esei/sing/textproc/step/corenlptokenization/CoreNLPTokenizationProcessingStep.java:92-103 | each attribute value is transformed in column order |
| DocumentRows.Document | CoreNLPTokenizationTextProcStep/src/main/java/es/uvigo/esei/sing/textproc/step/corenlptokenization/CoreNLPTokenizationProcessingStep.java:103-112 | a row becomes a document exactly when its key column parses as an `int`; its attributes are the named columns, the last of a repeated name winning |
| DocumentRows.KeptRows | EmptyFilteringTextProcStep/src/main/java/es/uvigo/esei/sing/textproc/step/emptyfiltering/EmptyFilteringProcessingStep.java:85-90 | the rows a step keeps: a subsequence of the batch that passes the step's test |
| DocumentRows.KeepAllKeepsRows | CoreNLPTokenizationTextProcStep/src/main/java/es/uvigo/esei/sing/textproc/step/corenlptokenization/CoreNLPTokenizationProcessingStep.java:81-114 | a step without a test keeps every row |
| DocumentRows.SaveRows | EmptyFilteringTextProcStep/src/main/java/es/uvigo/esei/sing/textproc/step/emptyfiltering/EmptyFilteringProcessingStep.java:79-102 | a batch saves at most one document per row |
| DocumentRows.Documents | CoreNLPTokenizationTextProcStep/src/main/java/es/uvigo/esei/sing/textproc/step/corenlptokenization/CoreNLPTokenizationProcessingStep.java:81-114 | the documents built from the kept rows, one per row |
| DocumentRows.SaveEach | CoreNLPTokenizationTextProcStep/src/main/java/es/uvigo/esei/sing/textproc/step/corenlptokenization/CoreNLPTokenizationProcessingStep.java:81-114 | the saved documents are the built documents in order, up to the first failure, which is reported |
| DocumentRows.ReusedMapIsFresh | EmptyFilteringTextProcStep/src/main/java/es/uvigo/esei/sing/textproc/step/emptyfiltering/EmptyFilteringProcessingStep.java:80-93 | overwriting a reused attribute map with the same names gives the same map as a fresh one |
| DocumentRows.SharedMapIsFresh | EmptyFilteringTextProcStep/src/main/java/es/uvigo/esei/sing/textproc/step/emptyfiltering/EmptyFilteringProcessingStep.java:79-102 | saving with one reused map is the same as building a fresh map per row |
| DocumentRows.BatchSavesKeptRows | CoreNLPTokenizationTextProcStep/src/main/java/es/uvigo/esei/sing/textproc/step/corenlptokenization/CoreNLPTokenizationProcessingStep.java:81-114 | the batch saves exactly the kept rows' documents in order, stopping at the first failure |
| DocumentRows.FirstFailure | CoreNLPTokenizationTextProcStep/src/main/java/es/uvigo/esei/sing/textproc/step/corenlptokenization/CoreNLPTokenizationProcessingStep.java:67-120 | the first failing stage, or none when all succeed |
| DocumentRows.DataAccessFailure | CoreNLPTokenizationTextProcStep/src/main/java/es/uvigo/esei/sing/textproc/step/corenlptokenization/CoreNLPTokenizationProcessingStep.java:118-119 | an `IllegalArgumentException` or `PersistenceException` becomes the data-access `ProcessingException`; others pass through |
| DocumentRows.RunSteps | CoreNLPTokenizationTextProcStep/src/main/java/es/uvigo/esei/sing/textproc/step/corenlptokenization/CoreNLPTokenizationProcessingStep.java:67-120 | the deletions all run before any scan; the run succeeds exactly when every deletion and scan does, and reports the first failure |
| CoreNlpTokenization.TokenizerConfig | CoreNLPTokenizationTextProcStep/src/main/java/es/uvigo/esei/sing/textproc/step/corenlptokenization/CoreNLPTokenizationProcessingStep.java:59-65 | the language is the parameter value and the options default to "quotes=ascii" |
| CoreNlpTokenization.ValidatedTokenizerConfig | CoreNLPTokenizationTextProcStep/src/main/java/es/uvigo/esei/sing/textproc/step/corenlptokenization/CoreNLPTokenizationProcessingStep.java:40-50 | after validation the language and the options are non-blank |
| CoreNlpTokenization.TokenText | CoreNLPTokenizationTextProcStep/src/main/java/es/uvigo/esei/sing/textproc/step/corenlptokenization/CoreNLPTokenizationProcessingStep.java:92-101 | the stored text is the tokens joined with single spaces |
| CoreNlpTokenization.TokenTextRoundTrip | CoreNLPTokenizationTextProcStep/src/main/java/es/uvigo/esei/sing/textproc/step/corenlptokenization/CoreNLPTokenizationProcessingStep.java:92-101 | tokens without spaces are recovered by splitting the stored text at spaces |
| CoreNlpTokenization.TokenTextEdges | CoreNLPTokenizationTextProcStep/src/main/java/es/uvigo/esei/sing/textproc/step/corenlptokenization/CoreNLPTokenizationProcessingStep.java:92-101 | no tokens give the empty text and one token gives itself |
| CoreNlpTokenization.TokenizeBatchSavesEveryRow | CoreNLPTokenizationTextProcStep/src/main/java/es/uvigo/esei/sing/textproc/step/corenlptokenization/CoreNLPTokenizationProcessingStep.java:81-114 | every row of the batch is saved in order, each attribute holding its value's tokens joined with spaces |
| CoreNlpLemmatization.PosModel | CoreNLPLemmatizationTextProcStep/src/main/java/es/uvigo/esei/sing/textproc/step/corenlplemmatization/CoreNLPLemmatizationProcessingStep.java:64-74 | the tagger model is the parameter value, or the default model when it is absent |
| CoreNlpLemmatization.ValidatedPosModel | CoreNLPLemmatizationTextProcStep/src/main/java/es/uvigo/esei/sing/textproc/step/corenlplemmatization/CoreNLPLemmatizationProcessingStep.java:43-50 | after validation the tagger model is non-blank |
| CoreNlpLemmatization.LemmatizeBatchSavesEveryRow | CoreNLPLemmatizationTextProcStep/src/main/java/es/uvigo/esei/sing/textproc/step/corenlplemmatization/CoreNLPLemmatizationProcessingStep.java:91-124 | every row is saved in order, each attribute holding its value's lemmas joined with spaces |
| EmptyFiltering.SelectPattern | EmptyFilteringTextProcStep/src/main/java/es/uvigo/esei/sing/textproc/step/emptyfiltering/EmptyFilteringProcessingStep.java:50-63 | a null flag fails; a missing flag or a true one selects the deleted-or-no-lowercase pattern, any other value the no-lowercase pattern |
| EmptyFiltering.ValidatedSelectsPattern | EmptyFilteringTextProcStep/src/main/java/es/uvigo/esei/sing/textproc/step/emptyfiltering/EmptyFilteringProcessingStep.java:32-41 | after validation a pattern is always selected |
| EmptyFiltering.SelectPatternExamples | EmptyFilteringTextProcStep/src/main/java/es/uvigo/esei/sing/textproc/step/emptyfiltering/EmptyFilteringProcessingStep.java:50-63 | no flag and "1" include deleted markers; "TRUE" and "yes" do not |
| EmptyFiltering.DeletedPatternMatchesMore | EmptyFilteringTextProcStep/src/main/java/es/uvigo/esei/sing/textproc/step/emptyfiltering/EmptyFilteringProcessingStep.java:54-60 | every value the no-lowercase pattern calls empty, the deleted-or-no-lowercase pattern does too |
| EmptyFiltering.KeepsIsMismatch | EmptyFilteringTextProcStep/src/main/java/es/uvigo/esei/sing/textproc/step/emptyfiltering/EmptyFilteringProcessingStep.java:85-88 | a document is kept exactly when some attribute does not match the emptiness pattern |
| EmptyFiltering.AllAreEmpty | EmptyFilteringTextProcStep/src/main/java/es/uvigo/esei/sing/textproc/step/emptyfiltering/EmptyFilteringProcessingStep.java:85-88 | the loop reports all empty exactly when every value matches, and stops at the first value that does not |
| EmptyFiltering.EmptyDocumentsDropped | EmptyFilteringTextProcStep/src/main/java/es/uvigo/esei/sing/textproc/step/emptyfiltering/EmptyFilteringProcessingStep.java:85-90 | a document with no attributes or only empty ones is dropped |
| EmptyFiltering.MarkerExample | EmptyFilteringTextProcStep/src/main/java/es/uvigo/esei/sing/textproc/step/emptyfiltering/EmptyFilteringProcessingStep.java:54-60 | a "(Removed]" attribute is dropped when deleted markers count as empty, and kept otherwise |
| EmptyFiltering.FilterBatchPassesThrough | EmptyFilteringTextProcStep/src/main/java/es/uvigo/esei/sing/textproc/step/emptyfiltering/EmptyFilteringProcessingStep.java:79-102 | kept documents are saved in order with their values unchanged, and dropped ones are not saved |
| MentionFiltering.ValidatedMentionType | MentionFilteringTextProcStep/src/main/java/es/uvigo/esei/sing/textproc/step/mentionfiltering/MentionFilteringProcessingStep.java:48-59 | after validation the mention type is one of reddit_all, reddit_user and subreddit |
| MentionFiltering.MentionTypeRejected | MentionFilteringTextProcStep/src/main/java/es/uvigo/esei/sing/textproc/step/mentionfiltering/MentionFilteringProcessingStep.java:48-59 | a missing or unknown mention type fails validation |
| MentionFiltering.RemoveBlankRuns | MentionFilteringTextProcStep/src/main/java/es/uvigo/esei/sing/textproc/step/mentionfiltering/MentionFilteringProcessingStep.java:66-69 | removing runs of two or more blanks leaves no two neighbouring blanks |
| MentionFiltering.RemoveBlankRunsKeepsText | MentionFilteringTextProcStep/src/main/java/es/uvigo/esei/sing/textproc/step/mentionfiltering/MentionFilteringProcessingStep.java:66-69 | only blanks are removed: the other characters survive, in order |
| MentionFiltering.NoRunsUnchanged | MentionFilteringTextProcStep/src/main/java/es/uvigo/esei/sing/textproc/step/mentionfiltering/MentionFilteringProcessingStep.java:66-69 | text with no two neighbouring blanks is left unchanged |
| MentionFiltering.RemoveBlankRunsIdempotent | MentionFilteringTextProcStep/src/main/java/es/uvigo/esei/sing/textproc/step/mentionfiltering/MentionFilteringProcessingStep.java:66-69 | removing blank runs twice is the same as once |
| MentionFiltering.RemoveBlankRunsExample | MentionFilteringTextProcStep/src/main/java/es/uvigo/esei/sing/textproc/step/mentionfiltering/MentionFilteringProcessingStep.java:66-69 | "a  b c" becomes "ab c": a run disappears entirely, a lone blank stays |
| MentionFiltering.Clean | MentionFilteringTextProcStep/src/main/java/es/uvigo/esei/sing/textproc/step/mentionfiltering/MentionFilteringProcessingStep.java:92-94 | a cleaned value has no neighbouring blanks and keeps every non-blank character left after the mentions are removed |
| MentionFiltering.FilterBatchCleansEveryRow | MentionFilteringTextProcStep/src/main/java/es/uvigo/esei/sing/textproc/step/mentionfiltering/MentionFilteringProcessingStep.java:85-102 | every row is saved in order with each attribute cleaned |
| ProcessedDocuments.New | TextProcStep/src/main/java/es/uvigo/esei/sing/textproc/entity/ProcessedDocument.java:28-33 | the constructor rejects a null key or text and otherwise keeps both |
| ProcessedDocuments.NewForJpa | TextProcStep/src/main/java/es/uvigo/esei/sing/textproc/entity/ProcessedDocument.java:38-41 | the JPA constructor uses the smallest `int` as key and an empty text |
| ProcessedDocuments.NewWithTitle | TextProcStep/src/main/java/es/uvigo/esei/sing/textproc/entity/ProcessedDocumentWithTitle.java:34-37 | a null text or title is rejected; otherwise the document keeps key, text and title |
| ProcessedDocuments.NewWithTitleKey | TextProcStep/src/main/java/es/uvigo/esei/sing/textproc/entity/ProcessedDocumentWithTitle.java:46-49 | a null key is rejected; otherwise text and title start empty |
| ProcessedDocuments.NewWithTitleForJpa | TextProcStep/src/main/java/es/uvigo/esei/sing/textproc/entity/ProcessedDocumentWithTitle.java:54-56 | the JPA constructor of titled documents has the smallest `int` key and empty text and title |
| ProcessedDocuments.SetText | TextProcStep/src/main/java/es/uvigo/esei/sing/textproc/entity/ProcessedDocument.java:32-33 | a null text is rejected; otherwise only the text changes |
| ProcessedDocuments.SetTitle | TextProcStep/src/main/java/es/uvigo/esei/sing/textproc/entity/ProcessedDocumentWithTitle.java:20-21 | a null title is rejected; otherwise only the title changes |
| ProcessedDocuments.Lines | TextProcStep/src/main/java/es/uvigo/esei/sing/textproc/entity/ProcessedDocument.java:43-52 | the text form has the class line, the key line and the text line, plus the title line for titled documents |
| ProcessedDocuments.ToString | TextProcStep/src/main/java/es/uvigo/esei/sing/textproc/entity/ProcessedDocument.java:43-52 | the text form is its lines separated by line breaks |
| ProcessedDocuments.TitleLineAppended | TextProcStep/src/main/java/es/uvigo/esei/sing/textproc/entity/ProcessedDocumentWithTitle.java:58-66 | a titled document prints as its untitled form followed by the title line |
| ProcessedDocuments.ToStringRoundTrip | TextProcStep/src/main/java/es/uvigo/esei/sing/textproc/entity/ProcessedDocument.java:43-52 | without line breaks in the fields, splitting the text form gives its lines back and the key parses back from the second line |
| ProcessedDocuments.ToStringExample | TextProcStep/src/main/java/es/uvigo/esei/sing/textproc/entity/ProcessedDocumentWithTitle.java:58-66 | a concrete titled document prints as "- Doc\nID: 7\nText: a b\nTitle: T" |
| Logging.Initialize | TextProcLogging/src/main/java/es/uvigo/esei/sing/textproc/logging/TextProcLogging.java:30-32 | a null name is rejected whatever the state; otherwise the logger for the name is installed only when none is |
| Logging.GetLogger | TextProcLogging/src/main/java/es/uvigo/esei/sing/textproc/logging/TextProcLogging.java:41-49 | the installed logger, or an `IllegalStateException` before initialization |
| Logging.InitializeAll | TextProcLogging/src/main/java/es/uvigo/esei/sing/textproc/logging/TextProcLogging.java:30-32 | once a logger is installed, further initialization calls keep it |
| Logging.FirstNameWins | TextProcLogging/src/main/java/es/uvigo/esei/sing/textproc/logging/TextProcLogging.java:30-49 | after any sequence of calls the logger is the one for the first non-null name, and without one `getLogger` still fails |
| Logging.SameLoggerAfterInitialization | TextProcLogging/src/main/java/es/uvigo/esei/sing/textproc/logging/TextProcLogging.java:30-49 | after initialization `getLogger` returns the same logger whatever calls follow |
| Logging.NullNameAlwaysRejected | TextProcLogging/src/main/java/es/uvigo/esei/sing/textproc/logging/TextProcLogging.java:30-32 | a null name is rejected even after initialization |
| NerMappings.QuoteBody | CoreNLPEntityExtractionTextProcStep/src/main/java/es/uvigo/esei/sing/textproc/step/corenlpentityextraction/NERMappingsFileWriter.java:187-193 | the quoted body is at least as long as the token and starts with the same character |
| NerMappings.Quote | CoreNLPEntityExtractionTextProcStep/src/main/java/es/uvigo/esei/sing/textproc/step/corenlpentityextraction/NERMappingsFileWriter.java:187-193 | `Pattern.quote` wraps the token in \Q and \E, splitting out every \E inside it |
| NerMappings.QuoteMatchesExactlyTheToken | CoreNLPEntityExtractionTextProcStep/src/main/java/es/uvigo/esei/sing/textproc/step/corenlpentityextraction/NERMappingsFileWriter.java:187-193 | the quoted pattern is a literal for exactly the token |
| NerMappings.OverwritableFieldIsJoin | CoreNLPEntityExtractionTextProcStep/src/main/java/es/uvigo/esei/sing/textproc/step/corenlpentityextraction/NERMappingsFileWriter.java:176-183 | the overwritable-types field is the types joined with commas, with no trailing comma |
| NerMappings.MappingRecord | CoreNLPEntityExtractionTextProcStep/src/main/java/es/uvigo/esei/sing/textproc/step/corenlpentityextraction/NERMappingsFileWriter.java:187-193 | a record matches exactly the token, has the upper-cased entity type, the joined types and the priority |
| NerMappings.Values | CoreNLPEntityExtractionTextProcStep/src/main/java/es/uvigo/esei/sing/textproc/step/corenlpentityextraction/NERMappingsFileWriter.java:171-174 | the type names, all non-null |
| NerMappings.AsIOException | CoreNLPEntityExtractionTextProcStep/src/main/java/es/uvigo/esei/sing/textproc/step/corenlpentityextraction/NERMappingsFileWriter.java:199-213 | a write failure is reported as an `IOException`, wrapped when it is not one |
| NerMappings.WriteMapping | CoreNLPEntityExtractionTextProcStep/src/main/java/es/uvigo/esei/sing/textproc/step/corenlpentityextraction/NERMappingsFileWriter.java:160-216 | a closed writer or a null argument fails and writes nothing; at most one record is appended, and only for a non-blank token |
| NerMappings.WriteMappingDefault | CoreNLPEntityExtractionTextProcStep/src/main/java/es/uvigo/esei/sing/textproc/step/corenlpentityextraction/NERMappingsFileWriter.java:135-139 | the three-argument form writes with priority 0 |
| NerMappings.Close | CoreNLPEntityExtractionTextProcStep/src/main/java/es/uvigo/esei/sing/textproc/step/corenlpentityextraction/NERMappingsFileWriter.java:223-226 | closing keeps what was written and marks the writer closed |
| NerMappings.ClosedWriterRejectsFirst | CoreNLPEntityExtractionTextProcStep/src/main/java/es/uvigo/esei/sing/textproc/step/corenlpentityextraction/NERMappingsFileWriter.java:160-169 | on a closed writer, any call with non-null arguments fails with the closed-writer `IOException` before the types or the token are examined, whatever the hand-off |
| NerMappings.NullTypeRejectedEvenForBlankToken | CoreNLPEntityExtractionTextProcStep/src/main/java/es/uvigo/esei/sing/textproc/step/corenlpentityextraction/NERMappingsFileWriter.java:171-174 | a null overwritable type is rejected even when the token is blank |
| NerMappings.BlankTokenWritesNothing | CoreNLPEntityExtractionTextProcStep/src/main/java/es/uvigo/esei/sing/textproc/step/corenlpentityextraction/NERMappingsFileWriter.java:185 | a blank token writes nothing and succeeds |
| NerMappings.AcceptedRecordOutcome | CoreNLPEntityExtractionTextProcStep/src/main/java/es/uvigo/esei/sing/textproc/step/corenlpentityextraction/NERMappingsFileWriter.java:187-213 | a non-blank token appends exactly its record when the hand-off succeeds, and nothing otherwise |
| NerMappings.WriteAll | CoreNLPEntityExtractionTextProcStep/src/main/java/es/uvigo/esei/sing/textproc/step/corenlpentityextraction/NERMappingsFileWriter.java:160-216 | one outcome per call and the closed state kept |
| NerMappings.NothingWrittenAfterClose | CoreNLPEntityExtractionTextProcStep/src/main/java/es/uvigo/esei/sing/textproc/step/corenlpentityextraction/NERMappingsFileWriter.java:167-169 | after `close` every call fails and nothing more is written |
| Dictionary.TermEqualityIgnoresSynonyms | CoreNLPEntityExtractionTextProcStep/src/main/java/es/uvigo/esei/sing/textproc/step/corenlpentityextraction/NamedEntityDictionaryHelper.java:292-301 | terms are equal exactly when their term strings are, ignoring synonyms, and equal terms hash alike |
| Dictionary.AddTerm | CoreNLPEntityExtractionTextProcStep/src/main/java/es/uvigo/esei/sing/textproc/step/corenlpentityextraction/NamedEntityDictionaryHelper.java:167-172 | adding a term to the ordered set keeps it free of equal terms, appends a new term and leaves the set unchanged when an equal one is present |
| Dictionary.KeptSynonyms | CoreNLPEntityExtractionTextProcStep/src/main/java/es/uvigo/esei/sing/textproc/step/corenlpentityextraction/NamedEntityDictionaryHelper.java:144-166 | the kept synonyms are distinct, lower-cased, non-blank pieces that are not terms already; every such piece is kept |
| Dictionary.RecordTerm | CoreNLPEntityExtractionTextProcStep/src/main/java/es/uvigo/esei/sing/textproc/step/corenlpentityextraction/NamedEntityDictionaryHelper.java:114-171 | succeeds exactly on a valid record; a record too short for the term column throws the parser's `IllegalArgumentException` before anything else, one without synonyms or with a blank term fails with an `IOException` naming the line; otherwise the lower-cased term with its kept synonyms |
| Dictionary.ExtensionStart | CoreNLPEntityExtractionTextProcStep/src/main/java/es/uvigo/esei/sing/textproc/step/corenlpentityextraction/NamedEntityDictionaryHelper.java:96-102 | where the last four characters of the name start, or 0 for shorter names |
| Dictionary.DictionaryFileNames | CoreNLPEntityExtractionTextProcStep/src/main/java/es/uvigo/esei/sing/textproc/step/corenlpentityextraction/NamedEntityDictionaryHelper.java:96-102 | a regular file is a dictionary exactly when its last four characters are ".tsv" ignoring case, and its label is the upper-cased rest |
| Dictionary.ShortNamesAreNotDictionaries | CoreNLPEntityExtractionTextProcStep/src/main/java/es/uvigo/esei/sing/textproc/step/corenlpentityextraction/NamedEntityDictionaryHelper.java:96-102 | a name shorter than four characters is never a dictionary |
| Dictionary.AddRecords | CoreNLPEntityExtractionTextProcStep/src/main/java/es/uvigo/esei/sing/textproc/step/corenlpentityextraction/NamedEntityDictionaryHelper.java:114-173 | reading a file's records fails only with an `IOException` or the parser's missing-column `IllegalArgumentException`; on success the label map stays well formed, gains the file's label exactly when the file has records, and keeps every other label's terms |
| Dictionary.AddRecordsSucceeds | CoreNLPEntityExtractionTextProcStep/src/main/java/es/uvigo/esei/sing/textproc/step/corenlpentityextraction/NamedEntityDictionaryHelper.java:114-173 | reading a file's records succeeds exactly when every record is valid |
| Dictionary.AddRecordsHolds | CoreNLPEntityExtractionTextProcStep/src/main/java/es/uvigo/esei/sing/textproc/step/corenlpentityextraction/NamedEntityDictionaryHelper.java:114-173 | after a successful read every record's lower-cased term is under the file's label and every term held before is still held |
| Dictionary.AddRecordsFrom | CoreNLPEntityExtractionTextProcStep/src/main/java/es/uvigo/esei/sing/textproc/step/corenlpentityextraction/NamedEntityDictionaryHelper.java:114-173 | after a successful read every term under a label was held before or is the lower-cased term of one of the records, under the file's label |
| Dictionary.VisitFile | CoreNLPEntityExtractionTextProcStep/src/main/java/es/uvigo/esei/sing/textproc/step/corenlpentityextraction/NamedEntityDictionaryHelper.java:95-178 | a file that is not a dictionary is skipped; a header without both fields fails with an `IOException`; any failure is an `IOException` or the missing-column `IllegalArgumentException`; otherwise at most the file's label is added |
| Dictionary.VisitFileTerms | CoreNLPEntityExtractionTextProcStep/src/main/java/es/uvigo/esei/sing/textproc/step/corenlpentityextraction/NamedEntityDictionaryHelper.java:95-178 | a successful visit keeps every term read before; a dictionary's records are all valid with their lower-cased terms under its label, every new term comes from them, and any other file changes nothing |
| Dictionary.NamedEntitiesFromFiles | CoreNLPEntityExtractionTextProcStep/src/main/java/es/uvigo/esei/sing/textproc/step/corenlpentityextraction/NamedEntityDictionaryHelper.java:86-183 | a null root is rejected; the result is well formed and every label comes from a dictionary file |
| Dictionary.VisitAll | CoreNLPEntityExtractionTextProcStep/src/main/java/es/uvigo/esei/sing/textproc/step/corenlpentityextraction/NamedEntityDictionaryHelper.java:89-180 | visiting the files in order keeps the map well formed, and every new label comes from one of the files |
| Dictionary.VisitAllHolds | CoreNLPEntityExtractionTextProcStep/src/main/java/es/uvigo/esei/sing/textproc/step/corenlpentityextraction/NamedEntityDictionaryHelper.java:89-180 | after a successful walk every record of every dictionary file is valid with its lower-cased term under that file's label, and every term held before is still held |
| Dictionary.VisitAllFrom | CoreNLPEntityExtractionTextProcStep/src/main/java/es/uvigo/esei/sing/textproc/step/corenlpentityextraction/NamedEntityDictionaryHelper.java:89-180 | after a successful walk every term under a label was held before or comes from a record of a dictionary file with that label |
| Dictionary.NamedEntitiesTerms | CoreNLPEntityExtractionTextProcStep/src/main/java/es/uvigo/esei/sing/textproc/step/corenlpentityextraction/NamedEntityDictionaryHelper.java:86-183 | the dictionaries read from a root hold a term under a label exactly when some dictionary file with that label has a record with that lower-cased term, and every record of every dictionary file is valid |
| Dictionary.RepeatedTermKeepsFirstSynonyms | CoreNLPEntityExtractionTextProcStep/src/main/java/es/uvigo/esei/sing/textproc/step/corenlpentityextraction/NamedEntityDictionaryHelper.java:141-172 | a term repeated under one label keeps the synonyms of its first record |
| Dictionary.SeedLines | CoreNLPEntityExtractionTextProcStep/src/main/java/es/uvigo/esei/sing/textproc/step/corenlpentityextraction/NamedEntityDictionaryHelper.java:219-228 | a seed file has each term on its own line followed by its synonyms |
| Dictionary.SeedFileLines | CoreNLPEntityExtractionTextProcStep/src/main/java/es/uvigo/esei/sing/textproc/step/corenlpentityextraction/NamedEntityDictionaryHelper.java:219-228 | splitting a seed file at line breaks gives its lines back, plus the empty piece after the last break |
| Dictionary.SeedEntries | CoreNLPEntityExtractionTextProcStep/src/main/java/es/uvigo/esei/sing/textproc/step/corenlpentityextraction/NamedEntityDictionaryHelper.java:231-235 | one "LABEL,path" entry per label, in the map's iteration order |
| Dictionary.SeedWordsProperty | CoreNLPEntityExtractionTextProcStep/src/main/java/es/uvigo/esei/sing/textproc/step/corenlpentityextraction/NamedEntityDictionaryHelper.java:205-253 | a null map is rejected; one seed file per label with that label's contents; an empty map gives an empty property |
| Dictionary.SeedPropertyEntries | CoreNLPEntityExtractionTextProcStep/src/main/java/es/uvigo/esei/sing/textproc/step/corenlpentityextraction/NamedEntityDictionaryHelper.java:231-247 | splitting the property at ';' gives the entries back, with no trailing empty entry |
| Dictionary.SeedEntrySplits | CoreNLPEntityExtractionTextProcStep/src/main/java/es/uvigo/esei/sing/textproc/step/corenlpentityextraction/NamedEntityDictionaryHelper.java:231-235 | an entry splits at its first comma into the label and the path |
| EntityExtraction.ExtractionSpec | CoreNLPEntityExtractionTextProcStep/src/main/java/es/uvigo/esei/sing/textproc/step/corenlpentityextraction/CoreNLPEntityExtractionProcessingStep.java:110-125 | the seed directory, mappings file and categories are required; the paths must be non-blank and the categories non-null |
| EntityExtraction.ValidatedExtractionParameters | CoreNLPEntityExtractionTextProcStep/src/main/java/es/uvigo/esei/sing/textproc/step/corenlpentityextraction/CoreNLPEntityExtractionProcessingStep.java:110-125 | after validation the required paths are non-blank and the categories are present |
| EntityExtraction.Categories | CoreNLPEntityExtractionTextProcStep/src/main/java/es/uvigo/esei/sing/textproc/step/corenlpentityextraction/CoreNLPEntityExtractionProcessingStep.java:131-137 | the trimmed value split at commas, or nothing when the first piece is blank; a value of only commas fails with an index error |
| EntityExtraction.BlankCategories | CoreNLPEntityExtractionTextProcStep/src/main/java/es/uvigo/esei/sing/textproc/step/corenlpentityextraction/CoreNLPEntityExtractionProcessingStep.java:131-137 | a blank value gives no categories |
| EntityExtraction.LeadingCommaDropsAll | CoreNLPEntityExtractionTextProcStep/src/main/java/es/uvigo/esei/sing/textproc/step/corenlpentityextraction/CoreNLPEntityExtractionProcessingStep.java:131-137 | ",A" gives no categories at all |
| EntityExtraction.CommasOnlyFail | CoreNLPEntityExtractionTextProcStep/src/main/java/es/uvigo/esei/sing/textproc/step/corenlpentityextraction/CoreNLPEntityExtractionProcessingStep.java:131-137 | ",," fails with an index error |
| EntityExtraction.CategoriesRoundTrip | CoreNLPEntityExtractionTextProcStep/src/main/java/es/uvigo/esei/sing/textproc/step/corenlpentityextraction/CoreNLPEntityExtractionProcessingStep.java:131-137 | a list of categories written with commas is read back unchanged |
| EntityExtraction.Tokens | CoreNLPEntityExtractionTextProcStep/src/main/java/es/uvigo/esei/sing/textproc/step/corenlpentityextraction/CoreNLPEntityExtractionProcessingStep.java:161-169 | the tokens of a list of mapping calls, in order |
| EntityExtraction.TermMappings | CoreNLPEntityExtractionTextProcStep/src/main/java/es/uvigo/esei/sing/textproc/step/corenlpentityextraction/CoreNLPEntityExtractionProcessingStep.java:161-169 | every mapping of a label's terms carries that label and the categories |
| EntityExtraction.TermMappingsFollowSeedLines | CoreNLPEntityExtractionTextProcStep/src/main/java/es/uvigo/esei/sing/textproc/step/corenlpentityextraction/CoreNLPEntityExtractionProcessingStep.java:161-169 | the tokens written for a label are exactly the lines of its seed file |
| EntityExtraction.SeedMappings | CoreNLPEntityExtractionTextProcStep/src/main/java/es/uvigo/esei/sing/textproc/step/corenlpentityextraction/CoreNLPEntityExtractionProcessingStep.java:161-169 | every seed mapping carries a label of the map and the categories |
| EntityExtraction.SeedMappingsFollowSeedFiles | CoreNLPEntityExtractionTextProcStep/src/main/java/es/uvigo/esei/sing/textproc/step/corenlpentityextraction/CoreNLPEntityExtractionProcessingStep.java:161-169 | the seed mappings' tokens are the seed files' lines, label after label |
| EntityExtraction.LearnedMappings | CoreNLPEntityExtractionTextProcStep/src/main/java/es/uvigo/esei/sing/textproc/step/corenlpentityextraction/CoreNLPEntityExtractionProcessingStep.java:351-368 | one mapping per non-blank line of a learned words file, every such line included |
| EntityExtraction.LearnedMappingsKeepNonBlankLines | CoreNLPEntityExtractionTextProcStep/src/main/java/es/uvigo/esei/sing/textproc/step/corenlpentityextraction/CoreNLPEntityExtractionProcessingStep.java:351-368 | without blank lines every line becomes a mapping, in order |
| EntityExtraction.RowPieces | CoreNLPEntityExtractionTextProcStep/src/main/java/es/uvigo/esei/sing/textproc/step/corenlpentityextraction/CoreNLPEntityExtractionProcessingStep.java:259-266 | the non-blank attribute values of a row, none exactly when all are blank |
| EntityExtraction.BatchPieces | CoreNLPEntityExtractionTextProcStep/src/main/java/es/uvigo/esei/sing/textproc/step/corenlpentityextraction/CoreNLPEntityExtractionProcessingStep.java:259-266 | the non-blank values of the batch, none exactly when every value is blank |
| EntityExtraction.EmptyTextIffNoPieces | CoreNLPEntityExtractionTextProcStep/src/main/java/es/uvigo/esei/sing/textproc/step/corenlpentityextraction/CoreNLPEntityExtractionProcessingStep.java:269-272 | the stripped text is empty exactly when there are no non-blank pieces |
| EntityExtraction.BatchText | CoreNLPEntityExtractionTextProcStep/src/main/java/es/uvigo/esei/sing/textproc/step/corenlpentityextraction/CoreNLPEntityExtractionProcessingStep.java:259-269 | the batch text is empty exactly when every attribute value is blank |
| EntityExtraction.BatchDocument | CoreNLPEntityExtractionTextProcStep/src/main/java/es/uvigo/esei/sing/textproc/step/corenlpentityextraction/CoreNLPEntityExtractionProcessingStep.java:259-272 | a batch whose values are all blank is skipped; otherwise the non-empty document of its non-blank values |
| EntityExtraction.BufferCapacityAsWritten | CoreNLPEntityExtractionTextProcStep/src/main/java/es/uvigo/esei/sing/textproc/step/corenlpentityextraction/CoreNLPEntityExtractionProcessingStep.java:243-254 | the capacity is the product of 6, 150 and the batch size reduced to 32 bits: equal to it when it fits in an `int`, congruent to it modulo 2^32 otherwise |
| EntityExtraction.BufferCapacity | CoreNLPEntityExtractionTextProcStep/src/main/java/es/uvigo/esei/sing/textproc/step/corenlpentityextraction/CoreNLPEntityExtractionProcessingStep.java:243-254 | the intended capacity is a non-negative `int`: the product when the batch size is not negative and the product fits, the largest `int` when it does not fit |
| EntityExtraction.BatchStepAsWritten | CoreNLPEntityExtractionTextProcStep/src/main/java/es/uvigo/esei/sing/textproc/step/corenlpentityextraction/CoreNLPEntityExtractionProcessingStep.java:241-254 | an unparsable batch size fails with a `NumberFormatException`, a capacity that wraps below zero fails with a `NegativeArraySizeException` whatever the batch holds, and otherwise the batch becomes its document |
| EntityExtraction.LargeBatchSizeFails | CoreNLPEntityExtractionTextProcStep/src/main/java/es/uvigo/esei/sing/textproc/step/corenlpentityextraction/CoreNLPEntityExtractionProcessingStep.java:241-254 | a batch size from 2,386,093 to 4,772,185 makes every batch fail with a `NegativeArraySizeException` |
| EntityExtraction.BatchStep | CoreNLPEntityExtractionTextProcStep/src/main/java/es/uvigo/esei/sing/textproc/step/corenlpentityextraction/CoreNLPEntityExtractionProcessingStep.java:241-254 | with the capacity as a capped size hint only an unparsable batch size fails; otherwise the batch becomes its document |
| EntityExtraction.BatchStepsAgree | CoreNLPEntityExtractionTextProcStep/src/main/java/es/uvigo/esei/sing/textproc/step/corenlpentityextraction/CoreNLPEntityExtractionProcessingStep.java:241-254 | both versions agree for every non-negative batch size whose product with 900 fits in an `int` |
| LuceneIndex.IndexFolder | LuceneIndexTextProcStep/src/main/java/es/uvigo/esei/sing/textproc/step/luceneindex/LuceneIndexProcessingStep.java:66-68 | the index folder is the parameter or "lucene_index" |
| LuceneIndex.ValidatedFolder | LuceneIndexTextProcStep/src/main/java/es/uvigo/esei/sing/textproc/step/luceneindex/LuceneIndexProcessingStep.java:52-61 | after validation the index folder is a non-blank path |
| LuceneIndex.DocumentFieldsAsWritten | LuceneIndexTextProcStep/src/main/java/es/uvigo/esei/sing/textproc/step/luceneindex/LuceneIndexProcessingStep.java:97-106 | as written: the stored key parsed from column 0, then every attribute value under the first attribute's name |
| LuceneIndex.DocumentFields | LuceneIndexTextProcStep/src/main/java/es/uvigo/esei/sing/textproc/step/luceneindex/LuceneIndexProcessingStep.java:97-106 | corrected: the stored key, then each attribute value under its own name |
| LuceneIndex.TextsNamed | LuceneIndexTextProcStep/src/main/java/es/uvigo/esei/sing/textproc/step/luceneindex/LuceneIndexProcessingStep.java:97-106 | the texts of the fields with a name, in order |
| LuceneIndex.FieldsFiledByName | LuceneIndexTextProcStep/src/main/java/es/uvigo/esei/sing/textproc/step/luceneindex/LuceneIndexProcessingStep.java:97-106 | with distinct names, each attribute's field name finds exactly that attribute's value |
| LuceneIndex.MisnamedFieldExample | LuceneIndexTextProcStep/src/main/java/es/uvigo/esei/sing/textproc/step/luceneindex/LuceneIndexProcessingStep.java:102-106 | as written, a title-and-text row files both values under "title" and nothing under "text" |
| LuceneIndex.SingleAttributeUnaffected | LuceneIndexTextProcStep/src/main/java/es/uvigo/esei/sing/textproc/step/luceneindex/LuceneIndexProcessingStep.java:102-106 | with one attribute the two field lists agree |
| LuceneIndex.AddFailure | LuceneIndexTextProcStep/src/main/java/es/uvigo/esei/sing/textproc/step/luceneindex/LuceneIndexProcessingStep.java:108-112 | an `IllegalArgumentException` or `IOException` from adding becomes the data-access `ProcessingException` |
| LuceneIndex.IndexRows | LuceneIndexTextProcStep/src/main/java/es/uvigo/esei/sing/textproc/step/luceneindex/LuceneIndexProcessingStep.java:95-116 | at most one document per row is added, with the fields named as written (`FirstAttributeName`) in the step |
| LuceneIndex.IndexBatchSeparatesDocuments | LuceneIndexTextProcStep/src/main/java/es/uvigo/esei/sing/textproc/step/luceneindex/LuceneIndexProcessingStep.java:92-116 | under either naming, the k-th document added holds exactly the k-th row's fields, because the field list is cleared after each row, and the batch ends normally exactly when every row was added |
| LuceneIndex.AsWrittenDocumentsUseFirstName | LuceneIndexTextProcStep/src/main/java/es/uvigo/esei/sing/textproc/step/luceneindex/LuceneIndexProcessingStep.java:95-115 | as written, each added document is its row's parsed key followed by the row's attribute values in column order, every one under attribute 0's name |
| LuceneIndex.RunFailure | LuceneIndexTextProcStep/src/main/java/es/uvigo/esei/sing/textproc/step/luceneindex/LuceneIndexProcessingStep.java:124-126 | an `IllegalArgumentException` or `IOException` becomes the data-access `ProcessingException` |
| LuceneIndex.Run | LuceneIndexTextProcStep/src/main/java/es/uvigo/esei/sing/textproc/step/luceneindex/LuceneIndexProcessingStep.java:63-127 | `commit()` is called exactly when opening and every scan succeed; because closing the writer commits too, the added documents become durable exactly when the writer opened and either closed cleanly or was committed; the step succeeds exactly when commit and close both succeed; a failed open scans nothing |
| LuceneIndex.FailedScanStillCommits | LuceneIndexTextProcStep/src/main/java/es/uvigo/esei/sing/textproc/step/luceneindex/LuceneIndexProcessingStep.java:84-123 | a failing scan skips `commit()`, yet the clean close commits the documents added before the failure |
| Tpp.DocumentMap | AbstractTppTextProcStep/src/main/java/es/uvigo/esei/sing/textproc/abstracttppstep/TppHelper.java:104-112 | a row's attribute map has exactly the attribute names, and fails when a needed column is missing |
| Tpp.DocumentMapValues | AbstractTppTextProcStep/src/main/java/es/uvigo/esei/sing/textproc/abstracttppstep/TppHelper.java:110-112 | each name maps to its own column, the last of a repeated name winning |
| Tpp.DocumentMaps | AbstractTppTextProcStep/src/main/java/es/uvigo/esei/sing/textproc/abstracttppstep/TppHelper.java:101-115 | one map per row, failing when any row is short |
| Tpp.RequestKeyInjective | AbstractTppTextProcStep/src/main/java/es/uvigo/esei/sing/textproc/abstracttppstep/TppHelper.java:215 | the request key "document_attribute" names one document and attribute |
| Tpp.DocumentEntries | AbstractTppTextProcStep/src/main/java/es/uvigo/esei/sing/textproc/abstracttppstep/TppHelper.java:211-222 | each attribute of a document becomes one request entry with its text under that document's keys |
| Tpp.RequestDocuments | AbstractTppTextProcStep/src/main/java/es/uvigo/esei/sing/textproc/abstracttppstep/TppHelper.java:208-230 | the request carries one text entry per document and attribute |
| Tpp.DocumentsObject | AbstractTppTextProcStep/src/main/java/es/uvigo/esei/sing/textproc/abstracttppstep/TppHelper.java:242 | a response is accepted exactly when it is an object whose documents member, if present, is an object |
| Tpp.Lookup | AbstractTppTextProcStep/src/main/java/es/uvigo/esei/sing/textproc/abstracttppstep/TppHelper.java:246-249 | a missing documents object is a `NullPointerException`; a missing entry becomes the dummy value; a present entry is accepted exactly when it is an object |
| Tpp.Block | AbstractTppTextProcStep/src/main/java/es/uvigo/esei/sing/textproc/abstracttppstep/TppHelper.java:244-255 | the (document, name) pairs the response loop visits for one document, one per name of the iteration order, in that order |
| Tpp.Deliver | AbstractTppTextProcStep/src/main/java/es/uvigo/esei/sing/textproc/abstracttppstep/TppHelper.java:128-147 | delivering the callbacks keeps one map per document |
| Tpp.DeliverFollowsDocuments | AbstractTppTextProcStep/src/main/java/es/uvigo/esei/sing/textproc/abstracttppstep/TppHelper.java:128-147 | with as many callbacks per document as distinct names, each callback reaches its own document |
| Tpp.NoNamesNoCallbacks | AbstractTppTextProcStep/src/main/java/es/uvigo/esei/sing/textproc/abstracttppstep/TppHelper.java:244-255 | with no attribute names there is no callback and the maps are unchanged |
| Tpp.Exchange | AbstractTppTextProcStep/src/main/java/es/uvigo/esei/sing/textproc/abstracttppstep/TppHelper.java:197-257 | one map per document after the request and response |
| Tpp.ExchangeFollowsDocuments | AbstractTppTextProcStep/src/main/java/es/uvigo/esei/sing/textproc/abstracttppstep/TppHelper.java:197-257 | the exchange delivers document by document when the counter wraps at the number of distinct names |
| Tpp.ProcessWith | AbstractTppTextProcStep/src/main/java/es/uvigo/esei/sing/textproc/abstracttppstep/TppHelper.java:81-158 | an empty batch or a first row of the wrong width fails with an `IllegalArgumentException`; a success has one map per row |
| Tpp.ProcessWithExchange | AbstractTppTextProcStep/src/main/java/es/uvigo/esei/sing/textproc/abstracttppstep/TppHelper.java:119-157 | after the checks the result is the exchange's result |
| Tpp.ProcessAttributes | AbstractTppTextProcStep/src/main/java/es/uvigo/esei/sing/textproc/abstracttppstep/TppHelper.java:81-158 | as written: the same checks, and one map per row on success, with the counter wrapping at the number of names given |
| Tpp.ProcessAttributesCorrected | AbstractTppTextProcStep/src/main/java/es/uvigo/esei/sing/textproc/abstracttppstep/TppHelper.java:81-158 | corrected: the same checks, with the counter wrapping at the number of distinct names, so that every document receives exactly its own response objects: the result equals the document-by-document reading |
| Tpp.DistinctNamesDeliverByDocument | AbstractTppTextProcStep/src/main/java/es/uvigo/esei/sing/textproc/abstracttppstep/TppHelper.java:137-143 | with distinct attribute names, as written and corrected agree |
| Tpp.RequestCarriesEveryAttribute | AbstractTppTextProcStep/src/main/java/es/uvigo/esei/sing/textproc/abstracttppstep/TppHelper.java:104-112 | the request holds each row's value for each attribute under that row's key |
| Tpp.OnlyFirstRowIsChecked | AbstractTppTextProcStep/src/main/java/es/uvigo/esei/sing/textproc/abstracttppstep/TppHelper.java:95-112 | only the first row's width is checked; a shorter later row fails with an index error |
| Tpp.MalformedResponseIsProcessingFailure | AbstractTppTextProcStep/src/main/java/es/uvigo/esei/sing/textproc/abstracttppstep/TppHelper.java:149-155 | a response that is not an object becomes a `ProcessingException` |
| Tpp.RepeatedNameMisroutes | AbstractTppTextProcStep/src/main/java/es/uvigo/esei/sing/textproc/abstracttppstep/TppHelper.java:137-143 | as written, the name "a" given twice sends both answers to document 0; document 1 keeps its input |
| Tpp.RepeatedNameCorrected | AbstractTppTextProcStep/src/main/java/es/uvigo/esei/sing/textproc/abstracttppstep/TppHelper.java:137-143 | corrected, the same answers go to their own documents |
| TppTokenization.Strings | TppTokenizationTextProcStep/src/main/java/es/uvigo/esei/sing/textproc/step/tpptokenization/TppTokenizationProcessingStep.java:75-76 | the strings of an array exactly when every element is a string |
| TppTokenization.StoreTokens | TppTokenizationTextProcStep/src/main/java/es/uvigo/esei/sing/textproc/step/tpptokenization/TppTokenizationProcessingStep.java:67-96 | a response with a string-array text stores the tokens joined with spaces; anything else fails with the fixed `ProcessingException` |
| TppTokenization.EmptyTokenLists | TppTokenizationTextProcStep/src/main/java/es/uvigo/esei/sing/textproc/step/tpptokenization/TppTokenizationProcessingStep.java:84-87 | no tokens, and the dummy value of a missing entry, store the empty text |
| TppTokenization.TokensRoundTrip | TppTokenizationTextProcStep/src/main/java/es/uvigo/esei/sing/textproc/step/tpptokenization/TppTokenizationProcessingStep.java:78-89 | tokens without spaces are recovered by splitting the stored text at spaces |
| TppTokenization.Tokenize | TppTokenizationTextProcStep/src/main/java/es/uvigo/esei/sing/textproc/step/tpptokenization/TppTokenizationProcessingStep.java:42-58 | the step runs the demultiplexer with no parameters and string-array responses, giving one map per row |
| BatchScanner.ConvertColumns | TextProcStep/src/main/java/es/uvigo/esei/sing/textproc/step/AbstractProcessingStep.java:369-380 | a column list converts exactly when no column is null, keeping every value in place; a null column gives the unexpected-column `ProcessingException` |
| BatchScanner.PageCountAtMostTotal | TextProcStep/src/main/java/es/uvigo/esei/sing/textproc/step/AbstractProcessingStep.java:333 | there are never more pages than documents |
| BatchScanner.FilledPageLeavesNothing | TextProcStep/src/main/java/es/uvigo/esei/sing/textproc/step/AbstractProcessingStep.java:408-426 | from an empty accumulator a page that fills whole batches leaves nothing held and an unset changed flag, so clearing makes no difference |
| BatchScanner.TenFourThreeAsWritten | TextProcStep/src/main/java/es/uvigo/esei/sing/textproc/step/AbstractProcessingStep.java:318-449 | for any ten rows, pages of four and batches of three, the action receives rows 0-3, then 3-7, then 6-9 |
| MentionFiltering.LeadingBlanks | MentionFilteringTextProcStep/src/main/java/es/uvigo/esei/sing/textproc/step/mentionfiltering/MentionFilteringProcessingStep.java:66-69 | the length of the blank run a text starts with: all blanks, then a non-blank or the end |
| MentionFiltering.NonBlanks | MentionFilteringTextProcStep/src/main/java/es/uvigo/esei/sing/textproc/step/mentionfiltering/MentionFilteringProcessingStep.java:66-69 | the non-blank characters of a text, none of them blank |
| MentionFiltering.RunThenLoneBlank | MentionFilteringTextProcStep/src/main/java/es/uvigo/esei/sing/textproc/step/mentionfiltering/MentionFilteringProcessingStep.java:66-69 | for any non-blank a, b, c and blank x, "a x x b x c" loses the run and keeps the lone blank |
| EmptyFiltering.MarkerMatches | EmptyFilteringTextProcStep/src/main/java/es/uvigo/esei/sing/textproc/step/emptyfiltering/EmptyFilteringProcessingStep.java:54 | "(Removed]" matches the deleted-or-no-lowercase pattern |
| EmptyFiltering.MarkerHasLowercase | EmptyFilteringTextProcStep/src/main/java/es/uvigo/esei/sing/textproc/step/emptyfiltering/EmptyFilteringProcessingStep.java:60 | "(Removed]" does not match the no-lowercase pattern, because it contains lower-case letters |
| Dictionary.AddTermUnderLabel | CoreNLPEntityExtractionTextProcStep/src/main/java/es/uvigo/esei/sing/textproc/step/corenlpentityextraction/NamedEntityDictionaryHelper.java:141-172 | adding a term under a label keeps the label map well formed and touches no other label |
| Persistence.SettleFirst | TextProcPersistence/src/main/java/es/uvigo/esei/sing/textproc/persistence/TextProcPersistence.java:228-234 | settling a record's transaction leaves it inactive with its open flag, and leaves every other manager alone |
| LuceneIndex.TextsNamedSingle | LuceneIndexTextProcStep/src/main/java/es/uvigo/esei/sing/textproc/step/luceneindex/LuceneIndexProcessingStep.java:102-106 | a field list with one text field of a given name finds exactly that field's text under the name |

## Left out

- Console output, progress bars and log messages are not modelled; only whether a warning is logged instead of thrown is.
- The clock, the file system, the database, JAXB and XSD validation, the CSV parser, the JSON transport, the NLP pipelines, the pattern learner and Lucene itself are function parameters or outcomes passed in; the model states what the code does with their answers.
- Regular expressions are opaque: the empty-filtering patterns are stated over a lower-case character class parameter, and the mention expressions are a `string -> string` parameter. Only the blank-run removal is modelled character by character.
- Case mapping, white space and digits are ASCII approximations of `Character.isWhitespace`, `toUpperCase`, `toLowerCase` and the `Character.digit` that `Integer.parseInt` uses; Unicode case folding and non-ASCII decimal digits, which `Integer.parseInt` also accepts, are not modelled.
- The message of the parser's `IllegalArgumentException` for a record too short for the term column is a fixed text, not the library's own.
- Persistence.LaterFlushRewalksKeptRecords: assumes that the transactions of kept records stay inactive; the model lets `begin` reach a closed manager's transaction, where the JPA provider would throw.
- ElapsedTime.ElapsedTextRecoversSeconds: stated for non-negative durations only; a negative duration's fields carry minus signs and vary in width, as `BackwardClockExample` shows.
- The difference of the two clock readings is taken as an unbounded integer; a 64-bit overflow of `endTimestamp - startTimestamp` is not modelled.
- LuceneIndex.Run: durability after a failure is all or nothing; documents the index writer flushes on its own before `commit` or `close` are not modelled.
- EntityExtraction.BufferCapacity: a capacity near the largest `int` may still exhaust memory; an `OutOfMemoryError` is not modelled.
- Parallel streams, the NER writer thread and `synchronized` blocks are modelled as one sequential interleaving in list order.
- Exception causes and messages other than the fixed ones are dropped; an exception is identified by its kind and fixed message.
- Hash codes and `HashMap` iteration order are parameters; capacity hints are not modelled.
- Lombok `@NonNull` checks are modelled as `NullPointerException`, Lombok's default when no configuration says otherwise; some javadoc comments promise `IllegalArgumentException` instead.
- `BatchSizeProcessingStepParameter` is not part of this model; its element name is taken as "documentsPerBatch", and any name distinct from the other parameters behaves the same.
- The progress step count only labels progress bars; it is modelled to show its value for an empty table and one example, not used further.
- Temporary files, shutdown hooks and the SPIED property set of the entity extraction step are not modelled; the step is modelled through its categories, dictionaries, mapping calls and batch text.
- EmptyFiltering.AllAreEmpty: stated over the compiled pattern's match function, which `KeepsIsMismatch` links to the patterns.
- TransactionDecorator.DecoratedCalls: states each call's result, not the JPA semantics of the delegated calls, which belong to the JPA provider.
- TppTokenization.Tokenize: states only that a success has one map per row; the per-document contents follow from `Tpp.ProcessAttributesCorrected` and `TppTokenization.StoreTokens`.
- LuceneIndex.IndexRows: states a bound on the documents added; their contents are stated by `IndexBatchSeparatesDocuments` and `AsWrittenDocumentsUseFirstName`.

## Findings

| source | as written | input that shows it | evidently intended | confidence | as-written member | corrected member |
|---|---|---|---|---|---|---|
| TextProcStep/src/main/java/es/uvigo/esei/sing/textproc/step/AbstractProcessingStep.java:408-426 | the leftover batch at the end of a page is handed to the action but never cleared, so it is handed on again with the next page's rows | 10 documents, page size 4, batch size 3: rows 3, 6 and 7 are processed twice | clear the held rows after handing them on | not executed | BatchScanner.TenFourThreeExample | BatchScanner.CorrectedScan |
| TextProcPersistence/src/main/java/es/uvigo/esei/sing/textproc/persistence/TimestampedEntityTransaction.java:40-42 | `compareTo` returns `Integer.MAX_VALUE` for every pair, so the dirty-record set never finds a record to remove (next row) | any two wrappers, or a wrapper compared with itself | order by creation id | not executed | TimestampedTransaction.CompareToAsWritten | TimestampedTransaction.CompareTo |
| TextProcPersistence/src/main/java/es/uvigo/esei/sing/textproc/persistence/TextProcPersistence.java:223-244 | `dirtyTransactionsIter.remove()` looks the record up through `compareTo`, which never reports equality, so every dirty record stays in the set after `flushEntities` and `stop`, and every later flush walks it again | one `getTransaction` on an active transaction, then a flush: the record is still in the set | remove every visited record, so that no transaction stays referenced, as the `flushEntities` documentation promises | not executed | Persistence.KeptRecordExample | Persistence.DrainCorrectedEmpties |
| TextProcStep/src/main/java/es/uvigo/esei/sing/textproc/step/AbstractProcessingStep.java:344 | the page counter is an `int` compared with a `long` page count | one document per page and 2^31 documents: the counter wraps from 2^31-1 to -2^31 and the loop never ends | a `long` page counter | not executed | BatchScanner.PageLoopWrapExample | BatchScanner.LongPageLoopVisitsEachPage |
| LuceneIndexTextProcStep/src/main/java/es/uvigo/esei/sing/textproc/step/luceneindex/LuceneIndexProcessingStep.java:102-106 | every attribute field is named after attribute 0 | a row with attributes title and text: both values are filed under "title" | name each field after its own attribute | not executed | LuceneIndex.MisnamedFieldExample | LuceneIndex.FieldsFiledByName |
| CoreNLPEntityExtractionTextProcStep/src/main/java/es/uvigo/esei/sing/textproc/step/corenlpentityextraction/CoreNLPEntityExtractionProcessingStep.java:241-254 | the buffer capacity `6 * 150 * batchSize` is multiplied in `int` and passed to `new StringBuilder` | batch size 2,386,093: 900 times it wraps to -2,147,483,596 and every batch throws `NegativeArraySizeException` | a capacity that cannot turn negative, such as the product capped at the largest `int` | not executed | EntityExtraction.LargeBatchSizeFails | EntityExtraction.BatchStep |
| TextProcMain/src/main/java/es/uvigo/esei/sing/textproc/TextProc.java:145 | `Math.abs(hashCode) % 255 + 1` is negative for `Integer.MIN_VALUE` | an exception whose hash code is -2^31 exits with status -127 | a status in 1..255 | not executed | Application.ExitStatusAsWritten | Application.ExitStatus |
| TextProcMain/src/main/java/es/uvigo/esei/sing/textproc/TextProc.java:110-116 | the "-" argument is compared with `==`, by reference | a "-" argument that is not the interned literal opens a file named "-" | compare with `equals` | not executed | Application.DashOpensFile | Application.InputSource |
| AbstractTppTextProcStep/src/main/java/es/uvigo/esei/sing/textproc/abstracttppstep/TppHelper.java:137-143 | the attribute counter wraps at the number of names given, while the response has one entry per distinct name | names ["a", "a"] with two rows: both answers go to row 0 and row 1 is never processed | wrap at the number of distinct names | not executed | Tpp.RepeatedNameMisroutes | Tpp.ProcessAttributesCorrected |

=== FILE: application.dfy ===
/** `TextProc.run`: the application's life cycle. Persistence starts with
    every service's document types, the process declaration is read from
    standard input or a file and executed, the elapsed time is reported,
    and persistence stops whatever happened. Console output, the clock, the
    file system and the process itself are parameters. */
module Application {
  import opened Wrappers
  import opened JavaLang
  import opened JavaText
  import opened JavaCollections
  import P = Persistence
  import TimestampedTransaction
  import opened ElapsedTime

  const AppName: string := "TextProc"
  const ArgumentCountMessage: string := "Unexpected number of arguments"

  /** A value of Java's `int` type, such as a hash code. */
  type JavaInt = x: int | IntMin <= x <= IntMax

  // ---------------------------------------------------------------------
  // Exit status

  /** `Math.abs(exc.hashCode()) % 255 + 1` as written: `Math.abs` of
      `Integer.MIN_VALUE` is itself, and Java's `%` keeps the dividend's
      sign, so that hash code gives the status -127. */
  function ExitStatusAsWritten(h: JavaInt): (s: int)
    ensures h != IntMin ==> s == Abs(h) % 255 + 1
    ensures h == IntMin ==> s == -127
  {
    assert Abs(IntMin) % 255 == 128;
    Rem(AbsInt(h), 255) + 1
  }

  /** The status is meant to be positive, and is for every hash code but
      `Integer.MIN_VALUE`. */
  lemma ExitStatusAsWrittenInRange(h: JavaInt)
    requires h != IntMin
    ensures 1 <= ExitStatusAsWritten(h) <= 255
  {
  }

  /** The status as intended: `Math.abs(hashCode % 255) + 1`, positive for
      every hash code. */
  function ExitStatus(h: JavaInt): (s: int)
    ensures 1 <= s <= 255
  {
    Abs(Rem(h, 255)) + 1
  }

  /** The intended status agrees with the written one wherever the written
      one is positive. */
  lemma ExitStatusAgrees(h: JavaInt)
    requires h != IntMin
    ensures ExitStatus(h) == ExitStatusAsWritten(h)
  {
  }

  // ---------------------------------------------------------------------
  // The input of the process

  datatype Input = StandardInput | File(path: string)

  /** The choice as written: standard input without arguments, or when the
      argument is the very object of the literal "-" (`==` compares
      references); any other argument is opened as a file. */
  function InputSourceAsWritten(args: seq<string>, argIsDashLiteral: bool): (src: Input)
    requires |args| <= 1
    ensures src == StandardInput <==> args == [] || argIsDashLiteral
    ensures src.File? ==> src.path == args[0]
  {
    if |args| == 0 || argIsDashLiteral then StandardInput else File(args[0])
  }

  /** The arguments the launcher passes are new strings, never the literal
      itself, so "-" is opened as a file named "-". */
  lemma DashOpensFile()
    ensures InputSourceAsWritten(["-"], false) == File("-")
  {
  }

  /** The choice as intended: standard input without arguments or for the
      text "-". */
  function InputSource(args: seq<string>): (src: Input)
    requires |args| <= 1
    ensures src == StandardInput <==> args == [] || args[0] == "-"
    ensures src.File? ==> src.path == args[0] && src.path != "-"
  {
    if |args| == 0 || args[0] == "-" then StandardInput else File(args[0])
  }

  /** The intended choice agrees with the written one on every argument but
      "-". */
  lemma InputSourceAgrees(args: seq<string>)
    requires |args| <= 1 && (args == [] || args[0] != "-")
    ensures InputSource(args) == InputSourceAsWritten(args, false)
  {
  }

  // ---------------------------------------------------------------------
  // Document types

  /** The document types of every step service, one list per service, in
      loader order, gathered into one collection. */
  function DocumentTypes(perService: seq<seq<Option<string>>>): (ts: seq<Option<string>>)
    ensures forall t :: t in ts <==> exists i :: 0 <= i < |perService| && t in perService[i]
  {
    if perService == [] then []
    else
      var rest := DocumentTypes(perService[1..]);
      assert forall i :: 1 <= i < |perService| ==> perService[1..][i - 1] == perService[i];
      perService[0] + rest
  }

  // ---------------------------------------------------------------------
  // run

  /** How `run` ends: with an exception before the `try` (nothing is
      started, nothing is stopped), or with an exit status, the registry as
      `stop` leaves it, the chosen input when it was chosen, and the elapsed
      time report when the process completed. */
  datatype RunResult =
    | Rejected(error: Exception)
    | Exited(status: int, registry: P.Registry, source: Option<Input>, elapsed: Option<string>)

  /** The first failure of the `try` block, if any: starting persistence,
      opening the file, executing the process. */
  function TryFailure(started: Option<Exception>, source: Input, open: string -> Option<Exception>,
                      execute: Input -> Option<Exception>): (f: Option<Exception>)
    ensures f.None? <==> started.None? && (source.File? ==> open(source.path).None?) && execute(source).None?
    ensures started.Some? ==> f == started
  {
    if started.Some? then started
    else if source.File? && open(source.path).Some? then open(source.path)
    else execute(source)
  }

  /** `run`. More than one argument throws before the `try`. Inside it,
      persistence starts with the gathered document types, the input is
      chosen as written (`argIsDashLiteral` says whether the argument is the
      "-" literal object itself) and the process executes; any exception is
      caught and turned into an exit status from its hash code as written,
      which is -127 for a hash code of `Integer.MIN_VALUE`. In the
      `finally` persistence stops, on every path through the `try`. */
  function Run(args: seq<string>, argIsDashLiteral: bool, registry: P.Registry, perService: seq<seq<Option<string>>>,
               descriptorFound: bool, open: string -> Option<Exception>, execute: Input -> Option<Exception>, millis: int,
               hash: Exception -> JavaInt, fails: TimestampedTransaction.Timestamped -> bool): (r: RunResult)
    requires P.RecordsNameManagers(registry)
    ensures r.Rejected? <==> |args| > 1
    ensures r.Rejected? ==> r.error == IllegalArgumentException(ArgumentCountMessage)
    ensures r.Exited? ==> !r.registry.running
    ensures r.Exited? ==> (r.status == 0 <==> r.elapsed.Some?)
    ensures r.Exited? ==> r.status == 0 || 1 <= r.status <= 255 || r.status == -127
    ensures r.Exited? ==> (r.source.Some? <==> P.Start(registry, DocumentTypes(perService), descriptorFound).1.None?)
    ensures r.Exited? && r.source.Some? ==> r.source.value == InputSourceAsWritten(args, argIsDashLiteral)
    ensures r.Exited? && r.status == 0 ==>
              && r.source.Some?
              && (r.source.value.File? ==> open(r.source.value.path).None?)
              && execute(r.source.value).None?
              && r.elapsed == Some(ElapsedText(millis))
  {
    if |args| > 1 then Rejected(IllegalArgumentException(ArgumentCountMessage))
    else
      var start := P.Start(registry, DocumentTypes(perService), descriptorFound);
      var source := InputSourceAsWritten(args, argIsDashLiteral);
      var failure := TryFailure(start.1, source, open, execute);
      var stopped := P.Stop(start.0, fails);
      var chosen := if start.1.None? then Some(source) else None;
      match failure
      case None => Exited(0, stopped, chosen, Some(ElapsedText(millis)))
      case Some(e) =>
        Exited(ExitStatusAsWritten(hash(e)), stopped, chosen, None)
  }

  /** A failure anywhere in the `try` gives the status as written of that
      exception's hash code, in 1..255 unless the hash code is
      `Integer.MIN_VALUE`, and persistence is stopped just as after a
      success. */
  lemma FailureStatus(args: seq<string>, argIsDashLiteral: bool, registry: P.Registry,
                      perService: seq<seq<Option<string>>>, descriptorFound: bool, open: string -> Option<Exception>,
                      execute: Input -> Option<Exception>, millis: int, hash: Exception -> JavaInt,
                      fails: TimestampedTransaction.Timestamped -> bool)
    requires P.RecordsNameManagers(registry) && |args| <= 1
    ensures var start := P.Start(registry, DocumentTypes(perService), descriptorFound);
            var failure := TryFailure(start.1, InputSourceAsWritten(args, argIsDashLiteral), open, execute);
            var r := Run(args, argIsDashLiteral, registry, perService, descriptorFound, open, execute, millis, hash, fails);
            && r.Exited?
            && r.registry == P.Stop(start.0, fails)
            && (failure.Some? ==> r.status == ExitStatusAsWritten(hash(failure.value)))
            && (failure.Some? && hash(failure.value) != IntMin ==> 1 <= r.status <= 255)
            && (failure.None? ==> r.status == 0)
  {
    var start := P.Start(registry, DocumentTypes(perService), descriptorFound);
    var failure := TryFailure(start.1, InputSourceAsWritten(args, argIsDashLiteral), open, execute);
    var r := Run(args, argIsDashLiteral, registry, perService, descriptorFound, open, execute, millis, hash, fails);
    assert r.registry == P.Stop(start.0, fails);
    if failure.Some? {
      assert r.status == ExitStatusAsWritten(hash(failure.value));
      if hash(failure.value) != IntMin {
        ExitStatusAsWrittenInRange(hash(failure.value));
      }
    }
  }

  /** A null document type from any service makes `start` fail before the
      process is read, and the run ends with a non-zero status, positive
      unless the exception's hash code is `Integer.MIN_VALUE`. */
  lemma NullDocumentTypeFails(args: seq<string>, argIsDashLiteral: bool, registry: P.Registry,
                              perService: seq<seq<Option<string>>>, descriptorFound: bool,
                              open: string -> Option<Exception>, execute: Input -> Option<Exception>, millis: int,
                              hash: Exception -> JavaInt, fails: TimestampedTransaction.Timestamped -> bool, i: nat)
    requires P.RecordsNameManagers(registry) && |args| <= 1 && !registry.running
    requires i < |perService| && None in perService[i]
    ensures var r := Run(args, argIsDashLiteral, registry, perService, descriptorFound, open, execute, millis, hash, fails);
            var startFailure := P.Start(registry, DocumentTypes(perService), descriptorFound).1;
            && r.Exited? && r.status != 0 && r.source.None? && startFailure.Some?
            && (hash(startFailure.value) != IntMin ==> r.status > 0)
  {
    assert None in DocumentTypes(perService);
    var k :| 0 <= k < |DocumentTypes(perService)| && DocumentTypes(perService)[k] == None;
    var startFailure := P.Start(registry, DocumentTypes(perService), descriptorFound).1;
    if startFailure.Some? && hash(startFailure.value) != IntMin {
      ExitStatusAsWrittenInRange(hash(startFailure.value));
    }
  }

  /** Run with the comparison and the status as intended: the same run,
      except that a "-" argument reads standard input and every failure
      exits with a status in 1..255. */
  function RunCorrected(args: seq<string>, registry: P.Registry, perService: seq<seq<Option<string>>>,
                        descriptorFound: bool, open: string -> Option<Exception>, execute: Input -> Option<Exception>,
                        millis: int, hash: Exception -> JavaInt, fails: TimestampedTransaction.Timestamped -> bool)
    : (r: RunResult)
    requires P.RecordsNameManagers(registry)
    ensures r.Rejected? <==> |args| > 1
    ensures r.Exited? ==> !r.registry.running
    ensures r.Exited? ==> (r.status == 0 <==> r.elapsed.Some?)
    ensures r.Exited? ==> r.status == 0 || 1 <= r.status <= 255
    ensures r.Exited? && r.source.Some? ==> r.source.value == InputSource(args)
  {
    if |args| > 1 then Rejected(IllegalArgumentException(ArgumentCountMessage))
    else
      var (started, startFailure) := P.Start(registry, DocumentTypes(perService), descriptorFound);
      var source := InputSource(args);
      var failure := TryFailure(startFailure, source, open, execute);
      var stopped := P.Stop(started, fails);
      var chosen := if startFailure.None? then Some(source) else None;
      match failure
      case None => Exited(0, stopped, chosen, Some(ElapsedText(millis)))
      case Some(e) => Exited(ExitStatus(hash(e)), stopped, chosen, None)
  }

  /** On every argument list but "-", and when no failure has a hash code of
      `Integer.MIN_VALUE`, the run as written and the corrected run end
      alike. */
  lemma RunAgrees(args: seq<string>, registry: P.Registry, perService: seq<seq<Option<string>>>,
                  descriptorFound: bool, open: string -> Option<Exception>, execute: Input -> Option<Exception>,
                  millis: int, hash: Exception -> JavaInt, fails: TimestampedTransaction.Timestamped -> bool)
    requires P.RecordsNameManagers(registry)
    requires args == [] || args[0] != "-"
    requires forall e :: hash(e) != IntMin
    ensures Run(args, false, registry, perService, descriptorFound, open, execute, millis, hash, fails)
            == RunCorrected(args, registry, perService, descriptorFound, open, execute, millis, hash, fails)
  {
    if |args| <= 1 {
      InputSourceAgrees(args);
      var (started, startFailure) := P.Start(registry, DocumentTypes(perService), descriptorFound);
      var failure := TryFailure(startFailure, InputSource(args), open, execute);
      if failure.Some? {
        ExitStatusAgrees(hash(failure.value));
      }
    }
  }
}

=== FILE: corenlp_steps.dfy ===
/** `CoreNLPTokenizationProcessingStep`: every attribute becomes the texts
    of its tokens separated by single spaces. The CoreNLP pipeline is a
    parameter: a function from an attribute's text to its token texts. */
module CoreNlpTokenization {
  import opened Wrappers
  import opened JavaLang
  import opened JavaText
  import opened JavaCollections
  import S = StepDriver
  import DR = DocumentRows

  const LanguageName: string := "language"
  const TokenizerOptionsName: string := "tokenizerOptions"
  const DefaultTokenizerOptions: string := "quotes=ascii"

  /** The step's validation table: `language` is required, and both it and
      the optional `tokenizerOptions` must be non-blank. */
  function Spec(): S.StepSpec {
    S.MakeSpec(map[LanguageName := S.NonBlankCheck, TokenizerOptionsName := S.NonBlankCheck], {LanguageName})
  }

  /** The tokenizer's configuration: the language, and the options or their
      default. */
  function TokenizerConfig(params: S.Params): (c: (Option<string>, Option<string>))
    ensures c.0 == S.Get(params, LanguageName)
    ensures TokenizerOptionsName !in params ==> c.1 == Some(DefaultTokenizerOptions)
  {
    (S.Get(params, LanguageName), S.GetOrDefault(params, TokenizerOptionsName, DefaultTokenizerOptions))
  }

  /** After validation the tokenizer gets a non-blank language and
      non-blank options. */
  lemma ValidatedTokenizerConfig(params: S.Params, order: seq<string>, stepName: string)
    requires S.IsIterationOrder(order, params)
    requires S.Validate(Spec(), params, order, stepName).Ok?
    ensures var c := TokenizerConfig(params);
            c.0.Some? && !IsBlank(c.0.value) && c.1.Some? && !IsBlank(c.1.value)
  {
    S.ValidateOkIff(Spec(), params, order, stepName);
    assert S.EntryPasses(Spec().checks, params, LanguageName);
    if TokenizerOptionsName in params {
      assert S.EntryPasses(Spec().checks, params, TokenizerOptionsName);
    } else {
      assert DefaultTokenizerOptions[0] == 'q';
    }
  }

  /** The attribute's text: each token text appended with a space after
      it, then the last character deleted if there is one (the builder is
      emptied before the next attribute). That is the tokens joined with
      single spaces, and "" when there are none. */
  function TokenText(tokens: seq<string>): (r: string)
    ensures r == Join(tokens, " ")
  {
    BuilderJoinIsJoin(tokens, ' ');
    BuilderJoin(tokens, ' ')
  }

  /** Tokens without spaces are recovered by splitting at the spaces. */
  lemma TokenTextRoundTrip(tokens: seq<string>)
    requires tokens != [] && forall k :: 0 <= k < |tokens| ==> ' ' !in tokens[k]
    ensures SplitAll(TokenText(tokens), ' ') == tokens
  {
    SplitAllJoin(tokens, ' ');
  }

  /** No tokens give the empty text; one token gives itself. */
  lemma TokenTextEdges(t: string)
    ensures TokenText([]) == ""
    ensures TokenText([t]) == t
  {
  }

  /** The per-batch action: every row is saved, each attribute replaced by
      its token text. */
  function TokenizeBatch(rows: seq<seq<string>>, names: seq<string>, tokenize: string -> seq<string>,
                         save: DR.Saved -> Option<Exception>): (r: DR.BatchRun)
    requires DR.RowsHaveColumns(rows, |names|)
  {
    DR.SaveBatch(rows, names, v => TokenText(tokenize(v)), _ => true, save)
  }

  /** Rows are saved in order, none is skipped, and each saved document has
      the key of column 0 and, for attribute `j`, the token text of column
      `j + 1`. */
  lemma TokenizeBatchSavesEveryRow(rows: seq<seq<string>>, names: seq<string>, tokenize: string -> seq<string>,
                                   save: DR.Saved -> Option<Exception>)
    requires DR.RowsHaveColumns(rows, |names|) && NoDuplicates(names)
    ensures var r := TokenizeBatch(rows, names, tokenize, save);
            && |r.saved| <= |rows|
            && (r.failure.None? <==> |r.saved| == |rows|)
            && forall k :: 0 <= k < |r.saved| ==>
                 && ParseInt(rows[k][0]) == Some(r.saved[k].id)
                 && r.saved[k].attributes.Keys == Elements(names)
                 && forall j :: 0 <= j < |names| ==>
                      r.saved[k].attributes[names[j]] == Join(tokenize(rows[k][j + 1]), " ")
  {
    var keep: seq<string> -> bool := _ => true;
    DR.BatchSavesKeptRows(rows, names, v => TokenText(tokenize(v)), keep, save);
    DR.KeepAllKeepsRows(rows, |names|, keep);
  }
}

/** `CoreNLPLemmatizationProcessingStep`: every attribute becomes the lemmas
    of its tokens separated by single spaces. Whitespace tokenization,
    sentence splitting, part-of-speech tagging and lemmatization are one
    parameter: a function from an attribute's text to its lemmas. */
module CoreNlpLemmatization {
  import opened Wrappers
  import opened JavaLang
  import opened JavaText
  import opened JavaCollections
  import S = StepDriver
  import DR = DocumentRows
  import T = CoreNlpTokenization

  const PosModelName: string := "posModel"
  const DefaultPosModel: string :=
    "https://github.com/aggarcia3/" + "corenlp-models/raw/master/" + "english-left3words-distsim.tagger"

  /** The step's validation table: an optional, non-blank `posModel`. */
  function Spec(): S.StepSpec {
    S.MakeSpec(map[PosModelName := S.NonBlankCheck], {})
  }

  /** The tagger model: the parameter or the mirrored default. */
  function PosModel(params: S.Params): (m: Option<string>)
    ensures PosModelName !in params ==> m == Some(DefaultPosModel)
    ensures PosModelName in params ==> m == params[PosModelName]
  {
    S.GetOrDefault(params, PosModelName, DefaultPosModel)
  }

  /** After validation the tagger gets a non-blank model location. */
  lemma ValidatedPosModel(params: S.Params, order: seq<string>, stepName: string)
    requires S.IsIterationOrder(order, params)
    requires S.Validate(Spec(), params, order, stepName).Ok?
    ensures PosModel(params).Some? && !IsBlank(PosModel(params).value)
  {
    S.ValidateOkIff(Spec(), params, order, stepName);
    if PosModelName in params {
      assert S.EntryPasses(Spec().checks, params, PosModelName);
    } else {
      assert DefaultPosModel[0] == 'h';
    }
  }

  /** The per-batch action: every row is saved, each attribute replaced by
      its lemmas joined as the tokenizer joins token texts. */
  function LemmatizeBatch(rows: seq<seq<string>>, names: seq<string>, lemmatize: string -> seq<string>,
                          save: DR.Saved -> Option<Exception>): (r: DR.BatchRun)
    requires DR.RowsHaveColumns(rows, |names|)
  {
    DR.SaveBatch(rows, names, v => T.TokenText(lemmatize(v)), _ => true, save)
  }

  /** Rows are saved in order, none is skipped, and each saved document has
      the key of column 0 and, for attribute `j`, the lemmas of column
      `j + 1` joined with single spaces. */
  lemma LemmatizeBatchSavesEveryRow(rows: seq<seq<string>>, names: seq<string>, lemmatize: string -> seq<string>,
                                    save: DR.Saved -> Option<Exception>)
    requires DR.RowsHaveColumns(rows, |names|) && NoDuplicates(names)
    ensures var r := LemmatizeBatch(rows, names, lemmatize, save);
            && |r.saved| <= |rows|
            && (r.failure.None? <==> |r.saved| == |rows|)
            && forall k :: 0 <= k < |r.saved| ==>
                 && ParseInt(rows[k][0]) == Some(r.saved[k].id)
                 && r.saved[k].attributes.Keys == Elements(names)
                 && forall j :: 0 <= j < |names| ==>
                      r.saved[k].attributes[names[j]] == Join(lemmatize(rows[k][j + 1]), " ")
  {
    var keep: seq<string> -> bool := _ => true;
    DR.BatchSavesKeptRows(rows, names, v => T.TokenText(lemmatize(v)), keep, save);
    DR.KeepAllKeepsRows(rows, |names|, keep);
  }
}

=== FILE: decorator.dfy ===
/** `EntityManagerTransactionDecorator`: an entity manager that forwards
    every call to a base manager and, on `getTransaction` only, first hands
    the base manager's transaction to a hook. The base manager is a function
    from calls to replies; the hook's invocations are recorded in order. */
module TransactionDecorator {
  import opened Wrappers
  import opened JavaLang

  /** The calls of the `EntityManager` interface, by kind: `getTransaction`
      and the plainly delegated rest. */
  datatype Call = GetTransaction | Persist(entity: int) | Close | IsOpen | Delegated(name: string)

  /** The constructor: a null base manager or hook is rejected. */
  function Make<R>(base: Option<Call -> R>, hookPresent: bool): (r: Result<Call -> R, Exception>)
    ensures r.Ok? <==> base.Some? && hookPresent
    ensures r.Ok? ==> r.value == base.value
    ensures r.Err? ==> r.error == NullPointerException
  {
    if base.None? then Err(NullPointerException)
    else if !hookPresent then Err(NullPointerException)
    else Ok(base.value)
  }

  /** One call on the decorator: the base manager's reply, and the values
      the hook received during the call. */
  function Decorated<R>(base: Call -> R, call: Call): (r: (R, seq<R>))
    ensures r.0 == base(call)
    ensures call.GetTransaction? ==> r.1 == [r.0]
    ensures !call.GetTransaction? ==> r.1 == []
  {
    var reply := base(call);
    (reply, if call.GetTransaction? then [reply] else [])
  }

  /** A sequence of calls: the replies, and everything the hook received. */
  function DecoratedCalls<R>(base: Call -> R, calls: seq<Call>): (r: (seq<R>, seq<R>))
    ensures |r.0| == |calls|
    ensures forall i :: 0 <= i < |calls| ==> r.0[i] == base(calls[i])
  {
    if calls == [] then ([], [])
    else
      var first := Decorated(base, calls[0]);
      var rest := DecoratedCalls(base, calls[1..]);
      ([first.0] + rest.0, first.1 + rest.1)
  }

  /** Every position moved one call later. */
  function Shifted(ps: seq<nat>): (r: seq<nat>)
    ensures |r| == |ps|
    ensures forall k :: 0 <= k < |r| ==> r[k] == ps[k] + 1
    ensures 0 !in r
    ensures forall i :: 1 <= i ==> (i in r <==> i - 1 in ps)
  {
    var r := seq(|ps|, k requires 0 <= k < |ps| => ps[k] + 1);
    assert forall i :: 1 <= i && i in r ==> i - 1 in ps by {
      forall i | 1 <= i && i in r ensures i - 1 in ps {
        var k :| 0 <= k < |r| && r[k] == i;
      }
    }
    assert forall i :: 1 <= i && i - 1 in ps ==> i in r by {
      forall i | 1 <= i && i - 1 in ps ensures i in r {
        var k :| 0 <= k < |ps| && ps[k] == i - 1;
        assert r[k] == i;
      }
    }
    r
  }

  /** The positions of the `getTransaction` calls, in call order. */
  function TransactionCalls(calls: seq<Call>): (positions: seq<nat>)
    ensures forall k :: 0 <= k < |positions| ==> positions[k] < |calls| && calls[positions[k]].GetTransaction?
  {
    if calls == [] then []
    else
      var shifted := Shifted(TransactionCalls(calls[1..]));
      if calls[0].GetTransaction? then [0] + shifted else shifted
  }

  /** Every `getTransaction` call is listed, and nothing else is. */
  lemma {:induction false} TransactionCallsComplete(calls: seq<Call>)
    ensures var ps := TransactionCalls(calls);
            forall i :: 0 <= i < |calls| ==> (calls[i].GetTransaction? <==> i in ps)
  {
    if calls != [] {
      var rest := TransactionCalls(calls[1..]);
      TransactionCallsComplete(calls[1..]);
      var shifted := Shifted(rest);
      var ps := TransactionCalls(calls);
      assert ps == if calls[0].GetTransaction? then [0] + shifted else shifted;
      forall i | 0 <= i < |calls|
        ensures calls[i].GetTransaction? <==> i in ps
      {
        if i > 0 {
          assert calls[i] == calls[1..][i - 1];
          assert i in ps <==> i in shifted;
        }
      }
    }
  }

  predicate Increasing(ps: seq<nat>) {
    forall j, k :: 0 <= j < k < |ps| ==> ps[j] < ps[k]
  }

  lemma ShiftedIncreasing(ps: seq<nat>)
    requires Increasing(ps)
    ensures Increasing(Shifted(ps))
  {
  }

  /** The positions are listed once each, strictly increasing. */
  lemma {:induction false} TransactionCallsIncrease(calls: seq<Call>)
    ensures Increasing(TransactionCalls(calls))
  {
    if calls != [] {
      var rest := TransactionCalls(calls[1..]);
      TransactionCallsIncrease(calls[1..]);
      ShiftedIncreasing(rest);
      var shifted := Shifted(rest);
      if calls[0].GetTransaction? {
        var ps := [0] + shifted;
        assert ps == TransactionCalls(calls);
        forall j, k | 0 <= j < k < |ps|
          ensures ps[j] < ps[k]
        {
          assert ps[k] == shifted[k - 1];
          if j > 0 {
            assert ps[j] == shifted[j - 1];
          }
        }
      }
    }
  }

  /** The hook runs exactly once per `getTransaction` call, in call order,
      with the very transaction that call returns; no other call reaches
      it. */
  lemma {:induction false} HookSeesEveryTransaction<R>(base: Call -> R, calls: seq<Call>)
    ensures var r := DecoratedCalls(base, calls);
            var ps := TransactionCalls(calls);
            |r.1| == |ps| && forall k :: 0 <= k < |ps| ==> r.1[k] == r.0[ps[k]]
    ensures var ps := TransactionCalls(calls);
            forall i :: 0 <= i < |calls| && calls[i].GetTransaction? ==>
              exists k :: 0 <= k < |ps| && ps[k] == i
    ensures Increasing(TransactionCalls(calls))
  {
    TransactionCallsComplete(calls);
    TransactionCallsIncrease(calls);
    HookSeesOneReplyPerPosition(base, calls);
  }

  lemma {:induction false} HookSeesOneReplyPerPosition<R>(base: Call -> R, calls: seq<Call>)
    ensures var r := DecoratedCalls(base, calls);
            var ps := TransactionCalls(calls);
            |r.1| == |ps| && forall k :: 0 <= k < |ps| ==> r.1[k] == r.0[ps[k]]
  {
    if calls != [] {
      HookSeesOneReplyPerPosition(base, calls[1..]);
    }
  }

  /** Without `getTransaction` calls the hook never runs and the decorator
      behaves exactly like its base manager. */
  lemma {:induction false} OtherCallsOnlyDelegate<R>(base: Call -> R, calls: seq<Call>)
    requires forall i :: 0 <= i < |calls| ==> !calls[i].GetTransaction?
    ensures DecoratedCalls(base, calls).1 == []
    ensures DecoratedCalls(base, calls).0 == seq(|calls|, i requires 0 <= i < |calls| => base(calls[i]))
  {
    if calls != [] {
      OtherCallsOnlyDelegate(base, calls[1..]);
    }
  }
}

=== FILE: definitions.dfy ===
/** The XML-bound definitions of a processing process: step parameters,
    step definitions with their lazily filtered parameter lists, and the
    adapter between a step's name in the declaration and the step itself. */
module StepDefinitions {
  import opened Wrappers
  import opened JavaLang
  import opened JavaText

  const InvalidStepMessage: string := "The specified step is not valid or accessible. Is it in the classpath?"

  /** A step parameter: the name of its XML element and its text content,
      which the binding may leave null. `getValue` is the `value` field. */
  datatype Parameter = Parameter(name: string, value: Option<string>)

  /** `convertValueToBoolean`: "true" in any letter case, or exactly "1";
      null is false. */
  function ConvertValueToBoolean(value: Option<string>): (b: bool)
    ensures value.None? ==> !b
    ensures b ==> |value.value| == 4 || value.value == "1"
  {
    value.Some? && (EqualsIgnoreCase("true", value.value) || value.value == "1")
  }

  /** The same predicate stated through upper-casing: the value is true
      exactly when it upper-cases to "TRUE" or is "1". */
  lemma ConvertValueToBooleanIff(value: Option<string>)
    ensures ConvertValueToBoolean(value) <==> value.Some? && (Upper(value.value) == "TRUE" || value.value == "1")
  {
    if value.Some? {
      EqualsIgnoreCaseMeansSameUpper("true", value.value);
      assert Upper("true") == "TRUE";
    }
  }

  /** Letter case is ignored for "true" only; "1" must be exact. */
  lemma ConvertValueToBooleanExamples()
    ensures ConvertValueToBoolean(Some("TRUE")) && ConvertValueToBoolean(Some("tRuE"))
    ensures ConvertValueToBoolean(Some("1"))
    ensures !ConvertValueToBoolean(Some("01")) && !ConvertValueToBoolean(Some(" true"))
    ensures !ConvertValueToBoolean(Some("yes")) && !ConvertValueToBoolean(None)
  {
    ConvertValueToBooleanIff(Some("TRUE"));
    ConvertValueToBooleanIff(Some("tRuE"));
    assert Upper("tRuE") == "TRUE";
    assert Upper("TRUE") == "TRUE";
    assert !EqualsIgnoreCase("true", "01");
    assert !EqualsIgnoreCase("true", " true");
    assert !EqualsIgnoreCase("true", "yes");
  }

  // ---------------------------------------------------------------------
  // Step definitions

  /** An element of the `parameters` wrapper as the binding leaves it: a
      parameter object, or an element no parameter class resolved. */
  datatype Element = Resolved(parameter: Parameter) | Unresolved

  /** The `parameters` field with its `parametersRead` flag: the raw
      element list (null when the wrapper is absent) before the first read,
      the filtered, unmodifiable list after it. */
  datatype ParameterList = Unread(elements: Option<seq<Element>>) | Read(parameters: seq<Parameter>)

  /** `removeIf` of the elements that are not parameters: the resolved
      ones, in order. */
  function ResolvedParameters(elements: seq<Element>): (ps: seq<Parameter>)
    ensures |ps| <= |elements|
    ensures forall p :: p in ps <==> Resolved(p) in elements
    ensures (forall i :: 0 <= i < |elements| ==> elements[i].Resolved?) ==> |ps| == |elements|
  {
    if elements == [] then []
    else
      var rest := ResolvedParameters(elements[1..]);
      assert forall e :: e in elements <==> e == elements[0] || e in elements[1..];
      match elements[0]
      case Resolved(p) => [p] + rest
      case Unresolved => rest
  }

  /** The positions of the resolved elements, in increasing order. */
  function ResolvedIndices(elements: seq<Element>): (idx: seq<nat>)
    ensures forall k :: 0 <= k < |idx| ==> idx[k] < |elements|
    decreases |elements|
  {
    if elements == [] then []
    else
      var rest := ResolvedIndices(elements[1..]);
      var shifted := seq(|rest|, j requires 0 <= j < |rest| => rest[j] + 1);
      if elements[0].Resolved? then [0] + shifted else shifted
  }

  /** The k-th kept parameter is the one of the k-th resolved element. */
  lemma {:induction false} ResolvedIndicesMatch(elements: seq<Element>)
    ensures |ResolvedIndices(elements)| == |ResolvedParameters(elements)|
    ensures forall k :: 0 <= k < |ResolvedIndices(elements)| ==>
              elements[ResolvedIndices(elements)[k]] == Resolved(ResolvedParameters(elements)[k])
    decreases |elements|
  {
    if elements != [] {
      ResolvedIndicesMatch(elements[1..]);
      var idx := ResolvedIndices(elements);
      var ps := ResolvedParameters(elements);
      var rest := ResolvedIndices(elements[1..]);
      var restPs := ResolvedParameters(elements[1..]);
      var d := if elements[0].Resolved? then 1 else 0;
      forall k | d <= k < |idx| ensures elements[idx[k]] == Resolved(ps[k]) {
        assert idx[k] == rest[k - d] + 1 && ps[k] == restPs[k - d];
        assert elements[idx[k]] == elements[1..][rest[k - d]];
      }
    }
  }

  /** The positions strictly increase. */
  lemma {:induction false} ResolvedIndicesIncrease(elements: seq<Element>)
    ensures forall k, l :: 0 <= k < l < |ResolvedIndices(elements)| ==> ResolvedIndices(elements)[k] < ResolvedIndices(elements)[l]
    decreases |elements|
  {
    if elements != [] {
      ResolvedIndicesIncrease(elements[1..]);
    }
  }

  /** Every resolved element has its position in the list. */
  lemma {:induction false} ResolvedIndicesComplete(elements: seq<Element>)
    ensures forall i :: 0 <= i < |elements| && elements[i].Resolved? ==> i in ResolvedIndices(elements)
    decreases |elements|
  {
    if elements != [] {
      ResolvedIndicesComplete(elements[1..]);
      var rest := ResolvedIndices(elements[1..]);
      var idx := ResolvedIndices(elements);
      forall i | 1 <= i < |elements| && elements[i].Resolved? ensures i in idx {
        assert elements[1..][i - 1] == elements[i];
        var j :| 0 <= j < |rest| && rest[j] == i - 1;
        if elements[0].Resolved? {
          assert idx[j + 1] == i;
        } else {
          assert idx[j] == i;
        }
      }
    }
  }

  /** Filtering keeps exactly the resolved elements, in order: there is a
      strictly increasing map from the kept parameters to the positions of
      their elements that reaches every resolved element. */
  lemma ResolvedParametersInOrder(elements: seq<Element>)
    ensures var ps := ResolvedParameters(elements);
            exists idx: seq<nat> ::
              && |idx| == |ps|
              && (forall k :: 0 <= k < |idx| ==> idx[k] < |elements| && elements[idx[k]] == Resolved(ps[k]))
              && (forall k, l :: 0 <= k < l < |idx| ==> idx[k] < idx[l])
              && (forall i :: 0 <= i < |elements| && elements[i].Resolved? ==> i in idx)
  {
    ResolvedIndicesMatch(elements);
    ResolvedIndicesIncrease(elements);
    ResolvedIndicesComplete(elements);
    var idx := ResolvedIndices(elements);
    assert forall k :: 0 <= k < |idx| ==> idx[k] < |elements| && elements[idx[k]] == Resolved(ResolvedParameters(elements)[k]);
  }

  /** `getParameters`: the first call replaces a null list by the empty
      one and otherwise drops the unresolved elements; every call returns
      the stored list. Gives the new state and the list. */
  function GetParameters(list: ParameterList): (r: (ParameterList, seq<Parameter>))
    ensures r.0 == Read(r.1)
    ensures list.Read? ==> r.1 == list.parameters
    ensures list == Unread(None) ==> r.1 == []
    ensures list.Unread? && list.elements.Some? ==>
              forall p :: p in r.1 <==> Resolved(p) in list.elements.value
  {
    match list
    case Read(ps) => (list, ps)
    case Unread(None) => (Read([]), [])
    case Unread(Some(es)) => var ps := ResolvedParameters(es); (Read(ps), ps)
  }

  /** The list is computed once: later calls return the same list and leave
      the state as it is. */
  lemma GetParametersIsStable(list: ParameterList)
    ensures var (state, ps) := GetParameters(list);
            GetParameters(state) == (state, ps)
  {
  }

  /** A list of resolved parameters only is returned whole. */
  lemma GetParametersKeepsResolved(ps: seq<Parameter>)
    ensures GetParameters(Unread(Some(seq(|ps|, i requires 0 <= i < |ps| => Resolved(ps[i]))))).1 == ps
  {
    ResolvedOfResolved(ps);
  }

  lemma {:induction false} ResolvedOfResolved(ps: seq<Parameter>)
    ensures ResolvedParameters(seq(|ps|, i requires 0 <= i < |ps| => Resolved(ps[i]))) == ps
    decreases |ps|
  {
    if ps != [] {
      var es := seq(|ps|, i requires 0 <= i < |ps| => Resolved(ps[i]));
      assert es[1..] == seq(|ps[1..]|, i requires 0 <= i < |ps[1..]| => Resolved(ps[1..][i]));
      ResolvedOfResolved(ps[1..]);
      assert [ps[0]] + ps[1..] == ps;
    }
  }

  // ---------------------------------------------------------------------
  // The step adapter

  /** A step service as the service loader lists it: the name it answers
      to, and the step its `create` makes. */
  datatype StepService<Step> = StepService(name: string, step: Step)

  /** What `marshal` reads of a step's class. */
  datatype StepClass = StepClass(simpleName: string, isAbstract: bool, isInterface: bool)

  /** The position of the first service with the given name. */
  function FirstNamed<Step>(services: seq<StepService<Step>>, name: string): (i: Option<nat>)
    ensures i.Some? ==> i.value < |services| && services[i.value].name == name
                        && forall j :: 0 <= j < i.value ==> services[j].name != name
    ensures i.None? ==> forall j :: 0 <= j < |services| ==> services[j].name != name
  {
    if services == [] then None
    else if services[0].name == name then Some(0)
    else match FirstNamed(services[1..], name)
      case None => None
      case Some(i) => Some(i + 1)
  }

  /** `unmarshal`: a null name is rejected by the non-null check; otherwise
      the step of the first service with that exact name, or an
      `IllegalArgumentException` when there is none. */
  function Unmarshal<Step>(v: Option<string>, services: seq<StepService<Step>>): (r: Result<Step, Exception>)
    ensures v.None? ==> r == Err(NullPointerException)
    ensures v.Some? ==> (r.Ok? <==> exists j :: 0 <= j < |services| && services[j].name == v.value)
    ensures v.Some? && r.Err? ==> r.error == IllegalArgumentException(InvalidStepMessage)
    ensures r.Ok? ==> exists j :: 0 <= j < |services| && services[j].name == v.value
                                  && services[j].step == r.value
                                  && forall k :: 0 <= k < j ==> services[k].name != v.value
  {
    match v
    case None => Err(NullPointerException)
    case Some(name) =>
      match FirstNamed(services, name)
      case None => Err(IllegalArgumentException(InvalidStepMessage))
      case Some(i) => Ok(services[i].step)
  }

  /** `marshal`: the simple name of a concrete class; an abstract class or
      an interface is rejected, and so is null. */
  function Marshal(v: Option<StepClass>): (r: Result<string, Exception>)
    ensures v.None? ==> r == Err(NullPointerException)
    ensures v.Some? ==> (r.Ok? <==> !v.value.isAbstract && !v.value.isInterface)
    ensures v.Some? && r.Err? ==> r.error == IllegalArgumentException(InvalidStepMessage)
    ensures r.Ok? ==> r.value == v.value.simpleName
  {
    match v
    case None => Err(NullPointerException)
    case Some(c) =>
      if c.isAbstract || c.isInterface then Err(IllegalArgumentException(InvalidStepMessage))
      else Ok(c.simpleName)
  }

  /** Marshalling a concrete step class and unmarshalling the name gives the
      step of the first service registered under the class's simple name. */
  lemma MarshalThenUnmarshal<Step>(c: StepClass, services: seq<StepService<Step>>, i: nat)
    requires !c.isAbstract && !c.isInterface
    requires i < |services| && services[i].name == c.simpleName
    requires forall j :: 0 <= j < i ==> services[j].name != c.simpleName
    ensures Marshal(Some(c)).Ok?
    ensures Unmarshal(Some(Marshal(Some(c)).value), services) == Ok(services[i].step)
  {
    var f := FirstNamed(services, c.simpleName);
    assert f == Some(i);
  }
}

=== FILE: dictionary.dfy ===
/** `NamedEntityDictionaryHelper`: reads named entity dictionaries (one
    tab-separated file per entity type, with `term` and `synonyms` columns)
    into a map from entity type labels to terms, and renders that map as
    the seed words property of the pattern learner. Walking the directory,
    reading and parsing the files and creating the temporary seed files are
    not modelled: a file arrives as its name, its header and its records. */
module Dictionary {
  import opened Wrappers
  import opened JavaLang
  import opened JavaText
  import opened JavaCollections

  // ---------------------------------------------------------------------
  // Terms

  /** `NamedEntityTerm`: a lower-cased term and its synonyms in insertion
      order. */
  datatype Term = Term(term: string, synonyms: seq<string>)

  /** `NamedEntityTerm.equals`: terms are equal when their term strings are,
      whatever their synonyms. */
  predicate TermEquals(a: Term, b: Term) {
    a.term == b.term
  }

  /** `NamedEntityTerm.hashCode`: the term string's hash code. */
  function TermHash(a: Term, hash: string -> int): int {
    hash(a.term)
  }

  lemma TermEqualityIgnoresSynonyms(a: Term, b: Term, hash: string -> int)
    ensures TermEquals(a, b) <==> a.term == b.term
    ensures TermEquals(a, b) ==> TermHash(a, hash) == TermHash(b, hash)
    ensures TermEquals(a, a.(synonyms := b.synonyms))
  {
  }

  /** Some term of the list has the term string `t`. */
  predicate HasTerm(terms: seq<Term>, t: string) {
    exists i :: 0 <= i < |terms| && terms[i].term == t
  }

  /** The list holds no two equal terms: it is a `LinkedHashSet` of terms. */
  predicate UniqueTerms(terms: seq<Term>) {
    forall i, j :: 0 <= i < j < |terms| ==> terms[i].term != terms[j].term
  }

  /** `Set.add` on a `LinkedHashSet` of terms: an equal term already present
      keeps its place and its synonyms. */
  function AddTerm(terms: seq<Term>, t: Term): (r: seq<Term>)
    ensures UniqueTerms(terms) ==> UniqueTerms(r)
    ensures HasTerm(r, t.term)
    ensures forall s :: HasTerm(r, s) <==> HasTerm(terms, s) || s == t.term
    ensures HasTerm(terms, t.term) ==> r == terms
    ensures !HasTerm(terms, t.term) ==> r == terms + [t]
  {
    if HasTerm(terms, t.term) then terms
    else
      HasTermAppend(terms, t);
      terms + [t]
  }

  lemma HasTermAppend(terms: seq<Term>, t: Term)
    ensures forall s :: HasTerm(terms + [t], s) <==> HasTerm(terms, s) || s == t.term
  {
    assert (terms + [t])[|terms|].term == t.term;
    forall s ensures HasTerm(terms + [t], s) <==> HasTerm(terms, s) || s == t.term {
      if HasTerm(terms, s) {
        var i :| 0 <= i < |terms| && terms[i].term == s;
        assert (terms + [t])[i] == terms[i];
      }
      if HasTerm(terms + [t], s) {
        var i :| 0 <= i < |terms + [t]| && (terms + [t])[i].term == s;
        if i < |terms| {
          assert terms[i] == (terms + [t])[i];
        }
      }
    }
  }

  // ---------------------------------------------------------------------
  // One dictionary record

  /** The synonyms kept from the pieces of a record's synonyms column, in
      order: lower-cased, without blank pieces, without the terms already
      registered for the label, and each at most once. */
  function KeptSynonyms(pieces: seq<string>, terms: seq<Term>): (r: seq<string>)
    ensures NoDuplicates(r)
    ensures forall k :: 0 <= k < |r| ==>
              !HasTerm(terms, r[k]) && exists i :: 0 <= i < |pieces| && !IsBlank(pieces[i]) && Lower(pieces[i]) == r[k]
    ensures forall i :: 0 <= i < |pieces| && !IsBlank(pieces[i]) && !HasTerm(terms, Lower(pieces[i])) ==>
              Lower(pieces[i]) in r
    decreases |pieces|
  {
    if pieces == [] then []
    else
      var init := pieces[..|pieces| - 1];
      var last := pieces[|pieces| - 1];
      var prev := KeptSynonyms(init, terms);
      assert forall i :: 0 <= i < |init| ==> pieces[i] == init[i];
      if !IsBlank(last) && !HasTerm(terms, Lower(last)) && Lower(last) !in prev then prev + [Lower(last)]
      else prev
  }

  /** A record as the parser delivers it: its line number and its term and
      synonyms columns, `None` when the record is too short to reach that
      column. The parser never gives null values. */
  datatype DictionaryRecord = DictionaryRecord(line: nat, term: Option<string>, synonyms: Option<string>)

  function MalformedMessage(line: nat, path: string, what: string): string {
    "Malformed input record at line " + NatToDecimal(line) + ", file " + path + ": " + what
  }

  /** What the parser throws for a header column beyond the record's
      values; the text of the parser's own message is not modelled. */
  const MissingColumnMessage: string := "Index for header beyond the record's values"

  /** A record the walk accepts: both columns present, and a non-blank
      term. */
  predicate ValidRecord(record: DictionaryRecord) {
    record.term.Some? && record.synonyms.Some? && !IsBlank(record.term.value)
  }

  /** The term a valid record adds to its label's terms: the lower-cased
      term with its kept synonyms. The term column is read first, outside
      the `try`, so a record too short for it throws the parser's
      `IllegalArgumentException`; a missing synonyms column is then
      reported as an `IOException` before a blank term. */
  function RecordTerm(terms: seq<Term>, record: DictionaryRecord, path: string): (r: Result<Term, Exception>)
    ensures r.Ok? <==> ValidRecord(record)
    ensures record.term.None? ==> r == Err(IllegalArgumentException(MissingColumnMessage))
    ensures record.term.Some? && record.synonyms.None? ==>
              r == Err(IOException(MalformedMessage(record.line, path, "missing synonyms")))
    ensures record.term.Some? && record.synonyms.Some? && IsBlank(record.term.value) ==>
              r == Err(IOException(MalformedMessage(record.line, path, "missing term")))
    ensures r.Ok? ==> r.value.term == Lower(record.term.value)
    ensures r.Ok? ==> r.value.synonyms == KeptSynonyms(JavaSplit(record.synonyms.value, ','), terms)
  {
    if record.term.None? then Err(IllegalArgumentException(MissingColumnMessage))
    else if record.synonyms.None? then Err(IOException(MalformedMessage(record.line, path, "missing synonyms")))
    else if IsBlank(record.term.value) then Err(IOException(MalformedMessage(record.line, path, "missing term")))
    else
      var pieces := JavaSplit(record.synonyms.value, ',');
      Ok(Term(Lower(record.term.value), KeptSynonyms(pieces, terms)))
  }

  /** The exceptions reading a dictionary can end with: one of the walk's
      `IOException`s, or the parser's `IllegalArgumentException` for a
      record too short to hold a term. */
  predicate ReadFailure(e: Exception) {
    e.IOException? || e == IllegalArgumentException(MissingColumnMessage)
  }

  // ---------------------------------------------------------------------
  // One dictionary file

  /** Where the last four characters of a file name start (`Math.max(length
      - 4, 0)`). */
  function ExtensionStart(name: string): (i: nat)
    ensures i <= |name|
    ensures |name| >= 4 ==> i == |name| - 4
    ensures |name| < 4 ==> i == 0
  {
    if |name| >= 4 then |name| - 4 else 0
  }

  /** The entity type label of a dictionary file: its name without the last
      four characters, upper-cased. */
  function EntityLabel(name: string): string {
    Upper(name[..ExtensionStart(name)])
  }

  /** Only regular files whose last four characters are ".tsv", ignoring
      case, are dictionaries. */
  predicate IsDictionaryFile(name: string, isDirectory: bool) {
    !isDirectory && EqualsIgnoreCase(name[ExtensionStart(name)..], ".tsv")
  }

  /** A regular file is a dictionary exactly when its name is some base name
      followed by ".tsv" in any case, and its label is then the upper-cased
      base name. */
  lemma DictionaryFileNames(base: string, extension: string)
    requires |extension| == 4
    ensures IsDictionaryFile(base + extension, false) <==> EqualsIgnoreCase(extension, ".tsv")
    ensures EntityLabel(base + extension) == Upper(base)
  {
    var name := base + extension;
    assert name[ExtensionStart(name)..] == extension;
    assert name[..ExtensionStart(name)] == base;
  }

  /** A name shorter than four characters is never a dictionary. */
  lemma ShortNamesAreNotDictionaries(name: string, isDirectory: bool)
    requires |name| < 4
    ensures !IsDictionaryFile(name, isDirectory)
  {
  }

  /** A file as the directory walk and the parser present it. */
  datatype DictionaryFile = DictionaryFile(
    name: string, path: string, isDirectory: bool, header: seq<string>, records: seq<DictionaryRecord>)

  /** The `DictionaryFileFields` names, lower-cased enum constants. */
  const TermField: string := "term"
  const SynonymsField: string := "synonyms"

  const MissingHeaderMessage: string := "Not all required fields are present in the header"

  /** The label-to-terms map of the walk. */
  type LabelTerms = map<string, seq<Term>>

  /** Every label maps to at least one term, and to no two equal terms. */
  predicate WellFormed(m: LabelTerms) {
    forall l :: l in m ==> m[l] != [] && UniqueTerms(m[l])
  }

  /** The records of one file, in order, added under its label; the first
      malformed record aborts. */
  function AddRecords(m: LabelTerms, entityLabel: string, records: seq<DictionaryRecord>, path: string): (r: Result<LabelTerms, Exception>)
    requires WellFormed(m)
    ensures r.Ok? ==> WellFormed(r.value)
    ensures r.Ok? ==> r.value.Keys == m.Keys + (if records == [] then {} else {entityLabel})
    ensures r.Ok? ==> forall l :: l in m && l != entityLabel ==> r.value[l] == m[l]
    ensures r.Err? ==> ReadFailure(r.error)
    decreases |records|
  {
    if records == [] then Ok(m)
    else
      var terms := if entityLabel in m then m[entityLabel] else [];
      match RecordTerm(terms, records[0], path)
      case Err(e) => Err(e)
      case Ok(t) =>
        AddTermUnderLabel(m, entityLabel, terms, t);
        AddRecords(m[entityLabel := AddTerm(terms, t)], entityLabel, records[1..], path)
  }

  /** Adding a term under a label keeps the map well formed and touches no
      other label. */
  lemma AddTermUnderLabel(m: LabelTerms, entityLabel: string, terms: seq<Term>, t: Term)
    requires WellFormed(m) && terms == (if entityLabel in m then m[entityLabel] else [])
    ensures var n := m[entityLabel := AddTerm(terms, t)];
            WellFormed(n) && n.Keys == m.Keys + {entityLabel} && forall l :: l in m && l != entityLabel ==> n[l] == m[l]
  {
    assert UniqueTerms(terms);
    assert AddTerm(terms, t) != [] by {
      assert HasTerm(AddTerm(terms, t), t.term);
    }
  }

  /** `visitFile`: a file that is not a dictionary is skipped; a dictionary
      must name both columns in its header (exactly, in lower case). */
  function VisitFile(m: LabelTerms, f: DictionaryFile): (r: Result<LabelTerms, Exception>)
    requires WellFormed(m)
    ensures r.Ok? ==> WellFormed(r.value)
    ensures !IsDictionaryFile(f.name, f.isDirectory) ==> r == Ok(m)
    ensures IsDictionaryFile(f.name, f.isDirectory) && (TermField !in f.header || SynonymsField !in f.header) ==>
              r == Err(IOException(MissingHeaderMessage))
    ensures r.Ok? ==> m.Keys <= r.value.Keys <= m.Keys + {EntityLabel(f.name)}
    ensures r.Err? ==> ReadFailure(r.error)
  {
    if !IsDictionaryFile(f.name, f.isDirectory) then Ok(m)
    else if TermField !in f.header || SynonymsField !in f.header then Err(IOException(MissingHeaderMessage))
    else AddRecords(m, EntityLabel(f.name), f.records, f.path)
  }

  /** `namedEntitiesFromPathChildren`: the files of the root directory in
      the walk's order (`None` for a null root path). */
  function NamedEntitiesFromFiles(files: Option<seq<DictionaryFile>>): (r: Result<LabelTerms, Exception>)
    ensures files.None? ==> r == Err(NullPointerException)
    ensures r.Ok? ==> WellFormed(r.value)
    ensures r.Ok? ==> forall l :: l in r.value ==> LabelOfSomeFile(l, files.value)
  {
    if files.None? then Err(NullPointerException)
    else VisitAll(map[], files.value)
  }

  /** `l` is the label of one of the dictionary files. */
  predicate LabelOfSomeFile(l: string, files: seq<DictionaryFile>) {
    exists i :: 0 <= i < |files| && IsDictionaryFile(files[i].name, files[i].isDirectory) && EntityLabel(files[i].name) == l
  }

  function VisitAll(m: LabelTerms, files: seq<DictionaryFile>): (r: Result<LabelTerms, Exception>)
    requires WellFormed(m)
    ensures r.Ok? ==> WellFormed(r.value)
    ensures r.Ok? ==> forall l :: l in r.value ==> (l in m || LabelOfSomeFile(l, files))
    decreases |files|
  {
    if files == [] then Ok(m)
    else
      match VisitFile(m, files[0])
      case Err(e) => Err(e)
      case Ok(m') =>
        var r := VisitAll(m', files[1..]);
        assert r.Ok? ==> forall l :: l in r.value ==> (l in m || LabelOfSomeFile(l, files)) by {
          if r.Ok? {
            forall l | l in r.value
              ensures l in m || LabelOfSomeFile(l, files)
            {
              if l !in m {
                if l in m' {
                  assert IsDictionaryFile(files[0].name, files[0].isDirectory) && EntityLabel(files[0].name) == l;
                } else {
                  var i :| 0 <= i < |files[1..]| && IsDictionaryFile(files[1..][i].name, files[1..][i].isDirectory)
                           && EntityLabel(files[1..][i].name) == l;
                  assert files[1..][i] == files[i + 1];
                }
              }
            }
          }
        }
        r
  }

  /** A term repeated under one label keeps the synonyms of its first
      record: the second record changes nothing. */
  lemma RepeatedTermKeepsFirstSynonyms(m: LabelTerms, entityLabel: string, first: DictionaryRecord, second: DictionaryRecord, path: string)
    requires WellFormed(m)
    requires entityLabel !in m
    requires RecordTerm([], first, path).Ok? && second.synonyms.Some? && second.term.Some?
    requires !IsBlank(second.term.value) && Lower(second.term.value) == Lower(first.term.value)
    ensures AddRecords(m, entityLabel, [first, second], path) == Ok(m[entityLabel := [RecordTerm([], first, path).value]])
  {
    var t := RecordTerm([], first, path).value;
    var m1 := m[entityLabel := [t]];
    FirstRecordStep(m, entityLabel, first, second, path, t);
    var r2 := RecordTerm([t], second, path);
    assert r2.Ok? && r2.value.term == t.term;
    SameTermStep(m1, entityLabel, second, path, t, r2.value);
  }

  lemma FirstRecordStep(m: LabelTerms, entityLabel: string, first: DictionaryRecord, second: DictionaryRecord,
                        path: string, t: Term)
    requires WellFormed(m) && entityLabel !in m && RecordTerm([], first, path) == Ok(t)
    ensures WellFormed(m[entityLabel := [t]])
    ensures AddRecords(m, entityLabel, [first, second], path) == AddRecords(m[entityLabel := [t]], entityLabel, [second], path)
  {
    assert AddTerm([], t) == [t];
    AddRecordsStep(m, entityLabel, [first, second], path, [], t);
    assert [first, second][1..] == [second];
  }

  /** A record whose term is already the only one under the label changes
      nothing. */
  lemma SameTermStep(m: LabelTerms, entityLabel: string, second: DictionaryRecord, path: string, t: Term, t2: Term)
    requires WellFormed(m) && entityLabel in m && m[entityLabel] == [t]
    requires RecordTerm([t], second, path) == Ok(t2) && t2.term == t.term
    ensures AddRecords(m, entityLabel, [second], path) == Ok(m)
  {
    assert AddTerm([t], t2) == [t] by {
      assert [t][0].term == t2.term;
    }
    AddRecordsStep(m, entityLabel, [second], path, [t], t2);
    assert m[entityLabel := [t]] == m;
    assert [second][1..] == [];
  }

  /** The first record of a list, added to the terms already under the
      label, and the rest after it. */
  lemma AddRecordsStep(m: LabelTerms, entityLabel: string, records: seq<DictionaryRecord>, path: string,
                       terms: seq<Term>, t: Term)
    requires WellFormed(m) && records != []
    requires terms == (if entityLabel in m then m[entityLabel] else [])
    requires RecordTerm(terms, records[0], path) == Ok(t)
    ensures WellFormed(m[entityLabel := AddTerm(terms, t)])
    ensures AddRecords(m, entityLabel, records, path) == AddRecords(m[entityLabel := AddTerm(terms, t)], entityLabel, records[1..], path)
  {
  }

  /** The label `l` holds a term with the term string `s`. */
  predicate Holds(m: LabelTerms, l: string, s: string) {
    l in m && HasTerm(m[l], s)
  }

  /** Some record has the lower-cased term `s`. */
  predicate TermOfRecords(s: string, records: seq<DictionaryRecord>) {
    exists k :: 0 <= k < |records| && records[k].term.Some? && Lower(records[k].term.value) == s
  }

  /** Every term held in `m` is still held in `n`. */
  ghost predicate Grows(m: LabelTerms, n: LabelTerms) {
    forall l, s :: Holds(m, l, s) ==> Holds(n, l, s)
  }

  /** Every record is valid and its lower-cased term is under `l` in `m`. */
  predicate RecordsHeld(m: LabelTerms, l: string, records: seq<DictionaryRecord>) {
    forall k :: 0 <= k < |records| ==> ValidRecord(records[k]) && Holds(m, l, Lower(records[k].term.value))
  }

  /** Every term under a label of `n` is held in `m` or comes from one of
      the records under `l`. */
  ghost predicate FromRecords(n: LabelTerms, m: LabelTerms, l: string, records: seq<DictionaryRecord>) {
    forall l', s :: Holds(n, l', s) ==> Holds(m, l', s) || (l' == l && TermOfRecords(s, records))
  }

  /** Adding a term under a label holds exactly what was held before and
      the added term under that label. */
  lemma AddTermHolds(m: LabelTerms, entityLabel: string, terms: seq<Term>, t: Term)
    requires terms == (if entityLabel in m then m[entityLabel] else [])
    ensures forall l, s :: Holds(m[entityLabel := AddTerm(terms, t)], l, s) <==>
                           Holds(m, l, s) || (l == entityLabel && s == t.term)
  {
    var n := m[entityLabel := AddTerm(terms, t)];
    forall l, s ensures Holds(n, l, s) <==> Holds(m, l, s) || (l == entityLabel && s == t.term) {
      if l == entityLabel {
        assert HasTerm(AddTerm(terms, t), s) <==> HasTerm(terms, s) || s == t.term;
      }
    }
  }

  /** Reading one file's records succeeds exactly when every record is
      valid. */
  lemma {:induction false} AddRecordsSucceeds(m: LabelTerms, entityLabel: string, records: seq<DictionaryRecord>, path: string)
    requires WellFormed(m)
    ensures AddRecords(m, entityLabel, records, path).Ok? <==> forall k :: 0 <= k < |records| ==> ValidRecord(records[k])
    decreases |records|
  {
    if records != [] {
      var terms := if entityLabel in m then m[entityLabel] else [];
      var first := RecordTerm(terms, records[0], path);
      if first.Ok? {
        AddRecordsStep(m, entityLabel, records, path, terms, first.value);
        AddRecordsSucceeds(m[entityLabel := AddTerm(terms, first.value)], entityLabel, records[1..], path);
        assert forall k :: 1 <= k < |records| ==> records[k] == records[1..][k - 1];
      }
    }
  }

  /** After a successful read, each record's lower-cased term is under the
      label and every term held before is still held. */
  lemma {:induction false} AddRecordsHolds(m: LabelTerms, entityLabel: string, records: seq<DictionaryRecord>, path: string)
    requires WellFormed(m)
    ensures var r := AddRecords(m, entityLabel, records, path);
            r.Ok? ==> RecordsHeld(r.value, entityLabel, records) && Grows(m, r.value)
    decreases |records|
  {
    if records != [] {
      var terms := if entityLabel in m then m[entityLabel] else [];
      var first := RecordTerm(terms, records[0], path);
      if first.Ok? {
        var t := first.value;
        var m1 := m[entityLabel := AddTerm(terms, t)];
        AddRecordsStep(m, entityLabel, records, path, terms, t);
        AddTermHolds(m, entityLabel, terms, t);
        AddRecordsHolds(m1, entityLabel, records[1..], path);
        var r := AddRecords(m1, entityLabel, records[1..], path);
        if r.Ok? {
          forall k | 0 <= k < |records|
            ensures ValidRecord(records[k]) && Holds(r.value, entityLabel, Lower(records[k].term.value))
          {
            if k > 0 {
              assert records[k] == records[1..][k - 1];
            }
          }
        }
      }
    }
  }

  /** After a successful read, every term under a label was held before or
      is the lower-cased term of one of the records, under this label. */
  lemma {:induction false} AddRecordsFrom(m: LabelTerms, entityLabel: string, records: seq<DictionaryRecord>, path: string)
    requires WellFormed(m)
    ensures var r := AddRecords(m, entityLabel, records, path);
            r.Ok? ==> FromRecords(r.value, m, entityLabel, records)
    decreases |records|
  {
    if records != [] {
      var terms := if entityLabel in m then m[entityLabel] else [];
      var first := RecordTerm(terms, records[0], path);
      if first.Ok? {
        var t := first.value;
        var m1 := m[entityLabel := AddTerm(terms, t)];
        AddRecordsStep(m, entityLabel, records, path, terms, t);
        AddTermHolds(m, entityLabel, terms, t);
        AddRecordsFrom(m1, entityLabel, records[1..], path);
        var r := AddRecords(m1, entityLabel, records[1..], path);
        if r.Ok? {
          forall l, s | Holds(r.value, l, s) ensures Holds(m, l, s) || (l == entityLabel && TermOfRecords(s, records)) {
            if !Holds(m1, l, s) {
              var k :| 0 <= k < |records[1..]| && records[1..][k].term.Some? && Lower(records[1..][k].term.value) == s;
              assert records[k + 1] == records[1..][k];
            } else if !Holds(m, l, s) {
              assert records[0].term.Some? && Lower(records[0].term.value) == s;
            }
          }
        }
      }
    }
  }

  /** Reading one file keeps the terms already read; a dictionary's records
      all land under its label, and every new term comes from them. */
  ghost predicate FileRead(m: LabelTerms, n: LabelTerms, f: DictionaryFile) {
    Grows(m, n)
    && (IsDictionaryFile(f.name, f.isDirectory) ==>
          RecordsHeld(n, EntityLabel(f.name), f.records) && FromRecords(n, m, EntityLabel(f.name), f.records))
    && (!IsDictionaryFile(f.name, f.isDirectory) ==> n == m)
  }

  /** `visitFile` in terms of the records it reads. */
  lemma VisitFileTerms(m: LabelTerms, f: DictionaryFile)
    requires WellFormed(m)
    ensures var r := VisitFile(m, f); r.Ok? ==> FileRead(m, r.value, f)
  {
    if IsDictionaryFile(f.name, f.isDirectory) && TermField in f.header && SynonymsField in f.header {
      AddRecordsHolds(m, EntityLabel(f.name), f.records, f.path);
      AddRecordsFrom(m, EntityLabel(f.name), f.records, f.path);
    }
  }

  /** The dictionary file `i` has the label `l` and a record with the
      lower-cased term `s`. */
  predicate TermOfFiles(l: string, s: string, files: seq<DictionaryFile>) {
    exists i :: 0 <= i < |files| && IsDictionaryFile(files[i].name, files[i].isDirectory)
                && EntityLabel(files[i].name) == l && TermOfRecords(s, files[i].records)
  }

  /** Every record of every dictionary file among `files` is valid and its
      lower-cased term is under that file's label in `n`. */
  predicate FilesHeld(n: LabelTerms, files: seq<DictionaryFile>) {
    forall i :: 0 <= i < |files| && IsDictionaryFile(files[i].name, files[i].isDirectory) ==>
      RecordsHeld(n, EntityLabel(files[i].name), files[i].records)
  }

  /** A held term stays held as more is read. */
  lemma RecordsHeldGrows(m: LabelTerms, n: LabelTerms, l: string, records: seq<DictionaryRecord>)
    requires RecordsHeld(m, l, records) && Grows(m, n)
    ensures RecordsHeld(n, l, records)
  {
  }

  /** Reading the files in walk order: every record of every dictionary file
      is valid and its lower-cased term is under that file's label, and
      terms already read stay. */
  lemma {:induction false} VisitAllHolds(m: LabelTerms, files: seq<DictionaryFile>)
    requires WellFormed(m)
    ensures var r := VisitAll(m, files);
            r.Ok? ==> FilesHeld(r.value, files) && Grows(m, r.value)
    decreases |files|
  {
    if files != [] {
      var first := VisitFile(m, files[0]);
      if first.Ok? {
        var m1 := first.value;
        VisitAllStep(m, files);
        VisitFileTerms(m, files[0]);
        VisitAllHolds(m1, files[1..]);
        var r := VisitAll(m1, files[1..]);
        if r.Ok? {
          var n := r.value;
          forall i | 0 <= i < |files| && IsDictionaryFile(files[i].name, files[i].isDirectory)
            ensures RecordsHeld(n, EntityLabel(files[i].name), files[i].records)
          {
            if i == 0 {
              RecordsHeldGrows(m1, n, EntityLabel(files[0].name), files[0].records);
            } else {
              assert files[i] == files[1..][i - 1];
            }
          }
        }
      }
    }
  }

  /** Reading the files in walk order: every term under a label was there
      before or comes from a record of a dictionary file with that label. */
  lemma {:induction false} VisitAllFrom(m: LabelTerms, files: seq<DictionaryFile>)
    requires WellFormed(m)
    ensures var r := VisitAll(m, files);
            r.Ok? ==> forall l, s :: Holds(r.value, l, s) ==> Holds(m, l, s) || TermOfFiles(l, s, files)
    decreases |files|
  {
    if files != [] {
      var first := VisitFile(m, files[0]);
      if first.Ok? {
        var m1 := first.value;
        VisitAllStep(m, files);
        VisitFileTerms(m, files[0]);
        VisitAllFrom(m1, files[1..]);
        var r := VisitAll(m1, files[1..]);
        if r.Ok? {
          forall l, s | Holds(r.value, l, s) ensures Holds(m, l, s) || TermOfFiles(l, s, files) {
            if !Holds(m1, l, s) {
              var i :| 0 <= i < |files[1..]| && IsDictionaryFile(files[1..][i].name, files[1..][i].isDirectory)
                       && EntityLabel(files[1..][i].name) == l && TermOfRecords(s, files[1..][i].records);
              assert files[i + 1] == files[1..][i];
            } else if !Holds(m, l, s) {
              assert IsDictionaryFile(files[0].name, files[0].isDirectory);
            }
          }
        }
      }
    }
  }

  /** Walking a non-empty list reads the first file, then the rest. */
  lemma VisitAllStep(m: LabelTerms, files: seq<DictionaryFile>)
    requires WellFormed(m) && files != [] && VisitFile(m, files[0]).Ok?
    ensures VisitAll(m, files) == VisitAll(VisitFile(m, files[0]).value, files[1..])
  {
  }

  /** The dictionaries read from a root directory hold exactly the terms of
      the dictionary files' records: each record is valid and its
      lower-cased term is under its file's label, and every term under a
      label comes from a record of a dictionary file with that label. */
  lemma NamedEntitiesTerms(files: seq<DictionaryFile>)
    ensures var r := NamedEntitiesFromFiles(Some(files));
            r.Ok? ==> FilesHeld(r.value, files)
    ensures var r := NamedEntitiesFromFiles(Some(files));
            r.Ok? ==> forall l, s :: Holds(r.value, l, s) <==> TermOfFiles(l, s, files)
  {
    VisitAllHolds(map[], files);
    VisitAllFrom(map[], files);
    var r := NamedEntitiesFromFiles(Some(files));
    if r.Ok? {
      forall l, s | TermOfFiles(l, s, files) ensures Holds(r.value, l, s) {
        var i :| 0 <= i < |files| && IsDictionaryFile(files[i].name, files[i].isDirectory)
                 && EntityLabel(files[i].name) == l && TermOfRecords(s, files[i].records);
        var k :| 0 <= k < |files[i].records| && files[i].records[k].term.Some?
                 && Lower(files[i].records[k].term.value) == s;
        assert RecordsHeld(r.value, l, files[i].records);
      }
    }
  }

  // ---------------------------------------------------------------------
  // The seed words property

  /** One seed words file: each term on its own line, followed by its
      synonyms, one per line. */
  function SeedLines(terms: seq<Term>): (r: seq<string>)
    ensures |r| >= |terms|
  {
    if terms == [] then [] else [terms[0].term] + terms[0].synonyms + SeedLines(terms[1..])
  }

  function SeedFileContents(terms: seq<Term>): string {
    Terminated(SeedLines(terms), '\n')
  }

  /** Splitting a seed file at its line breaks gives its lines back, plus
      the empty remainder after the last break, when no line contains a
      break. */
  lemma SeedFileLines(terms: seq<Term>)
    requires terms != []
    requires forall k :: 0 <= k < |SeedLines(terms)| ==> '\n' !in SeedLines(terms)[k]
    ensures SplitAll(SeedFileContents(terms), '\n') == SeedLines(terms) + [""]
  {
    var lines := SeedLines(terms);
    TerminatedIsJoinPlusSeparator(lines, '\n');
    var extended := lines + [""];
    JoinWithEmptyLast(lines, "\n");
    SplitAllJoin(extended, '\n');
  }

  lemma {:induction false} JoinWithEmptyLast(xs: seq<string>, sep: string)
    requires xs != []
    ensures Join(xs + [""], sep) == Join(xs, sep) + sep
    decreases |xs|
  {
    if |xs| == 1 {
      assert (xs + [""])[1..] == [""];
    } else {
      assert (xs + [""])[1..] == xs[1..] + [""];
      JoinWithEmptyLast(xs[1..], sep);
    }
  }

  /** The entry of a entityLabel: `LABEL,path`. */
  function SeedEntry(entityLabel: string, path: string): string {
    entityLabel + "," + path
  }

  /** The labels in the map's iteration order, and the real path of the
      temporary file created for each. */
  ghost predicate IsIterationOrder(order: seq<string>, m: LabelTerms) {
    (forall l :: l in order <==> l in m) && NoDuplicates(order)
  }

  function SeedEntries(order: seq<string>, paths: seq<string>): (r: seq<string>)
    requires |paths| == |order|
    ensures |r| == |order|
    ensures forall i :: 0 <= i < |order| ==> r[i] == SeedEntry(order[i], paths[i])
  {
    seq(|order|, i requires 0 <= i < |order| => SeedEntry(order[i], paths[i]))
  }

  /** `namedEntitiesToSeedWordsFilesProperty`: the property value (every
      entry followed by ';', then the last ';' removed) and the contents of
      each label's file, in iteration order. */
  function SeedWordsProperty(m: Option<LabelTerms>, order: seq<string>, paths: seq<string>): (r: Result<(string, seq<string>), Exception>)
    requires m.Some? ==> IsIterationOrder(order, m.value) && |paths| == |order|
    ensures m.None? <==> r.Err?
    ensures r.Err? ==> r.error == NullPointerException
    ensures r.Ok? ==> |r.value.1| == |order|
    ensures r.Ok? ==> forall i :: 0 <= i < |order| ==> r.value.1[i] == SeedFileContents(m.value[order[i]])
    ensures r.Ok? && order == [] ==> r.value.0 == ""
  {
    if m.None? then Err(NullPointerException)
    else
      var value := BuilderJoin(SeedEntries(order, paths), ';');
      var files := seq(|order|, i requires 0 <= i < |order| => SeedFileContents(m.value[order[i]]));
      Ok((value, files))
  }

  /** The property is the entries joined with ';' with no trailing ';';
      when neither labels nor paths contain ';', it splits back into one
      `LABEL,path` entry per label, in iteration order. */
  lemma SeedPropertyEntries(m: LabelTerms, order: seq<string>, paths: seq<string>)
    requires IsIterationOrder(order, m) && |paths| == |order| && order != []
    requires forall i :: 0 <= i < |order| ==> ';' !in order[i] && ';' !in paths[i]
    ensures SplitAll(SeedWordsProperty(Some(m), order, paths).value.0, ';') == SeedEntries(order, paths)
  {
    var entries := SeedEntries(order, paths);
    BuilderJoinIsJoin(entries, ';');
    forall k | 0 <= k < |entries| ensures ';' !in entries[k] {
      assert entries[k] == order[k] + "," + paths[k];
    }
    SplitAllJoin(entries, ';');
  }

  /** An entry splits at its first ',' into the label and the path, for a
      label without ','. */
  lemma SeedEntrySplits(entityLabel: string, path: string)
    requires ',' !in entityLabel
    ensures var e := SeedEntry(entityLabel, path);
            ',' in e && e[..IndexOf(e, ',')] == entityLabel && e[IndexOf(e, ',') + 1..] == path
  {
    var e := SeedEntry(entityLabel, path);
    var i := |entityLabel|;
    assert e[i] == ',';
    assert e[..i] == entityLabel;
    var j := IndexOf(e, ',');
    assert forall k :: 0 <= k < i ==> e[k] == entityLabel[k];
    assert forall k :: 0 <= k < j ==> e[..j][k] == e[k];
    assert j == i;
    assert e[i + 1..] == path;
  }
}

=== FILE: document_rows.dfy ===
/** What the row-per-document steps (empty filtering, mention filtering,
    CoreNLP tokenization and lemmatization) share: the per-batch action that
    turns each row of an unprocessed document into a saved processed
    document, and the shape of their `run`.

    A row holds the document's key in column 0 and the value of attribute
    `j` in column `j + 1`. The action reuses one attribute map for the whole
    batch; the model keeps that, and proves that no document sees another's
    attributes because every row puts every attribute name. */
module DocumentRows {
  import opened Wrappers
  import opened JavaLang
  import opened JavaText
  import opened JavaCollections
  import BatchScanner

  /** Every row of the batch has the key column and a column per attribute. */
  predicate RowsHaveColumns(batch: seq<seq<string>>, attributes: nat) {
    forall r :: 0 <= r < |batch| ==> |batch[r]| > attributes
  }

  lemma RowsHaveColumnsTail(batch: seq<seq<string>>, attributes: nat)
    requires batch != [] && RowsHaveColumns(batch, attributes)
    ensures RowsHaveColumns(batch[1..], attributes)
  {
    forall r | 0 <= r < |batch[1..]| ensures |batch[1..][r]| > attributes {
      assert batch[1..][r] == batch[r + 1];
    }
  }

  /** The attribute columns of a row, in order. */
  function AttributeColumns(row: seq<string>, attributes: nat): (vs: seq<string>)
    requires |row| > attributes
    ensures |vs| == attributes
    ensures forall j :: 0 <= j < attributes ==> vs[j] == row[j + 1]
  {
    row[1..attributes + 1]
  }

  /** The attribute columns of a row after the step's transformation. */
  function Transformed(row: seq<string>, attributes: nat, transform: string -> string): (vs: seq<string>)
    requires |row| > attributes
    ensures |vs| == attributes
    ensures forall j :: 0 <= j < attributes ==> vs[j] == transform(row[j + 1])
  {
    seq(attributes, j requires 0 <= j < attributes => transform(row[j + 1]))
  }

  /** A processed document handed to `saveProcessedDocument`: its key and
      its attribute map. */
  datatype Saved = Saved(id: int, attributes: map<string, string>)

  /** What one call of the per-batch action did: the documents whose save
      returned normally, in order, and the exception that ended the call
      early, if any. */
  datatype BatchRun = BatchRun(saved: seq<Saved>, failure: Option<Exception>)

  /** The document one row gives when its attributes go into a map of its
      own: the key is `Integer.parseInt` of column 0, and every attribute
      name maps to the transformed column of its last position. */
  function Document(row: seq<string>, names: seq<string>, transform: string -> string): (r: Result<Saved, Exception>)
    requires |row| > |names|
    ensures r.Ok? <==> ParseInt(row[0]).Some?
    ensures r.Err? ==> r.error == NumberFormatException
    ensures r.Ok? ==> r.value.id == ParseInt(row[0]).value
    ensures r.Ok? ==> r.value.attributes.Keys == Elements(names)
    ensures r.Ok? ==> forall j :: 0 <= j < |names| && LastPut(names, j) ==>
                        r.value.attributes[names[j]] == transform(row[j + 1])
  {
    match ParseInt(row[0])
    case None => Err(NumberFormatException)
    case Some(id) =>
      var vs := Transformed(row, |names|, transform);
      var m := PutAll(map[], names, vs);
      assert m.Keys == Elements(names) by {
        forall k | k in m ensures k in Elements(names) {
          var i :| 0 <= i < |names| && names[i] == k;
        }
      }
      forall j | 0 <= j < |names| && LastPut(names, j) ensures m[names[j]] == transform(row[j + 1]) {
        LastPutWins(map[], names, vs, j);
      }
      Ok(Saved(id, m))
  }

  /** The rows `keep` accepts, judged on their attribute columns. */
  function KeptRows(rows: seq<seq<string>>, attributes: nat, keep: seq<string> -> bool): (kept: seq<seq<string>>)
    requires RowsHaveColumns(rows, attributes)
    ensures RowsHaveColumns(kept, attributes)
    ensures |kept| <= |rows|
    ensures forall k :: 0 <= k < |kept| ==> keep(AttributeColumns(kept[k], attributes))
    decreases |rows|
  {
    if rows == [] then []
    else
      RowsHaveColumnsTail(rows, attributes);
      var rest := KeptRows(rows[1..], attributes, keep);
      if keep(AttributeColumns(rows[0], attributes)) then [rows[0]] + rest else rest
  }

  /** A `keep` that accepts everything keeps every row. */
  lemma {:induction false} KeepAllKeepsRows(rows: seq<seq<string>>, attributes: nat, keep: seq<string> -> bool)
    requires RowsHaveColumns(rows, attributes) && forall vs :: keep(vs)
    ensures KeptRows(rows, attributes, keep) == rows
    decreases |rows|
  {
    if rows != [] {
      RowsHaveColumnsTail(rows, attributes);
      KeepAllKeepsRows(rows[1..], attributes, keep);
      assert keep(AttributeColumns(rows[0], attributes));
      assert [rows[0]] + rows[1..] == rows;
    }
  }

  /** The per-batch action as written: one map for the whole batch; for
      every row `keep` accepts, every attribute is put into it, the key is
      parsed (a `NumberFormatException` ends the call) and the document is
      saved with the map (`save` says what saving throws, which also ends
      the call). */
  function SaveRows(rows: seq<seq<string>>, names: seq<string>, transform: string -> string,
                    keep: seq<string> -> bool, save: Saved -> Option<Exception>,
                    shared: map<string, string>): (r: BatchRun)
    requires RowsHaveColumns(rows, |names|)
    ensures |r.saved| <= |rows|
    decreases |rows|
  {
    if rows == [] then BatchRun([], None)
    else
      RowsHaveColumnsTail(rows, |names|);
      var row := rows[0];
      if !keep(AttributeColumns(row, |names|)) then SaveRows(rows[1..], names, transform, keep, save, shared)
      else
        var m := PutAll(shared, names, Transformed(row, |names|, transform));
        match ParseInt(row[0])
        case None => BatchRun([], Some(NumberFormatException))
        case Some(id) =>
          var doc := Saved(id, m);
          match save(doc)
          case Some(e) => BatchRun([], Some(e))
          case None =>
            var rest := SaveRows(rows[1..], names, transform, keep, save, m);
            BatchRun([doc] + rest.saved, rest.failure)
  }

  /** The action on one batch: the shared map starts empty. */
  function SaveBatch(rows: seq<seq<string>>, names: seq<string>, transform: string -> string,
                     keep: seq<string> -> bool, save: Saved -> Option<Exception>): (r: BatchRun)
    requires RowsHaveColumns(rows, |names|)
  {
    SaveRows(rows, names, transform, keep, save, map[])
  }

  /** The document of each kept row. */
  function Documents(kept: seq<seq<string>>, names: seq<string>, transform: string -> string)
    : (ds: seq<Result<Saved, Exception>>)
    requires RowsHaveColumns(kept, |names|)
    ensures |ds| == |kept| && forall k :: 0 <= k < |kept| ==> ds[k] == Document(kept[k], names, transform)
  {
    seq(|kept|, k requires 0 <= k < |kept| => Document(kept[k], names, transform))
  }

  lemma DocumentsCons(row: seq<string>, kept: seq<seq<string>>, names: seq<string>, transform: string -> string)
    requires |row| > |names| && RowsHaveColumns(kept, |names|)
    ensures RowsHaveColumns([row] + kept, |names|)
    ensures Documents([row] + kept, names, transform) == [Document(row, names, transform)] + Documents(kept, names, transform)
  {
    var all := [row] + kept;
    forall k | 0 <= k < |all| ensures |all[k]| > |names| {
      if k > 0 {
        assert all[k] == kept[k - 1];
      }
    }
    var ds, es := Documents(all, names, transform), Documents(kept, names, transform);
    forall k | 0 <= k < |all| ensures ds[k] == ([Document(row, names, transform)] + es)[k] {
      if k > 0 {
        assert all[k] == kept[k - 1];
      }
    }
  }

  /** `r` accounts for the documents `ds` of the kept rows: its saved
      documents are the first of them, in order, each saved without an
      exception, and it has a failure exactly when it stops short, that
      failure being the key parse error or the save exception of the first
      document not saved. */
  predicate Accounts(r: BatchRun, ds: seq<Result<Saved, Exception>>, save: Saved -> Option<Exception>) {
    && |r.saved| <= |ds|
    && (forall k :: 0 <= k < |r.saved| ==> ds[k] == Ok(r.saved[k]) && save(r.saved[k]).None?)
    && (r.failure.None? <==> |r.saved| == |ds|)
    && (r.failure.Some? ==> if ds[|r.saved|].Err? then r.failure.value == ds[|r.saved|].error
                            else save(ds[|r.saved|].value) == r.failure)
  }

  /** A document that is saved, followed by a run that accounts for the
      remaining documents. */
  lemma AccountsCons(doc: Saved, rest: BatchRun, ds: seq<Result<Saved, Exception>>, save: Saved -> Option<Exception>)
    requires save(doc).None? && Accounts(rest, ds, save)
    ensures Accounts(BatchRun([doc] + rest.saved, rest.failure), [Ok(doc)] + ds, save)
  {
    var all := [Ok(doc)] + ds;
    var saved := [doc] + rest.saved;
    forall k | 0 <= k < |saved| ensures all[k] == Ok(saved[k]) && save(saved[k]).None? {
      if k > 0 {
        assert all[k] == ds[k - 1] && saved[k] == rest.saved[k - 1];
      }
    }
    if rest.failure.Some? {
      assert all[|saved|] == ds[|rest.saved|];
    }
  }

  /** The reference the action is measured against: the kept rows in
      order, each saved as its own `Document`, up to the first row whose key
      does not parse or whose save throws. */
  function SaveEach(rows: seq<seq<string>>, names: seq<string>, transform: string -> string,
                    keep: seq<string> -> bool, save: Saved -> Option<Exception>): (r: BatchRun)
    requires RowsHaveColumns(rows, |names|)
    ensures Accounts(r, Documents(KeptRows(rows, |names|, keep), names, transform), save)
    decreases |rows|
  {
    if rows == [] then BatchRun([], None)
    else
      RowsHaveColumnsTail(rows, |names|);
      var row := rows[0];
      var later := KeptRows(rows[1..], |names|, keep);
      if !keep(AttributeColumns(row, |names|)) then SaveEach(rows[1..], names, transform, keep, save)
      else
        assert KeptRows(rows, |names|, keep) == [row] + later;
        DocumentsCons(row, later, names, transform);
        match Document(row, names, transform)
        case Err(e) => BatchRun([], Some(e))
        case Ok(doc) =>
          match save(doc)
          case Some(e) => BatchRun([], Some(e))
          case None =>
            var rest := SaveEach(rows[1..], names, transform, keep, save);
            AccountsCons(doc, rest, Documents(later, names, transform), save);
            BatchRun([doc] + rest.saved, rest.failure)
  }

  /** Putting every key over a map is putting them over the empty map and
      adding the result on top. */
  lemma {:induction false} PutAllOver<K(!new), V>(m: map<K, V>, n: map<K, V>, keys: seq<K>, values: seq<V>)
    requires |keys| == |values|
    ensures PutAll(m + n, keys, values) == m + PutAll(n, keys, values)
    decreases |keys|
  {
    if keys != [] {
      assert (m + n)[keys[0] := values[0]] == m + n[keys[0] := values[0]];
      PutAllOver(m, n[keys[0] := values[0]], keys[1..], values[1..]);
    }
  }

  /** A map holding only names that are about to be put again forgets
      everything: the reused map behaves as a fresh one. */
  lemma ReusedMapIsFresh(shared: map<string, string>, names: seq<string>, values: seq<string>)
    requires |names| == |values| && shared.Keys <= Elements(names)
    ensures PutAll(shared, names, values) == PutAll(map[], names, values)
  {
    PutAllOver(shared, map[], names, values);
    assert shared + map[] == shared;
    var own := PutAll(map[], names, values);
    forall k | k in shared ensures k in own {
      var i :| 0 <= i < |names| && names[i] == k;
    }
  }

  /** The reused map is harmless: the action as written saves exactly what
      saving every kept row with a map of its own saves, and ends the same
      way. */
  lemma {:induction false} SharedMapIsFresh(rows: seq<seq<string>>, names: seq<string>, transform: string -> string,
                                            keep: seq<string> -> bool, save: Saved -> Option<Exception>,
                                            shared: map<string, string>)
    requires RowsHaveColumns(rows, |names|) && shared.Keys <= Elements(names)
    ensures SaveRows(rows, names, transform, keep, save, shared) == SaveEach(rows, names, transform, keep, save)
    decreases |rows|
  {
    if rows != [] {
      RowsHaveColumnsTail(rows, |names|);
      var row := rows[0];
      if !keep(AttributeColumns(row, |names|)) {
        SharedMapIsFresh(rows[1..], names, transform, keep, save, shared);
      } else {
        var vs := Transformed(row, |names|, transform);
        ReusedMapIsFresh(shared, names, vs);
        var m := PutAll(shared, names, vs);
        if ParseInt(row[0]).Some? {
          assert Document(row, names, transform) == Ok(Saved(ParseInt(row[0]).value, m));
          SharedMapIsFresh(rows[1..], names, transform, keep, save, m);
        }
      }
    }
  }

  /** Hence a batch saves the kept rows in order, each with its own key and
      its own transformed attributes, and stops at the first key that does
      not parse or save that throws. */
  lemma BatchSavesKeptRows(rows: seq<seq<string>>, names: seq<string>, transform: string -> string,
                           keep: seq<string> -> bool, save: Saved -> Option<Exception>)
    requires RowsHaveColumns(rows, |names|)
    ensures var r := SaveBatch(rows, names, transform, keep, save);
            var kept := KeptRows(rows, |names|, keep);
            && |r.saved| <= |kept|
            && (forall k :: 0 <= k < |r.saved| ==> Document(kept[k], names, transform) == Ok(r.saved[k]))
            && (r.failure.None? <==> |r.saved| == |kept|)
  {
    SharedMapIsFresh(rows, names, transform, keep, save, map[]);
  }

  // ---------------------------------------------------------------------
  // The run of a row-per-document step

  /** How far `run` got: how many delete statements and scans completed,
      and what it threw. */
  datatype RunTrace = RunTrace(deleted: nat, scanned: nat, error: Option<Exception>)

  /** The position of the first exception, if any. */
  function FirstFailure(xs: seq<Option<Exception>>): (r: Option<nat>)
    ensures r.None? <==> forall k :: 0 <= k < |xs| ==> xs[k].None?
    ensures r.Some? ==> r.value < |xs| && xs[r.value].Some? && forall k :: 0 <= k < r.value ==> xs[k].None?
    decreases |xs|
  {
    if xs == [] then None
    else if xs[0].Some? then Some(0)
    else match FirstFailure(xs[1..])
      case None => None
      case Some(i) =>
        assert forall k :: 1 <= k < |xs| ==> xs[k] == xs[1..][k - 1];
        Some(i + 1)
  }

  /** The catch around the body of `run`: an `IllegalArgumentException`
      (a key that does not parse included) or a `PersistenceException`
      becomes a `ProcessingException` with the data-access message; anything
      else propagates. */
  function DataAccessFailure(e: Exception): (w: Exception)
    ensures IsIllegalArgument(e) || e.PersistenceException? ==> w == ProcessingException(BatchScanner.DataAccessMessage)
    ensures !(IsIllegalArgument(e) || e.PersistenceException?) ==> w == e
  {
    if IsIllegalArgument(e) || e.PersistenceException? then ProcessingException(BatchScanner.DataAccessMessage) else e
  }

  /** `run`: delete the earlier results of every output type, then scan
      every input type; `deletes[t]` and `scans[t]` are what each of those
      calls threw. The first exception ends the run. */
  function RunSteps(deletes: seq<Option<Exception>>, scans: seq<Option<Exception>>): (t: RunTrace)
    ensures t.deleted <= |deletes| && t.scanned <= |scans|
    ensures t.scanned > 0 ==> t.deleted == |deletes|
    ensures t.error.None? <==> ((forall k :: 0 <= k < |deletes| ==> deletes[k].None?)
                                && (forall k :: 0 <= k < |scans| ==> scans[k].None?))
    ensures t.error.None? ==> t.deleted == |deletes| && t.scanned == |scans|
    ensures t.error.Some? && t.deleted < |deletes| ==>
              deletes[t.deleted].Some? && t.error.value == DataAccessFailure(deletes[t.deleted].value)
    ensures t.error.Some? && t.deleted == |deletes| ==>
              t.scanned < |scans| && scans[t.scanned].Some? && t.error.value == DataAccessFailure(scans[t.scanned].value)
  {
    match FirstFailure(deletes)
    case Some(i) => RunTrace(i, 0, Some(DataAccessFailure(deletes[i].value)))
    case None =>
      match FirstFailure(scans)
      case Some(i) => RunTrace(|deletes|, i, Some(DataAccessFailure(scans[i].value)))
      case None => RunTrace(|deletes|, |scans|, None)
  }
}

=== FILE: elapsed_time.dfy ===
/** The elapsed time `TextProc.run` reports: the whole seconds between two
    readings of the clock, split by `Duration` into days, hours, minutes and
    seconds and printed as `"%d day/s, %02d:%02d:%02d"`. */
module ElapsedTime {
  import opened JavaLang
  import opened JavaText

  /** The parts of `Duration.ofMillis(millis)`: the duration holds the whole
      seconds rounded down, and `toDaysPart`, `toHoursPart`, `toMinutesPart`
      and `toSecondsPart` take Java's truncating `/` and `%` of them. A
      clock that stepped backwards gives a negative duration, whose parts
      are all zero or negative. */
  function ElapsedParts(millis: int): (p: (int, int, int, int))
    ensures Abs(p.1) < 24 && Abs(p.2) < 60 && Abs(p.3) < 60
    ensures p.0 * 86400 + p.1 * 3600 + p.2 * 60 + p.3 == millis / 1000
    ensures millis >= 0 ==> p.0 >= 0 && p.1 >= 0 && p.2 >= 0 && p.3 >= 0
    ensures millis < 0 ==> p.0 <= 0 && p.1 <= 0 && p.2 <= 0 && p.3 <= 0
  {
    var seconds := millis / 1000;
    SplitSeconds(Abs(seconds));
    SignedParts(seconds);
    (Quot(seconds, 86400), Rem(Quot(seconds, 3600), 24), Rem(Quot(seconds, 60), 60), Rem(seconds, 60))
  }

  /** Days, hours, minutes and seconds parts add back up to the seconds. */
  lemma SplitSeconds(s: nat)
    ensures (s / 86400) * 86400 + ((s / 3600) % 24) * 3600 + ((s / 60) % 60) * 60 + s % 60 == s
  {
    var a, sec := s / 60, s % 60;
    var b, min := a / 60, a % 60;
    var c, h := b / 24, b % 24;
    assert s == 3600 * b + (60 * min + sec);
    DivModUnique(s, 3600, b, 60 * min + sec);
    assert s == 86400 * c + (3600 * h + 60 * min + sec);
    DivModUnique(s, 86400, c, 3600 * h + 60 * min + sec);
  }

  /** The truncating parts of a negative number of seconds are the
      negated parts of its magnitude. */
  lemma SignedParts(s: int)
    ensures s >= 0 ==> Quot(s, 86400) == s / 86400 && Rem(Quot(s, 3600), 24) == (s / 3600) % 24
                       && Rem(Quot(s, 60), 60) == (s / 60) % 60 && Rem(s, 60) == s % 60
    ensures s < 0 ==> Quot(s, 86400) == -(-s / 86400) && Rem(Quot(s, 3600), 24) == -((-s / 3600) % 24)
                      && Rem(Quot(s, 60), 60) == -((-s / 60) % 60) && Rem(s, 60) == -(-s % 60)
  {
  }

  lemma Pad2Short(n: nat)
    requires n < 100
    ensures |Pad2(n)| == 2
  {
    if n >= 10 {
      assert NatToDecimal(n) == NatToDecimal(n / 10) + [DigitChar(n % 10)];
    }
  }

  /** `%d`: the decimal digits, after a minus sign when negative. */
  function SignedDecimal(n: int): (s: string)
    ensures n >= 0 ==> s == NatToDecimal(n)
    ensures n < 0 ==> |s| >= 2 && s[0] == '-' && s[1..] == NatToDecimal(-n)
  {
    if n < 0 then "-" + NatToDecimal(-n) else NatToDecimal(n)
  }

  /** `%02d`: zeros are inserted after any sign up to a width of two, which
      a negative number already has. */
  function SignedPad2(n: int): (s: string)
    ensures n >= 0 ==> s == Pad2(n)
    ensures n < 0 ==> s == SignedDecimal(n)
  {
    if n < 0 then SignedDecimal(n) else Pad2(n)
  }

  /** `"%d day/s, %02d:%02d:%02d"`. */
  function Format(d: int, h: int, m: int, sec: int): string {
    SignedDecimal(d) + " day/s, " + SignedPad2(h) + ":" + SignedPad2(m) + ":" + SignedPad2(sec)
  }

  /** The format of the parts. For a non-negative duration every clock
      field is two digits wide; a negative field is written with its minus
      sign. */
  function ElapsedText(millis: int): (s: string)
    ensures millis >= 0 ==> |s| >= 8
    ensures millis >= 0 ==>
              var p := ElapsedParts(millis);
              && p.0 >= 0 && p.1 >= 0 && p.2 >= 0 && p.3 >= 0
              && s[..|s| - 8] == NatToDecimal(p.0) + " day/s, "
              && s[|s| - 8..|s| - 6] == Pad2(p.1) && s[|s| - 6] == ':'
              && s[|s| - 5..|s| - 3] == Pad2(p.2) && s[|s| - 3] == ':'
              && s[|s| - 2..] == Pad2(p.3)
    ensures millis < 0 ==>
              var f := SignedPad2(ElapsedParts(millis).3);
              |s| > |f| && s[|s| - |f| - 1] == ':' && s[|s| - |f|..] == f
  {
    var (d, h, m, sec) := ElapsedParts(millis);
    if millis >= 0 then
      Pad2Short(h);
      Pad2Short(m);
      Pad2Short(sec);
      ClockSlices(NatToDecimal(d) + " day/s, ", Pad2(h), Pad2(m), Pad2(sec));
      Format(d, h, m, sec)
    else
      LastField(SignedDecimal(d) + " day/s, " + SignedPad2(h) + ":" + SignedPad2(m), SignedPad2(sec));
      Format(d, h, m, sec)
  }

  /** Where the fields of a clock of two-character fields sit at the end of
      a text. */
  lemma ClockSlices(p: string, a: string, b: string, c: string)
    requires |a| == 2 && |b| == 2 && |c| == 2
    ensures var s := p + a + ":" + b + ":" + c;
            && |s| >= 8 && s[..|s| - 8] == p
            && s[|s| - 8..|s| - 6] == a && s[|s| - 6] == ':'
            && s[|s| - 5..|s| - 3] == b && s[|s| - 3] == ':'
            && s[|s| - 2..] == c
  {
    var s := p + a + ":" + b + ":" + c;
    assert s[|s| - 8..] == a + ":" + b + ":" + c;
  }

  /** Where the last field of a text sits after its colon. */
  lemma LastField(p: string, c: string)
    ensures var s := p + ":" + c;
            |s| > |c| && s[|s| - |c| - 1] == ':' && s[|s| - |c|..] == c
  {
    var s := p + ":" + c;
    assert s[|s| - |c| - 1..] == ":" + c;
  }

  /** The number a field of decimal digits reads as; anything else reads
      as -1. */
  function FieldValue(f: string): int {
    if AllDigits(f) then DigitsValue(f) else -1
  }

  /** The hours field of a non-negative duration reads as its part. */
  lemma {:induction false} HoursField(millis: nat)
    ensures var s := ElapsedText(millis); |s| >= 8 && FieldValue(s[|s| - 8..|s| - 6]) == ElapsedParts(millis).1
  {
  }

  /** The minutes field of a non-negative duration reads as its part. */
  lemma {:induction false} MinutesField(millis: nat)
    ensures var s := ElapsedText(millis); |s| >= 8 && FieldValue(s[|s| - 5..|s| - 3]) == ElapsedParts(millis).2
  {
  }

  /** The seconds field of a non-negative duration reads as its part. */
  lemma {:induction false} SecondsField(millis: nat)
    ensures var s := ElapsedText(millis); |s| >= 8 && FieldValue(s[|s| - 2..]) == ElapsedParts(millis).3
  {
  }

  /** For a non-negative duration the reported text gives back the whole
      seconds: each two-digit field reads as its part, and the parts
      rebuild the seconds. */
  lemma {:induction false} ElapsedTextRecoversSeconds(millis: nat)
    ensures var s := ElapsedText(millis);
            var d := ElapsedParts(millis).0;
            && |s| >= 8
            && d * 86400 + FieldValue(s[|s| - 8..|s| - 6]) * 3600 + FieldValue(s[|s| - 5..|s| - 3]) * 60
                 + FieldValue(s[|s| - 2..]) == millis / 1000
  {
    HoursField(millis);
    MinutesField(millis);
    SecondsField(millis);
  }

  /** A day, an hour, a minute and a second and a bit. */
  lemma ElapsedTextExample()
    ensures ElapsedText(90061500) == "1 day/s, 01:01:01"
  {
    ExampleParts();
    assert ElapsedText(90061500) == Format(1, 1, 1, 1);
    ExampleFields();
    assert "1" + " day/s, " + "01" + ":" + "01" + ":" + "01" == "1 day/s, 01:01:01";
  }

  lemma ExampleParts()
    ensures ElapsedParts(90061500) == (1, 1, 1, 1)
  {
    assert 90061500 / 1000 == 90061;
  }

  lemma ExampleFields()
    ensures NatToDecimal(1) == "1" && Pad2(1) == "01"
  {
  }

  /** A clock that stepped back one millisecond between the two readings:
      the duration is minus one second, printed with a negative seconds
      field. */
  lemma BackwardClockExample()
    ensures ElapsedText(-1) == "0 day/s, 00:00:-1"
  {
    assert -1 / 1000 == -1;
    assert ElapsedParts(-1) == (0, 0, 0, -1);
    assert ElapsedText(-1) == Format(0, 0, 0, -1);
    assert NatToDecimal(0) == "0" && Pad2(0) == "00" && NatToDecimal(1) == "1";
    assert "0" + " day/s, " + "00" + ":" + "00" + ":" + "-1" == "0 day/s, 00:00:-1";
  }
}

=== FILE: empty_filtering.dfy ===
/** `EmptyFilteringProcessingStep`: keeps the documents that have at least
    one attribute with content and passes their attributes through
    unchanged. An attribute "has no content" when it matches, as a whole,
    the expression the `includeRedditDeleted` parameter selects. */
module EmptyFiltering {
  import opened Wrappers
  import opened JavaLang
  import opened JavaText
  import opened JavaCollections
  import S = StepDriver
  import DR = DocumentRows

  const IncludeDeletedName: string := "includeRedditDeleted"

  /** The two whole-string expressions the step compiles, both
      case-insensitive and with Unicode character classes. */
  datatype EmptyPattern =
    | DeletedOrNoLowercase
      // a bracketed removed/deleted marker, or no character of \p{Lower}
    | NoLowercase
      // no character of \p{Lower}

  /** The step's validation table: the common predicates, plus an optional
      `includeRedditDeleted` that must not be null. */
  function Spec(): S.StepSpec {
    S.MakeSpec(map[IncludeDeletedName := S.NonNullCheck], {})
  }

  /** The `switch` on the parameter, which defaults to "true": exactly
      "true" or "1" (case matters) select the expression that also matches
      deletion markers, any other value the other one, and a null value
      makes the `switch` throw. */
  function SelectPattern(params: S.Params): (r: Result<EmptyPattern, Exception>)
    ensures r.Err? <==> IncludeDeletedName in params && params[IncludeDeletedName].None?
    ensures r.Err? ==> r.error == NullPointerException
    ensures r == Ok(DeletedOrNoLowercase) <==>
              IncludeDeletedName !in params || params[IncludeDeletedName] == Some("true")
              || params[IncludeDeletedName] == Some("1")
  {
    match S.GetOrDefault(params, IncludeDeletedName, "true")
    case None => Err(NullPointerException)
    case Some(v) => if v == "true" || v == "1" then Ok(DeletedOrNoLowercase) else Ok(NoLowercase)
  }

  /** Validated parameters always select an expression. */
  lemma ValidatedSelectsPattern(params: S.Params, order: seq<string>, stepName: string)
    requires S.IsIterationOrder(order, params)
    requires S.Validate(Spec(), params, order, stepName).Ok?
    ensures SelectPattern(params).Ok?
  {
    S.ValidateOkIff(Spec(), params, order, stepName);
    if IncludeDeletedName in params {
      assert S.EntryPasses(Spec().checks, params, IncludeDeletedName);
    }
  }

  /** The comparison is on the exact text. */
  lemma SelectPatternExamples()
    ensures SelectPattern(map[]) == Ok(DeletedOrNoLowercase)
    ensures SelectPattern(map[IncludeDeletedName := Some("1")]) == Ok(DeletedOrNoLowercase)
    ensures SelectPattern(map[IncludeDeletedName := Some("TRUE")]) == Ok(NoLowercase)
    ensures SelectPattern(map[IncludeDeletedName := Some("yes")]) == Ok(NoLowercase)
  {
  }

  // ---------------------------------------------------------------------
  // Matching

  /** `\p{Space}` with Unicode character classes: the White_Space property. */
  predicate IsWhiteSpace(c: char) {
    ('\t' <= c <= '\r') || c == ' ' || c == '\U{85}' || c == '\U{A0}' || c == '\U{1680}'
    || ('\U{2000}' <= c <= '\U{200A}') || c == '\U{2028}' || c == '\U{2029}' || c == '\U{202F}'
    || c == '\U{205F}' || c == '\U{3000}'
  }

  const MarkerWords: set<string> := {"removed", "deleted", "remove", "delete"}

  /** The first alternative: an opening `[` or `(`, optional white space,
      one of the marker words in any letter case, optional white space, and
      a closing `]` or `)` (the brackets need not pair up). */
  predicate DeletionMarker(s: string) {
    |s| >= 2 && (s[0] == '[' || s[0] == '(') && (s[|s| - 1] == ']' || s[|s| - 1] == ')')
    && Lower(StripBy(s[1..|s| - 1], IsWhiteSpace)) in MarkerWords
  }

  /** `^[^\p{Lower}]*$`, with `inLower` the character class as the flags
      make it. */
  predicate NoLowercaseCharacter(s: string, inLower: char -> bool) {
    forall i :: 0 <= i < |s| ==> !inLower(s[i])
  }

  /** `Matcher.matches` of the selected expression. */
  predicate Matches(p: EmptyPattern, s: string, inLower: char -> bool) {
    match p
    case NoLowercase => NoLowercaseCharacter(s, inLower)
    case DeletedOrNoLowercase => DeletionMarker(s) || NoLowercaseCharacter(s, inLower)
  }

  /** The expression that includes deletion markers matches everything the
      other one matches. */
  lemma DeletedPatternMatchesMore(s: string, inLower: char -> bool)
    requires Matches(NoLowercase, s, inLower)
    ensures Matches(DeletedOrNoLowercase, s, inLower)
  {
  }

  /** The document is kept when some attribute does not match. */
  predicate Keeps(p: EmptyPattern, values: seq<string>, inLower: char -> bool) {
    exists j :: 0 <= j < |values| && !Matches(p, values[j], inLower)
  }

  /** Some value fails `matches`. */
  predicate SomeMismatch(values: seq<string>, matches: string -> bool) {
    exists j :: 0 <= j < |values| && !matches(values[j])
  }

  /** `Keeps` is a mismatch of the selected expression. */
  lemma KeepsIsMismatch(p: EmptyPattern, values: seq<string>, inLower: char -> bool)
    ensures Keeps(p, values, inLower) <==> SomeMismatch(values, s => Matches(p, s, inLower))
  {
    var matches := s => Matches(p, s, inLower);
    if SomeMismatch(values, matches) {
      var j :| 0 <= j < |values| && !matches(values[j]);
      assert !Matches(p, values[j], inLower);
    }
    if Keeps(p, values, inLower) {
      var j :| 0 <= j < |values| && !Matches(p, values[j], inLower);
      assert !matches(values[j]);
    }
  }

  /** The loop over a row's attributes, with `matches` the compiled
      expression's `Matcher.matches`: `allEmpty` is the last match result,
      and the loop stops at the first attribute that does not match.
      `tested` is how many attributes were matched. */
  method AllAreEmpty(values: seq<string>, matches: string -> bool) returns (allEmpty: bool, tested: nat)
    ensures allEmpty <==> !SomeMismatch(values, matches)
    ensures tested <= |values|
    ensures allEmpty ==> tested == |values|
    ensures !allEmpty ==> 1 <= tested && !matches(values[tested - 1])
                          && forall k :: 0 <= k < tested - 1 ==> matches(values[k])
  {
    allEmpty := true;
    var j := 0;
    while j < |values| && allEmpty
      invariant 0 <= j <= |values|
      invariant allEmpty ==> forall k :: 0 <= k < j ==> matches(values[k])
      invariant !allEmpty ==> 1 <= j && !matches(values[j - 1]) && forall k :: 0 <= k < j - 1 ==> matches(values[k])
    {
      allEmpty := matches(values[j]);
      j := j + 1;
    }
    tested := j;
  }

  /** A document without attributes, or whose attributes are all empty
      strings, is never kept. */
  lemma EmptyDocumentsDropped(p: EmptyPattern, n: nat, inLower: char -> bool)
    ensures !Keeps(p, [], inLower)
    ensures !Keeps(p, seq(n, _ => ""), inLower)
  {
  }

  /** A bracketed marker, in any letter case, is dropped only by the
      expression that includes markers. */
  lemma MarkerExample(inLower: char -> bool)
    requires forall c :: 'a' <= c <= 'z' ==> inLower(c)
    ensures !Keeps(DeletedOrNoLowercase, ["(Removed]"], inLower)
    ensures Keeps(NoLowercase, ["(Removed]"], inLower)
  {
    var values := ["(Removed]"];
    assert values[0] == "(Removed]" && |values| == 1;
    MarkerMatches(inLower);
    assert forall j :: 0 <= j < |values| ==> Matches(DeletedOrNoLowercase, values[j], inLower);
    MarkerHasLowercase(inLower);
    assert !Matches(NoLowercase, values[0], inLower);
  }

  lemma MarkerMatches(inLower: char -> bool)
    ensures Matches(DeletedOrNoLowercase, "(Removed]", inLower)
  {
    var s := "(Removed]";
    assert |s| == 9 && s[0] == '(' && s[8] == ']';
    assert s[1..|s| - 1] == "Removed";
    MarkerWordCase();
    assert DeletionMarker(s);
  }

  lemma MarkerHasLowercase(inLower: char -> bool)
    requires forall c :: 'a' <= c <= 'z' ==> inLower(c)
    ensures !Matches(NoLowercase, "(Removed]", inLower)
  {
    assert "(Removed]"[2] == 'e';
  }

  lemma MarkerWordCase()
    ensures Lower(StripBy("Removed", IsWhiteSpace)) in MarkerWords
  {
    assert !IsWhiteSpace('R') && !IsWhiteSpace('d');
    assert StripBy("Removed", IsWhiteSpace) == "Removed";
    var l := Lower("Removed");
    assert l[0] == 'r';
    assert l == "removed";
  }

  // ---------------------------------------------------------------------
  // One batch

  /** The per-batch action: attributes pass through unchanged, and a row
      is saved only when `Keeps` holds for its attribute columns. */
  function FilterBatch(rows: seq<seq<string>>, names: seq<string>, p: EmptyPattern, inLower: char -> bool,
                       save: DR.Saved -> Option<Exception>): (r: DR.BatchRun)
    requires DR.RowsHaveColumns(rows, |names|)
  {
    DR.SaveBatch(rows, names, v => v, vs => Keeps(p, vs, inLower), save)
  }

  /** Each saved document comes from a kept row, in order, with its key
      parsed from column 0 and every attribute equal to its column; a batch
      that ends normally saved every kept row. */
  lemma FilterBatchPassesThrough(rows: seq<seq<string>>, names: seq<string>, p: EmptyPattern, inLower: char -> bool,
                                 save: DR.Saved -> Option<Exception>)
    requires DR.RowsHaveColumns(rows, |names|) && NoDuplicates(names)
    ensures var r := FilterBatch(rows, names, p, inLower, save);
            var kept := DR.KeptRows(rows, |names|, vs => Keeps(p, vs, inLower));
            && |r.saved| <= |kept|
            && (r.failure.None? <==> |r.saved| == |kept|)
            && forall k :: 0 <= k < |r.saved| ==>
                 && Keeps(p, DR.AttributeColumns(kept[k], |names|), inLower)
                 && ParseInt(kept[k][0]) == Some(r.saved[k].id)
                 && r.saved[k].attributes.Keys == Elements(names)
                 && forall j :: 0 <= j < |names| ==> r.saved[k].attributes[names[j]] == kept[k][j + 1]
  {
    var keep := vs => Keeps(p, vs, inLower);
    DR.BatchSavesKeptRows(rows, names, v => v, keep, save);
  }
}

=== FILE: entities.dfy ===
/** `ProcessedDocument` and `ProcessedDocumentWithTitle`: the common state
    of every processed document entity, the constructors the subclasses
    rely on, and the text form used when documents are printed. A concrete
    entity class is represented by its simple name. */
module ProcessedDocuments {
  import opened Wrappers
  import opened JavaLang
  import opened JavaText

  /** A processed document of the class `className`; documents with a
      title carry it as well. The key is an `Integer`, so it lies in the
      `int` range. */
  datatype Document =
    | Plain(className: string, id: int, text: string)
    | WithTitle(className: string, id: int, text: string, title: string)

  /** The all-arguments constructor: the key and the text must not be
      null. */
  function New(className: string, id: Option<int>, text: Option<string>): (r: Result<Document, Exception>)
    requires id.Some? ==> IsInt(id.value)
    ensures r.Err? <==> id.None? || text.None?
    ensures r.Err? ==> r.error == NullPointerException
    ensures r.Ok? ==> r.value.Plain? && r.value.className == className
                      && r.value.id == id.value && r.value.text == text.value
  {
    if id.None? || text.None? then Err(NullPointerException)
    else Ok(Plain(className, id.value, text.value))
  }

  /** The no-argument constructor for JPA: the smallest `int` as key and an
      empty text. */
  function NewForJpa(className: string): (d: Document)
    ensures d.Plain? && d.id == IntMin && d.text == ""
  {
    Plain(className, IntMin, "")
  }

  /** The three-argument constructor of documents with a title: the base
      constructor rejects a null text, then the title is checked. */
  function NewWithTitle(className: string, id: int, text: Option<string>, title: Option<string>)
    : (r: Result<Document, Exception>)
    requires IsInt(id)
    ensures r.Err? <==> text.None? || title.None?
    ensures r.Err? ==> r.error == NullPointerException
    ensures r.Ok? ==> r.value == WithTitle(className, id, text.value, title.value)
  {
    var base :- New(className, Some(id), text);
    if title.None? then Err(NullPointerException)
    else Ok(WithTitle(className, base.id, base.text, title.value))
  }

  /** The key-only constructor: text and title start empty. */
  function NewWithTitleKey(className: string, id: Option<int>): (r: Result<Document, Exception>)
    requires id.Some? ==> IsInt(id.value)
    ensures r.Err? <==> id.None?
    ensures r.Err? ==> r.error == NullPointerException
    ensures r.Ok? ==> r.value.WithTitle? && r.value.id == id.value && r.value.text == "" && r.value.title == ""
  {
    var base :- New(className, id, Some(""));
    Ok(WithTitle(className, base.id, base.text, ""))
  }

  /** The no-argument constructor for JPA of documents with a title. */
  function NewWithTitleForJpa(className: string): (d: Document)
    ensures d.WithTitle? && d.id == IntMin && d.text == "" && d.title == ""
  {
    var base := NewForJpa(className);
    WithTitle(className, base.id, base.text, "")
  }

  /** `setText`: a null text is rejected and the document is unchanged;
      otherwise only the text changes. */
  function SetText(d: Document, text: Option<string>): (r: Result<Document, Exception>)
    ensures r.Err? <==> text.None?
    ensures r.Ok? ==> r.value.text == text.value && r.value.id == d.id && r.value.className == d.className
                      && r.value.WithTitle? == d.WithTitle?
                      && (d.WithTitle? ==> r.value.title == d.title)
  {
    match text
    case None => Err(NullPointerException)
    case Some(t) => Ok(d.(text := t))
  }

  /** `setTitle`, on documents with a title. */
  function SetTitle(d: Document, title: Option<string>): (r: Result<Document, Exception>)
    requires d.WithTitle?
    ensures r.Err? <==> title.None?
    ensures r.Ok? ==> r.value == WithTitle(d.className, d.id, d.text, title.value)
  {
    match title
    case None => Err(NullPointerException)
    case Some(t) => Ok(d.(title := t))
  }

  /** The lines of the text form: "- " and the class name, the `ID: `
      line, the `Text: ` line and, for documents with a title, the
      `Title: ` line. */
  function Lines(d: Document): (ls: seq<string>)
    ensures |ls| == (if d.WithTitle? then 4 else 3)
    ensures ls[0] == "- " + d.className && ls[1] == "ID: " + IntToDecimal(d.id) && ls[2] == "Text: " + d.text
    ensures d.WithTitle? ==> ls[3] == "Title: " + d.title
  {
    var base := ["- " + d.className, "ID: " + IntToDecimal(d.id), "Text: " + d.text];
    if d.WithTitle? then base + ["Title: " + d.title] else base
  }

  /** `toString`: the builder appends the lines with a line break between
      neighbours; the titled class appends its line to the base text. */
  function ToString(d: Document): (s: string)
    ensures s == Join(Lines(d), "\n")
  {
    var ls := Lines(d);
    var base := ls[0] + "\n" + ls[1] + "\n" + ls[2];
    JoinTriple(ls[0], ls[1], ls[2], "\n");
    if d.WithTitle? then
      JoinAppend([ls[0], ls[1], ls[2]], ls[3], "\n");
      assert ls == [ls[0], ls[1], ls[2]] + [ls[3]];
      base + "\n" + ls[3]
    else
      assert ls == [ls[0], ls[1], ls[2]];
      base
  }

  /** A document with a title prints as the same document without one,
      followed by the title line. */
  lemma TitleLineAppended(d: Document)
    requires d.WithTitle?
    ensures ToString(d) == ToString(Plain(d.className, d.id, d.text)) + "\nTitle: " + d.title
  {
    var ls := Lines(d);
    var lp := Lines(Plain(d.className, d.id, d.text));
    assert lp == [ls[0], ls[1], ls[2]];
    assert ls == lp + [ls[3]];
    JoinAppend(lp, ls[3], "\n");
  }

  /** When no field holds a line break, splitting the text form at line
      breaks gives its lines back, and the key parses back from the second
      line. */
  lemma {:induction false} ToStringRoundTrip(d: Document)
    requires IsInt(d.id) && '\n' !in d.className && '\n' !in d.text
    requires d.WithTitle? ==> '\n' !in d.title
    ensures SplitAll(ToString(d), '\n') == Lines(d)
    ensures ParseInt(Lines(d)[1][|"ID: "|..]) == Some(d.id)
  {
    var ls := Lines(d);
    assert '\n' !in IntToDecimal(d.id) by {
      if d.id >= 0 {
        assert AllDigits(IntToDecimal(d.id));
      } else {
        assert AllDigits(IntToDecimal(d.id)[1..]);
        assert IntToDecimal(d.id) == "-" + NatToDecimal(-d.id);
      }
    }
    forall k | 0 <= k < |ls| ensures '\n' !in ls[k] {
    }
    SplitAllJoin(ls, '\n');
    assert ls[1][|"ID: "|..] == IntToDecimal(d.id);
    ParseIntToDecimal(d.id);
  }

  /** A concrete text form. */
  lemma ToStringExample()
    ensures ToString(WithTitle("Doc", 7, "a b", "T")) == "- Doc\nID: 7\nText: a b\nTitle: T"
  {
    ExampleLines();
    var a, b, c, t := "- Doc", "ID: 7", "Text: a b", "Title: T";
    JoinTriple(a, b, c, "\n");
    JoinAppend([a, b, c], t, "\n");
    assert [a, b, c] + [t] == [a, b, c, t];
    assert a + "\n" + b + "\n" + c + "\n" + t == "- Doc\nID: 7\nText: a b\nTitle: T";
  }

  lemma ExampleLines()
    ensures Lines(WithTitle("Doc", 7, "a b", "T")) == ["- Doc", "ID: 7", "Text: a b", "Title: T"]
  {
    assert IntToDecimal(7) == "7";
    var ls := Lines(WithTitle("Doc", 7, "a b", "T"));
    assert ls[1] == "ID: " + "7" == "ID: 7";
    assert ls[0] == "- Doc" && ls[2] == "Text: a b" && ls[3] == "Title: T";
  }
}

=== FILE: entity_extraction.dfy ===
/** The record-level logic of `CoreNLPEntityExtractionProcessingStep`: its
    parameters, the overwritable categories, the seed mappings written
    before learning, the text of a batch handed to the pattern learner and
    the mappings made of the learned words. The NLP pipeline, the pattern
    learner and the temporary files are not modelled; the learned words
    arrive as the lines of one file per label. */
module EntityExtraction {
  import opened Wrappers
  import opened JavaLang
  import opened JavaText
  import D = Dictionary
  import S = StepDriver
  import DR = DocumentRows

  // ---------------------------------------------------------------------
  // Parameters

  const SeedWordsDirectoryName: string := "seedWordsFilesDirectory"
  const PropertiesFileName: string := "spiedProperties"
  const MappingsFileName: string := "nerMappingsFile"
  const CategoriesName: string := "overwritableNerCategories"

  /** The step's predicates and required names, on top of the common
      ones. */
  function ExtractionSpec(): (s: S.StepSpec)
    ensures s.required == S.CommonRequired() + {SeedWordsDirectoryName, MappingsFileName, CategoriesName}
    ensures SeedWordsDirectoryName in s.checks && MappingsFileName in s.checks
    ensures PropertiesFileName in s.checks && CategoriesName in s.checks
    ensures s.checks[SeedWordsDirectoryName] == S.NonBlankCheck && s.checks[MappingsFileName] == S.NonBlankCheck
    ensures s.checks[PropertiesFileName] == S.NonBlankCheck && s.checks[CategoriesName] == S.NonNullCheck
  {
    S.MakeSpec(
      map[SeedWordsDirectoryName := S.NonBlankCheck, PropertiesFileName := S.NonBlankCheck,
          MappingsFileName := S.NonBlankCheck, CategoriesName := S.NonNullCheck],
      {SeedWordsDirectoryName, MappingsFileName, CategoriesName})
  }

  /** After validation, the seed words directory and the mappings file are
      given and non-blank, the categories are given (possibly blank), and a
      properties file, if the parameter is present at all, is non-blank. */
  lemma ValidatedExtractionParameters(params: S.Params, order: seq<string>, stepName: string)
    requires S.IsIterationOrder(order, params)
    requires S.Validate(ExtractionSpec(), params, order, stepName).Ok?
    ensures SeedWordsDirectoryName in params && params[SeedWordsDirectoryName].Some?
            && !IsBlank(params[SeedWordsDirectoryName].value)
    ensures MappingsFileName in params && params[MappingsFileName].Some? && !IsBlank(params[MappingsFileName].value)
    ensures CategoriesName in params && params[CategoriesName].Some?
    ensures PropertiesFileName in params ==> params[PropertiesFileName].Some? && !IsBlank(params[PropertiesFileName].value)
  {
    var spec := ExtractionSpec();
    S.ValidateOkIff(spec, params, order, stepName);
    assert S.EntryPasses(spec.checks, params, SeedWordsDirectoryName);
    assert S.EntryPasses(spec.checks, params, MappingsFileName);
    assert S.EntryPasses(spec.checks, params, CategoriesName);
    if PropertiesFileName in params {
      assert S.EntryPasses(spec.checks, params, PropertiesFileName);
    }
  }

  // ---------------------------------------------------------------------
  // Overwritable categories

  /** The categories list: the trimmed value split at commas (trailing empty
      pieces dropped); a blank first piece means no categories at all, and a
      value that is nothing but commas leaves no piece to look at, which is
      an `ArrayIndexOutOfBoundsException`. */
  function Categories(value: string): (r: Result<seq<string>, Exception>)
    ensures r.Err? <==> JavaSplit(Trim(value), ',') == []
    ensures r.Err? ==> r.error.IndexOutOfBoundsException?
    ensures r.Ok? ==> forall k :: 0 <= k < |r.value| ==> ',' !in r.value[k]
    ensures r.Ok? && r.value != [] ==> !IsBlank(r.value[0]) && r.value == JavaSplit(Trim(value), ',')
  {
    var pieces := JavaSplit(Trim(value), ',');
    if pieces == [] then Err(IndexOutOfBoundsException)
    else if IsBlank(pieces[0]) then Ok([])
    else Ok(pieces)
  }

  /** A blank value gives no categories. */
  lemma BlankCategories(value: string)
    requires AllSatisfy(value, IsTrimmable)
    ensures Categories(value) == Ok([])
  {
    assert Trim(value) == "";
    assert JavaSplit("", ',') == [""];
  }

  /** A value whose first category is empty gives no categories at all. */
  lemma LeadingCommaDropsAll()
    ensures Categories(",A") == Ok([])
  {
    assert ",A"[0] == ',' && ",A"[1] == 'A';
    assert Trim(",A") == ",A";
    assert SplitAll(",A", ',') == ["", "A"] by {
      assert IndexOf(",A", ',') == 0;
      assert ",A"[1..] == "A";
      assert ',' !in "A";
    }
  }

  /** A value of commas only leaves no piece to look at. */
  lemma CommasOnlyFail()
    ensures Categories(",,") == Err(IndexOutOfBoundsException)
  {
    assert ",,"[0] == ',' && ",,"[1] == ',';
    assert Trim(",,") == ",,";
    assert SplitAll(",,", ',') == ["", "", ""] by {
      assert IndexOf(",,", ',') == 0;
      assert ",,"[1..] == ",";
      assert IndexOf(",", ',') == 0;
      assert ","[1..] == "";
    }
  }

  /** A list of categories, written out with commas, comes back unchanged
      when no category contains a comma, the first is not blank, the last is
      not empty, and the text has no leading or trailing control characters
      or spaces for `trim` to remove. */
  lemma CategoriesRoundTrip(categories: seq<string>)
    requires categories != [] && categories[|categories| - 1] != []
    requires forall k :: 0 <= k < |categories| ==> ',' !in categories[k]
    requires !IsBlank(categories[0])
    requires var v := Join(categories, ","); v != [] && v[0] > ' ' && v[|v| - 1] > ' '
    ensures Categories(Join(categories, ",")) == Ok(categories)
  {
    var v := Join(categories, ",");
    assert Trim(v) == v;
    JavaSplitJoin(categories, ',');
  }

  // ---------------------------------------------------------------------
  // Mappings

  /** A call `writeMapping(token, label, categories)`. */
  datatype Mapping = Mapping(token: string, entityLabel: string, categories: seq<string>)

  function Tokens(ms: seq<Mapping>): (r: seq<string>)
    ensures |r| == |ms| && forall i :: 0 <= i < |ms| ==> r[i] == ms[i].token
  {
    seq(|ms|, i requires 0 <= i < |ms| => ms[i].token)
  }

  lemma TokensAppend(a: seq<Mapping>, b: seq<Mapping>)
    ensures Tokens(a + b) == Tokens(a) + Tokens(b)
  {
  }

  /** Every mapping has this label and these categories. */
  predicate AllUnder(ms: seq<Mapping>, entityLabel: string, categories: seq<string>) {
    forall i :: 0 <= i < |ms| ==> ms[i].entityLabel == entityLabel && ms[i].categories == categories
  }

  /** The mappings of one label's terms: each term, then each of its
      synonyms. */
  function TermMappings(terms: seq<D.Term>, entityLabel: string, categories: seq<string>): (r: seq<Mapping>)
    ensures AllUnder(r, entityLabel, categories)
  {
    if terms == [] then []
    else
      var t := terms[0];
      [Mapping(t.term, entityLabel, categories)]
      + seq(|t.synonyms|, i requires 0 <= i < |t.synonyms| => Mapping(t.synonyms[i], entityLabel, categories))
      + TermMappings(terms[1..], entityLabel, categories)
  }

  /** The tokens of a label's mappings are exactly the lines of its seed
      words file, in the same order. */
  lemma {:induction false} TermMappingsFollowSeedLines(terms: seq<D.Term>, entityLabel: string, categories: seq<string>)
    ensures Tokens(TermMappings(terms, entityLabel, categories)) == D.SeedLines(terms)
  {
    if terms != [] {
      var t := terms[0];
      var head := [Mapping(t.term, entityLabel, categories)]
        + seq(|t.synonyms|, i requires 0 <= i < |t.synonyms| => Mapping(t.synonyms[i], entityLabel, categories));
      var rest := TermMappings(terms[1..], entityLabel, categories);
      TermMappingsFollowSeedLines(terms[1..], entityLabel, categories);
      assert Tokens(head) == [t.term] + t.synonyms;
      assert Tokens(head + rest) == Tokens(head) + Tokens(rest);
    }
  }

  /** The seed mappings: for each label in the map's iteration order, the
      mappings of its terms. */
  function SeedMappings(m: D.LabelTerms, order: seq<string>, categories: seq<string>): (r: seq<Mapping>)
    requires forall i :: 0 <= i < |order| ==> order[i] in m
    ensures forall i :: 0 <= i < |r| ==> r[i].entityLabel in order && r[i].categories == categories
  {
    if order == [] then []
    else
      var first := TermMappings(m[order[0]], order[0], categories);
      var rest := SeedMappings(m, order[1..], categories);
      assert forall i :: 0 <= i < |rest| ==> rest[i].entityLabel in order by {
        forall i | 0 <= i < |rest| ensures rest[i].entityLabel in order {
          assert rest[i].entityLabel in order[1..];
        }
      }
      first + rest
  }

  /** The lines of the seed words files of the labels, one file after the
      other. */
  function AllSeedLines(m: D.LabelTerms, order: seq<string>): seq<string>
    requires forall i :: 0 <= i < |order| ==> order[i] in m
  {
    if order == [] then [] else D.SeedLines(m[order[0]]) + AllSeedLines(m, order[1..])
  }

  /** The seed mappings are the seed words files' lines, in order, each
      written under its file's label. */
  lemma {:induction false} SeedMappingsFollowSeedFiles(m: D.LabelTerms, order: seq<string>, categories: seq<string>)
    requires forall i :: 0 <= i < |order| ==> order[i] in m
    ensures Tokens(SeedMappings(m, order, categories)) == AllSeedLines(m, order)
  {
    if order != [] {
      var first := TermMappings(m[order[0]], order[0], categories);
      var rest := SeedMappings(m, order[1..], categories);
      TermMappingsFollowSeedLines(m[order[0]], order[0], categories);
      SeedMappingsFollowSeedFiles(m, order[1..], categories);
      assert Tokens(first + rest) == Tokens(first) + Tokens(rest);
    }
  }

  /** The mappings of one learned words file: one per non-blank line. */
  function LearnedMappings(entityLabel: string, lines: seq<string>, categories: seq<string>): (r: seq<Mapping>)
    ensures AllUnder(r, entityLabel, categories)
    ensures |r| <= |lines|
    ensures forall i :: 0 <= i < |r| ==> !IsBlank(r[i].token) && r[i].token in lines
    ensures forall k :: 0 <= k < |lines| && !IsBlank(lines[k]) ==> lines[k] in Tokens(r)
  {
    if lines == [] then []
    else
      var rest := LearnedMappings(entityLabel, lines[1..], categories);
      assert forall k :: 1 <= k < |lines| ==> lines[k] == lines[1..][k - 1];
      if IsBlank(lines[0]) then rest
      else
        var r := [Mapping(lines[0], entityLabel, categories)] + rest;
        assert Tokens(r) == [lines[0]] + Tokens(rest);
        r
  }

  /** Without blank lines, every line of a learned words file becomes a
      mapping, in order. */
  lemma {:induction false} LearnedMappingsKeepNonBlankLines(entityLabel: string, lines: seq<string>, categories: seq<string>)
    requires forall k :: 0 <= k < |lines| ==> !IsBlank(lines[k])
    ensures Tokens(LearnedMappings(entityLabel, lines, categories)) == lines
  {
    if lines != [] {
      var tail := lines[1..];
      assert forall k :: 0 <= k < |tail| ==> !IsBlank(tail[k]) by {
        forall k | 0 <= k < |tail| ensures !IsBlank(tail[k]) {
          assert tail[k] == lines[k + 1];
        }
      }
      LearnedMappingsKeepNonBlankLines(entityLabel, tail, categories);
      var m := Mapping(lines[0], entityLabel, categories);
      var rest := LearnedMappings(entityLabel, tail, categories);
      assert !IsBlank(lines[0]);
      assert LearnedMappings(entityLabel, lines, categories) == [m] + rest;
      TokensAppend([m], rest);
      assert Tokens([m]) == [lines[0]];
      assert lines == [lines[0]] + tail;
    }
  }

  // ---------------------------------------------------------------------
  // Batch text

  /** The non-blank attribute values of a row, in column order (attribute
      `j` is column `j + 1`). */
  function RowPieces(row: seq<string>, attributes: nat): (r: seq<string>)
    requires |row| > attributes
    ensures forall k :: 0 <= k < |r| ==> !IsBlank(r[k])
    ensures r == [] <==> forall j :: 1 <= j <= attributes ==> IsBlank(row[j])
    decreases attributes
  {
    if attributes == 0 then []
    else
      var init := RowPieces(row, attributes - 1);
      if IsBlank(row[attributes]) then init else init + [row[attributes]]
  }

  /** Every attribute value of the batch is blank. */
  predicate AllAttributesBlank(batch: seq<seq<string>>, attributes: nat)
    requires DR.RowsHaveColumns(batch, attributes)
  {
    forall i, j :: 0 <= i < |batch| && 1 <= j <= attributes ==> IsBlank(batch[i][j])
  }

  function BatchPieces(batch: seq<seq<string>>, attributes: nat): (r: seq<string>)
    requires DR.RowsHaveColumns(batch, attributes)
    ensures forall k :: 0 <= k < |r| ==> !IsBlank(r[k])
    ensures r == [] <==> AllAttributesBlank(batch, attributes)
  {
    if batch == [] then []
    else
      var rest := BatchPieces(batch[1..], attributes);
      assert (forall i, j :: 0 <= i < |batch| && 1 <= j <= attributes ==> IsBlank(batch[i][j])) <==>
             (forall j :: 1 <= j <= attributes ==> IsBlank(batch[0][j]))
             && (forall i, j :: 0 <= i < |batch[1..]| && 1 <= j <= attributes ==> IsBlank(batch[1..][i][j])) by {
        assert forall i :: 1 <= i < |batch| ==> batch[i] == batch[1..][i - 1];
      }
      RowPieces(batch[0], attributes) + rest
  }

  lemma {:induction false} BlankConcat(a: string, b: string)
    ensures IsBlank(a + b) <==> IsBlank(a) && IsBlank(b)
  {
    if IsBlank(a + b) {
      assert forall i :: 0 <= i < |a| ==> a[i] == (a + b)[i];
      assert forall i :: 0 <= i < |b| ==> b[i] == (a + b)[|a| + i];
    }
  }

  /** Text terminated by line breaks is blank exactly when every piece is. */
  lemma {:induction false} TerminatedBlank(xs: seq<string>)
    ensures IsBlank(Terminated(xs, '\n')) <==> forall k :: 0 <= k < |xs| ==> IsBlank(xs[k])
  {
    if xs != [] {
      TerminatedBlank(xs[1..]);
      BlankConcat(xs[0] + ['\n'], Terminated(xs[1..], '\n'));
      BlankConcat(xs[0], ['\n']);
      assert forall k :: 1 <= k < |xs| ==> xs[k] == xs[1..][k - 1];
    }
  }

  lemma EmptyTextIffNoPieces(pieces: seq<string>)
    requires forall k :: 0 <= k < |pieces| ==> !IsBlank(pieces[k])
    ensures Strip(Terminated(pieces, '\n')) == [] <==> pieces == []
  {
    TerminatedBlank(pieces);
    if pieces != [] {
      assert !IsBlank(pieces[0]);
    }
  }

  /** The text of a batch: each non-blank attribute value followed by a
      line break, the whole stripped. It is empty exactly when every
      attribute value is blank. */
  function BatchText(batch: seq<seq<string>>, attributes: nat): (text: string)
    requires DR.RowsHaveColumns(batch, attributes)
    ensures text == [] <==> AllAttributesBlank(batch, attributes)
  {
    var pieces := BatchPieces(batch, attributes);
    EmptyTextIffNoPieces(pieces);
    Strip(Terminated(pieces, '\n'))
  }

  /** The document handed to the pattern learner, or `None` when the batch
      is skipped because all its attribute values are blank. */
  function BatchDocument(batch: seq<seq<string>>, attributes: nat): (r: Option<string>)
    requires DR.RowsHaveColumns(batch, attributes)
    ensures r.None? <==> AllAttributesBlank(batch, attributes)
    ensures r.Some? ==> r.value != [] && r.value == BatchText(batch, attributes)
  {
    var text := BatchText(batch, attributes);
    if text == [] then None else Some(text)
  }

  // ---------------------------------------------------------------------
  // The batch buffer
  // ---------------------------------------------------------------------

  /** `new StringBuilder(capacity)`: the capacity is only a size hint, but a
      negative one throws. */
  function NewBuffer(capacity: int): (r: Result<nat, Exception>)
    ensures r.Ok? <==> capacity >= 0
    ensures r.Ok? ==> r.value == capacity
    ensures r.Err? ==> r.error == NegativeArraySizeException
  {
    if capacity < 0 then Err(NegativeArraySizeException) else Ok(capacity)
  }

  /** The buffer capacity as written: six characters per word, 150 words
      per document, times the batch size, multiplied in `int` arithmetic,
      so it wraps for large batch sizes. */
  function BufferCapacityAsWritten(batchSize: int): (c: int)
    ensures IsInt(c)
    ensures IsInt(6 * 150 * batchSize) ==> c == 6 * 150 * batchSize
    ensures (c - 6 * 150 * batchSize) % 0x1_0000_0000 == 0
  {
    WrapInt(6 * 150 * batchSize)
  }

  /** One batch as written: the batch size parameter is parsed and the
      buffer allocated before the batch is looked at, then the batch
      becomes a document, or is skipped when all its values are blank. */
  function BatchStepAsWritten(batchSize: string, batch: seq<seq<string>>, attributes: nat): (r: Result<Option<string>, Exception>)
    requires DR.RowsHaveColumns(batch, attributes)
    ensures ParseInt(batchSize).None? ==> r == Err(NumberFormatException)
    ensures ParseInt(batchSize).Some? && BufferCapacityAsWritten(ParseInt(batchSize).value) < 0 ==>
              r == Err(NegativeArraySizeException)
    ensures r.Ok? ==> r.value == BatchDocument(batch, attributes)
  {
    match ParseInt(batchSize)
    case None => Err(NumberFormatException)
    case Some(n) =>
      match NewBuffer(BufferCapacityAsWritten(n))
      case Err(e) => Err(e)
      case Ok(_) => Ok(BatchDocument(batch, attributes))
  }

  /** A batch size from 2,386,093 to 4,772,185 makes the `int` product
      wrap below zero, so every batch throws, whatever its contents. */
  lemma LargeBatchSizeFails(batchSize: string, batch: seq<seq<string>>, attributes: nat)
    requires DR.RowsHaveColumns(batch, attributes)
    requires ParseInt(batchSize).Some? && 2386093 <= ParseInt(batchSize).value <= 4772185
    ensures BatchStepAsWritten(batchSize, batch, attributes) == Err(NegativeArraySizeException)
  {
    var n := ParseInt(batchSize).value;
    var c := BufferCapacityAsWritten(n);
    assert IntMax < 6 * 150 * n < 0x1_0000_0000;
    assert c == 6 * 150 * n - 0x1_0000_0000 by {
      assert (6 * 150 * n - IntMin) % 0x1_0000_0000 == 6 * 150 * n - IntMin - 0x1_0000_0000;
    }
  }

  /** The buffer capacity as intended: the product as a size hint, capped
      at the largest `int`, and never negative. */
  function BufferCapacity(batchSize: int): (c: nat)
    ensures IsInt(c)
    ensures batchSize >= 0 && IsInt(6 * 150 * batchSize) ==> c == 6 * 150 * batchSize
    ensures 6 * 150 * batchSize > IntMax ==> c == IntMax
  {
    if batchSize <= 0 then 0
    else if 6 * 150 * batchSize > IntMax then IntMax
    else 6 * 150 * batchSize
  }

  /** One batch with the intended capacity: only an unparsable batch size
      fails; otherwise the batch becomes its document, or is skipped. */
  function BatchStep(batchSize: string, batch: seq<seq<string>>, attributes: nat): (r: Result<Option<string>, Exception>)
    requires DR.RowsHaveColumns(batch, attributes)
    ensures r.Ok? <==> ParseInt(batchSize).Some?
    ensures r.Err? ==> r.error == NumberFormatException
    ensures r.Ok? ==> r.value == BatchDocument(batch, attributes)
  {
    match ParseInt(batchSize)
    case None => Err(NumberFormatException)
    case Some(n) =>
      match NewBuffer(BufferCapacity(n))
      case Err(e) => Err(e)
      case Ok(_) => Ok(BatchDocument(batch, attributes))
  }

  /** Both versions agree whenever the product fits in an `int` and the
      batch size is not negative. */
  lemma BatchStepsAgree(batchSize: string, batch: seq<seq<string>>, attributes: nat)
    requires DR.RowsHaveColumns(batch, attributes)
    requires ParseInt(batchSize).Some? ==>
               ParseInt(batchSize).value >= 0 && IsInt(6 * 150 * ParseInt(batchSize).value)
    ensures BatchStepAsWritten(batchSize, batch, attributes) == BatchStep(batchSize, batch, attributes)
  {
  }
}

=== FILE: java_collections.dfy ===
/** The `java.util` behaviour the model relies on: lists without repeated
    elements, and the last-write-wins rule of a sequence of `Map.put`
    calls. */
module JavaCollections {

  predicate NoDuplicates<T(==)>(xs: seq<T>) {
    forall i, j :: 0 <= i < j < |xs| ==> xs[i] != xs[j]
  }

  /** The elements of a list, as a set. */
  function Elements<T>(xs: seq<T>): set<T> {
    set i | 0 <= i < |xs| :: xs[i]
  }

  /** `order` is an iteration order of the set `s`: every element exactly
      once. */
  predicate Enumerates<T(==)>(order: seq<T>, s: set<T>) {
    NoDuplicates(order) && Elements(order) == s
  }

  lemma ElementsOfCons<T>(xs: seq<T>)
    requires xs != []
    ensures Elements(xs) == {xs[0]} + Elements(xs[1..])
  {
    forall x | x in Elements(xs) ensures x in {xs[0]} + Elements(xs[1..]) {
      var i :| 0 <= i < |xs| && xs[i] == x;
      if i > 0 {
        assert xs[1..][i - 1] == x;
      }
    }
    forall x | x in Elements(xs[1..]) ensures x in Elements(xs) {
      var i :| 0 <= i < |xs[1..]| && xs[1..][i] == x;
      assert xs[i + 1] == x;
    }
  }

  lemma ElementsOfShortLists<T>(x: T, y: T)
    ensures Elements([x]) == {x}
    ensures Elements([x, y]) == {x, y}
  {
    ElementsOfCons([x]);
    assert [x][1..] == [];
    assert Elements([x]) == {x};
    ElementsOfCons([x, y]);
    assert [x, y][1..] == [y];
    ElementsOfCons([y]);
    assert [y][1..] == [];
    assert Elements([x, y]) == {x} + Elements([y]);
  }

  /** A list without repeated elements has as many elements as its set. */
  lemma {:induction false} DistinctCount<T>(xs: seq<T>)
    requires NoDuplicates(xs)
    ensures |Elements(xs)| == |xs|
    decreases |xs|
  {
    if xs != [] {
      ElementsOfCons(xs);
      DistinctCount(xs[1..]);
      forall i | 0 <= i < |xs[1..]| ensures xs[1..][i] != xs[0] {
        assert xs[1..][i] == xs[i + 1];
      }
      assert xs[0] !in Elements(xs[1..]);
    }
  }

  /** Two iteration orders of the same set have the same length. */
  lemma OrdersHaveSameLength<T>(a: seq<T>, b: seq<T>, s: set<T>)
    requires Enumerates(a, s) && Enumerates(b, s)
    ensures |a| == |b|
  {
    DistinctCount(a);
    DistinctCount(b);
  }

  /** `m.put(keys[i], values[i])` for every position, in order. */
  function PutAll<K(!new), V>(m: map<K, V>, keys: seq<K>, values: seq<V>): (r: map<K, V>)
    requires |keys| == |values|
    ensures forall k :: k in r <==> k in m || k in keys
    decreases |keys|
  {
    if keys == [] then m
    else PutAll(m[keys[0] := values[0]], keys[1..], values[1..])
  }

  /** No later position puts the key of position `i` again. */
  predicate LastPut<K(==)>(keys: seq<K>, i: int)
    requires 0 <= i < |keys|
  {
    forall j :: i < j < |keys| ==> keys[j] != keys[i]
  }

  /** The value a key ends up with is the one put last. */
  lemma {:induction false} LastPutWins<K(!new), V>(m: map<K, V>, keys: seq<K>, values: seq<V>, i: nat)
    requires |keys| == |values| && i < |keys| && LastPut(keys, i)
    ensures PutAll(m, keys, values)[keys[i]] == values[i]
    decreases |keys|
  {
    if i == 0 {
      forall j | 0 <= j < |keys[1..]| ensures keys[1..][j] != keys[0] {
        assert keys[1..][j] == keys[j + 1];
      }
      UntouchedKeyKeeps(m[keys[0] := values[0]], keys[1..], values[1..], keys[0]);
    } else {
      assert keys[1..][i - 1] == keys[i];
      LastPutWins(m[keys[0] := values[0]], keys[1..], values[1..], i - 1);
    }
  }

  /** A key that is never put keeps its value. */
  lemma {:induction false} UntouchedKeyKeeps<K(!new), V>(m: map<K, V>, keys: seq<K>, values: seq<V>, k: K)
    requires |keys| == |values| && k in m && k !in keys
    ensures PutAll(m, keys, values)[k] == m[k]
    decreases |keys|
  {
    if keys != [] {
      assert k !in keys[1..];
      UntouchedKeyKeeps(m[keys[0] := values[0]], keys[1..], values[1..], k);
    }
  }
}

=== FILE: java_lang.dfy ===
/** The parts of the Java language the model needs spelled out: fixed-width
    integer arithmetic (Dafny integers are unbounded) and the exception
    classes the modelled code throws or catches. */
module JavaLang {

  const IntMin: int := -0x8000_0000
  const IntMax: int := 0x7FFF_FFFF
  const LongMin: int := -0x8000_0000_0000_0000
  const LongMax: int := 0x7FFF_FFFF_FFFF_FFFF

  predicate IsInt(x: int) {
    IntMin <= x <= IntMax
  }

  predicate IsLong(x: int) {
    LongMin <= x <= LongMax
  }

  /** Two's complement narrowing to 32 bits: the result of Java `int`
      arithmetic and of an `(int)` cast. */
  function WrapInt(x: int): (r: int)
    ensures IsInt(r)
    ensures (x - r) % 0x1_0000_0000 == 0
    ensures IsInt(x) ==> r == x
  {
    (x - IntMin) % 0x1_0000_0000 + IntMin
  }

  /** Two's complement narrowing to 64 bits: the result of Java `long`
      arithmetic. */
  function WrapLong(x: int): (r: int)
    ensures IsLong(r)
    ensures (x - r) % 0x1_0000_0000_0000_0000 == 0
    ensures IsLong(x) ==> r == x
  {
    (x - LongMin) % 0x1_0000_0000_0000_0000 + LongMin
  }

  function Abs(x: int): nat {
    if x < 0 then -x else x
  }

  /** Java's `/`: the quotient truncated toward zero (before any narrowing). */
  function Quot(a: int, b: int): (q: int)
    requires b != 0
    ensures Abs(q) == Abs(a) / Abs(b)
  {
    DivisionOfNaturals(Abs(a), Abs(b));
    var n := Abs(a) / Abs(b);
    if (a >= 0) == (b > 0) then n else -n
  }

  lemma DivisionOfNaturals(x: nat, y: nat)
    requires y > 0
    ensures x / y >= 0
    ensures x == y * (x / y) + x % y
  {}

  /** Java's `%`: the remainder of the truncating division, which takes the
      sign of the dividend (Dafny's `%` never returns a negative value). */
  function Rem(a: int, b: int): (r: int)
    requires b != 0
    ensures a == b * Quot(a, b) + r
    ensures Abs(r) == Abs(a) % Abs(b)
    ensures a >= 0 ==> r >= 0
    ensures a <= 0 ==> r <= 0
  {
    DivisionOfNaturals(Abs(a), Abs(b));
    var q := Abs(a) / Abs(b);
    var m := Abs(a) % Abs(b);
    if (a >= 0) == (b > 0) then
      assert b * Quot(a, b) == (if a >= 0 then Abs(b) * q else -(Abs(b) * q));
      a - b * Quot(a, b)
    else
      assert b * Quot(a, b) == (if a >= 0 then Abs(b) * q else -(Abs(b) * q));
      a - b * Quot(a, b)
  }

  /** `Math.abs(int)`: the negation of `Integer.MIN_VALUE` overflows back to
      itself. */
  function AbsInt(x: int): (r: int)
    requires IsInt(x)
    ensures IsInt(r)
    ensures x != IntMin ==> r == Abs(x)
    ensures x == IntMin ==> r == IntMin
  {
    if x < 0 then WrapInt(-x) else x
  }

  /** Quotient and remainder are the only pair with `k == d * q + m` and
      `0 <= m < d`. */
  lemma DivModUnique(k: int, d: int, q: int, m: int)
    requires d >= 1 && 0 <= m < d && k == d * q + m
    ensures k / d == q && k % d == m
  {
    var c := q - k / d;
    assert k == d * (k / d) + k % d;
    assert d * c == d * q - d * (k / d);
    MulSmall(d, c);
  }

  lemma MulSmall(d: int, c: int)
    requires d >= 1 && -d < d * c < d
    ensures c == 0
  {
  }

  /** The exception classes thrown or caught by the modelled code. */
  datatype Exception =
    | ProcessingException(message: string)
      /** `new ProcessingException(cause)`: a processing failure wrapping
          another exception. */
    | WrappedProcessingException(cause: Exception)
    | PersistenceException
    | IllegalArgumentException(message: string)
    | NumberFormatException
    | IllegalStateException(message: string)
    | IOException(message: string)
      /** `new IOException(cause)`: an I/O failure wrapping another exception. */
    | WrappedIOException(cause: Exception)
    | IndexOutOfBoundsException
      /** An array, or a `StringBuilder`, created with a negative size. */
    | NegativeArraySizeException
    | NullPointerException
    | InterruptedException
    | OtherRuntimeException

  /** `catch (IllegalArgumentException e)` also catches its subclass
      `NumberFormatException`. */
  predicate IsIllegalArgument(e: Exception) {
    e.IllegalArgumentException? || e.NumberFormatException?
  }

  /** `instanceof IOException`. */
  predicate IsIOException(e: Exception) {
    e.IOException? || e.WrappedIOException?
  }

  /** `instanceof ProcessingException`. */
  predicate IsProcessingException(e: Exception) {
    e.ProcessingException? || e.WrappedProcessingException?
  }

  /** The catch-all of the source's service code: a `ProcessingException`
      is rethrown as is, anything else is wrapped in one. */
  function AsProcessingException(e: Exception): (w: Exception)
    ensures IsProcessingException(w)
    ensures IsProcessingException(e) ==> w == e
    ensures !IsProcessingException(e) ==> w.WrappedProcessingException? && w.cause == e
  {
    if IsProcessingException(e) then e else WrappedProcessingException(e)
  }
}

=== FILE: java_text.dfy ===
/** The `java.lang.String`, `StringBuilder` and `Integer` operations the
    modelled code relies on, on strings as sequences of UTF-16 code units.
    Whitespace and case mapping are the ASCII parts of the JDK's Unicode
    tables; every non-ASCII character is treated as neither whitespace nor
    cased. */
module JavaText {
  import opened Wrappers
  import opened JavaLang

  // ---------------------------------------------------------------------
  // Whitespace: isBlank, strip and trim

  /** `Character.isWhitespace` restricted to ASCII: space, the control
      characters tab to carriage return, and the four separators 0x1C-0x1F. */
  predicate IsWhitespace(c: char) {
    c == ' ' || ('\t' <= c <= '\r') || ('\U{1C}' <= c <= '\U{1F}')
  }

  /** What `String.trim` removes: every character up to and including space. */
  predicate IsTrimmable(c: char) {
    c <= ' '
  }

  /** `String.isBlank`: empty, or whitespace only. */
  predicate IsBlank(s: string) {
    forall i :: 0 <= i < |s| ==> IsWhitespace(s[i])
  }

  predicate AllSatisfy(s: string, p: char -> bool) {
    forall i :: 0 <= i < |s| ==> p(s[i])
  }

  /** Drops the longest prefix whose characters satisfy `p`. */
  function DropLeading(s: string, p: char -> bool): (r: string)
    ensures |r| <= |s| && r == s[|s| - |r|..]
    ensures AllSatisfy(s[..|s| - |r|], p)
    ensures r == [] || !p(r[0])
  {
    if s == [] || !p(s[0]) then s
    else
      var r := DropLeading(s[1..], p);
      LeadingStep(s, r, p);
      r
  }

  /** A suffix of the tail after a satisfying prefix is a suffix of the whole
      string after a satisfying prefix one longer. */
  lemma LeadingStep(s: string, r: string, p: char -> bool)
    requires s != [] && p(s[0]) && |r| <= |s| - 1
    requires r == s[1..][|s| - 1 - |r|..] && AllSatisfy(s[1..][..|s| - 1 - |r|], p)
    ensures r == s[|s| - |r|..] && AllSatisfy(s[..|s| - |r|], p)
  {
    var n := |s| - |r|;
    forall i | 0 <= i < n ensures p(s[..n][i]) {
      if i > 0 {
        assert s[..n][i] == s[1..][..n - 1][i - 1];
      }
    }
  }

  /** Drops the longest suffix whose characters satisfy `p`. */
  function DropTrailing(s: string, p: char -> bool): (r: string)
    ensures |r| <= |s| && r == s[..|r|]
    ensures AllSatisfy(s[|r|..], p)
    ensures r == [] || !p(r[|r| - 1])
  {
    if s == [] || !p(s[|s| - 1]) then s
    else
      var r := DropTrailing(s[..|s| - 1], p);
      assert s[|r|..] == s[..|s| - 1][|r|..] + [s[|s| - 1]];
      r
  }

  /** Both ends stripped of characters satisfying `p`: empty exactly when
      every character satisfies `p`, and otherwise a slice of `s` that starts
      and ends with a character that does not. */
  function StripBy(s: string, p: char -> bool): (r: string)
    ensures r == [] <==> AllSatisfy(s, p)
    ensures r != [] ==> !p(r[0]) && !p(r[|r| - 1])
    ensures |r| <= |s|
    ensures s == [] || (!p(s[0]) && !p(s[|s| - 1])) ==> r == s
  {
    var a := DropLeading(s, p);
    var r := DropTrailing(a, p);
    assert r == [] ==> AllSatisfy(s, p) by {
      if r == [] {
        if a != [] {
          assert false;
        }
        assert s[..|s| - |a|] == s;
      }
    }
    assert r != [] ==> !AllSatisfy(s, p) by {
      if r != [] {
        assert r[0] == s[|s| - |a|];
      }
    }
    r
  }

  /** `String.strip`. */
  function Strip(s: string): (r: string)
    ensures r == [] <==> IsBlank(s)
    ensures r != [] ==> !IsWhitespace(r[0]) && !IsWhitespace(r[|r| - 1])
  {
    StripBy(s, IsWhitespace)
  }

  /** `String.trim`. */
  function Trim(s: string): (r: string)
    ensures r == [] <==> AllSatisfy(s, IsTrimmable)
    ensures r != [] ==> r[0] > ' ' && r[|r| - 1] > ' '
  {
    StripBy(s, IsTrimmable)
  }

  // ---------------------------------------------------------------------
  // Case mapping (Locale.ROOT, ASCII)

  function UpperChar(c: char): (u: char)
    ensures 'a' <= c <= 'z' ==> 'A' <= u <= 'Z' && u as int == c as int - 32
    ensures !('a' <= c <= 'z') ==> u == c
  {
    if 'a' <= c <= 'z' then (c as int - 32) as char else c
  }

  function LowerChar(c: char): (l: char)
    ensures 'A' <= c <= 'Z' ==> 'a' <= l <= 'z' && l as int == c as int + 32
    ensures !('A' <= c <= 'Z') ==> l == c
  {
    if 'A' <= c <= 'Z' then (c as int + 32) as char else c
  }

  /** `toUpperCase(Locale.ROOT)`: same length, no lower-case letter left. */
  function Upper(s: string): (r: string)
    ensures |r| == |s|
    ensures forall i :: 0 <= i < |s| ==> r[i] == UpperChar(s[i])
  {
    seq(|s|, i requires 0 <= i < |s| => UpperChar(s[i]))
  }

  /** `toLowerCase(Locale.ROOT)`: same length, no upper-case letter left. */
  function Lower(s: string): (r: string)
    ensures |r| == |s|
    ensures forall i :: 0 <= i < |s| ==> r[i] == LowerChar(s[i])
  {
    seq(|s|, i requires 0 <= i < |s| => LowerChar(s[i]))
  }

  lemma LowerIdempotent(s: string)
    ensures Lower(Lower(s)) == Lower(s)
  {
  }

  /** `String.equalsIgnoreCase`: same length and, position by position, the
      same character up to case. */
  predicate EqualsIgnoreCase(a: string, b: string) {
    |a| == |b| && forall i :: 0 <= i < |a| ==> UpperChar(a[i]) == UpperChar(b[i])
  }

  lemma EqualsIgnoreCaseMeansSameUpper(a: string, b: string)
    ensures EqualsIgnoreCase(a, b) <==> Upper(a) == Upper(b)
  {
    if Upper(a) == Upper(b) {
      assert |a| == |b|;
      forall i | 0 <= i < |a| ensures UpperChar(a[i]) == UpperChar(b[i]) {
        assert Upper(a)[i] == Upper(b)[i];
      }
    }
  }

  // ---------------------------------------------------------------------
  // Joining and splitting

  /** `String.join(sep, xs)`: the elements with `sep` between neighbours. */
  function Join(xs: seq<string>, sep: string): string {
    if xs == [] then []
    else if |xs| == 1 then xs[0]
    else xs[0] + sep + Join(xs[1..], sep)
  }

  /** Joining two strings puts one separator between them. */
  lemma JoinPair(a: string, b: string, sep: string)
    ensures Join([a, b], sep) == a + sep + b
  {
    assert [a, b][1..] == [b];
  }

  /** Joining three strings puts a separator between each neighbour pair. */
  lemma JoinTriple(a: string, b: string, c: string, sep: string)
    ensures Join([a, b, c], sep) == a + sep + b + sep + c
  {
    assert [a, b, c][1..] == [b, c];
    JoinPair(b, c, sep);
  }

  /** Appending an element to a non-empty list appends a separator and the
      element to the joined string. */
  lemma {:induction false} JoinAppend(xs: seq<string>, x: string, sep: string)
    requires xs != []
    ensures Join(xs + [x], sep) == Join(xs, sep) + sep + x
    decreases |xs|
  {
    if |xs| == 1 {
      assert xs + [x] == [xs[0], x];
      JoinPair(xs[0], x, sep);
    } else {
      assert (xs + [x])[1..] == xs[1..] + [x];
      JoinAppend(xs[1..], x, sep);
    }
  }

  /** The `StringBuilder` idiom of the source: append every element followed
      by `sep`, then delete the last character if the builder is not empty. */
  function BuilderJoin(xs: seq<string>, sep: char): (r: string)
  {
    var b := Terminated(xs, sep);
    if |b| > 0 then b[..|b| - 1] else b
  }

  /** Every element followed by `sep`. */
  function Terminated(xs: seq<string>, sep: char): (r: string)
    ensures xs != [] ==> |r| > 0 && r[|r| - 1] == sep
  {
    if xs == [] then [] else xs[0] + [sep] + Terminated(xs[1..], sep)
  }

  lemma {:induction false} TerminatedIsJoinPlusSeparator(xs: seq<string>, sep: char)
    requires xs != []
    ensures Terminated(xs, sep) == Join(xs, [sep]) + [sep]
    decreases |xs|
  {
    if |xs| == 1 {
      assert Terminated(xs[1..], sep) == [];
    } else {
      TerminatedIsJoinPlusSeparator(xs[1..], sep);
    }
  }

  /** Deleting the trailing separator after appending element by element
      yields exactly the separator-joined string: no trailing separator, and
      the empty list gives "". */
  lemma BuilderJoinIsJoin(xs: seq<string>, sep: char)
    ensures BuilderJoin(xs, sep) == Join(xs, [sep])
  {
    if xs != [] {
      TerminatedIsJoinPlusSeparator(xs, sep);
      var b := Terminated(xs, sep);
      assert b[..|b| - 1] == Join(xs, [sep]);
    }
  }

  /** Every piece between occurrences of `c`, empty pieces included (the
      behaviour of `split` with a negative limit). */
  function SplitAll(s: string, c: char): (r: seq<string>)
    ensures |r| >= 1
    ensures forall k :: 0 <= k < |r| ==> c !in r[k]
    decreases |s|
  {
    if c !in s then [s]
    else
      var i := IndexOf(s, c);
      [s[..i]] + SplitAll(s[i + 1..], c)
  }

  /** The position of the first `c` in `s`. */
  function IndexOf(s: string, c: char): (i: nat)
    requires c in s
    ensures i < |s| && s[i] == c && c !in s[..i]
  {
    if s[0] == c then 0
    else
      var j := IndexOf(s[1..], c);
      assert s[..j + 1] == [s[0]] + s[1..][..j];
      j + 1
  }

  lemma {:induction false} JoinSplitAll(s: string, c: char)
    ensures Join(SplitAll(s, c), [c]) == s
    decreases |s|
  {
    if c in s {
      var i := IndexOf(s, c);
      var rest := SplitAll(s[i + 1..], c);
      assert SplitAll(s, c) == [s[..i]] + rest;
      assert ([s[..i]] + rest)[1..] == rest;
      assert Join(SplitAll(s, c), [c]) == s[..i] + [c] + Join(rest, [c]);
      JoinSplitAll(s[i + 1..], c);
      assert s == s[..i] + [c] + s[i + 1..];
    } else {
      assert SplitAll(s, c) == [s];
    }
  }

  lemma {:induction false} SplitAllJoin(xs: seq<string>, c: char)
    requires xs != []
    requires forall k :: 0 <= k < |xs| ==> c !in xs[k]
    ensures SplitAll(Join(xs, [c]), c) == xs
    decreases |xs|
  {
    if |xs| > 1 {
      var s := Join(xs, [c]);
      assert s == xs[0] + [c] + Join(xs[1..], [c]);
      assert s[|xs[0]|] == c;
      assert s[..|xs[0]|] == xs[0];
      var i := IndexOf(s, c);
      if i != |xs[0]| {
        assert false;
      }
      assert s[i + 1..] == Join(xs[1..], [c]);
      SplitAllJoin(xs[1..], c);
    }
  }

  function DropTrailingEmpty(xs: seq<string>): (r: seq<string>)
    ensures |r| <= |xs| && r == xs[..|r|]
    ensures forall k :: |r| <= k < |xs| ==> xs[k] == []
    ensures r == [] || r[|r| - 1] != []
  {
    if xs == [] || xs[|xs| - 1] != [] then xs
    else DropTrailingEmpty(xs[..|xs| - 1])
  }

  /** `String.split` on a one-character literal regex with limit 0: trailing
      empty strings are removed, except that an input with no match at all
      (in particular "") is returned as the only element. */
  function JavaSplit(s: string, c: char): (r: seq<string>)
    ensures c !in s ==> r == [s]
    ensures forall k :: 0 <= k < |r| ==> c !in r[k]
    ensures c in s ==> r == [] || r[|r| - 1] != []
  {
    if c !in s then [s] else DropTrailingEmpty(SplitAll(s, c))
  }

  /** Splitting and re-joining with the same character loses exactly the
      separators that stood before trailing empty pieces. */
  lemma JavaSplitIsPrefixOfPieces(s: string, c: char)
    ensures var r := JavaSplit(s, c); r == SplitAll(s, c)[..|r|]
    ensures forall k :: |JavaSplit(s, c)| <= k < |SplitAll(s, c)| ==> SplitAll(s, c)[k] == []
  {
  }

  /** A list that ends in a non-empty element and contains no separator
      survives joining and Java-splitting unchanged. */
  lemma JavaSplitJoin(xs: seq<string>, c: char)
    requires xs != [] && xs[|xs| - 1] != []
    requires forall k :: 0 <= k < |xs| ==> c !in xs[k]
    ensures JavaSplit(Join(xs, [c]), c) == xs
  {
    SplitAllJoin(xs, c);
    if c !in Join(xs, [c]) {
      assert SplitAll(Join(xs, [c]), c) == [Join(xs, [c])];
    }
  }

  // ---------------------------------------------------------------------
  // Decimal integers: Integer.parseInt and Integer.toString

  predicate IsDigit(c: char) {
    '0' <= c <= '9'
  }

  predicate AllDigits(s: string) {
    forall i :: 0 <= i < |s| ==> IsDigit(s[i])
  }

  function DigitValue(c: char): nat
    requires IsDigit(c)
  {
    c as int - '0' as int
  }

  function DigitChar(d: nat): (c: char)
    requires d < 10
    ensures IsDigit(c) && DigitValue(c) == d
  {
    (d + '0' as int) as char
  }

  /** The value of a string of decimal digits, most significant first. */
  function DigitsValue(s: string): nat
    requires AllDigits(s)
  {
    if s == [] then 0
    else DigitsValue(s[..|s| - 1]) * 10 + DigitValue(s[|s| - 1])
  }

  /** `Integer.toString` of a non-negative value: no leading zero, at least
      one digit. */
  function NatToDecimal(n: nat): (s: string)
    ensures |s| >= 1 && AllDigits(s)
    ensures |s| > 1 ==> s[0] != '0'
  {
    if n < 10 then [DigitChar(n)]
    else NatToDecimal(n / 10) + [DigitChar(n % 10)]
  }

  lemma {:induction false} NatToDecimalValue(n: nat)
    ensures DigitsValue(NatToDecimal(n)) == n
  {
    if n >= 10 {
      NatToDecimalValue(n / 10);
      var s := NatToDecimal(n);
      assert s[..|s| - 1] == NatToDecimal(n / 10);
    }
  }

  /** `Integer.toString` / string concatenation of an `int`. */
  function IntToDecimal(i: int): (s: string)
    ensures |s| >= 1
    ensures i >= 0 <==> s[0] != '-'
  {
    if i < 0 then "-" + NatToDecimal(-i) else NatToDecimal(i)
  }

  /** `Integer.parseInt`: an optional sign, then at least one decimal digit,
      and a value inside the `int` range; anything else is a
      `NumberFormatException`, modelled as `None`. */
  function ParseInt(s: string): (r: Option<int>)
    ensures r.Some? ==> IsInt(r.value)
    ensures r.Some? ==> |s| >= 1 && AllDigits(s[1..]) && (IsDigit(s[0]) || s[0] in "+-")
    ensures r.Some? && s[0] == '-' ==> r.value <= 0
    ensures r.Some? && s[0] != '-' ==> r.value >= 0
  {
    if s == [] then None
    else
      var neg := s[0] == '-';
      var digits := if s[0] in "+-" then s[1..] else s;
      if digits == [] || !AllDigits(digits) then None
      else
        assert AllDigits(s[1..]) by {
          if !(s[0] in "+-") {
            forall i | 0 <= i < |s| - 1 ensures IsDigit(s[1..][i]) {
              assert s[1..][i] == digits[i + 1];
            }
          }
        }
        var v: int := if neg then 0 - DigitsValue(digits) as int else DigitsValue(digits);
        if IsInt(v) then Some(v) else None
  }

  /** Parsing the decimal form of an integer gives the integer back exactly
      when it lies in the `int` range, and a `NumberFormatException`
      otherwise. */
  lemma ParseIntToDecimal(i: int)
    ensures ParseInt(IntToDecimal(i)) == if IsInt(i) then Some(i) else None
  {
    if i < 0 {
      NatToDecimalValue(-i);
      ParseNegativeDigits(NatToDecimal(-i));
    } else {
      NatToDecimalValue(i);
      ParseUnsignedDigits(NatToDecimal(i));
    }
  }

  /** Digits without a sign parse to their value when it is an `int`. */
  lemma ParseUnsignedDigits(d: string)
    requires |d| >= 1 && AllDigits(d)
    ensures ParseInt(d) == if DigitsValue(d) <= IntMax then Some(DigitsValue(d) as int) else None
  {
    assert d[0] !in "+-" by { assert IsDigit(d[0]); }
  }

  /** A minus sign and digits parse to the negated value when it is an `int`. */
  lemma ParseNegativeDigits(d: string)
    requires |d| >= 1 && AllDigits(d)
    ensures ParseInt("-" + d) == if DigitsValue(d) <= -IntMin then Some(0 - DigitsValue(d) as int) else None
  {
    var s := "-" + d;
    assert s[0] == '-' && s[0] in "+-";
    assert s[1..] == d;
  }

  /** A non-empty string of digits whose value is an `int` parses to that
      value. */
  lemma ParseDigits(s: string)
    requires |s| >= 1 && AllDigits(s) && DigitsValue(s) <= IntMax
    ensures ParseInt(s) == Some(DigitsValue(s) as int)
  {
    ParseUnsignedDigits(s);
  }

  lemma ParseIntExamples()
    ensures ParseInt("+7") == Some(7)
    ensures ParseInt("-") == None && ParseInt("") == None && ParseInt(" 1") == None
  {
    assert DigitsValue("7") == 7;
    assert !IsDigit(' ');
  }

  /** `String.format("%02d", n)` for a non-negative `n`. */
  function Pad2(n: nat): (s: string)
    ensures |s| >= 2 && AllDigits(s)
    ensures DigitsValue(s) == n
  {
    NatToDecimalValue(n);
    var d := NatToDecimal(n);
    if n < 10 then
      assert DigitsValue(['0']) == 0;
      assert ['0'] + d == ['0', d[0]];
      ['0'] + d
    else
      d
  }
}

=== FILE: logging.dfy ===
/** `TextProcLogging`: a write-once holder of the application logger. The
    atomic reference is the state; a logger is identified by the name it
    was obtained for. */
module Logging {
  import opened Wrappers
  import opened JavaLang

  const NotInitializedMessage: string := "Logging hasn't been initialized"

  datatype Logger = Logger(name: string)

  /** The atomic reference: empty until the first `initialize`. */
  type LoggingState = Option<Logger>

  /** `initialize`: a null name is rejected by the non-null check, whatever
      the state; otherwise the compare-and-set installs the logger for the
      name only when none is installed yet. */
  function Initialize(state: LoggingState, appName: Option<string>): (r: Result<LoggingState, Exception>)
    ensures appName.None? <==> r.Err?
    ensures r.Err? ==> r.error == NullPointerException
    ensures r.Ok? ==> r.value.Some?
    ensures r.Ok? && state.Some? ==> r.value == state
    ensures r.Ok? && state.None? ==> r.value == Some(Logger(appName.value))
  {
    match appName
    case None => Err(NullPointerException)
    case Some(name) => if state.None? then Ok(Some(Logger(name))) else Ok(state)
  }

  /** `getLogger`: the installed logger, or an `IllegalStateException`
      before the first successful `initialize`. */
  function GetLogger(state: LoggingState): (r: Result<Logger, Exception>)
    ensures state.None? <==> r.Err?
    ensures r.Err? ==> r.error == IllegalStateException(NotInitializedMessage)
    ensures r.Ok? ==> state == Some(r.value)
  {
    match state
    case None => Err(IllegalStateException(NotInitializedMessage))
    case Some(logger) => Ok(logger)
  }

  /** A sequence of `initialize` calls; a call that throws leaves the state
      as it was. */
  function InitializeAll(state: LoggingState, names: seq<Option<string>>): (s: LoggingState)
    ensures state.Some? ==> s == state
    decreases |names|
  {
    if names == [] then state
    else
      var next := match Initialize(state, names[0]) case Ok(s) => s case Err(_) => state;
      InitializeAll(next, names[1..])
  }

  /** Only the first non-null name takes effect: after any sequence of calls
      the logger is the one for that name, and without one `getLogger`
      still fails. */
  lemma {:induction false} FirstNameWins(names: seq<Option<string>>)
    ensures (forall i :: 0 <= i < |names| ==> names[i].None?) ==> GetLogger(InitializeAll(None, names)).Err?
    ensures forall i :: 0 <= i < |names| && names[i].Some? && (forall j :: 0 <= j < i ==> names[j].None?) ==>
              GetLogger(InitializeAll(None, names)) == Ok(Logger(names[i].value))
    decreases |names|
  {
    if names != [] {
      FirstNameWins(names[1..]);
      if names[0].None? {
        forall i | 1 <= i < |names| && names[i].Some? && (forall j :: 0 <= j < i ==> names[j].None?)
          ensures GetLogger(InitializeAll(None, names)) == Ok(Logger(names[i].value))
        {
          assert names[1..][i - 1] == names[i];
          assert forall j :: 0 <= j < i - 1 ==> names[1..][j] == names[j + 1];
        }
        if forall i :: 0 <= i < |names| ==> names[i].None? {
          assert forall i :: 0 <= i < |names[1..]| ==> names[1..][i] == names[i + 1];
        }
      }
    }
  }

  /** Once initialized, `getLogger` returns the same logger whatever
      `initialize` calls follow. */
  lemma SameLoggerAfterInitialization(state: LoggingState, names: seq<Option<string>>)
    requires GetLogger(state).Ok?
    ensures GetLogger(InitializeAll(state, names)) == GetLogger(state)
  {
  }

  /** The non-null check comes first: a null name is rejected even after
      initialization. */
  lemma NullNameAlwaysRejected(state: LoggingState)
    ensures Initialize(state, None) == Err(NullPointerException)
  {
  }
}

=== FILE: lucene.dfy ===
/** `LuceneIndexProcessingStep`: adds one Lucene document per row of
    every input type to an index opened in CREATE mode in the configured
    folder, and commits once after all input types. The index writer is a
    parameter: what `addDocument` throws for a field list. */
module LuceneIndex {
  import opened Wrappers
  import opened JavaLang
  import opened JavaText
  import opened JavaCollections
  import S = StepDriver
  import DR = DocumentRows
  import BatchScanner

  const FolderPathName: string := "folderPath"
  const DefaultFolder: string := "lucene_index"
  const IdFieldName: string := "id"

  /** The step's validation table: an optional, non-blank `folderPath`. */
  function Spec(): S.StepSpec {
    S.MakeSpec(map[FolderPathName := S.NonBlankCheck], {})
  }

  /** The index folder: the parameter or `lucene_index`. */
  function IndexFolder(params: S.Params): (f: Option<string>)
    ensures FolderPathName !in params ==> f == Some(DefaultFolder)
    ensures FolderPathName in params ==> f == params[FolderPathName]
  {
    S.GetOrDefault(params, FolderPathName, DefaultFolder)
  }

  /** After validation the folder is a non-blank path. */
  lemma ValidatedFolder(params: S.Params, order: seq<string>, stepName: string)
    requires S.IsIterationOrder(order, params)
    requires S.Validate(Spec(), params, order, stepName).Ok?
    ensures IndexFolder(params).Some? && !IsBlank(IndexFolder(params).value)
  {
    S.ValidateOkIff(Spec(), params, order, stepName);
    if FolderPathName in params {
      assert S.EntryPasses(Spec().checks, params, FolderPathName);
    } else {
      assert DefaultFolder[0] == 'l';
    }
  }

  /** A field of a Lucene document: the stored integer key, or an indexed,
      unstored text field with term vectors. */
  datatype Field = StoredInt(name: string, number: int) | TextField(name: string, text: string)

  // ---------------------------------------------------------------------
  // The fields of one document

  /** The field list as written: the stored key parsed from column 0, then
      one text field per attribute with the value of column `j + 1`, every
      one of them named after attribute 0. */
  function DocumentFieldsAsWritten(row: seq<string>, names: seq<string>): (r: Result<seq<Field>, Exception>)
    requires |row| > |names|
    ensures r.Ok? <==> ParseInt(row[0]).Some?
    ensures r.Err? ==> r.error == NumberFormatException
    ensures r.Ok? ==> |r.value| == |names| + 1 && r.value[0] == StoredInt(IdFieldName, ParseInt(row[0]).value)
    ensures r.Ok? ==> forall j :: 1 <= j <= |names| ==> r.value[j] == TextField(names[0], row[j])
  {
    match ParseInt(row[0])
    case None => Err(NumberFormatException)
    case Some(id) =>
      Ok([StoredInt(IdFieldName, id)] + seq(|names|, j requires 0 <= j < |names| => TextField(names[0], row[j + 1])))
  }

  /** The field list as evidently intended: attribute `j` under its own
      name. */
  function DocumentFields(row: seq<string>, names: seq<string>): (r: Result<seq<Field>, Exception>)
    requires |row| > |names|
    ensures r.Ok? <==> ParseInt(row[0]).Some?
    ensures r.Err? ==> r.error == NumberFormatException
    ensures r.Ok? ==> |r.value| == |names| + 1 && r.value[0] == StoredInt(IdFieldName, ParseInt(row[0]).value)
    ensures r.Ok? ==> forall j :: 0 <= j < |names| ==> r.value[j + 1] == TextField(names[j], row[j + 1])
  {
    match ParseInt(row[0])
    case None => Err(NumberFormatException)
    case Some(id) =>
      Ok([StoredInt(IdFieldName, id)] + seq(|names|, j requires 0 <= j < |names| => TextField(names[j], row[j + 1])))
  }

  /** The text of a document's field with the given name, in field order. */
  function TextsNamed(fields: seq<Field>, name: string): (texts: seq<string>)
    ensures |texts| <= |fields|
  {
    if fields == [] then []
    else if fields[0].TextField? && fields[0].name == name then [fields[0].text] + TextsNamed(fields[1..], name)
    else TextsNamed(fields[1..], name)
  }

  /** With distinct attribute names, the intended list files each
      attribute's value, and nothing else, under that attribute's name. */
  lemma {:induction false} FieldsFiledByName(row: seq<string>, names: seq<string>, j: nat)
    requires |row| > |names| && NoDuplicates(names) && j < |names| && ParseInt(row[0]).Some?
    ensures TextsNamed(DocumentFields(row, names).value, names[j]) == [row[j + 1]]
  {
    var fields := DocumentFields(row, names).value;
    TextsNamedSingle(fields, names[j], j + 1);
  }

  /** A list whose only text field with a given name is at position `i`. */
  lemma {:induction false} TextsNamedSingle(fields: seq<Field>, name: string, i: nat)
    requires i < |fields| && fields[i].TextField? && fields[i].name == name
    requires forall k :: 0 <= k < |fields| && k != i ==> !(fields[k].TextField? && fields[k].name == name)
    ensures TextsNamed(fields, name) == [fields[i].text]
    decreases |fields|
  {
    if i == 0 {
      TextsNamedNone(fields[1..], name);
    } else {
      forall k | 0 <= k < |fields[1..]| && k != i - 1
        ensures !(fields[1..][k].TextField? && fields[1..][k].name == name)
      {
        assert fields[1..][k] == fields[k + 1];
      }
      TextsNamedSingle(fields[1..], name, i - 1);
    }
  }

  lemma {:induction false} TextsNamedNone(fields: seq<Field>, name: string)
    requires forall k :: 0 <= k < |fields| ==> !(fields[k].TextField? && fields[k].name == name)
    ensures TextsNamed(fields, name) == []
    decreases |fields|
  {
    if fields != [] {
      assert forall k :: 0 <= k < |fields[1..]| ==> fields[1..][k] == fields[k + 1];
      TextsNamedNone(fields[1..], name);
    }
  }

  /** As written, a title-and-text document files its text under "title"
      and has no "text" field at all. */
  lemma MisnamedFieldExample()
    ensures DocumentFieldsAsWritten(["7", "T", "B"], ["title", "text"])
            == Ok([StoredInt("id", 7), TextField("title", "T"), TextField("title", "B")])
    ensures TextsNamed(DocumentFieldsAsWritten(["7", "T", "B"], ["title", "text"]).value, "text") == []
    ensures DocumentFields(["7", "T", "B"], ["title", "text"])
            == Ok([StoredInt("id", 7), TextField("title", "T"), TextField("text", "B")])
  {
    assert ParseInt("7") == Some(7) by {
      assert DigitsValue("7") == 7;
    }
    var w := DocumentFieldsAsWritten(["7", "T", "B"], ["title", "text"]).value;
    assert w == [StoredInt("id", 7), TextField("title", "T"), TextField("title", "B")];
    assert "title" != "text";
    TextsNamedNone(w, "text");
    var c := DocumentFields(["7", "T", "B"], ["title", "text"]).value;
    assert c[2] == TextField(["title", "text"][1], ["7", "T", "B"][2]);
    assert c == [StoredInt("id", 7), TextField("title", "T"), TextField("text", "B")];
  }

  /** With a single attribute the two agree. */
  lemma SingleAttributeUnaffected(row: seq<string>, name: string)
    requires |row| > 1
    ensures DocumentFieldsAsWritten(row, [name]) == DocumentFields(row, [name])
  {
    if ParseInt(row[0]).Some? {
      var w := DocumentFieldsAsWritten(row, [name]).value;
      var c := DocumentFields(row, [name]).value;
      assert |w| == |c| == 2 && w[0] == c[0];
      assert w[1] == TextField(name, row[1]) == c[1];
      assert w == c;
    }
  }

  // ---------------------------------------------------------------------
  // One batch

  /** What one call of the per-batch action did: the field lists added to
      the index, in order, and the exception that ended the call, if any. */
  datatype IndexRun = IndexRun(added: seq<seq<Field>>, failure: Option<Exception>)

  /** The catch around `addDocument`: an `IllegalArgumentException` or an
      `IOException` becomes a `ProcessingException`; anything else
      propagates. */
  function AddFailure(e: Exception): (w: Exception)
    ensures IsIllegalArgument(e) || IsIOException(e) ==> w == ProcessingException(BatchScanner.DataAccessMessage)
    ensures !(IsIllegalArgument(e) || IsIOException(e)) ==> w == e
  {
    if IsIllegalArgument(e) || IsIOException(e) then ProcessingException(BatchScanner.DataAccessMessage) else e
  }

  /** How the text fields of a document are named: as written, all after
      attribute 0; as evidently intended, each after its own attribute. */
  datatype Naming = FirstAttributeName | OwnName

  /** The fields of one row under a naming. */
  function RowFields(row: seq<string>, names: seq<string>, naming: Naming): (r: Result<seq<Field>, Exception>)
    requires |row| > |names|
  {
    match naming
    case FirstAttributeName => DocumentFieldsAsWritten(row, names)
    case OwnName => DocumentFields(row, names)
  }

  /** The rows of a batch: one field list, created empty for the batch,
      receives each document's fields, is added to the index, and is cleared
      before the next document. The step as written names its fields with
      `FirstAttributeName`. */
  function IndexRows(rows: seq<seq<string>>, names: seq<string>, naming: Naming, add: seq<Field> -> Option<Exception>,
                     pending: seq<Field>): (r: IndexRun)
    requires DR.RowsHaveColumns(rows, |names|)
    ensures |r.added| <= |rows|
    decreases |rows|
  {
    if rows == [] then IndexRun([], None)
    else
      DR.RowsHaveColumnsTail(rows, |names|);
      match RowFields(rows[0], names, naming)
      case Err(e) => IndexRun([], Some(e))
      case Ok(fields) =>
        var document := pending + fields;
        match add(document)
        case Some(e) => IndexRun([], Some(AddFailure(e)))
        case None =>
          var cleared := [];
          var rest := IndexRows(rows[1..], names, naming, add, cleared);
          IndexRun([document] + rest.added, rest.failure)
  }

  function IndexBatch(rows: seq<seq<string>>, names: seq<string>, naming: Naming, add: seq<Field> -> Option<Exception>)
    : (r: IndexRun)
    requires DR.RowsHaveColumns(rows, |names|)
  {
    IndexRows(rows, names, naming, add, [])
  }

  /** One step of the row loop: a row whose fields are built and added
      puts them first and continues with a cleared list; otherwise the call
      ends with nothing added. */
  lemma IndexBatchStep(rows: seq<seq<string>>, names: seq<string>, naming: Naming, add: seq<Field> -> Option<Exception>)
    requires DR.RowsHaveColumns(rows, |names|) && rows != []
    ensures DR.RowsHaveColumns(rows[1..], |names|)
    ensures var r := IndexBatch(rows, names, naming, add);
            var d := RowFields(rows[0], names, naming);
            if d.Ok? && add(d.value).None? then
              r.added == [d.value] + IndexBatch(rows[1..], names, naming, add).added
              && r.failure == IndexBatch(rows[1..], names, naming, add).failure
            else r.added == [] && r.failure.Some?
  {
    DR.RowsHaveColumnsTail(rows, |names|);
    var d := RowFields(rows[0], names, naming);
    if d.Ok? {
      assert [] + d.value == d.value;
    }
  }

  /** The `k`-th field list is exactly the fields of the `k`-th row. */
  predicate AddedAreRows(added: seq<seq<Field>>, rows: seq<seq<string>>, names: seq<string>, naming: Naming)
    requires DR.RowsHaveColumns(rows, |names|) && |added| <= |rows|
  {
    forall k :: 0 <= k < |added| ==> RowFields(rows[k], names, naming) == Ok(added[k])
  }

  lemma AddedAreRowsCons(fields: seq<Field>, added: seq<seq<Field>>, rows: seq<seq<string>>, names: seq<string>,
                         naming: Naming)
    requires DR.RowsHaveColumns(rows, |names|) && rows != [] && |added| < |rows|
    requires DR.RowsHaveColumns(rows[1..], |names|)
    requires RowFields(rows[0], names, naming) == Ok(fields)
    requires AddedAreRows(added, rows[1..], names, naming)
    ensures AddedAreRows([fields] + added, rows, names, naming)
  {
    forall k | 1 <= k < |added| + 1 ensures RowFields(rows[k], names, naming) == Ok(([fields] + added)[k]) {
      assert rows[1..][k - 1] == rows[k];
    }
  }

  /** Documents share no fields: the `k`-th document added holds exactly
      the fields of the `k`-th row, under either naming, and the call ends
      normally exactly when every row was added. */
  lemma {:induction false} IndexBatchSeparatesDocuments(rows: seq<seq<string>>, names: seq<string>, naming: Naming,
                                                        add: seq<Field> -> Option<Exception>)
    requires DR.RowsHaveColumns(rows, |names|)
    ensures var r := IndexBatch(rows, names, naming, add);
            && AddedAreRows(r.added, rows, names, naming)
            && (r.failure.None? <==> |r.added| == |rows|)
    decreases |rows|
  {
    if rows != [] {
      IndexBatchStep(rows, names, naming, add);
      var d := RowFields(rows[0], names, naming);
      if d.Ok? && add(d.value).None? {
        IndexBatchSeparatesDocuments(rows[1..], names, naming, add);
        var rest := IndexBatch(rows[1..], names, naming, add);
        AddedAreRowsCons(d.value, rest.added, rows, names, naming);
      }
    }
  }

  /** As written, every document added holds the key of its row and then
      that row's attribute values, in column order, all under attribute 0's
      name. */
  lemma AsWrittenDocumentsUseFirstName(rows: seq<seq<string>>, names: seq<string>,
                                       add: seq<Field> -> Option<Exception>, k: nat, j: nat)
    requires DR.RowsHaveColumns(rows, |names|)
    requires k < |IndexBatch(rows, names, FirstAttributeName, add).added| && 1 <= j <= |names|
    ensures var document := IndexBatch(rows, names, FirstAttributeName, add).added[k];
            && |document| == |names| + 1
            && document[0].StoredInt? && document[0].name == IdFieldName
            && ParseInt(rows[k][0]) == Some(document[0].number)
            && document[j] == TextField(names[0], rows[k][j])
  {
    IndexBatchSeparatesDocuments(rows, names, FirstAttributeName, add);
    assert RowFields(rows[k], names, FirstAttributeName) == Ok(IndexBatch(rows, names, FirstAttributeName, add).added[k]);
  }

  // ---------------------------------------------------------------------
  // The run

  /** How far `run` got: how many input types were scanned, whether
      `commit()` was called, whether the documents added became durable, and
      what the step threw. */
  datatype LuceneTrace = LuceneTrace(scanned: nat, commitCalled: bool, durable: bool, error: Option<Exception>)

  /** The catch around the whole body: an `IllegalArgumentException` or an
      `IOException` (opening the folder or the writer, committing, closing)
      becomes a `ProcessingException`; anything else propagates. */
  function RunFailure(e: Exception): (w: Exception)
    ensures IsIllegalArgument(e) || IsIOException(e) ==> w == ProcessingException(BatchScanner.DataAccessMessage)
    ensures !(IsIllegalArgument(e) || IsIOException(e)) ==> w == e
  {
    AddFailure(e)
  }

  /** `run`: open the index (`open` is what that throws), scan every input
      type (`scans[t]` is what scanning it threw), then call `commit()`.
      The writer sits in a try-with-resources block, so `close()` runs
      whenever the writer was opened (`close` is what it throws), and it
      commits what was added, Lucene's default. An exception from `close()`
      is suppressed when the body already threw. */
  function Run(open: Option<Exception>, scans: seq<Option<Exception>>, commit: Option<Exception>,
               close: Option<Exception>): (t: LuceneTrace)
    ensures t.scanned <= |scans|
    ensures t.commitCalled <==> open.None? && forall k :: 0 <= k < |scans| ==> scans[k].None?
    ensures t.durable <==> open.None? && (close.None? || (t.commitCalled && commit.None?))
    ensures t.error.None? <==> t.commitCalled && commit.None? && close.None?
    ensures t.scanned > 0 ==> open.None?
    ensures open.Some? ==> t == LuceneTrace(0, false, false, Some(RunFailure(open.value)))
  {
    if open.Some? then LuceneTrace(0, false, false, Some(RunFailure(open.value)))
    else
      var body := match DR.FirstFailure(scans)
        case Some(i) => LuceneTrace(i, false, false, scans[i])
        case None => LuceneTrace(|scans|, true, commit.None?, commit);
      var error := if body.error.Some? then body.error else close;
      LuceneTrace(body.scanned, body.commitCalled, body.durable || close.None?,
                  if error.Some? then Some(RunFailure(error.value)) else None)
  }

  /** A scan that fails after the writer was opened still leaves the
      documents added so far committed when the writer closes cleanly, and
      `commit()` itself is never called. */
  lemma FailedScanStillCommits(scans: seq<Option<Exception>>, commit: Option<Exception>, i: nat)
    requires i < |scans| && scans[i].Some?
    ensures var t := Run(None, scans, commit, None);
            !t.commitCalled && t.durable && t.error.Some?
  {
  }
}

=== FILE: mention_filtering.dfy ===
/** `MentionFilteringProcessingStep`: removes user or subreddit mentions
    from every attribute, then deletes every run of two or more blanks. The
    mention expressions are left uninterpreted (a replacement function per
    mention type); the blank-run pass is modelled exactly. */
module MentionFiltering {
  import opened Wrappers
  import opened JavaLang
  import opened JavaText
  import opened JavaCollections
  import S = StepDriver
  import DR = DocumentRows

  const MentionTypeName: string := "mentionType"

  /** The keys of the step's table of mention expressions. */
  const MentionTypes: set<string> := {"reddit_all", "reddit_user", "subreddit"}

  /** The step's validation table: `mentionType` is required and must be a
      key of the expression table. */
  function Spec(): S.StepSpec {
    S.MakeSpec(map[MentionTypeName := S.KeyOfCheck(MentionTypes)], {MentionTypeName})
  }

  /** Validated parameters name one of the three mention types, so looking
      up the expression cannot fail. */
  lemma ValidatedMentionType(params: S.Params, order: seq<string>, stepName: string)
    requires S.IsIterationOrder(order, params)
    requires S.Validate(Spec(), params, order, stepName).Ok?
    ensures MentionTypeName in params && params[MentionTypeName].Some?
    ensures params[MentionTypeName].value in MentionTypes
  {
    S.ValidateOkIff(Spec(), params, order, stepName);
    assert MentionTypeName in Spec().required;
    assert S.EntryPasses(Spec().checks, params, MentionTypeName);
  }

  /** And conversely: a missing `mentionType` fails as a missing parameter,
      and a value outside the table (the comparison is exact) as an invalid
      value. */
  lemma MentionTypeRejected(stepName: string)
    ensures var params := map[S.TitledTableName := Some("t"), S.TableName := Some("u")];
            S.Validate(Spec(), params, [S.TitledTableName, S.TableName], stepName)
              == Err(ProcessingException(S.MissingParameterMessage(stepName)))
    ensures var params := map[S.TitledTableName := Some("t"), S.TableName := Some("u"),
                              MentionTypeName := Some("Subreddit")];
            S.Validate(Spec(), params, [MentionTypeName, S.TitledTableName, S.TableName], stepName)
              == Err(ProcessingException(S.InvalidValueMessage(MentionTypeName, stepName)))
  {
    var params := map[S.TitledTableName := Some("t"), S.TableName := Some("u")];
    assert MentionTypeName in Spec().required && MentionTypeName !in params;
    var params2 := map[S.TitledTableName := Some("t"), S.TableName := Some("u"), MentionTypeName := Some("Subreddit")];
    assert Spec().required <= params2.Keys;
    assert Spec().checks[MentionTypeName] == S.KeyOfCheck(MentionTypes);
    assert !S.EntryPasses(Spec().checks, params2, MentionTypeName);
  }

  // ---------------------------------------------------------------------
  // Blank runs

  /** `\p{Blank}` with Unicode character classes: white space other than
      line and paragraph separators and the vertical controls. */
  predicate IsBlankChar(c: char) {
    c == '\t' || c == ' ' || c == '\U{A0}' || c == '\U{1680}' || ('\U{2000}' <= c <= '\U{200A}')
    || c == '\U{202F}' || c == '\U{205F}' || c == '\U{3000}'
  }

  /** No two neighbouring characters are both blanks. */
  predicate NoBlankPairs(s: string) {
    forall i :: 0 <= i < |s| - 1 ==> !(IsBlankChar(s[i]) && IsBlankChar(s[i + 1]))
  }

  /** The length of the run of blanks `s` starts with. */
  function LeadingBlanks(s: string): (n: nat)
    ensures n <= |s|
    ensures forall i :: 0 <= i < n ==> IsBlankChar(s[i])
    ensures n < |s| ==> !IsBlankChar(s[n])
    decreases |s|
  {
    if s == [] || !IsBlankChar(s[0]) then 0 else 1 + LeadingBlanks(s[1..])
  }

  /** `replaceAll("")` of `[\p{Blank}]{2,}`. Scanning from the left, the
      greedy quantifier matches a whole run of two or more blanks, which is
      deleted, not collapsed; a lone blank does not match and stays. The
      result has no two neighbouring blanks, and it starts with a blank only
      when `s` starts with a lone one. */
  function RemoveBlankRuns(s: string): (r: string)
    ensures |r| <= |s|
    ensures NoBlankPairs(r)
    ensures r != [] && IsBlankChar(r[0]) ==> LeadingBlanks(s) == 1
    decreases |s|
  {
    if s == [] then []
    else
      var n := LeadingBlanks(s);
      if n >= 2 then RemoveBlankRuns(s[n..])
      else
        var rest := RemoveBlankRuns(s[1..]);
        assert rest != [] && IsBlankChar(rest[0]) ==> LeadingBlanks(s[1..]) == 1;
        [s[0]] + rest
  }

  /** The characters of `s` that are not blanks, in order. */
  function NonBlanks(s: string): (r: string)
    ensures forall i :: 0 <= i < |r| ==> !IsBlankChar(r[i])
    decreases |s|
  {
    if s == [] then []
    else if IsBlankChar(s[0]) then NonBlanks(s[1..])
    else [s[0]] + NonBlanks(s[1..])
  }

  lemma {:induction false} NonBlanksSkipRun(s: string, n: nat)
    requires n <= |s| && forall i :: 0 <= i < n ==> IsBlankChar(s[i])
    ensures NonBlanks(s[n..]) == NonBlanks(s)
    decreases n
  {
    if n > 0 {
      assert s[1..][n - 1..] == s[n..];
      NonBlanksSkipRun(s[1..], n - 1);
    }
  }

  /** Only blanks are removed: every other character survives, in order. */
  lemma {:induction false} RemoveBlankRunsKeepsText(s: string)
    ensures NonBlanks(RemoveBlankRuns(s)) == NonBlanks(s)
    decreases |s|
  {
    if s != [] {
      var n := LeadingBlanks(s);
      if n >= 2 {
        RemoveBlankRunsKeepsText(s[n..]);
        NonBlanksSkipRun(s, n);
      } else {
        var rest := RemoveBlankRuns(s[1..]);
        RemoveBlankRunsKeepsText(s[1..]);
        assert ([s[0]] + rest)[1..] == rest;
      }
    }
  }

  /** Text without neighbouring blanks is left as it is. */
  lemma {:induction false} NoRunsUnchanged(s: string)
    requires NoBlankPairs(s)
    ensures RemoveBlankRuns(s) == s
    decreases |s|
  {
    if s != [] {
      if |s| >= 2 && IsBlankChar(s[0]) {
        assert !IsBlankChar(s[1]);
      }
      assert LeadingBlanks(s) < 2;
      assert NoBlankPairs(s[1..]) by {
        forall i | 0 <= i < |s[1..]| - 1 ensures !(IsBlankChar(s[1..][i]) && IsBlankChar(s[1..][i + 1])) {
          assert s[1..][i] == s[i + 1] && s[1..][i + 1] == s[i + 2];
        }
      }
      NoRunsUnchanged(s[1..]);
      assert [s[0]] + s[1..] == s;
    }
  }

  /** Hence the pass is idempotent. */
  lemma RemoveBlankRunsIdempotent(s: string)
    ensures RemoveBlankRuns(RemoveBlankRuns(s)) == RemoveBlankRuns(s)
  {
    NoRunsUnchanged(RemoveBlankRuns(s));
  }

  /** A run of two blanks disappears entirely; a lone blank stays. */
  lemma RemoveBlankRunsExample()
    ensures RemoveBlankRuns("a  b c") == "ab c"
  {
    assert IsBlankChar(' ');
    RunThenLoneBlank('a', 'b', 'c', ' ');
    assert "a  b c" == ['a', ' ', ' ', 'b', ' ', 'c'];
    assert "ab c" == ['a', 'b', ' ', 'c'];
  }

  lemma RunThenLoneBlank(a: char, b: char, c: char, blank: char)
    requires !IsBlankChar(a) && !IsBlankChar(b) && !IsBlankChar(c) && IsBlankChar(blank)
    ensures RemoveBlankRuns([a, blank, blank, b, blank, c]) == [a, b, blank, c]
  {
    var s := [a, blank, blank, b, blank, c];
    KeepsFirst(s);
    var t := s[1..];
    assert t[1..] == [blank, b, blank, c] && t[1..][1..] == [b, blank, c];
    assert LeadingBlanks(t[1..][1..]) == 0;
    assert LeadingBlanks(t[1..]) == 1;
    assert LeadingBlanks(t) == 2;
    assert t[2..] == [b, blank, c];
    var u := [b, blank, c];
    assert NoBlankPairs(u);
    NoRunsUnchanged(u);
  }

  lemma KeepsFirst(s: string)
    requires s != [] && !IsBlankChar(s[0])
    ensures RemoveBlankRuns(s) == [s[0]] + RemoveBlankRuns(s[1..])
  {
  }

  // ---------------------------------------------------------------------
  // One batch

  /** One attribute: the mention expression's replacement, then the
      blank-run pass. */
  function Clean(value: string, removeMentions: string -> string): (r: string)
    ensures NoBlankPairs(r)
    ensures NonBlanks(r) == NonBlanks(removeMentions(value))
  {
    RemoveBlankRunsKeepsText(removeMentions(value));
    RemoveBlankRuns(removeMentions(value))
  }

  /** The per-batch action: every row is saved, with every attribute
      cleaned. */
  function FilterBatch(rows: seq<seq<string>>, names: seq<string>, removeMentions: string -> string,
                       save: DR.Saved -> Option<Exception>): (r: DR.BatchRun)
    requires DR.RowsHaveColumns(rows, |names|)
  {
    DR.SaveBatch(rows, names, v => Clean(v, removeMentions), _ => true, save)
  }

  /** Rows are saved in order, none is skipped, and each saved document
      has the key of column 0 and, for attribute `j`, the cleaned column
      `j + 1`, free of neighbouring blanks. */
  lemma FilterBatchCleansEveryRow(rows: seq<seq<string>>, names: seq<string>, removeMentions: string -> string,
                                  save: DR.Saved -> Option<Exception>)
    requires DR.RowsHaveColumns(rows, |names|) && NoDuplicates(names)
    ensures var r := FilterBatch(rows, names, removeMentions, save);
            && |r.saved| <= |rows|
            && (r.failure.None? <==> |r.saved| == |rows|)
            && forall k :: 0 <= k < |r.saved| ==>
                 && ParseInt(rows[k][0]) == Some(r.saved[k].id)
                 && r.saved[k].attributes.Keys == Elements(names)
                 && forall j :: 0 <= j < |names| ==>
                      && r.saved[k].attributes[names[j]] == Clean(rows[k][j + 1], removeMentions)
                      && NoBlankPairs(r.saved[k].attributes[names[j]])
  {
    var keep: seq<string> -> bool := _ => true;
    DR.BatchSavesKeptRows(rows, names, v => Clean(v, removeMentions), keep, save);
    DR.KeepAllKeepsRows(rows, |names|, keep);
  }
}

=== FILE: ner_writer.dfy ===
/** `NERMappingsFileWriter`: appends TokensRegexNER mappings, one record per
    call, to a mappings file. The writer thread and its two rendezvous queues
    are collapsed into one atomic step per record: the caller submits the
    record and receives exactly one outcome, which the model takes as a
    parameter (`Handoff`). The CSV printer itself is not modelled: a printed
    record is appended to the sequence of records in the file. */
module NerMappings {
  import opened Wrappers
  import opened JavaLang
  import opened JavaText

  // ---------------------------------------------------------------------
  // Pattern.quote

  /** `s` begins with the two characters `\E`. */
  predicate StartsWithSlashE(s: string) {
    |s| >= 2 && s[0] == '\\' && s[1] == 'E'
  }

  predicate ContainsSlashE(s: string) {
    exists i :: 0 <= i < |s| - 1 && s[i] == '\\' && s[i + 1] == 'E'
  }

  /** What `Pattern.quote` writes in place of each `\E` of its argument: end
      the quoted section, match a backslash and an `E`, open a new section. */
  const QuotedSlashE: string := "\\E\\\\E\\Q"

  /** The inside of `Pattern.quote(s)`: `s` with every `\E`, scanning left to
      right, replaced by `QuotedSlashE`. */
  function QuoteBody(s: string): (r: string)
    ensures |r| >= |s|
    ensures s != [] ==> r[0] == s[0]
    decreases |s|
  {
    if s == [] then []
    else if StartsWithSlashE(s) then QuotedSlashE + QuoteBody(s[2..])
    else [s[0]] + QuoteBody(s[1..])
  }

  /** A string without `\E` is its own quoted inside. */
  lemma {:induction false} QuoteBodyWithoutSlashE(s: string)
    requires !ContainsSlashE(s)
    ensures QuoteBody(s) == s
    decreases |s|
  {
    if s != [] {
      assert !StartsWithSlashE(s);
      forall i | 0 <= i < |s[1..]| - 1
        ensures !(s[1..][i] == '\\' && s[1..][i + 1] == 'E')
      {
        assert s[1..][i] == s[i + 1] && s[1..][i + 1] == s[i + 2];
      }
      QuoteBodyWithoutSlashE(s[1..]);
    }
  }

  /** `Pattern.quote`: the token as one quoted section `\Q…\E`; a token
      without `\E` is enclosed as it is. */
  function Quote(s: string): (r: string)
    ensures |r| >= |s| + 4
    ensures r[..2] == "\\Q" && r[|r| - 2..] == "\\E"
    ensures !ContainsSlashE(s) ==> r == "\\Q" + s + "\\E"
  {
    assert !ContainsSlashE(s) ==> QuoteBody(s) == s by {
      if !ContainsSlashE(s) {
        QuoteBodyWithoutSlashE(s);
      }
    }
    "\\Q" + QuoteBody(s) + "\\E"
  }

  /** The characters with a meaning of their own in a Java regular
      expression. */
  predicate IsMeta(c: char) {
    c in "\\.[]{}()*+?^$|"
  }

  function Prepend(prefix: string, o: Option<string>): Option<string> {
    if o.Some? then Some(prefix + o.value) else None
  }

  /** The one string a regular expression matches, for expressions made of
      plain characters, escaped backslashes `\\` and quoted sections
      `\Q…\E` (an unterminated section quotes the rest); `None` for any
      other construct. This is the reading of a pattern that the quoting
      has to preserve. */
  function LiteralOf(p: string): (r: Option<string>)
    decreases |p|
  {
    if p == [] then Some([])
    else if |p| >= 2 && p[0] == '\\' && p[1] == 'Q' then QuotedLiteral(p[2..])
    else if |p| >= 2 && p[0] == '\\' && p[1] == '\\' then Prepend("\\", LiteralOf(p[2..]))
    else if IsMeta(p[0]) then None
    else Prepend([p[0]], LiteralOf(p[1..]))
  }

  /** `LiteralOf` inside a quoted section. */
  function QuotedLiteral(p: string): (r: Option<string>)
    decreases |p|
  {
    if p == [] then Some([])
    else if StartsWithSlashE(p) then LiteralOf(p[2..])
    else Prepend([p[0]], QuotedLiteral(p[1..]))
  }

  /** Inside a quoted section, the replacement of a `\E` stands for the two
      characters `\E`. */
  lemma QuotedSlashELiteral(x: string)
    ensures QuotedLiteral(QuotedSlashE + x) == Prepend("\\E", QuotedLiteral(x))
  {
    var p := QuotedSlashE + x;
    var p2, p4, p5 := p[2..], p[4..], p[5..];
    assert StartsWithSlashE(p);
    assert p2 == "\\\\" + p4 && p2[2..] == p4;
    assert p4 == "E" + p5 && p4[1..] == p5;
    assert p5 == "\\Q" + x && p5[2..] == x;
    assert QuotedLiteral(p) == LiteralOf(p2);
    assert LiteralOf(p2) == Prepend("\\", LiteralOf(p4));
    assert !IsMeta('E');
    assert LiteralOf(p4) == Prepend("E", LiteralOf(p5));
    assert LiteralOf(p5) == QuotedLiteral(x);
    if QuotedLiteral(x).Some? {
      var v := QuotedLiteral(x).value;
      assert "\\" + ("E" + v) == "\\E" + v;
    }
  }

  lemma QuotedLiteralPlain(c: char, x: string)
    requires !StartsWithSlashE([c] + x)
    ensures QuotedLiteral([c] + x) == Prepend([c], QuotedLiteral(x))
  {
    assert ([c] + x)[1..] == x;
  }

  lemma PrependTwice(a: string, b: string, o: Option<string>)
    ensures Prepend(a, Prepend(b, o)) == Prepend(a + b, o)
  {
    if o.Some? {
      assert a + (b + o.value) == (a + b) + o.value;
    }
  }

  lemma AppendAssoc(q: string, a: string, b: string, r: string)
    ensures q + a + b + r == q + (a + b + r)
  {
  }

  lemma SlashEStep(s: string, rest: string)
    requires StartsWithSlashE(s)
    requires QuotedLiteral(QuoteBody(s[2..]) + "\\E" + rest) == Prepend(s[2..], LiteralOf(rest))
    ensures QuotedLiteral(QuoteBody(s) + "\\E" + rest) == Prepend(s, LiteralOf(rest))
  {
    var x := QuoteBody(s[2..]) + "\\E" + rest;
    assert QuoteBody(s) == QuotedSlashE + QuoteBody(s[2..]);
    AppendAssoc(QuotedSlashE, QuoteBody(s[2..]), "\\E", rest);
    QuotedSlashELiteral(x);
    PrependTwice("\\E", s[2..], LiteralOf(rest));
    assert s == "\\E" + s[2..];
  }

  lemma QuotedHead(t: string, rest: string)
    ensures (QuoteBody(t) + "\\E" + rest)[0] == if t == [] then '\\' else t[0]
  {
  }

  lemma PlainStep(s: string, rest: string)
    requires s != [] && !StartsWithSlashE(s)
    requires QuotedLiteral(QuoteBody(s[1..]) + "\\E" + rest) == Prepend(s[1..], LiteralOf(rest))
    ensures QuotedLiteral(QuoteBody(s) + "\\E" + rest) == Prepend(s, LiteralOf(rest))
  {
    var x := QuoteBody(s[1..]) + "\\E" + rest;
    assert QuoteBody(s) == [s[0]] + QuoteBody(s[1..]);
    AppendAssoc([s[0]], QuoteBody(s[1..]), "\\E", rest);
    QuotedHead(s[1..], rest);
    assert !StartsWithSlashE([s[0]] + x) by {
      if s[0] == '\\' && |s| >= 2 {
        assert s[1] != 'E';
        assert s[1..][0] == s[1];
      }
    }
    QuotedLiteralPlain(s[0], x);
    PrependTwice([s[0]], s[1..], LiteralOf(rest));
    assert s == [s[0]] + s[1..];
  }

  lemma {:induction false} QuotedBodyLiteral(s: string, rest: string)
    ensures QuotedLiteral(QuoteBody(s) + "\\E" + rest) == Prepend(s, LiteralOf(rest))
    decreases |s|
  {
    if s == [] {
      var p := QuoteBody(s) + "\\E" + rest;
      assert p == "\\E" + rest;
      assert StartsWithSlashE(p) && p[2..] == rest;
      if LiteralOf(rest).Some? {
        assert [] + LiteralOf(rest).value == LiteralOf(rest).value;
      }
    } else if StartsWithSlashE(s) {
      QuotedBodyLiteral(s[2..], rest);
      SlashEStep(s, rest);
    } else {
      QuotedBodyLiteral(s[1..], rest);
      PlainStep(s, rest);
    }
  }

  /** The quoted token, read as a regular expression, matches exactly the
      token: every metacharacter and every `\E` in it is neutralised. */
  lemma QuoteMatchesExactlyTheToken(s: string)
    ensures LiteralOf(Quote(s)) == Some(s)
  {
    var p := Quote(s);
    QuotedBodyLiteral(s, []);
    assert p[2..] == QuoteBody(s) + "\\E" + [];
    assert LiteralOf(p) == QuotedLiteral(p[2..]);
    assert LiteralOf([]) == Some([]);
    assert s + [] == s;
  }

  // ---------------------------------------------------------------------
  // Records

  /** The columns of a mappings file record: pattern, named entity type,
      overwritable types and priority. */
  datatype Record = Record(pattern: string, entityType: string, overwritable: string, priority: int)

  /** The overwritable types column: each type followed by a comma, then the
      last comma removed. */
  function OverwritableField(types: seq<string>): (r: string) {
    BuilderJoin(types, ',')
  }

  /** The column is the types joined with commas, with no trailing comma and
      "" for no types; types without commas can be recovered by splitting
      it. */
  lemma OverwritableFieldIsJoin(types: seq<string>)
    ensures OverwritableField(types) == Join(types, ",")
    ensures types == [] ==> OverwritableField(types) == ""
    ensures types != [] && (forall k :: 0 <= k < |types| ==> ',' !in types[k]) ==>
              SplitAll(OverwritableField(types), ',') == types
  {
    BuilderJoinIsJoin(types, ',');
    if types != [] && (forall k :: 0 <= k < |types| ==> ',' !in types[k]) {
      SplitAllJoin(types, ',');
    }
  }

  /** The record submitted for a token. */
  function MappingRecord(token: string, entityType: string, types: seq<string>, priority: int): (r: Record)
    ensures LiteralOf(r.pattern) == Some(token)
    ensures |r.entityType| == |entityType| && forall i :: 0 <= i < |entityType| ==> r.entityType[i] == UpperChar(entityType[i])
    ensures r.overwritable == Join(types, ",") && r.priority == priority
  {
    QuoteMatchesExactlyTheToken(token);
    OverwritableFieldIsJoin(types);
    Record(Quote(token), Upper(entityType), OverwritableField(types), priority)
  }

  // ---------------------------------------------------------------------
  // The writer

  /** The writer: whether it has been closed, and the records in the file,
      in the order they were printed. */
  datatype Writer = Writer(closed: bool, written: seq<Record>)

  /** A freshly constructed writer. */
  const Opened: Writer := Writer(false, [])

  /** The fate of a submitted record, decided by the writer thread and the
      caller's interrupt status: the caller is interrupted while handing the
      record off, the record is printed, or printing it throws. */
  datatype Handoff = Interrupted | Printed | PrintFailed(failure: Exception)

  const ClosedWriterMessage: string := "Can't write NER mappings to a closed writer"
  const NullTypeMessage: string := "A named entity type can't be null"

  predicate NoNulls(types: seq<Option<string>>) {
    forall i :: 0 <= i < |types| ==> types[i].Some?
  }

  function Values(types: seq<Option<string>>): (r: seq<string>)
    requires NoNulls(types)
    ensures |r| == |types| && forall i :: 0 <= i < |types| ==> Some(r[i]) == types[i]
  {
    seq(|types|, i requires 0 <= i < |types| => types[i].value)
  }

  /** What the writer thread hands back for a failed print: an I/O failure
      as it is, anything else wrapped in an `IOException`. */
  function AsIOException(e: Exception): (r: Exception)
    ensures IsIOException(r)
    ensures IsIOException(e) ==> r == e
    ensures !IsIOException(e) ==> r.WrappedIOException? && r.cause == e
  {
    if IsIOException(e) then e else WrappedIOException(e)
  }

  /** `writeMapping(token, type, overwritableTypes, priority)`: the writer
      afterwards and the exception thrown, if any. The non-null parameter
      checks come first, then the closed check, then the null-element check,
      and only then is a blank token skipped. */
  function WriteMapping(
    w: Writer, token: Option<string>, entityType: Option<string>, types: Option<seq<Option<string>>>,
    priority: int, handoff: Handoff
  ): (r: (Writer, Option<Exception>))
    ensures r.0.closed == w.closed
    ensures |w.written| <= |r.0.written| <= |w.written| + 1
    ensures r.0.written[..|w.written|] == w.written
    ensures r.1.Some? ==> r.0 == w
    ensures r.1.Some? ==> r.1.value == NullPointerException || IsIllegalArgument(r.1.value) || IsIOException(r.1.value)
    ensures w.closed ==> r.1.Some?
    ensures r.0 != w ==> r.1.None? && handoff.Printed? && token.Some? && !IsBlank(token.value)
  {
    if token.None? then (w, Some(NullPointerException))
    else if entityType.None? then (w, Some(NullPointerException))
    else if types.None? then (w, Some(NullPointerException))
    else if w.closed then (w, Some(IOException(ClosedWriterMessage)))
    else if !NoNulls(types.value) then (w, Some(IllegalArgumentException(NullTypeMessage)))
    else if IsBlank(token.value) then (w, None)
    else
      match handoff
      case Interrupted => (w, None)
      case Printed =>
        var record := MappingRecord(token.value, entityType.value, Values(types.value), priority);
        (w.(written := w.written + [record]), None)
      case PrintFailed(e) => (w, Some(AsIOException(e)))
  }

  /** `writeMapping(token, type, overwritableTypes)`: a mapping of priority
      0. */
  function WriteMappingDefault(
    w: Writer, token: Option<string>, entityType: Option<string>, types: Option<seq<Option<string>>>,
    handoff: Handoff
  ): (r: (Writer, Option<Exception>))
    ensures r.0.closed == w.closed && |w.written| <= |r.0.written|
    ensures r.0.written[..|w.written|] == w.written
    ensures |r.0.written| > |w.written| ==> r.0.written[|w.written|].priority == 0
  {
    WriteMapping(w, token, entityType, types, 0, handoff)
  }

  /** `close`: marks the writer closed and never throws; the file keeps what
      was written. */
  function Close(w: Writer): (r: Writer)
    ensures r.closed && r.written == w.written
  {
    w.(closed := true)
  }

  /** On a closed writer every call with non-null parameters throws the
      closed-writer `IOException`, whatever the token, the types or the
      handoff. */
  lemma ClosedWriterRejectsFirst(
    w: Writer, token: string, entityType: string, types: seq<Option<string>>, priority: int, handoff: Handoff
  )
    requires w.closed
    ensures WriteMapping(w, Some(token), Some(entityType), Some(types), priority, handoff)
            == (w, Some(IOException(ClosedWriterMessage)))
  {
  }

  /** A null overwritable type is rejected on an open writer even when the
      token is blank and nothing would be written. */
  lemma NullTypeRejectedEvenForBlankToken(
    w: Writer, token: string, entityType: string, types: seq<Option<string>>, priority: int, handoff: Handoff
  )
    requires !w.closed && !NoNulls(types)
    ensures WriteMapping(w, Some(token), Some(entityType), Some(types), priority, handoff)
            == (w, Some(IllegalArgumentException(NullTypeMessage)))
  {
  }

  /** A blank token returns normally and submits nothing. */
  lemma BlankTokenWritesNothing(
    w: Writer, token: string, entityType: string, types: seq<Option<string>>, priority: int, handoff: Handoff
  )
    requires !w.closed && NoNulls(types) && IsBlank(token)
    ensures WriteMapping(w, Some(token), Some(entityType), Some(types), priority, handoff) == (w, None)
  {
  }

  /** Each accepted record has exactly one outcome: printed and appended,
      swallowed by an interrupt during the handoff, or a print failure
      rethrown as an `IOException` with the file unchanged. */
  lemma AcceptedRecordOutcome(
    w: Writer, token: string, entityType: string, types: seq<Option<string>>, priority: int, handoff: Handoff
  )
    requires !w.closed && NoNulls(types) && !IsBlank(token)
    ensures var r := WriteMapping(w, Some(token), Some(entityType), Some(types), priority, handoff);
            match handoff
            case Printed =>
              r.1 == None && |r.0.written| == |w.written| + 1
              && var rec := r.0.written[|w.written|];
                 LiteralOf(rec.pattern) == Some(token) && rec.entityType == Upper(entityType)
                 && rec.overwritable == Join(Values(types), ",") && rec.priority == priority
            case Interrupted => r == (w, None)
            case PrintFailed(e) =>
              r.0 == w && r.1.Some? && IsIOException(r.1.value)
              && (IsIOException(e) ==> r.1.value == e)
              && (!IsIOException(e) ==> r.1.value == WrappedIOException(e))
  {
  }

  /** Applies a sequence of calls in order and collects their outcomes. */
  datatype WriteCall = WriteCall(token: Option<string>, entityType: Option<string>, types: Option<seq<Option<string>>>,
                                 priority: int, handoff: Handoff)

  function WriteAll(w: Writer, calls: seq<WriteCall>): (r: (Writer, seq<Option<Exception>>))
    ensures |r.1| == |calls|
    ensures r.0.closed == w.closed
    decreases |calls|
  {
    if calls == [] then (w, [])
    else
      var c := calls[0];
      var first := WriteMapping(w, c.token, c.entityType, c.types, c.priority, c.handoff);
      var rest := WriteAll(first.0, calls[1..]);
      (rest.0, [first.1] + rest.1)
  }

  /** After `close`, every later write fails and the file does not change. */
  lemma {:induction false} NothingWrittenAfterClose(w: Writer, calls: seq<WriteCall>)
    ensures var r := WriteAll(Close(w), calls);
            r.0.written == w.written && forall k :: 0 <= k < |calls| ==> r.1[k].Some?
  {
    if calls != [] {
      var c := calls[0];
      assert WriteMapping(Close(w), c.token, c.entityType, c.types, c.priority, c.handoff).0 == Close(w);
      NothingWrittenAfterClose(w, calls[1..]);
    }
  }
}

=== FILE: persistence.dfy ===
/** `TextProcPersistence`: the unit-of-work registry every step talks to the
    database through.

    The registry is running while it holds an entity manager factory. It
    hands each thread one entity manager, created on the thread's first
    request and wrapped so that every `getTransaction` call on it adds a
    dirty record (a `Timestamped` pairing the manager's transaction with the
    next creation id). A flush settles the dirty transactions in creation
    order (rollback when rollback-only, commit when active, nothing
    otherwise), swallows their failures, removes each record it visited
    from the record set, and then closes every handed-out manager and
    forgets the threads. The set finds a record to remove through the
    records' `compareTo`, which as written never reports equality, so the
    removal as written keeps every record; the flush that forgets them is
    the corrected one.

    Every manager owns exactly one transaction, identified with the manager's
    number. Commit and rollback are opaque: a function of the record says
    whether the call threw, and either way the transaction ends. The threads
    of the source become a sequential history of calls with thread ids. */
module Persistence {
  import opened Wrappers
  import opened JavaLang
  import opened TimestampedTransaction

  const NotRunningMessage: string := "The persistence access layer is not running"
  const NullEntityTypeMessage: string := "A entity type can't be null"

  datatype Transaction = Transaction(active: bool, rollbackOnly: bool)

  datatype Manager = Manager(open: bool, transaction: Transaction)

  datatype Registry = Registry(running: bool, threads: map<nat, nat>, managers: seq<Manager>,
                               dirty: seq<Timestamped>, nextCreationId: int)

  /** The registry before `start`. */
  function Initial(): (r: Registry)
    ensures Valid(r) && !r.running
  {
    Registry(false, map[], [], [], 0)
  }

  /** The registry's invariant: threads map to handed-out managers, only
      managers some thread holds are open, dirty records name handed-out
      managers, and creation ids are non-negative 64-bit values, below the
      counter and strictly increasing along the records. */
  predicate Valid(r: Registry) {
    (forall t :: t in r.threads ==> r.threads[t] < |r.managers|)
    && (forall m :: 0 <= m < |r.managers| && r.managers[m].open ==> m in r.threads.Values)
    && (forall i :: 0 <= i < |r.dirty| ==>
          r.dirty[i].transaction < |r.managers| && 0 <= r.dirty[i].creationId < r.nextCreationId)
    && (forall i, j :: 0 <= i < j < |r.dirty| ==> r.dirty[i].creationId < r.dirty[j].creationId)
    && 0 <= r.nextCreationId <= LongMax
  }

  /** Every dirty record names a handed-out manager's transaction and
      carries a 64-bit creation id. */
  predicate RecordsNameManagers(r: Registry) {
    (forall i :: 0 <= i < |r.dirty| ==> r.dirty[i].transaction < |r.managers|)
    && LongIds(r.dirty)
  }

  predicate LongIds(records: seq<Timestamped>) {
    forall i :: 0 <= i < |records| ==> IsLong(records[i].creationId)
  }

  /** The dirty records are ordered by the comparison their documentation
      describes, so settling them in sequence order settles them in creation
      order. */
  lemma DirtyInCreationOrder(r: Registry)
    requires Valid(r)
    ensures forall i, j :: 0 <= i < j < |r.dirty| ==> CompareTo(r.dirty[i], r.dirty[j]) < 0
  {
    forall i, j | 0 <= i < j < |r.dirty| ensures CompareTo(r.dirty[i], r.dirty[j]) < 0 {
      CompareToOrdersByCreation(r.dirty[i], r.dirty[j]);
    }
  }

  // ---------------------------------------------------------------------
  // start, stop, isRunning

  /** `start`: nothing while running; otherwise a null entity type is
      rejected before anything changes, a missing persistence descriptor is a
      `PersistenceException`, and the registry starts running. */
  function Start(r: Registry, entityTypes: seq<Option<string>>, descriptorFound: bool): (res: (Registry, Option<Exception>))
    ensures r.running ==> res == (r, None)
    ensures !r.running && (exists i :: 0 <= i < |entityTypes| && entityTypes[i].None?) ==>
              res == (r, Some(IllegalArgumentException(NullEntityTypeMessage)))
    ensures res.1.None? <==> r.running || ((forall i :: 0 <= i < |entityTypes| ==> entityTypes[i].Some?) && descriptorFound)
    ensures res.1.None? ==> res.0 == r.(running := true)
    ensures res.1.Some? ==> res.0 == r
  {
    if r.running then (r, None)
    else if exists i :: 0 <= i < |entityTypes| && entityTypes[i].None? then
      (r, Some(IllegalArgumentException(NullEntityTypeMessage)))
    else if !descriptorFound then (r, Some(PersistenceException))
    else (r.(running := true), None)
  }

  /** `stop`: when running, the registry stops first and then flushes with
      the running check bypassed; when stopped, nothing happens. The flush
      is the one as written, so the dirty records outlive `stop`. */
  function Stop(r: Registry, fails: Timestamped -> bool): (s: Registry)
    requires RecordsNameManagers(r)
    ensures !s.running
    ensures !r.running ==> s == r
    ensures r.running ==> s == FlushAsWritten(r.(running := false), fails).registry
    ensures s.dirty == r.dirty && RecordsNameManagers(s)
    ensures r.running ==> s.threads == map[]
  {
    if r.running then FlushAsWritten(r.(running := false), fails).registry else r
  }

  // ---------------------------------------------------------------------
  // getEntityManager and getTransaction

  /** `getEntityManager` for a thread: an `IllegalStateException` when not
      running, the thread's manager when it has one, and otherwise a new open
      manager whose transaction is inactive. */
  function GetEntityManager(r: Registry, thread: nat): (res: Result<(Registry, nat), Exception>)
    ensures !r.running <==> res.Err?
    ensures res.Err? ==> res.error == IllegalStateException(NotRunningMessage)
    ensures res.Ok? && thread in r.threads ==> res.value == (r, r.threads[thread])
    ensures res.Ok? && thread !in r.threads ==>
              var (s, m) := res.value;
              && m == |r.managers| && s.managers == r.managers + [Manager(true, Transaction(false, false))]
              && s.threads == r.threads[thread := m] && s.dirty == r.dirty && s.running
  {
    if !r.running then Err(IllegalStateException(NotRunningMessage))
    else if thread in r.threads then Ok((r, r.threads[thread]))
    else
      var m := |r.managers|;
      Ok((r.(threads := r.threads[thread := m], managers := r.managers + [Manager(true, Transaction(false, false))]), m))
  }

  /** `getTransaction` on a handed-out manager, through the decorator whose
      hook the registry installs: every call adds one dirty record for the
      manager's transaction, and returns that transaction. */
  function GetTransaction(r: Registry, manager: nat): (res: (Registry, nat))
    requires manager < |r.managers| && IsLong(r.nextCreationId)
    ensures res.1 == manager
    ensures res.0.dirty == r.dirty + [Timestamped(manager, r.nextCreationId)]
    ensures res.0.managers == r.managers && res.0.threads == r.threads && res.0.running == r.running
  {
    var (record, next) := Create(Some(manager), r.nextCreationId).value;
    (r.(dirty := r.dirty + [record], nextCreationId := next), manager)
  }

  /** A thread asking twice gets the same manager, and the second request
      changes nothing. */
  lemma SameThreadSameManager(r: Registry, thread: nat)
    requires r.running
    ensures var (s, m) := GetEntityManager(r, thread).value;
            GetEntityManager(s, thread) == Ok((s, m))
  {
  }

  /** Asking a manager for its transaction twice leaves two dirty records for
      the same transaction, not one. */
  lemma EveryGetTransactionIsRecorded(r: Registry, manager: nat)
    requires Valid(r) && manager < |r.managers| && r.nextCreationId < LongMax - 1
    ensures var s := GetTransaction(GetTransaction(r, manager).0, manager).0;
            |s.dirty| == |r.dirty| + 2
            && s.dirty[|r.dirty|].transaction == manager && s.dirty[|r.dirty| + 1].transaction == manager
            && Equals(s.dirty[|r.dirty|], s.dirty[|r.dirty| + 1])
  {
  }

  /** `begin` on a manager's transaction. */
  function Begin(r: Registry, manager: nat): (s: Registry)
    requires manager < |r.managers|
    ensures |s.managers| == |r.managers| && s.threads == r.threads && s.dirty == r.dirty
    ensures s.managers[manager].transaction.active
  {
    var m := r.managers[manager];
    r.(managers := r.managers[manager := m.(transaction := Transaction(true, false))])
  }

  /** `setRollbackOnly` on a manager's transaction. */
  function SetRollbackOnly(r: Registry, manager: nat): (s: Registry)
    requires manager < |r.managers|
    ensures |s.managers| == |r.managers| && s.threads == r.threads && s.dirty == r.dirty
    ensures s.managers[manager].transaction.rollbackOnly
  {
    var m := r.managers[manager];
    r.(managers := r.managers[manager := m.(transaction := m.transaction.(rollbackOnly := true))])
  }

  // ---------------------------------------------------------------------
  // flushEntities

  /** What a flush did with one dirty record; `failed` when the commit or
      rollback threw and a warning was logged. */
  datatype Settlement = RolledBack(manager: nat, failed: bool) | Committed(manager: nat, failed: bool) | Untouched(manager: nat)

  /** The settlement the flush loop chooses for a transaction. */
  function Settle(t: Transaction, manager: nat, failed: bool): Settlement {
    if !t.active then Untouched(manager)
    else if t.rollbackOnly then RolledBack(manager, failed)
    else Committed(manager, failed)
  }

  datatype Flushed = Flushed(registry: Registry, settlements: seq<Settlement>)

  /** The managers after the first record's transaction is settled: a
      commit or rollback, failed or not, leaves it inactive. */
  function SettleFirst(managers: seq<Manager>, record: Timestamped): (after: seq<Manager>)
    requires record.transaction < |managers|
    ensures |after| == |managers|
    ensures forall k :: 0 <= k < |managers| && k != record.transaction ==> after[k] == managers[k]
    ensures !after[record.transaction].transaction.active
    ensures after[record.transaction].open == managers[record.transaction].open
  {
    var m := record.transaction;
    if managers[m].transaction.active then managers[m := managers[m].(transaction := Transaction(false, false))]
    else managers
  }

  /** The dirty-record loop: settles each record's transaction in sequence
      order, and reports what it did with each record. */
  function SettleEach(managers: seq<Manager>, records: seq<Timestamped>, fails: Timestamped -> bool)
    : (r: (seq<Manager>, seq<Settlement>))
    requires forall i :: 0 <= i < |records| ==> records[i].transaction < |managers|
    ensures |r.0| == |managers| && |r.1| == |records|
    decreases |records|
  {
    if records == [] then (managers, [])
    else
      var m := records[0].transaction;
      assert forall i :: 1 <= i < |records| ==> records[i] == records[1..][i - 1];
      var rest := SettleEach(SettleFirst(managers, records[0]), records[1..], fails);
      (rest.0, [Settle(managers[m].transaction, m, fails(records[0]))] + rest.1)
  }

  /** Each record is reported against its own transaction; the loop opens
      or closes no manager, leaves alone every transaction no record names,
      and leaves every named one inactive. */
  lemma {:induction false} SettleEachFacts(managers: seq<Manager>, records: seq<Timestamped>, fails: Timestamped -> bool)
    requires forall i :: 0 <= i < |records| ==> records[i].transaction < |managers|
    ensures var r := SettleEach(managers, records, fails);
            && (forall i :: 0 <= i < |records| ==> r.1[i].manager == records[i].transaction)
            && (forall m :: 0 <= m < |managers| ==> r.0[m].open == managers[m].open)
            && (forall m :: 0 <= m < |managers| && !Names(records, m) ==> r.0[m] == managers[m])
            && (forall m :: 0 <= m < |managers| && Names(records, m) ==> !r.0[m].transaction.active)
    decreases |records|
  {
    if records != [] {
      var m := records[0].transaction;
      assert forall i :: 1 <= i < |records| ==> records[i] == records[1..][i - 1];
      SettleEachFacts(SettleFirst(managers, records[0]), records[1..], fails);
      forall k | 0 <= k < |managers|
        ensures Names(records, k) <==> k == m || Names(records[1..], k)
      {
        NamesCons(records, k);
      }
    }
  }

  /** The dirty-record loop, with what it does to each manager: each record
      is settled against its own transaction; transactions no record names
      are untouched and those named end inactive; no manager is opened or
      closed. */
  function SettleRecords(managers: seq<Manager>, records: seq<Timestamped>, fails: Timestamped -> bool)
    : (r: (seq<Manager>, seq<Settlement>))
    requires forall i :: 0 <= i < |records| ==> records[i].transaction < |managers|
    ensures |r.0| == |managers| && |r.1| == |records|
    ensures forall i :: 0 <= i < |records| ==> r.1[i].manager == records[i].transaction
    ensures forall m :: 0 <= m < |managers| ==> r.0[m].open == managers[m].open
    ensures forall m :: 0 <= m < |managers| && !Names(records, m) ==> r.0[m] == managers[m]
    ensures forall m :: 0 <= m < |managers| && Names(records, m) ==> !r.0[m].transaction.active
  {
    SettleEachFacts(managers, records, fails);
    SettleEach(managers, records, fails)
  }

  /** Some record names the manager's transaction. */
  predicate Names(records: seq<Timestamped>, manager: nat) {
    exists i :: 0 <= i < |records| && records[i].transaction == manager
  }

  lemma NamesCons(records: seq<Timestamped>, m: nat)
    requires records != []
    ensures Names(records, m) <==> records[0].transaction == m || Names(records[1..], m)
  {
    if Names(records, m) && records[0].transaction != m {
      var k :| 0 <= k < |records| && records[k].transaction == m;
      assert records[1..][k - 1].transaction == m;
    }
    if Names(records[1..], m) {
      var k :| 0 <= k < |records| - 1 && records[1..][k].transaction == m;
      assert records[k + 1].transaction == m;
    }
  }

  /** The first record naming a transaction is settled by the transaction's
      state before the flush; every later record naming it finds it inactive
      and leaves it untouched. */
  lemma {:induction false} SettlementOfRecord(managers: seq<Manager>, records: seq<Timestamped>,
                                              fails: Timestamped -> bool, i: nat)
    requires forall k :: 0 <= k < |records| ==> records[k].transaction < |managers|
    requires i < |records|
    ensures var m := records[i].transaction;
            var s := SettleEach(managers, records, fails).1[i];
            (Names(records[..i], m) ==> s == Untouched(m))
            && (!Names(records[..i], m) ==> s == Settle(managers[m].transaction, m, fails(records[i])))
    decreases i
  {
    if i > 0 {
      var m := records[i].transaction;
      var m0 := records[0].transaction;
      var after := SettleFirst(managers, records[0]);
      var tail := records[1..];
      assert forall k :: 0 <= k < |tail| ==> tail[k].transaction < |after| by {
        forall k | 0 <= k < |tail| ensures tail[k].transaction < |after| {
          assert tail[k] == records[k + 1];
        }
      }
      var rest := SettleEach(after, tail, fails);
      assert SettleEach(managers, records, fails).1 == [Settle(managers[m0].transaction, m0, fails(records[0]))] + rest.1;
      assert SettleEach(managers, records, fails).1[i] == rest.1[i - 1];
      SettlementOfRecord(after, tail, fails, i - 1);
      assert tail[i - 1] == records[i];
      NamesOfPrefix(records, i, m);
      if m != m0 {
        assert after[m] == managers[m];
      }
    }
  }

  /** A prefix of length `i > 0` names a manager when its first record or
      the rest of the prefix does. */
  lemma NamesOfPrefix(records: seq<Timestamped>, i: nat, m: nat)
    requires 0 < i <= |records|
    ensures Names(records[..i], m) <==> records[0].transaction == m || Names(records[1..][..i - 1], m)
  {
    assert records[..i] == [records[0]] + records[1..][..i - 1];
    if Names(records[..i], m) && records[0].transaction != m {
      var k :| 0 <= k < i && records[..i][k].transaction == m;
      assert records[1..][..i - 1][k - 1].transaction == m;
    }
    if Names(records[1..][..i - 1], m) {
      var k :| 0 <= k < i - 1 && records[1..][..i - 1][k].transaction == m;
      assert records[..i][k + 1].transaction == m;
    }
    if records[0].transaction == m {
      assert records[..i][0].transaction == m;
    }
  }

  /** The comparison the record set orders its records by: the records'
      `compareTo` as written, or as corrected. */
  datatype Ordering = AsWritten | Corrected

  function Compare(o: Ordering, x: Timestamped, y: Timestamped): int
    requires IsLong(x.creationId) && IsLong(y.creationId)
  {
    match o
    case AsWritten => CompareToAsWritten(x, y)
    case Corrected => CompareTo(x, y)
  }

  /** The record set's `remove`, which looks the key up through the
      comparison: the walk passes the records the key compares above,
      unlinks the first record it compares equal to, and gives up at the
      first record it compares below. */
  function Remove(o: Ordering, records: seq<Timestamped>, key: Timestamped): (t: seq<Timestamped>)
    requires LongIds(records) && IsLong(key.creationId)
    ensures LongIds(t)
    ensures |records| - 1 <= |t| <= |records|
  {
    if records == [] then records
    else
      var c := Compare(o, key, records[0]);
      if c < 0 then records
      else if c == 0 then records[1..]
      else [records[0]] + Remove(o, records[1..], key)
  }

  /** The flush loop's removals: the iterator visits the records in set
      order and removes each visited record from the set. */
  function Drain(o: Ordering, records: seq<Timestamped>, visited: seq<Timestamped>): (t: seq<Timestamped>)
    requires LongIds(records) && LongIds(visited)
    ensures LongIds(t)
    decreases |visited|
  {
    if visited == [] then records
    else Drain(o, Remove(o, records, visited[0]), visited[1..])
  }

  /** Under the comparison as written the key compares above every record,
      so `remove` walks off the end and removes nothing. */
  lemma {:induction false} RemoveAsWrittenKeepsAll(records: seq<Timestamped>, key: Timestamped)
    requires LongIds(records) && IsLong(key.creationId)
    ensures Remove(AsWritten, records, key) == records
  {
    if records != [] {
      RemoveAsWrittenKeepsAll(records[1..], key);
    }
  }

  /** As written, the flush loop removes no record at all. */
  lemma {:induction false} DrainAsWrittenKeepsAll(records: seq<Timestamped>, visited: seq<Timestamped>)
    requires LongIds(records) && LongIds(visited)
    ensures Drain(AsWritten, records, visited) == records
    decreases |visited|
  {
    if visited != [] {
      RemoveAsWrittenKeepsAll(records, visited[0]);
      DrainAsWrittenKeepsAll(records, visited[1..]);
    }
  }

  /** Under the corrected comparison each visited record is the set's first
      and compares equal to itself, so the flush loop empties the set. */
  lemma {:induction false} DrainCorrectedEmpties(records: seq<Timestamped>)
    requires LongIds(records)
    ensures Drain(Corrected, records, records) == []
    decreases |records|
  {
    if records != [] {
      assert Compare(Corrected, records[0], records[0]) == 0;
      assert Remove(Corrected, records, records[0]) == records[1..];
      DrainCorrectedEmpties(records[1..]);
    }
  }

  /** The flush under either comparison: the records are settled, the
      visited ones removed as the comparison lets `remove` find them, every
      thread's manager closed and the thread map cleared. */
  function FlushWith(o: Ordering, r: Registry, fails: Timestamped -> bool): (f: Flushed)
    requires RecordsNameManagers(r)
    ensures f.registry.threads == map[]
    ensures f.registry.running == r.running && f.registry.nextCreationId == r.nextCreationId
    ensures |f.registry.managers| == |r.managers| && |f.settlements| == |r.dirty|
    ensures forall m :: 0 <= m < |r.managers| && m in r.threads.Values ==> !f.registry.managers[m].open
    ensures forall m :: 0 <= m < |r.managers| && m !in r.threads.Values ==>
              f.registry.managers[m].open == r.managers[m].open
    ensures forall m :: 0 <= m < |r.managers| && Names(r.dirty, m) ==> !f.registry.managers[m].transaction.active
    ensures forall m :: 0 <= m < |r.managers| && !Names(r.dirty, m) ==>
              f.registry.managers[m].transaction == r.managers[m].transaction
  {
    var (settled, settlements) := SettleRecords(r.managers, r.dirty, fails);
    var closed := seq(|settled|, m requires 0 <= m < |settled| =>
                        if m in r.threads.Values then settled[m].(open := false) else settled[m]);
    Flushed(Registry(r.running, map[], closed, Drain(o, r.dirty, r.dirty), r.nextCreationId), settlements)
  }

  /** The flush as intended: the records are settled and all of them
      forgotten, every thread's manager is closed and the thread map
      cleared. */
  function FlushAll(r: Registry, fails: Timestamped -> bool): (f: Flushed)
    requires RecordsNameManagers(r)
    ensures f.registry.dirty == [] && f.registry.threads == map[]
    ensures f.registry.running == r.running && f.registry.nextCreationId == r.nextCreationId
    ensures |f.registry.managers| == |r.managers| && |f.settlements| == |r.dirty|
    ensures forall m :: 0 <= m < |r.managers| && m in r.threads.Values ==> !f.registry.managers[m].open
    ensures forall m :: 0 <= m < |r.managers| && m !in r.threads.Values ==>
              f.registry.managers[m].open == r.managers[m].open
  {
    DrainCorrectedEmpties(r.dirty);
    FlushWith(Corrected, r, fails)
  }

  /** The flush as written: it settles and closes exactly as the corrected
      flush does, but keeps every dirty record. */
  function FlushAsWritten(r: Registry, fails: Timestamped -> bool): (f: Flushed)
    requires RecordsNameManagers(r)
    ensures f.registry.dirty == r.dirty
    ensures f.registry == FlushAll(r, fails).registry.(dirty := r.dirty)
    ensures f.settlements == FlushAll(r, fails).settlements
  {
    DrainAsWrittenKeepsAll(r.dirty, r.dirty);
    FlushWith(AsWritten, r, fails)
  }

  /** One manager asked once for its active transaction: the flush as
      written still holds the record afterwards, the corrected one does
      not. */
  lemma KeptRecordExample(fails: Timestamped -> bool)
    ensures var r := Registry(true, map[0 := 0], [Manager(true, Transaction(true, false))], [Timestamped(0, 0)], 1);
            && Valid(r)
            && FlushAsWritten(r, fails).registry.dirty == [Timestamped(0, 0)]
            && FlushAll(r, fails).registry.dirty == []
  {
    var r := Registry(true, map[0 := 0], [Manager(true, Transaction(true, false))], [Timestamped(0, 0)], 1);
    assert r.threads[0] == 0;
    assert 0 in r.threads.Values;
  }

  /** `flushEntities(ignoreRunningStatus)`: an `IllegalStateException` when
      not running, unless the check is bypassed; otherwise the flush as
      written, which keeps the dirty records. */
  function Flush(r: Registry, ignoreRunningStatus: bool, fails: Timestamped -> bool): (res: Result<Flushed, Exception>)
    requires RecordsNameManagers(r)
    ensures res.Err? <==> !ignoreRunningStatus && !r.running
    ensures res.Err? ==> res.error == IllegalStateException(NotRunningMessage)
    ensures res.Ok? ==> res.value == FlushAsWritten(r, fails)
    ensures res.Ok? ==> res.value.registry.dirty == r.dirty && res.value.registry.threads == map[]
  {
    if !ignoreRunningStatus && !r.running then Err(IllegalStateException(NotRunningMessage))
    else Ok(FlushAsWritten(r, fails))
  }

  /** After a flush of a valid registry no thread or open manager remains,
      every transaction a record named is inactive, the others are
      unchanged, the records are all still there, and the registry stays
      valid. */
  lemma FlushLeavesNothingOpen(r: Registry, fails: Timestamped -> bool)
    requires Valid(r)
    ensures var s := FlushAsWritten(r, fails).registry;
            && Valid(s) && s.dirty == r.dirty && s.threads == map[]
            && (forall m :: 0 <= m < |s.managers| ==> !s.managers[m].open)
            && (forall m :: 0 <= m < |s.managers| && Names(r.dirty, m) ==> !s.managers[m].transaction.active)
            && (forall m :: 0 <= m < |s.managers| && !Names(r.dirty, m) ==>
                  s.managers[m].transaction == r.managers[m].transaction)
  {
  }

  /** What walking records whose transactions are all inactive reports:
      each one left untouched. */
  function UntouchedAll(records: seq<Timestamped>): (s: seq<Settlement>)
    ensures |s| == |records|
    ensures forall i :: 0 <= i < |records| ==> s[i] == Untouched(records[i].transaction)
  {
    if records == [] then []
    else [Untouched(records[0].transaction)] + UntouchedAll(records[1..])
  }

  /** Records whose transactions are already inactive settle nothing:
      walking them before other records leaves every manager as walking the
      other records alone does, and reports each of them untouched. */
  lemma {:induction false} SettledRecordsChangeNothing(managers: seq<Manager>, settled: seq<Timestamped>,
                                                       rest: seq<Timestamped>, fails: Timestamped -> bool)
    requires forall i :: 0 <= i < |settled| ==>
               settled[i].transaction < |managers| && !managers[settled[i].transaction].transaction.active
    requires forall i :: 0 <= i < |rest| ==> rest[i].transaction < |managers|
    ensures forall i :: 0 <= i < |settled + rest| ==> (settled + rest)[i].transaction < |managers|
    ensures var all := SettleEach(managers, settled + rest, fails);
            var alone := SettleEach(managers, rest, fails);
            all.0 == alone.0 && all.1 == UntouchedAll(settled) + alone.1
    decreases |settled|
  {
    var records := settled + rest;
    AppendNamesManagers(managers, settled, rest);
    if settled == [] {
      assert records == rest;
    } else {
      var m := settled[0].transaction;
      assert records[0] == settled[0];
      assert records[1..] == settled[1..] + rest;
      SettleInactiveFirst(managers, records, fails);
      SettledRecordsChangeNothing(managers, settled[1..], rest, fails);
      var tail := SettleEach(managers, records[1..], fails);
      var alone := SettleEach(managers, rest, fails);
      assert tail.1 == UntouchedAll(settled[1..]) + alone.1;
      assert UntouchedAll(settled) == [Untouched(m)] + UntouchedAll(settled[1..]);
    }
  }

  /** A first record whose transaction is inactive is left untouched and
      leaves the managers to the records after it. */
  lemma SettleInactiveFirst(managers: seq<Manager>, records: seq<Timestamped>, fails: Timestamped -> bool)
    requires forall i :: 0 <= i < |records| ==> records[i].transaction < |managers|
    requires records != [] && !managers[records[0].transaction].transaction.active
    ensures var tail := SettleEach(managers, records[1..], fails);
            SettleEach(managers, records, fails) == (tail.0, [Untouched(records[0].transaction)] + tail.1)
  {
    assert SettleFirst(managers, records[0]) == managers;
  }

  lemma AppendNamesManagers(managers: seq<Manager>, settled: seq<Timestamped>, rest: seq<Timestamped>)
    requires forall i :: 0 <= i < |settled| ==> settled[i].transaction < |managers|
    requires forall i :: 0 <= i < |rest| ==> rest[i].transaction < |managers|
    ensures forall i :: 0 <= i < |settled + rest| ==> (settled + rest)[i].transaction < |managers|
  {
    var records := settled + rest;
    forall i | 0 <= i < |records| ensures records[i].transaction < |managers| {
      if i < |settled| {
        assert records[i] == settled[i];
      } else {
        assert records[i] == rest[i - |settled|];
      }
    }
  }

  /** A later flush as written walks again the records an earlier flush
      kept. Their transactions were settled then, so it reports each of
      them untouched, and it leaves the registry as the corrected flush of
      the newer records alone would, except that it keeps all the
      records. */
  lemma LaterFlushRewalksKeptRecords(r: Registry, kept: nat, fails: Timestamped -> bool)
    requires RecordsNameManagers(r) && kept <= |r.dirty|
    requires forall i :: 0 <= i < kept ==> !r.managers[r.dirty[i].transaction].transaction.active
    ensures RecordsNameManagers(r.(dirty := r.dirty[kept..]))
    ensures var f := FlushAsWritten(r, fails);
            var g := FlushAll(r.(dirty := r.dirty[kept..]), fails);
            f.registry == g.registry.(dirty := r.dirty) && f.settlements == UntouchedAll(r.dirty[..kept]) + g.settlements
  {
    assert r.dirty == r.dirty[..kept] + r.dirty[kept..];
    SettledRecordsChangeNothing(r.managers, r.dirty[..kept], r.dirty[kept..], fails);
  }

  /** A second flush with no activity in between walks every record again,
      settles none of them and changes nothing. */
  lemma FlushTwiceIsFlushOnce(r: Registry, fails: Timestamped -> bool, fails2: Timestamped -> bool)
    requires Valid(r)
    ensures var s := FlushAsWritten(r, fails).registry;
            FlushAsWritten(s, fails2) == Flushed(s, UntouchedAll(r.dirty))
  {
    var s := FlushAsWritten(r, fails).registry;
    FlushLeavesNothingOpen(r, fails);
    forall i | 0 <= i < |s.dirty| ensures !s.managers[s.dirty[i].transaction].transaction.active {
      assert Names(r.dirty, s.dirty[i].transaction);
    }
    LaterFlushRewalksKeptRecords(s, |s.dirty|, fails2);
    assert s.dirty[..|s.dirty|] == s.dirty && s.dirty[|s.dirty|..] == [];
    FlushOfNothing(s.(dirty := []), fails2);
  }

  /** With no record and no thread there is nothing to flush. */
  lemma FlushOfNothing(r: Registry, fails: Timestamped -> bool)
    requires r.dirty == [] && r.threads == map[]
    ensures FlushAll(r, fails) == Flushed(r, [])
  {
    var f := FlushAll(r, fails);
    assert SettleEach(r.managers, [], fails) == (r.managers, []);
    assert f.registry.managers == r.managers;
  }

  /** Stopping a running registry leaves it stopped, with no thread and no
      open manager but with every dirty record; stopping a stopped one
      changes nothing, and a later `getEntityManager` fails. */
  lemma StopEndsTheSession(r: Registry, fails: Timestamped -> bool, thread: nat)
    requires Valid(r)
    ensures var s := Stop(r, fails);
            && Valid(s) && !s.running && s.dirty == r.dirty
            && (r.running ==> s.threads == map[] && forall m :: 0 <= m < |s.managers| ==> !s.managers[m].open)
            && GetEntityManager(s, thread).Err?
  {
    if r.running {
      FlushLeavesNothingOpen(r.(running := false), fails);
    }
  }

  /** `start` keeps the registry valid. */
  lemma StartPreservesValid(r: Registry, entityTypes: seq<Option<string>>, descriptorFound: bool)
    requires Valid(r)
    ensures Valid(Start(r, entityTypes, descriptorFound).0)
  {
  }

  /** `getEntityManager` keeps the registry valid: a new manager is held by
      the thread that asked for it. */
  lemma GetEntityManagerPreservesValid(r: Registry, thread: nat)
    requires Valid(r) && GetEntityManager(r, thread).Ok?
    ensures Valid(GetEntityManager(r, thread).value.0)
  {
    if thread !in r.threads {
      var s := GetEntityManager(r, thread).value.0;
      forall m | 0 <= m < |s.managers| && s.managers[m].open ensures m in s.threads.Values {
        if m < |r.managers| {
          assert r.managers[m].open;
          var t :| t in r.threads && r.threads[t] == m;
          assert t != thread;
          assert s.threads[t] == m;
        } else {
          assert s.threads[thread] == m;
        }
      }
    }
  }

  /** A transaction request keeps the registry valid while the 64-bit
      counter is below its maximum: the new record has the largest id. */
  lemma GetTransactionPreservesValid(r: Registry, manager: nat)
    requires Valid(r) && manager < |r.managers| && r.nextCreationId < LongMax
    ensures Valid(GetTransaction(r, manager).0)
  {
  }

  /** `begin` and `setRollbackOnly` keep the registry valid. */
  lemma TransactionCallsPreserveValid(r: Registry, manager: nat)
    requires Valid(r) && manager < |r.managers|
    ensures Valid(Begin(r, manager)) && Valid(SetRollbackOnly(r, manager))
  {
  }
}

=== FILE: process_execution.dfy ===
/** `ProcessingProcess.executeProcessDeclaration`: read the declaration,
    then run its steps in order, each with a map of its parameters. Reading
    (schema validation, JAXB binding) is a parameter, as is each step's
    `execute`. */
module ProcessExecution {
  import opened Wrappers
  import opened JavaLang
  import opened JavaCollections
  import opened StepDefinitions
  import S = StepDriver

  const ReadFailureMessage: string := "An exception occurred while reading the process declaration"

  /** A `<step>`: its action, bound by the adapter, and its parameters. */
  datatype StepDefinition<Step> = StepDefinition(action: Step, parameters: ParameterList)

  /** The outcome of reading the declaration: the steps, one of the four
      failures the method catches (a schema factory configuration error, an
      unsupported operation, a JAXB or a SAX exception), or another
      exception, which passes through. */
  datatype ReadOutcome<Step> =
    | Declared(steps: seq<StepDefinition<Step>>)
    | ReadFailed
    | ReadThrew(e: Exception)

  function Names(ps: seq<Parameter>): (ns: seq<string>)
    ensures |ns| == |ps| && forall i :: 0 <= i < |ps| ==> ns[i] == ps[i].name
  {
    seq(|ps|, i requires 0 <= i < |ps| => ps[i].name)
  }

  function Values(ps: seq<Parameter>): (vs: seq<Option<string>>)
    ensures |vs| == |ps| && forall i :: 0 <= i < |ps| ==> vs[i] == ps[i].value
  {
    seq(|ps|, i requires 0 <= i < |ps| => ps[i].value)
  }

  /** The map handed to a step: one key per parameter name; a name given
      more than once keeps its last value. */
  function ParameterMap(ps: seq<Parameter>): (m: S.Params)
    ensures forall k :: k in m <==> exists i :: 0 <= i < |ps| && ps[i].name == k
    ensures forall i :: 0 <= i < |ps| && LastPut(Names(ps), i) ==> m[ps[i].name] == ps[i].value
  {
    var m := PutAll(map[], Names(ps), Values(ps));
    forall i | 0 <= i < |ps| && LastPut(Names(ps), i) ensures m[ps[i].name] == ps[i].value {
      LastPutWins(map[], Names(ps), Values(ps), i);
    }
    m
  }

  /** A repeated parameter: the later value replaces the earlier one. */
  lemma RepeatedParameterExample()
    ensures ParameterMap([Parameter("pageSize", Some("10")), Parameter("pageSize", Some("20"))])
              == map["pageSize" := Some("20")]
  {
    var ps := [Parameter("pageSize", Some("10")), Parameter("pageSize", Some("20"))];
    var m := ParameterMap(ps);
    assert LastPut(Names(ps), 1);
    assert m.Keys == {"pageSize"} by {
      forall k | k in m ensures k == "pageSize" {
        var i :| 0 <= i < |ps| && ps[i].name == k;
      }
      assert ps[0].name == "pageSize";
    }
  }

  /** The trace of running the steps: the parameter maps passed to the
      steps that ran, in order, and the exception that stopped the run. */
  datatype ProcessTrace<C> = ProcessTrace(executed: seq<C>, error: Option<Exception>)

  /** A step call: the step's action and the map of its parameters. */
  type StepCall<Step> = (Step, S.Params)

  /** The call a step definition makes: its action with the map of its
      parameters. */
  function Call<Step>(step: StepDefinition<Step>): StepCall<Step> {
    (step.action, ParameterMap(GetParameters(step.parameters).1))
  }

  /** The calls the steps make, in declaration order. */
  function Calls<Step>(steps: seq<StepDefinition<Step>>): (cs: seq<StepCall<Step>>)
    ensures |cs| == |steps|
  {
    seq(|steps|, k requires 0 <= k < |steps| => Call(steps[k]))
  }

  /** The loop over the steps: each step executes with its parameter map
      (`Calls`), and the first exception ends the loop and leaves the
      method. */
  function RunSteps<C>(calls: seq<C>, execute: C -> Option<Exception>): (t: ProcessTrace<C>)
    ensures |t.executed| <= |calls| && t.executed == calls[..|t.executed|]
    ensures forall k :: 0 <= k < |t.executed| - 1 ==> execute(t.executed[k]).None?
    ensures t.error.None? <==> |t.executed| == |calls| && forall k :: 0 <= k < |calls| ==> execute(calls[k]).None?
    ensures t.error.Some? ==> t.executed != [] && t.error == execute(t.executed[|t.executed| - 1])
    decreases |calls|
  {
    if calls == [] then ProcessTrace([], None)
    else
      match execute(calls[0])
      case Some(e) => ProcessTrace([calls[0]], Some(e))
      case None =>
        var rest := RunSteps(calls[1..], execute);
        ProcessTrace([calls[0]] + rest.executed, rest.error)
  }

  /** The run stops exactly at the first failing call: the calls before it
      and the failing one execute, the failure is the error, and nothing
      after it runs. */
  lemma {:induction false} RunStopsAtFirstFailure<C>(calls: seq<C>, execute: C -> Option<Exception>, i: nat)
    requires i < |calls| && execute(calls[i]).Some?
    requires forall k :: 0 <= k < i ==> execute(calls[k]).None?
    ensures RunSteps(calls, execute) == ProcessTrace(calls[..i + 1], execute(calls[i]))
    decreases i
  {
    if i > 0 {
      assert calls[1..][i - 1] == calls[i];
      RunStopsAtFirstFailure(calls[1..], execute, i - 1);
      assert [calls[0]] + calls[1..][..i] == calls[..i + 1];
    }
  }

  /** `executeProcessDeclaration`: a null input is rejected by the non-null
      check; a caught reading failure becomes a `ProcessingException` with
      the fixed message; any other exception from reading passes through;
      then the steps run. */
  function ExecuteDeclaration<Step>(input: bool, read: ReadOutcome<Step>,
                                    execute: StepCall<Step> -> Option<Exception>)
    : (t: ProcessTrace<StepCall<Step>>)
    ensures !input ==> t == ProcessTrace([], Some(NullPointerException))
    ensures input && read.ReadFailed? ==> t == ProcessTrace([], Some(ProcessingException(ReadFailureMessage)))
    ensures input && read.ReadThrew? ==> t == ProcessTrace([], Some(read.e))
    ensures t.executed != [] ==> input && read.Declared?
    ensures input && read.Declared? ==>
              && |t.executed| <= |read.steps| && t.executed == Calls(read.steps)[..|t.executed|]
              && (t.error.None? <==> forall k :: 0 <= k < |read.steps| ==> execute(Calls(read.steps)[k]).None?)
  {
    if !input then ProcessTrace([], Some(NullPointerException))
    else match read
      case ReadFailed => ProcessTrace([], Some(ProcessingException(ReadFailureMessage)))
      case ReadThrew(e) => ProcessTrace([], Some(e))
      case Declared(steps) => RunSteps(Calls(steps), execute)
  }
}

=== FILE: scanner.dfy ===
/** The paged, batched document scan every processing step runs its work
    through (`AbstractProcessingStep.forEachDocumentInNativeQuery`).

    The scan asks the database for the unprocessed documents one page at a
    time, converts every row to an array of column strings, and hands the
    rows to the step's action in batches of `batchSize`, collected in one
    accumulator that lives for the whole scan. After each page the rows left
    in the accumulator are handed over as a short batch, the pending database
    changes are checkpointed if any were made, and the page-end action runs.

    The rows of a page are processed in the order the query returns them (the
    source uses a parallel stream). The query and the action are opaque: the
    query is a function from the requested window to an answer, and the
    action is a function from the batch to what it did. */
module BatchScanner {
  import opened Wrappers
  import opened JavaLang

  const DataAccessMessage: string := "An exception occurred during a data access operation"
  const NullQueryMessage: string := "The query supplier returned a null query"
  const UnexpectedColumnMessage: string := "Unexpected column type"

  // ---------------------------------------------------------------------
  // Page arithmetic

  /** The number of pages: the document count divided by the page size,
      rounded up. */
  function PageCount(total: nat, pageSize: int): (pages: nat)
    requires pageSize >= 1
    ensures total == 0 <==> pages == 0
    ensures pages > 0 ==> (pages - 1) * pageSize < total <= pages * pageSize
  {
    total / pageSize + (if total % pageSize == 0 then 0 else 1)
  }

  /** The number of progress steps announced to the user: one per page, one
      more for every page but the last when batches do not divide pages, and
      one more when the last page's documents do not fill whole batches. */
  function StepCount(total: nat, pageSize: int, batchSize: int): int
    requires pageSize >= 1 && batchSize >= 1
  {
    var pages := PageCount(total, pageSize);
    pages
    + (pages - 1) * (if pageSize % batchSize == 0 then 0 else 1)
    + (if (total % pageSize) % batchSize == 0 then 0 else 1)
  }

  /** With no documents and batches that do not divide pages, the announced
      step count is negative. */
  lemma StepCountOfEmptyTable(pageSize: int, batchSize: int)
    requires pageSize >= 1 && batchSize >= 1
    ensures StepCount(0, pageSize, batchSize) == if pageSize % batchSize == 0 then 0 else -1
  {
    assert PageCount(0, pageSize) == 0;
    assert (0 % pageSize) % batchSize == 0;
  }

  lemma StepCountExample()
    ensures StepCount(10, 4, 3) == 6
  {
  }

  /** The first row asked for on page `page`: `page * pageSize` computed in
      32-bit `int` arithmetic. */
  function PageOffset(page: int, pageSize: int): (offset: int)
    requires IsInt(page) && IsInt(pageSize)
    ensures IsInt(offset)
    ensures IsInt(page * pageSize) ==> offset == page * pageSize
  {
    WrapInt(page * pageSize)
  }

  /** The multiplication wraps around once the table passes 2^31 rows. */
  lemma PageOffsetOverflowExample()
    ensures PageOffset(2, 0x4000_0000) == IntMin
  {
  }

  /** The rows a well-behaved database returns for a window of a table. */
  function TableWindow(table: seq<Row>, offset: nat, limit: nat): (rows: seq<Row>)
    ensures |rows| <= limit
    ensures offset + limit <= |table| ==> |rows| == limit
    ensures forall i :: 0 <= i < |rows| ==> offset + i < |table| && rows[i] == table[offset + i]
  {
    if offset >= |table| then []
    else if offset + limit <= |table| then table[offset..offset + limit]
    else table[offset..]
  }

  /** The windows asked for by the first `pages` pages, concatenated. */
  function Windows(table: seq<Row>, pageSize: int, pages: nat): seq<Row>
    requires pageSize >= 1 && IsInt(pageSize)
    requires pages == 0 || IsInt(pages - 1)
  {
    if pages == 0 then []
    else
      var offset := PageOffset(pages - 1, pageSize);
      Windows(table, pageSize, pages - 1) + (if offset >= 0 then TableWindow(table, offset, pageSize) else [])
  }

  /** When the table fits in the `int` range, the pages read it exactly once,
      in order: no row is skipped or read twice. */
  lemma {:induction false} PagesCoverTable(table: seq<Row>, pageSize: int)
    requires pageSize >= 1 && IsInt(pageSize)
    requires |table| <= IntMax
    ensures var pages := PageCount(|table|, pageSize); Windows(table, pageSize, pages) == table
  {
    var pages := PageCount(|table|, pageSize);
    WindowsPrefix(table, pageSize, pages);
    if pages > 0 && pages * pageSize <= |table| {
      assert pages * pageSize == |table|;
      assert table[..|table|] == table;
    }
  }

  lemma {:induction false} WindowsPrefix(table: seq<Row>, pageSize: int, pages: nat)
    requires pageSize >= 1 && IsInt(pageSize)
    requires pages == 0 || (pages - 1) * pageSize < |table| <= IntMax
    ensures pages == 0 || IsInt(pages - 1)
    ensures Windows(table, pageSize, pages)
      == if pages * pageSize <= |table| then table[..pages * pageSize] else table
  {
    if pages > 0 {
      var p := pages - 1;
      MulGrows(p, pageSize);
      MulStep(p, pageSize);
      if p > 0 {
        MulStep(p - 1, pageSize);
      }
      WindowsPrefix(table, pageSize, p);
      var lo := p * pageSize;
      assert PageOffset(p, pageSize) == lo;
      if pages * pageSize <= |table| {
        assert table[..lo] + table[lo..pages * pageSize] == table[..pages * pageSize];
      } else {
        assert table[..lo] + table[lo..] == table;
      }
    }
  }

  /** There are never more pages than documents. */
  lemma PageCountAtMostTotal(total: nat, pageSize: int)
    requires pageSize >= 1
    ensures PageCount(total, pageSize) <= total
  {
    var pages := PageCount(total, pageSize);
    if pages > 0 {
      MulGrows(pages - 1, pageSize);
    }
  }

  lemma MulGrows(a: nat, b: int)
    requires b >= 1
    ensures a <= a * b
  {
    assert a * b == a + a * (b - 1);
  }

  lemma MulStep(a: int, b: int)
    ensures (a + 1) * b == a * b + b
  {
  }

  /** The page loop as written: an `int` counter compared with the `long`
      page count, incremented with 32-bit wrap-around. The pages visited
      within `fuel` iterations, from `page` on. With more pages than there
      are non-negative `int` values every `int` is below the page count, so
      the loop runs for as long as it is allowed to and never ends. */
  function IntPageLoop(page: int, pages: nat, fuel: nat): (visited: seq<int>)
    requires IsInt(page)
    ensures |visited| <= fuel
    ensures forall i :: 0 <= i < |visited| ==> IsInt(visited[i]) && visited[i] < pages
    ensures pages > IntMax ==> |visited| == fuel
    decreases fuel
  {
    if fuel == 0 || page >= pages then []
    else [page] + IntPageLoop(WrapInt(page + 1), pages, fuel - 1)
  }

  /** One document per page and 2^31 documents: 2^31 pages, so the scan as
      written loops for ever, revisiting negative page numbers once the
      counter wraps. */
  lemma PageLoopWrapExample(fuel: nat)
    requires fuel > IntMax + 1
    ensures PageCount(IntMax + 1, 1) == IntMax + 1
    ensures |IntPageLoop(0, IntMax + 1, fuel)| == fuel
    ensures IntPageLoop(0, IntMax + 1, fuel)[IntMax + 1] == IntMin
  {
    IntPageLoopCounts(0, IntMax + 1, fuel, IntMax + 1);
  }

  /** The `i`-th page visited, before any wrap, is `page + i`; the one after
      `int`'s maximum is its minimum. */
  lemma {:induction false} IntPageLoopCounts(page: int, pages: nat, fuel: nat, i: nat)
    requires IsInt(page) && pages > IntMax && 0 <= page && i < fuel && page + i <= IntMax + 1
    ensures IntPageLoop(page, pages, fuel)[i] == if page + i <= IntMax then page + i else IntMin
    decreases i
  {
    if i > 0 {
      var next := WrapInt(page + 1);
      assert IntPageLoop(page, pages, fuel)[i] == IntPageLoop(next, pages, fuel - 1)[i - 1];
      if page + 1 <= IntMax {
        IntPageLoopCounts(page + 1, pages, fuel - 1, i - 1);
      } else {
        assert next == IntMin && i == 1;
      }
    }
  }

  /** The page loop with a `long` counter, as evidently intended: the
      pages visited within `fuel` iterations, from `page` on. */
  function LongPageLoop(page: nat, pages: nat, fuel: nat): (visited: seq<int>)
    ensures |visited| <= fuel
    decreases fuel
  {
    if fuel == 0 || page >= pages then []
    else [page] + LongPageLoop(page + 1, pages, fuel - 1)
  }

  /** With a `long` counter the loop visits every page once, in order, and
      stops, given enough iterations. */
  lemma {:induction false} LongPageLoopVisitsEachPage(page: nat, pages: nat, fuel: nat)
    requires page <= pages && fuel >= pages - page
    ensures |LongPageLoop(page, pages, fuel)| == pages - page
    ensures forall i :: 0 <= i < pages - page ==> LongPageLoop(page, pages, fuel)[i] == page + i
    decreases fuel
  {
    if page < pages {
      LongPageLoopVisitsEachPage(page + 1, pages, fuel - 1);
      var rest := LongPageLoop(page + 1, pages, fuel - 1);
      assert LongPageLoop(page, pages, fuel) == [page] + rest;
    }
  }

  /** When the page count fits in an `int`, the loop as written and the
      intended loop visit the same pages: the pages `Scan` asks for. */
  lemma {:induction false} PageLoopsAgree(page: nat, pages: nat, fuel: nat)
    requires pages <= IntMax && page <= pages
    ensures IntPageLoop(page, pages, fuel) == LongPageLoop(page, pages, fuel)
    decreases fuel
  {
    if fuel > 0 && page < pages {
      PageLoopsAgree(page + 1, pages, fuel - 1);
    }
  }

  // ---------------------------------------------------------------------
  // Rows

  /** A column value as returned by the database: `None` is SQL NULL, `Some`
      carries the value's `toString()`. */
  type Column = Option<string>

  /** A result row: a single-column query returns the bare value, a
      multi-column query an array of values. */
  datatype Row = Scalar(value: Column) | Columns(values: seq<Column>)

  /** The converted row: one string per column. */
  type Attrs = seq<string>

  /** `columnAttributeToString`: a null column is an error. */
  function ColumnToString(c: Column): (r: Result<string, Exception>)
    ensures r.Ok? <==> c.Some?
    ensures r.Ok? ==> r.value == c.value
    ensures r.Err? ==> r.error == ProcessingException(UnexpectedColumnMessage)
  {
    match c
    case Some(s) => Ok(s)
    case None => Err(ProcessingException(UnexpectedColumnMessage))
  }

  /** Converts a row to its column strings. A bare null result fails on
      `getClass()`; a null inside a multi-column row fails in the conversion
      of that column. */
  function ConvertRow(row: Row): (r: Result<Attrs, Exception>)
    ensures row.Scalar? ==> (r.Ok? <==> row.value.Some?)
    ensures row.Scalar? && r.Ok? ==> r.value == [row.value.value]
    ensures row.Columns? ==> (r.Ok? <==> forall i :: 0 <= i < |row.values| ==> row.values[i].Some?)
    ensures row.Columns? && r.Ok? ==>
      |r.value| == |row.values| && forall i :: 0 <= i < |r.value| ==> r.value[i] == row.values[i].value
  {
    match row
    case Scalar(v) =>
      if v.None? then Err(NullPointerException) else Ok([v.value])
    case Columns(vs) => ConvertColumns(vs)
  }

  function ConvertColumns(vs: seq<Column>): (r: Result<Attrs, Exception>)
    ensures r.Ok? <==> forall i :: 0 <= i < |vs| ==> vs[i].Some?
    ensures r.Ok? ==> |r.value| == |vs| && forall i :: 0 <= i < |vs| ==> r.value[i] == vs[i].value
    ensures r.Err? ==> r.error == ProcessingException(UnexpectedColumnMessage)
  {
    if vs == [] then Ok([])
    else
      var head :- ColumnToString(vs[0]);
      var tail :- ConvertColumns(vs[1..]);
      assert forall i :: 1 <= i < |vs| ==> vs[i] == vs[1..][i - 1];
      Ok([head] + tail)
  }

  /** The converted rows, in order, without the rows that failed conversion. */
  function Converted(rows: seq<Row>): (attrs: seq<Attrs>)
    ensures |attrs| <= |rows|
  {
    if rows == [] then []
    else
      var last := ConvertRow(rows[|rows| - 1]);
      Converted(rows[..|rows| - 1]) + (if last.Ok? then [last.value] else [])
  }

  // ---------------------------------------------------------------------
  // Batches

  /** What one call of the step's action did: whether it saved or deleted
      documents (which sets the step's "changed" flag), and what it threw. */
  datatype Outcome = Outcome(saved: bool, failure: Option<Exception>)

  /** One call of the action: the batch and whether it was made while the
      rows were streamed (a full batch) or after the page (the leftovers). */
  datatype Delivery = Delivery(batch: seq<Attrs>, inStream: bool)

  /** All delivered rows, batch after batch. */
  function Flatten(ds: seq<Delivery>): seq<Attrs> {
    if ds == [] then [] else Flatten(ds[..|ds| - 1]) + ds[|ds| - 1].batch
  }

  lemma {:induction false} FlattenAppend(ds: seq<Delivery>, es: seq<Delivery>)
    ensures Flatten(ds + es) == Flatten(ds) + Flatten(es)
    decreases |es|
  {
    if es == [] {
      assert ds + es == ds;
    } else {
      assert (ds + es)[..|ds + es| - 1] == ds + es[..|es| - 1];
      FlattenAppend(ds, es[..|es| - 1]);
    }
  }

  predicate FullBatches(ds: seq<Delivery>, batchSize: int) {
    forall k :: 0 <= k < |ds| ==> ds[k].inStream && |ds[k].batch| == batchSize
  }

  /** The accumulator, flag and trace after streaming some rows. */
  datatype Streamed = Streamed(acc: seq<Attrs>, changed: bool, deliveries: seq<Delivery>, logged: seq<Exception>)

  function Failures(o: Outcome): seq<Exception> {
    if o.failure.Some? then [o.failure.value] else []
  }

  /** One row of the stream: a row that fails conversion is logged and
      skipped; otherwise it joins the accumulator, and once the accumulator
      holds `batchSize` rows a copy is handed to the action and the
      accumulator is cleared before the action runs, so an action failure
      (logged, whatever it is) loses that batch. */
  function StreamRow(st: Streamed, row: Row, batchSize: int, action: seq<Attrs> -> Outcome): (r: Streamed)
    requires batchSize >= 1 && |st.acc| < batchSize
    ensures |r.acc| < batchSize
    ensures FullBatches(st.deliveries, batchSize) ==> FullBatches(r.deliveries, batchSize)
    ensures Flatten(r.deliveries) + r.acc
         == Flatten(st.deliveries) + st.acc + (if ConvertRow(row).Ok? then [ConvertRow(row).value] else [])
    ensures st.changed ==> r.changed
    ensures |st.deliveries| <= |r.deliveries| <= |st.deliveries| + 1
    ensures r.deliveries[..|st.deliveries|] == st.deliveries
  {
    match ConvertRow(row)
    case Err(e) => st.(logged := st.logged + [e])
    case Ok(attrs) =>
      var acc := st.acc + [attrs];
      if |acc| >= batchSize then
        var o := action(acc);
        FlattenAppend(st.deliveries, [Delivery(acc, true)]);
        assert Flatten([Delivery(acc, true)]) == acc;
        Streamed([], st.changed || o.saved, st.deliveries + [Delivery(acc, true)], st.logged + Failures(o))
      else
        st.(acc := acc)
  }

  /** The rows of one page streamed through the accumulator. Every batch
      handed over has exactly `batchSize` rows, fewer than `batchSize` rows
      stay behind, and no converted row is lost or duplicated: the delivered
      rows followed by the leftovers are the rows the accumulator held at the
      start followed by the page's converted rows. */
  function StreamRows(rows: seq<Row>, acc: seq<Attrs>, changed: bool, batchSize: int,
                      action: seq<Attrs> -> Outcome): (r: Streamed)
    requires batchSize >= 1 && |acc| < batchSize
    ensures |r.acc| < batchSize
    ensures FullBatches(r.deliveries, batchSize)
    ensures Flatten(r.deliveries) + r.acc == acc + Converted(rows)
    ensures changed ==> r.changed
  {
    if rows == [] then Streamed(acc, changed, [], [])
    else
      var prev := StreamRows(rows[..|rows| - 1], acc, changed, batchSize, action);
      StreamRow(prev, rows[|rows| - 1], batchSize, action)
  }

  /** Some delivery's action call saved something. */
  predicate SomeSaved(ds: seq<Delivery>, action: seq<Attrs> -> Outcome) {
    exists k :: 0 <= k < |ds| && action(ds[k].batch).saved
  }

  lemma SomeSavedSnoc(ds: seq<Delivery>, d: Delivery, action: seq<Attrs> -> Outcome)
    ensures SomeSaved(ds + [d], action) <==> SomeSaved(ds, action) || action(d.batch).saved
  {
    var e := ds + [d];
    if SomeSaved(e, action) && !action(d.batch).saved {
      var k :| 0 <= k < |e| && action(e[k].batch).saved;
      assert k < |ds| && e[k] == ds[k];
    }
    if SomeSaved(ds, action) {
      var k :| 0 <= k < |ds| && action(ds[k].batch).saved;
      assert e[k] == ds[k];
    }
    if action(d.batch).saved {
      assert e[|ds|] == d;
    }
  }

  /** One row either leaves the deliveries and the flag alone or adds one
      delivery, whose action call may set the flag. */
  lemma StreamRowChanged(st: Streamed, row: Row, batchSize: int, action: seq<Attrs> -> Outcome)
    requires batchSize >= 1 && |st.acc| < batchSize
    ensures var r := StreamRow(st, row, batchSize, action);
      || (r.deliveries == st.deliveries && r.changed == st.changed)
      || (exists d :: r.deliveries == st.deliveries + [d] && r.changed == (st.changed || action(d.batch).saved))
  {
    var r := StreamRow(st, row, batchSize, action);
    if ConvertRow(row).Ok? {
      var acc := st.acc + [ConvertRow(row).value];
      if |acc| >= batchSize {
        assert r.deliveries == st.deliveries + [Delivery(acc, true)];
      }
    }
  }

  /** The flag after streaming is set exactly when it was set before or some
      full batch's action call saved something. */
  lemma {:induction false} StreamRowsChanged(rows: seq<Row>, acc: seq<Attrs>, changed: bool, batchSize: int,
                                             action: seq<Attrs> -> Outcome)
    requires batchSize >= 1 && |acc| < batchSize
    ensures var r := StreamRows(rows, acc, changed, batchSize, action);
      r.changed <==> changed || SomeSaved(r.deliveries, action)
  {
    if rows != [] {
      StreamRowsChanged(rows[..|rows| - 1], acc, changed, batchSize, action);
      var prev := StreamRows(rows[..|rows| - 1], acc, changed, batchSize, action);
      var row := rows[|rows| - 1];
      var r := StreamRows(rows, acc, changed, batchSize, action);
      assert r == StreamRow(prev, row, batchSize, action);
      StreamRowChanged(prev, row, batchSize, action);
      if r.deliveries != prev.deliveries {
        var d :| r.deliveries == prev.deliveries + [d] && r.changed == (prev.changed || action(d.batch).saved);
        SomeSavedSnoc(prev.deliveries, d, action);
      }
    }
  }

  lemma {:induction false} FullBatchesLength(ds: seq<Delivery>, batchSize: int)
    requires batchSize >= 1 && FullBatches(ds, batchSize)
    ensures |Flatten(ds)| == batchSize * |ds|
  {
    if ds != [] {
      var p := ds[..|ds| - 1];
      assert forall k :: 0 <= k < |p| ==> p[k] == ds[k];
      FullBatchesLength(p, batchSize);
      assert |Flatten(ds)| == |Flatten(p)| + batchSize;
      assert batchSize * |p| + batchSize == batchSize * |ds|;
    }
  }

  /** The leftovers after a page are the last `(held + converted) % batchSize`
      rows: nothing is left exactly when the rows fill whole batches. */
  lemma LeftoverSize(rows: seq<Row>, acc: seq<Attrs>, changed: bool, batchSize: int,
                     action: seq<Attrs> -> Outcome)
    requires batchSize >= 1 && |acc| < batchSize
    ensures |StreamRows(rows, acc, changed, batchSize, action).acc| == (|acc| + |Converted(rows)|) % batchSize
  {
    var r := StreamRows(rows, acc, changed, batchSize, action);
    FullBatchesLength(r.deliveries, batchSize);
    var n := |acc| + |Converted(rows)|;
    assert n == batchSize * |r.deliveries| + |r.acc|;
    DivModUnique(n, batchSize, |r.deliveries|, |r.acc|);
  }

  // ---------------------------------------------------------------------
  // Pages

  /** What the query returned for one page: `getResultList` threw, the query
      supplier returned null, or the rows. */
  datatype Answer = NullQuery | Failed(exception: Exception) | Rows(rows: seq<Row>)

  /** The state that survives from page to page: the accumulator and the
      step's "database entities changed" flag. */
  datatype ScanState = ScanState(acc: seq<Attrs>, changed: bool)

  /** What happened on one page: the action calls, the logged exceptions,
      whether the pending changes were checkpointed and whether the page-end
      action ran. */
  datatype PageTrace = PageTrace(deliveries: seq<Delivery>, logged: seq<Exception>, checkpointed: bool, pageEndRan: bool)

  datatype PageResult = PageResult(trace: PageTrace, state: ScanState, error: Option<Exception>)

  /** The outer `catch`: a persistence failure leaves the scan as a
      `ProcessingException` with the data access message; anything else
      leaves unchanged. */
  function WrapPersistence(e: Exception): (w: Exception)
    ensures e.PersistenceException? ==> w == ProcessingException(DataAccessMessage)
    ensures !e.PersistenceException? ==> w == e
  {
    if e.PersistenceException? then ProcessingException(DataAccessMessage) else e
  }

  /** One page. After the rows are streamed, a non-empty accumulator is handed
      to the action; only a `ProcessingException` from that call is logged,
      anything else ends the scan. `clearLeftovers` selects between the source
      as written (`false`: the accumulator is not cleared, so the leftovers
      start the next page's first batch) and the evidently intended behaviour
      (`true`). Then the pending changes are checkpointed if the flag is set,
      the flag is reset, and the page-end action, if any, runs. */
  function ScanPage(answer: Answer, st: ScanState, batchSize: int, action: seq<Attrs> -> Outcome,
                    hasPageEndAction: bool, clearLeftovers: bool): (r: PageResult)
    requires batchSize >= 1 && |st.acc| < batchSize
    ensures |r.state.acc| < batchSize
    ensures r.error.None? ==> !r.state.changed
    ensures r.error.None? ==> r.trace.pageEndRan == hasPageEndAction
    ensures answer.NullQuery? ==> r.error == Some(ProcessingException(NullQueryMessage))
    ensures answer.Failed? ==> r.error == Some(WrapPersistence(answer.exception))
    ensures r.error.Some? ==> !r.trace.checkpointed && !r.trace.pageEndRan
  {
    match answer
    case NullQuery =>
      PageResult(PageTrace([], [], false, false), st, Some(ProcessingException(NullQueryMessage)))
    case Failed(e) =>
      PageResult(PageTrace([], [], false, false), st, Some(WrapPersistence(e)))
    case Rows(rows) =>
      var s := StreamRows(rows, st.acc, st.changed, batchSize, action);
      if |s.acc| > 0 then
        var o := action(s.acc);
        var deliveries := s.deliveries + [Delivery(s.acc, false)];
        var changed := s.changed || o.saved;
        var acc := if clearLeftovers then [] else s.acc;
        if o.failure.Some? && !IsProcessingException(o.failure.value) then
          PageResult(PageTrace(deliveries, s.logged, false, false), ScanState(acc, changed),
                     Some(WrapPersistence(o.failure.value)))
        else
          PageResult(PageTrace(deliveries, s.logged + Failures(o), changed, hasPageEndAction),
                     ScanState(acc, false), None)
      else
        PageResult(PageTrace(s.deliveries, s.logged, s.changed, hasPageEndAction), ScanState([], false), None)
  }

  /** The rows case of `ScanPage`, stated in terms of the streamed rows. */
  lemma ScanPageOfRows(rows: seq<Row>, st: ScanState, batchSize: int, action: seq<Attrs> -> Outcome,
                       hasPageEndAction: bool, clearLeftovers: bool)
    requires batchSize >= 1 && |st.acc| < batchSize
    ensures var s := StreamRows(rows, st.acc, st.changed, batchSize, action);
      var r := ScanPage(Rows(rows), st, batchSize, action, hasPageEndAction, clearLeftovers);
      r.error.None? ==>
        r.trace.deliveries == s.deliveries + (if |s.acc| > 0 then [Delivery(s.acc, false)] else []) &&
        r.state.acc == (if |s.acc| > 0 && !clearLeftovers then s.acc else []) &&
        r.trace.checkpointed == (s.changed || (|s.acc| > 0 && action(s.acc).saved))
  {
  }

  /** A checkpoint happens after a page exactly when the flag was set on entry
      or some action call of the page saved something. */
  lemma CheckpointIffChanged(rows: seq<Row>, st: ScanState, batchSize: int, action: seq<Attrs> -> Outcome,
                             hasPageEndAction: bool, clearLeftovers: bool)
    requires batchSize >= 1 && |st.acc| < batchSize
    ensures var r := ScanPage(Rows(rows), st, batchSize, action, hasPageEndAction, clearLeftovers);
      r.error.None? ==> (r.trace.checkpointed <==> st.changed || SomeSaved(r.trace.deliveries, action))
  {
    StreamRowsChanged(rows, st.acc, st.changed, batchSize, action);
    ScanPageOfRows(rows, st, batchSize, action, hasPageEndAction, clearLeftovers);
    var s := StreamRows(rows, st.acc, st.changed, batchSize, action);
    if |s.acc| > 0 {
      SomeSavedSnoc(s.deliveries, Delivery(s.acc, false), action);
    } else {
      assert s.deliveries + [] == s.deliveries;
    }
  }

  /** Every batch handed over while rows stream has exactly `batchSize` rows;
      the batch handed over after a page has between 1 and `batchSize - 1`. */
  lemma BatchSizes(rows: seq<Row>, st: ScanState, batchSize: int, action: seq<Attrs> -> Outcome,
                   hasPageEndAction: bool, clearLeftovers: bool)
    requires batchSize >= 1 && |st.acc| < batchSize
    ensures var ds := ScanPage(Rows(rows), st, batchSize, action, hasPageEndAction, clearLeftovers).trace.deliveries;
      forall k :: 0 <= k < |ds| ==>
        (ds[k].inStream ==> |ds[k].batch| == batchSize) &&
        (!ds[k].inStream ==> 0 < |ds[k].batch| < batchSize && k == |ds| - 1)
  {
    var s := StreamRows(rows, st.acc, st.changed, batchSize, action);
    var ds := ScanPage(Rows(rows), st, batchSize, action, hasPageEndAction, clearLeftovers).trace.deliveries;
    if |s.acc| > 0 {
      assert forall k :: 0 <= k < |s.deliveries| ==> ds[k] == s.deliveries[k];
    }
  }

  /** A page that completes hands over the rows held from the previous page
      followed by its own converted rows. */
  lemma PageDeliversHeldRows(rows: seq<Row>, st: ScanState, batchSize: int, action: seq<Attrs> -> Outcome,
                             hasPageEndAction: bool, clearLeftovers: bool)
    requires batchSize >= 1 && |st.acc| < batchSize
    ensures var r := ScanPage(Rows(rows), st, batchSize, action, hasPageEndAction, clearLeftovers);
      var all := st.acc + Converted(rows);
      r.error.None? ==>
        Flatten(r.trace.deliveries) == all
  {
    var s := StreamRows(rows, st.acc, st.changed, batchSize, action);
    var r := ScanPage(Rows(rows), st, batchSize, action, hasPageEndAction, clearLeftovers);
    ScanPageOfRows(rows, st, batchSize, action, hasPageEndAction, clearLeftovers);
    var all := st.acc + Converted(rows);
    assert all == Flatten(s.deliveries) + s.acc;
    var tail := if |s.acc| > 0 then [Delivery(s.acc, false)] else [];
    FlattenAppend(s.deliveries, tail);
    assert Flatten(tail) == s.acc by {
      if |s.acc| > 0 {
        assert Flatten(tail) == Flatten([]) + s.acc;
      }
    }
  }

  /** The last `|all| % batchSize` rows of `all`: what fills no whole batch. */
  function HeldBack(all: seq<Attrs>, batchSize: int): seq<Attrs>
    requires batchSize >= 1
  {
    all[|all| - |all| % batchSize..]
  }

  /** As written, a completed page keeps its leftovers, the last
      `(held + converted) % batchSize` of the rows it handed over, so each of
      them reaches the action a second time with the next page; corrected,
      nothing is held after a page. */
  lemma PageLeftovers(rows: seq<Row>, st: ScanState, batchSize: int, action: seq<Attrs> -> Outcome,
                      hasPageEndAction: bool, clearLeftovers: bool)
    requires batchSize >= 1 && |st.acc| < batchSize
    ensures var r := ScanPage(Rows(rows), st, batchSize, action, hasPageEndAction, clearLeftovers);
      var all := st.acc + Converted(rows);
      r.error.None? ==>
        (clearLeftovers ==> r.state.acc == []) &&
        (!clearLeftovers ==> r.state.acc == HeldBack(all, batchSize))
  {
    var s := StreamRows(rows, st.acc, st.changed, batchSize, action);
    ScanPageOfRows(rows, st, batchSize, action, hasPageEndAction, clearLeftovers);
    LeftoverSize(rows, st.acc, st.changed, batchSize, action);
    var all := st.acc + Converted(rows);
    assert |s.acc| == |all| % batchSize;
    assert all == Flatten(s.deliveries) + s.acc;
    assert all[|all| - |s.acc|..] == s.acc;
  }

  // ---------------------------------------------------------------------
  // The whole scan

  datatype ScanResult = ScanResult(pages: seq<PageTrace>, state: ScanState, error: Option<Exception>)

  /** The pages in order, stopping at the first page that fails. */
  function ScanPages(answers: seq<Answer>, st: ScanState, batchSize: int, action: seq<Attrs> -> Outcome,
                     hasPageEndAction: bool, clearLeftovers: bool): (r: ScanResult)
    requires batchSize >= 1 && |st.acc| < batchSize
    ensures |r.pages| <= |answers|
    ensures r.error.None? ==> |r.pages| == |answers|
    ensures |r.state.acc| < batchSize
    ensures r.error.None? && answers != [] ==> !r.state.changed
    decreases |answers|
  {
    if answers == [] then ScanResult([], st, None)
    else
      var p := ScanPage(answers[0], st, batchSize, action, hasPageEndAction, clearLeftovers);
      if p.error.Some? then ScanResult([p.trace], p.state, p.error)
      else
        var rest := ScanPages(answers[1..], p.state, batchSize, action, hasPageEndAction, clearLeftovers);
        ScanResult([p.trace] + rest.pages, rest.state, rest.error)
  }

  /** The scan: one query per page for the window at `PageOffset(page)` of
      `pageSize` rows, the accumulator created empty, and the flag as the
      step left it. */
  function Scan(total: nat, pageSize: int, batchSize: int, query: (int, int) -> Answer,
                action: seq<Attrs> -> Outcome, hasPageEndAction: bool, changed: bool,
                clearLeftovers: bool): (r: ScanResult)
    requires 1 <= pageSize <= IntMax && 1 <= batchSize
    requires PageCount(total, pageSize) <= IntMax
    ensures |r.pages| <= PageCount(total, pageSize)
    ensures r.error.None? ==> |r.pages| == PageCount(total, pageSize)
  {
    ScanPages(PageAnswers(total, pageSize, query), ScanState([], changed), batchSize, action,
              hasPageEndAction, clearLeftovers)
  }

  /** What the query returns for each page: page `p` asks for `pageSize` rows
      from `PageOffset(p, pageSize)`. */
  function PageAnswers(total: nat, pageSize: int, query: (int, int) -> Answer): (answers: seq<Answer>)
    requires 1 <= pageSize <= IntMax && PageCount(total, pageSize) <= IntMax
    ensures |answers| == PageCount(total, pageSize)
    ensures forall p :: 0 <= p < |answers| ==> answers[p] == query(PageOffset(p, pageSize), pageSize)
  {
    var pages := PageCount(total, pageSize);
    seq(pages, p requires 0 <= p < pages => query(PageOffset(p, pageSize), pageSize))
  }

  function AllDeliveries(ts: seq<PageTrace>): seq<Delivery> {
    if ts == [] then [] else ts[0].deliveries + AllDeliveries(ts[1..])
  }

  function AllConverted(answers: seq<Answer>): seq<Attrs> {
    if answers == [] then []
    else (if answers[0].Rows? then Converted(answers[0].rows) else []) + AllConverted(answers[1..])
  }

  /** With the leftovers cleared after each page, a scan that completes hands
      every converted row to the action exactly once, in order. */
  lemma {:induction false} CorrectedScanDeliversEachRowOnce(answers: seq<Answer>, changed: bool, batchSize: int,
                                                            action: seq<Attrs> -> Outcome, hasPageEndAction: bool)
    requires batchSize >= 1
    ensures var r := ScanPages(answers, ScanState([], changed), batchSize, action, hasPageEndAction, true);
      r.error.None? ==> Flatten(AllDeliveries(r.pages)) == AllConverted(answers)
    decreases |answers|
  {
    var r := ScanPages(answers, ScanState([], changed), batchSize, action, hasPageEndAction, true);
    if answers != [] && r.error.None? {
      var p := ScanPage(answers[0], ScanState([], changed), batchSize, action, hasPageEndAction, true);
      var rest := ScanPages(answers[1..], p.state, batchSize, action, hasPageEndAction, true);
      assert p.error.None? && answers[0].Rows?;
      assert r == ScanResult([p.trace] + rest.pages, rest.state, rest.error);
      var rows := answers[0].rows;
      PageDeliversHeldRows(rows, ScanState([], changed), batchSize, action, hasPageEndAction, true);
      PageLeftovers(rows, ScanState([], changed), batchSize, action, hasPageEndAction, true);
      assert p.state == ScanState([], false);
      CorrectedScanDeliversEachRowOnce(answers[1..], false, batchSize, action, hasPageEndAction);
      assert Flatten(AllDeliveries(rest.pages)) == AllConverted(answers[1..]);
      assert Flatten(p.trace.deliveries) == Converted(rows);
      assert AllConverted(answers) == Converted(rows) + AllConverted(answers[1..]);
      assert ([p.trace] + rest.pages)[1..] == rest.pages;
      assert AllDeliveries(r.pages) == p.trace.deliveries + AllDeliveries(rest.pages);
      FlattenAppend(p.trace.deliveries, AllDeliveries(rest.pages));
    }
  }

  /** The scan with the leftovers cleared after every page: when it
      completes, the action has received every converted row of every page
      exactly once, in order. */
  function CorrectedScan(total: nat, pageSize: int, batchSize: int, query: (int, int) -> Answer,
                         action: seq<Attrs> -> Outcome, hasPageEndAction: bool, changed: bool): (r: ScanResult)
    requires 1 <= pageSize <= IntMax && 1 <= batchSize && PageCount(total, pageSize) <= IntMax
    ensures r.error.None? ==> Flatten(AllDeliveries(r.pages)) == AllConverted(PageAnswers(total, pageSize, query))
  {
    CorrectedScanDeliversEachRowOnce(PageAnswers(total, pageSize, query), changed, batchSize, action, hasPageEndAction);
    Scan(total, pageSize, batchSize, query, action, hasPageEndAction, changed, true)
  }

  /** A completed first page followed by the scan of the remaining pages. */
  lemma ScanPagesCons(answers: seq<Answer>, st: ScanState, batchSize: int, action: seq<Attrs> -> Outcome,
                      hasPageEndAction: bool, clearLeftovers: bool, p: PageResult)
    requires batchSize >= 1 && |st.acc| < batchSize && answers != []
    requires p == ScanPage(answers[0], st, batchSize, action, hasPageEndAction, clearLeftovers) && p.error.None?
    ensures var rest := ScanPages(answers[1..], p.state, batchSize, action, hasPageEndAction, clearLeftovers);
      ScanPages(answers, st, batchSize, action, hasPageEndAction, clearLeftovers)
      == ScanResult([p.trace] + rest.pages, rest.state, rest.error)
  {
  }

  ghost predicate NeverAborts(action: seq<Attrs> -> Outcome) {
    forall batch :: action(batch).failure.None? || IsProcessingException(action(batch).failure.value)
  }

  predicate AllRows(answers: seq<Answer>) {
    forall k :: 0 <= k < |answers| ==> answers[k].Rows?
  }

  /** A scan fails only on a null query, a failed query, or an exception
      other than `ProcessingException` from a leftovers batch. */
  lemma {:induction false} ScanCompletes(answers: seq<Answer>, st: ScanState, batchSize: int, action: seq<Attrs> -> Outcome,
                                         hasPageEndAction: bool, clearLeftovers: bool)
    requires batchSize >= 1 && |st.acc| < batchSize
    requires AllRows(answers) && NeverAborts(action)
    ensures ScanPages(answers, st, batchSize, action, hasPageEndAction, clearLeftovers).error.None?
    decreases |answers|
  {
    if answers != [] {
      var p := ScanPage(answers[0], st, batchSize, action, hasPageEndAction, clearLeftovers);
      assert answers[0].Rows?;
      assert p.error.None?;
      assert AllRows(answers[1..]) by {
        forall k | 0 <= k < |answers[1..]| ensures answers[1..][k].Rows? {
          assert answers[1..][k] == answers[k + 1];
        }
      }
      ScanCompletes(answers[1..], p.state, batchSize, action, hasPageEndAction, clearLeftovers);
    }
  }

  /** The rows the scan as written hands over: each page delivers the rows
      held from the previous page followed by its own, and holds back the
      last `(held + converted) % batchSize` of them. */
  function AsWrittenRows(answers: seq<Answer>, held: seq<Attrs>, batchSize: int): seq<Attrs>
    requires batchSize >= 1
  {
    if answers == [] then []
    else
      var all := held + (if answers[0].Rows? then Converted(answers[0].rows) else []);
      all + AsWrittenRows(answers[1..], HeldBack(all, batchSize), batchSize)
  }

  lemma {:induction false} AsWrittenScanDelivers(answers: seq<Answer>, held: seq<Attrs>, changed: bool, batchSize: int,
                                                 action: seq<Attrs> -> Outcome, hasPageEndAction: bool)
    requires batchSize >= 1 && |held| < batchSize
    ensures var r := ScanPages(answers, ScanState(held, changed), batchSize, action, hasPageEndAction, false);
      r.error.None? ==> Flatten(AllDeliveries(r.pages)) == AsWrittenRows(answers, held, batchSize)
    decreases |answers|
  {
    var r := ScanPages(answers, ScanState(held, changed), batchSize, action, hasPageEndAction, false);
    if answers != [] && r.error.None? {
      var p := ScanPage(answers[0], ScanState(held, changed), batchSize, action, hasPageEndAction, false);
      var rest := ScanPages(answers[1..], p.state, batchSize, action, hasPageEndAction, false);
      assert p.error.None? && answers[0].Rows?;
      ScanPagesCons(answers, ScanState(held, changed), batchSize, action, hasPageEndAction, false, p);
      var rows := answers[0].rows;
      PageDeliversHeldRows(rows, ScanState(held, changed), batchSize, action, hasPageEndAction, false);
      PageLeftovers(rows, ScanState(held, changed), batchSize, action, hasPageEndAction, false);
      var all := held + Converted(rows);
      assert AsWrittenRows(answers, held, batchSize) == all + AsWrittenRows(answers[1..], p.state.acc, batchSize);
      assert p.state == ScanState(p.state.acc, false);
      AsWrittenScanDelivers(answers[1..], p.state.acc, false, batchSize, action, hasPageEndAction);
      assert Flatten(AllDeliveries(rest.pages)) == AsWrittenRows(answers[1..], p.state.acc, batchSize);
      assert Flatten(p.trace.deliveries) == all;
      assert r.pages == [p.trace] + rest.pages;
      assert ([p.trace] + rest.pages)[1..] == rest.pages;
      assert AllDeliveries(r.pages) == p.trace.deliveries + AllDeliveries(rest.pages);
      FlattenAppend(p.trace.deliveries, AllDeliveries(rest.pages));
    }
  }

  predicate PagesFillBatches(answers: seq<Answer>, batchSize: int)
    requires batchSize >= 1
  {
    forall k :: 0 <= k < |answers| && answers[k].Rows? ==> |Converted(answers[k].rows)| % batchSize == 0
  }

  lemma PagesFillBatchesTail(answers: seq<Answer>, batchSize: int)
    requires batchSize >= 1 && answers != [] && PagesFillBatches(answers, batchSize)
    ensures PagesFillBatches(answers[1..], batchSize)
  {
    forall k | 0 <= k < |answers[1..]| && answers[1..][k].Rows?
      ensures |Converted(answers[1..][k].rows)| % batchSize == 0
    {
      assert answers[1..][k] == answers[k + 1];
    }
  }

  /** From an empty accumulator, a page whose rows fill whole batches leaves
      nothing over, so clearing the accumulator changes nothing. */
  lemma FilledPageLeavesNothing(answer: Answer, changed: bool, batchSize: int, action: seq<Attrs> -> Outcome,
                                hasPageEndAction: bool)
    requires batchSize >= 1 && (answer.Rows? ==> |Converted(answer.rows)| % batchSize == 0)
    ensures var p := ScanPage(answer, ScanState([], changed), batchSize, action, hasPageEndAction, false);
      p == ScanPage(answer, ScanState([], changed), batchSize, action, hasPageEndAction, true) &&
      (p.error.None? ==> p.state == ScanState([], false))
  {
    if answer.Rows? {
      LeftoverSize(answer.rows, [], changed, batchSize, action);
    }
  }

  /** When every page's rows fill whole batches nothing is ever left over,
      and the scan as written behaves exactly like the corrected one. */
  lemma {:induction false} FilledPagesNeedNoCorrection(answers: seq<Answer>, changed: bool, batchSize: int,
                                                       action: seq<Attrs> -> Outcome, hasPageEndAction: bool)
    requires batchSize >= 1 && PagesFillBatches(answers, batchSize)
    ensures ScanPages(answers, ScanState([], changed), batchSize, action, hasPageEndAction, false)
         == ScanPages(answers, ScanState([], changed), batchSize, action, hasPageEndAction, true)
    decreases |answers|
  {
    if answers != [] {
      assert answers[0].Rows? ==> |Converted(answers[0].rows)| % batchSize == 0;
      FilledPageLeavesNothing(answers[0], changed, batchSize, action, hasPageEndAction);
      var p := ScanPage(answers[0], ScanState([], changed), batchSize, action, hasPageEndAction, false);
      if p.error.None? {
        PagesFillBatchesTail(answers, batchSize);
        FilledPagesNeedNoCorrection(answers[1..], false, batchSize, action, hasPageEndAction);
        ScanPagesCons(answers, ScanState([], changed), batchSize, action, hasPageEndAction, false, p);
        ScanPagesCons(answers, ScanState([], changed), batchSize, action, hasPageEndAction, true, p);
      }
    }
  }

  // ---------------------------------------------------------------------
  // The example of ten documents, pages of four and batches of three

  function ExampleRow(i: nat): Row
    requires i < 10
  {
    Scalar(Some([(i + '0' as int) as char]))
  }

  function ExampleAttrs(i: nat): Attrs
    requires i < 10
  {
    [[(i + '0' as int) as char]]
  }

  function ExampleTable(): seq<Row> {
    [ExampleRow(0), ExampleRow(1), ExampleRow(2), ExampleRow(3), ExampleRow(4),
     ExampleRow(5), ExampleRow(6), ExampleRow(7), ExampleRow(8), ExampleRow(9)]
  }

  function ExampleAnswer(offset: int, limit: int): Answer {
    Rows(if 0 <= offset && 0 <= limit then TableWindow(ExampleTable(), offset, limit) else [])
  }

  function ExampleAction(batch: seq<Attrs>): Outcome {
    Outcome(false, None)
  }

  function ExampleAttrsTable(): seq<Attrs> {
    [ExampleAttrs(0), ExampleAttrs(1), ExampleAttrs(2), ExampleAttrs(3), ExampleAttrs(4),
     ExampleAttrs(5), ExampleAttrs(6), ExampleAttrs(7), ExampleAttrs(8), ExampleAttrs(9)]
  }

  /** Rows that all convert are converted one for one. */
  lemma {:induction false} ConvertedAllPresent(rows: seq<Row>, attrs: seq<Attrs>)
    requires |rows| == |attrs| && forall k :: 0 <= k < |rows| ==> ConvertRow(rows[k]) == Ok(attrs[k])
    ensures Converted(rows) == attrs
    decreases |rows|
  {
    if rows != [] {
      var n := |rows| - 1;
      assert forall k :: 0 <= k < n ==> rows[..n][k] == rows[k] && attrs[..n][k] == attrs[k];
      ConvertedAllPresent(rows[..n], attrs[..n]);
      assert attrs == attrs[..n] + [attrs[n]];
    }
  }

  lemma ExampleConverted(i: nat, j: nat)
    requires i <= j <= 10
    ensures Converted(ExampleTable()[i..j]) == ExampleAttrsTable()[i..j]
  {
    var t, a := ExampleTable(), ExampleAttrsTable();
    forall k | 0 <= k < j - i ensures ConvertRow(t[i..j][k]) == Ok(a[i..j][k]) {
      ExampleEntry(i + k);
    }
    ConvertedAllPresent(t[i..j], a[i..j]);
  }

  lemma ExampleEntry(k: nat)
    requires k < 10
    ensures ExampleTable()[k] == ExampleRow(k) && ExampleAttrsTable()[k] == ExampleAttrs(k)
  {
  }

  function ExampleAnswerList(): seq<Answer> {
    [Rows(ExampleTable()[0..4]), Rows(ExampleTable()[4..8]), Rows(ExampleTable()[8..10])]
  }

  lemma ExampleScanAnswers()
    ensures PageAnswers(10, 4, ExampleAnswer) == ExampleAnswerList()
  {
    var answers := PageAnswers(10, 4, ExampleAnswer);
    assert answers[0] == ExampleAnswer(0, 4);
    assert answers[1] == ExampleAnswer(4, 4);
    assert answers[2] == ExampleAnswer(8, 4);
    assert ExampleTable()[8..] == ExampleTable()[8..10];
  }

  /** As written, ten documents in pages of four and batches of three reach
      the action as 13 rows: the rows held after the first two pages, rows 3,
      6 and 7 (counting from 0), are handed over twice. */
  lemma TenFourThreeExample()
    ensures var r := Scan(10, 4, 3, ExampleAnswer, ExampleAction, false, false, false);
      var a := ExampleAttrsTable();
      r.error.None? && |r.pages| == 3 &&
      Flatten(AllDeliveries(r.pages)) == a[0..4] + a[3..8] + a[6..10]
  {
    ExampleScanAnswers();
    var answers := ExampleAnswerList();
    ScanCompletes(answers, ScanState([], false), 3, ExampleAction, false, false);
    AsWrittenScanDelivers(answers, [], false, 3, ExampleAction, false);
    ExampleAsWrittenRows();
  }

  /** One page of `AsWrittenRows`: a page of rows hands over the held rows
      and its own, and holds back the remainder of a batch. */
  lemma AsWrittenRowsStep(answers: seq<Answer>, held: seq<Attrs>, batchSize: int, all: seq<Attrs>, kept: nat)
    requires batchSize >= 1 && answers != [] && answers[0].Rows?
    requires all == held + Converted(answers[0].rows) && kept == |all| % batchSize
    ensures AsWrittenRows(answers, held, batchSize) == all + AsWrittenRows(answers[1..], all[|all| - kept..], batchSize)
  {
  }

  /** Ten rows in pages of four and batches of three, for any rows that
      convert page by page to `a`. */
  lemma TenFourThreeAsWritten(t: seq<Row>, a: seq<Attrs>)
    requires |t| == 10 && |a| == 10
    requires Converted(t[0..4]) == a[0..4] && Converted(t[4..8]) == a[4..8] && Converted(t[8..10]) == a[8..10]
    ensures AsWrittenRows([Rows(t[0..4]), Rows(t[4..8]), Rows(t[8..10])], [], 3) == a[0..4] + a[3..8] + a[6..10]
  {
    var answers := [Rows(t[0..4]), Rows(t[4..8]), Rows(t[8..10])];
    assert [] + a[0..4] == a[0..4];
    assert a[0..4][3..] == a[3..4];
    AsWrittenRowsStep(answers, [], 3, a[0..4], 1);
    assert answers[1..] == [Rows(t[4..8]), Rows(t[8..10])];
    assert a[3..4] + a[4..8] == a[3..8];
    assert a[3..8][3..] == a[6..8];
    AsWrittenRowsStep(answers[1..], a[3..4], 3, a[3..8], 2);
    assert answers[1..][1..] == [Rows(t[8..10])];
    assert a[6..8] + a[8..10] == a[6..10];
    AsWrittenRowsStep(answers[1..][1..], a[6..8], 3, a[6..10], 1);
    assert answers[1..][1..][1..] == [];
  }

  lemma ExampleAsWrittenRows()
    ensures var a := ExampleAttrsTable();
      AsWrittenRows(ExampleAnswerList(), [], 3) == a[0..4] + a[3..8] + a[6..10]
  {
    ExampleConverted(0, 4);
    ExampleConverted(4, 8);
    ExampleConverted(8, 10);
    TenFourThreeAsWritten(ExampleTable(), ExampleAttrsTable());
  }
}

=== FILE: step_driver.dfy ===
/** The step driver of `AbstractProcessingStep`: the parameter validation a
    step runs before doing any work, the transaction bracket of `execute`,
    the bookkeeping of `saveProcessedDocument` and
    `deleteAllProcessedDocumentsOfType`, and the SQL and setter names the
    step derives from its parameters.

    A step's parameters are a map from parameter names to values that may be
    null. Validation visits the map's entries in the map's iteration order,
    which the source leaves unspecified; the model takes that order as an
    argument. The validation predicates the steps install are the closed set
    of `Check`s below. */
module StepDriver {
  import opened Wrappers
  import opened JavaLang
  import opened JavaText
  import BatchScanner

  // ---------------------------------------------------------------------
  // Parameter names and defaults

  const PageSizeName: string := "pageSize"
  /** The element name of the batch-size parameter. The step refers to a
      `BatchSizeProcessingStepParameter` class that is not part of this
      model; the name is the one `DocumentBatchSizeProcessingStepParameter`
      declares, and any name distinct from the others behaves the same. */
  const BatchSizeName: string := "documentsPerBatch"
  const TitledTableName: string := "textDocumentWithTitleTableName"
  const TableName: string := "textDocumentTableName"
  const PrimaryKeyColumnName: string := "primaryKeyColumn"
  const TextColumnName: string := "textColumn"
  const TitleColumnName: string := "titleColumn"

  const DefaultPageSize: string := "32768"
  const DefaultBatchSize: string := "512"
  const DefaultPrimaryKeyColumn: string := "id"
  const DefaultTextColumn: string := "text"
  const DefaultTitleColumn: string := "title"

  const NotRunningMessage: string := "The persistence access layer is not running"
  const SetterFailureMessage: string := "Couldn't invoke attribute setter"
  const ReflectionFailureMessage: string :=
    "Document class implementation contract violation, or unappropriate permissions for reflective operation"

  /** The parameters handed to a step: names to values, a value may be null. */
  type Params = map<string, Option<string>>

  /** `Map.getOrDefault`: the mapped value, null included, or the default. */
  function GetOrDefault(params: Params, name: string, default: string): (v: Option<string>)
    ensures name in params ==> v == params[name]
    ensures name !in params ==> v == Some(default)
  {
    if name in params then params[name] else Some(default)
  }

  /** `Map.get`: null when the name is absent. */
  function Get(params: Params, name: string): (v: Option<string>)
    ensures v.Some? <==> name in params && params[name].Some?
  {
    if name in params then params[name] else None
  }

  /** `Integer.parseInt` of a value that may be null (null does not parse). */
  function ParseValue(v: Option<string>): (n: Option<int>)
    ensures n.Some? ==> v.Some? && IsInt(n.value)
  {
    match v
    case None => None
    case Some(s) => ParseInt(s)
  }

  // ---------------------------------------------------------------------
  // Validation predicates

  /** The validation predicates the modelled steps install. */
  datatype Check =
    | PageSizeCheck
      // parses to an int of at least 1
    | BatchSizeCheck
      // parses to an int of at least 1 and at most the page size in effect
    | NonBlankCheck
      // non-null and not blank
    | NonNullCheck
    | KeyOfCheck(keys: set<string>)
      // a key of an immutable `Map.of` map: null makes `containsKey` throw

  /** The page size in effect: the parameter, or 32768 when it is absent.
      The source parses the default text "32768"; `SizeValuesParseDefaults`
      shows that this is the same value. */
  function PageSizeValue(params: Params): Option<int> {
    if PageSizeName in params then ParseValue(params[PageSizeName]) else Some(32768)
  }

  /** The batch size in effect: the parameter, or 512 when it is absent. */
  function BatchSizeValue(params: Params): Option<int> {
    if BatchSizeName in params then ParseValue(params[BatchSizeName]) else Some(512)
  }

  /** Runs one predicate on a value: `Ok(passed)`, or the exception the
      predicate throws. */
  function Test(c: Check, v: Option<string>, params: Params): (r: Result<bool, Exception>)
    ensures r.Err? <==> c.KeyOfCheck? && v.None?
    ensures r.Err? ==> r.error == NullPointerException
    ensures r == Ok(true) && c.PageSizeCheck? ==> ParseValue(v).Some? && ParseValue(v).value >= 1
    ensures r == Ok(true) && c.BatchSizeCheck? ==>
      ParseValue(v).Some? && PageSizeValue(params).Some? && 1 <= ParseValue(v).value <= PageSizeValue(params).value
    ensures r == Ok(true) && c.NonBlankCheck? ==> v.Some? && !IsBlank(v.value)
    ensures r == Ok(true) ==> v.Some?
  {
    match c
    case PageSizeCheck =>
      var n := ParseValue(v);
      Ok(n.Some? && n.value >= 1)
    case BatchSizeCheck =>
      var n := ParseValue(v);
      var p := PageSizeValue(params);
      Ok(n.Some? && n.value >= 1 && p.Some? && n.value <= p.value)
    case NonBlankCheck =>
      Ok(v.Some? && !IsBlank(v.value))
    case NonNullCheck =>
      Ok(v.Some?)
    case KeyOfCheck(keys) =>
      if v.None? then Err(NullPointerException) else Ok(v.value in keys)
  }

  /** The predicates every step has. */
  function CommonChecks(): map<string, Check> {
    map[PageSizeName := PageSizeCheck, BatchSizeName := BatchSizeCheck,
        TitledTableName := NonBlankCheck, TableName := NonBlankCheck,
        PrimaryKeyColumnName := NonBlankCheck, TextColumnName := NonBlankCheck,
        TitleColumnName := NonBlankCheck]
  }

  /** The parameters every step requires: both table names. */
  function CommonRequired(): set<string> {
    {TitledTableName, TableName}
  }

  /** A step's validation table and required parameter names. */
  datatype StepSpec = StepSpec(checks: map<string, Check>, required: set<string>)

  /** The constructor of `AbstractProcessingStep`: the common predicates,
      overridden by the step's own, and the common required names together
      with the step's. */
  function MakeSpec(stepChecks: map<string, Check>, stepRequired: set<string>): (s: StepSpec)
    ensures s.checks.Keys == CommonChecks().Keys + stepChecks.Keys
    ensures forall k :: k in stepChecks ==> s.checks[k] == stepChecks[k]
    ensures forall k :: k in CommonChecks() && k !in stepChecks ==> s.checks[k] == CommonChecks()[k]
    ensures s.required == CommonRequired() + stepRequired
    ensures TitledTableName in s.required && TableName in s.required
  {
    StepSpec(CommonChecks() + stepChecks, CommonRequired() + stepRequired)
  }

  /** A step whose own predicates leave the page-size and batch-size
      predicates in place. */
  predicate KeepsSizeChecks(spec: StepSpec) {
    PageSizeName in spec.checks && spec.checks[PageSizeName] == PageSizeCheck
    && BatchSizeName in spec.checks && spec.checks[BatchSizeName] == BatchSizeCheck
  }

  // ---------------------------------------------------------------------
  // validateParameters

  /** `order` lists every parameter name exactly once. */
  predicate IsIterationOrder(order: seq<string>, params: Params) {
    (forall i :: 0 <= i < |order| ==> order[i] in params)
    && (forall k :: k in params ==> k in order)
    && (forall i, j :: 0 <= i < j < |order| ==> order[i] != order[j])
  }

  /** The entry for `name` has a predicate and passes it. */
  predicate EntryPasses(checks: map<string, Check>, params: Params, name: string)
    requires name in params
  {
    name in checks && Test(checks[name], params[name], params) == Ok(true)
  }

  function InvalidValueMessage(name: string, stepName: string): string {
    "The value for the parameter " + name + " in the " + stepName + " step is not valid"
  }

  function MissingParameterMessage(stepName: string): string {
    "Missing required parameter for step " + stepName
  }

  /** What a failing entry throws: a name without a predicate dereferences
      the null that `Map.get` returns, a predicate may throw, and a value the
      predicate rejects is a `ProcessingException`. */
  function EntryError(checks: map<string, Check>, params: Params, name: string, stepName: string): Exception
    requires name in params
  {
    if name !in checks then NullPointerException
    else match Test(checks[name], params[name], params)
      case Err(e) => e
      case Ok(_) => ProcessingException(InvalidValueMessage(name, stepName))
  }

  /** The entry loop of `validateParameters`. It succeeds exactly when every
      entry passes, and otherwise fails with the error of the first entry, in
      iteration order, that does not. */
  function CheckEntries(checks: map<string, Check>, params: Params, names: seq<string>, stepName: string)
    : (r: Result<(), Exception>)
    requires forall i :: 0 <= i < |names| ==> names[i] in params
    ensures r.Ok? <==> forall i :: 0 <= i < |names| ==> EntryPasses(checks, params, names[i])
    ensures r.Err? ==> exists i :: 0 <= i < |names| && !EntryPasses(checks, params, names[i])
                                   && (forall j :: 0 <= j < i ==> EntryPasses(checks, params, names[j]))
                                   && r.error == EntryError(checks, params, names[i], stepName)
  {
    if names == [] then Ok(())
    else
      var name := names[0];
      if !EntryPasses(checks, params, name) then
        Err(EntryError(checks, params, name, stepName))
      else
        var rest := CheckEntries(checks, params, names[1..], stepName);
        assert forall i :: 1 <= i < |names| ==> names[i] == names[1..][i - 1];
        if rest.Err? then
          ghost var i :| 0 <= i < |names[1..]| && !EntryPasses(checks, params, names[1..][i])
                         && (forall j :: 0 <= j < i ==> EntryPasses(checks, params, names[1..][j]))
                         && rest.error == EntryError(checks, params, names[1..][i], stepName);
          assert !EntryPasses(checks, params, names[i + 1]);
          assert forall j :: 0 <= j < i + 1 ==> EntryPasses(checks, params, names[j]) by {
            forall j | 0 <= j < i + 1 ensures EntryPasses(checks, params, names[j]) {
              if j > 0 {
                assert names[j] == names[1..][j - 1];
              }
            }
          }
          rest
        else
          rest
  }

  /** `validateParameters`: first the required names, then every entry. */
  function Validate(spec: StepSpec, params: Params, order: seq<string>, stepName: string)
    : (r: Result<(), Exception>)
    requires IsIterationOrder(order, params)
    ensures !(spec.required <= params.Keys) ==> r == Err(ProcessingException(MissingParameterMessage(stepName)))
  {
    if !(spec.required <= params.Keys) then Err(ProcessingException(MissingParameterMessage(stepName)))
    else CheckEntries(spec.checks, params, order, stepName)
  }

  /** Validation succeeds exactly when every required name is present and
      every present entry has a predicate that accepts it, whatever the
      iteration order. */
  lemma ValidateOkIff(spec: StepSpec, params: Params, order: seq<string>, stepName: string)
    requires IsIterationOrder(order, params)
    ensures Validate(spec, params, order, stepName).Ok? <==>
      spec.required <= params.Keys && forall k :: k in params ==> EntryPasses(spec.checks, params, k)
  {
    if spec.required <= params.Keys && Validate(spec, params, order, stepName).Ok? {
      forall k | k in params ensures EntryPasses(spec.checks, params, k) {
        var i :| 0 <= i < |order| && order[i] == k;
      }
    }
  }

  /** The parameter names are pairwise distinct (they differ in length). */
  lemma NamesDistinct()
    ensures |PageSizeName| == 8 && |BatchSizeName| == 17 && |TitledTableName| == 30 && |TableName| == 21
    ensures |PrimaryKeyColumnName| == 16 && |TextColumnName| == 10 && |TitleColumnName| == 11
    ensures PageSizeName != BatchSizeName && PageSizeName != TitledTableName && PageSizeName != TableName
    ensures BatchSizeName != TitledTableName && BatchSizeName != TableName && TitledTableName != TableName
    ensures PrimaryKeyColumnName !in {PageSizeName, BatchSizeName, TitledTableName, TableName}
    ensures TextColumnName !in {PageSizeName, BatchSizeName, TitledTableName, TableName}
    ensures TitleColumnName !in {PageSizeName, BatchSizeName, TitledTableName, TableName}
    ensures PrimaryKeyColumnName != TextColumnName && TextColumnName != TitleColumnName && TitleColumnName != PrimaryKeyColumnName
    ensures "pagesize" != PageSizeName && |"pagesize"| == 8
  {
    assert "pagesize"[4] != PageSizeName[4];
  }

  /** The predicates of a step that adds none of its own. */
  lemma CommonCheckEntries()
    ensures MakeSpec(map[], {}).checks == CommonChecks()
    ensures MakeSpec(map[], {}).required == {TitledTableName, TableName}
    ensures CommonChecks()[TitledTableName] == NonBlankCheck && CommonChecks()[TableName] == NonBlankCheck
    ensures CommonChecks()[PageSizeName] == PageSizeCheck
    ensures "pagesize" !in CommonChecks()
  {
    NamesDistinct();
    assert CommonChecks() + map[] == CommonChecks();
  }

  /** The table names of the two examples below are not blank. */
  lemma ExampleTableNames()
    ensures !IsBlank("t") && !IsBlank("u")
  {
    assert "t"[0] == 't';
    assert "u"[0] == 'u';
  }

  /** A name that no predicate covers makes validation throw a
      `NullPointerException` rather than a `ProcessingException`, when it is
      the only parameter besides valid table names. */
  lemma UnknownParameterIsNullPointer(spec: StepSpec, stepName: string)
    requires spec == MakeSpec(map[], {})
    ensures var params := map[TitledTableName := Some("t"), TableName := Some("u"), "pagesize" := Some("1")];
            Validate(spec, params, [TitledTableName, TableName, "pagesize"], stepName) == Err(NullPointerException)
  {
    var params := map[TitledTableName := Some("t"), TableName := Some("u"), "pagesize" := Some("1")];
    var order := [TitledTableName, TableName, "pagesize"];
    CommonCheckEntries();
    ExampleTableNames();
    NamesDistinct();
    assert params[TitledTableName] == Some("t") && params[TableName] == Some("u");
    assert IsIterationOrder(order, params);
    assert spec.required <= params.Keys;
    assert EntryPasses(spec.checks, params, order[0]);
    assert EntryPasses(spec.checks, params, order[1]);
    assert !EntryPasses(spec.checks, params, order[2]);
    var r := CheckEntries(spec.checks, params, order, stepName);
    assert r.Err?;
    var i :| 0 <= i < |order| && !EntryPasses(spec.checks, params, order[i])
             && (forall j :: 0 <= j < i ==> EntryPasses(spec.checks, params, order[j]))
             && r.error == EntryError(spec.checks, params, order[i], stepName);
    assert i == 2;
  }

  /** After successful validation of a step that keeps the size predicates,
      the page size in effect is a positive `int` and the batch size in effect
      is positive; it is at most the page size when it was given explicitly,
      which is what the scan needs. */
  lemma ValidatedSizes(spec: StepSpec, params: Params, order: seq<string>, stepName: string)
    requires IsIterationOrder(order, params)
    requires KeepsSizeChecks(spec)
    requires Validate(spec, params, order, stepName).Ok?
    ensures PageSizeValue(params).Some? && 1 <= PageSizeValue(params).value <= IntMax
    ensures BatchSizeValue(params).Some? && 1 <= BatchSizeValue(params).value
    ensures BatchSizeName in params ==> BatchSizeValue(params).value <= PageSizeValue(params).value
  {
    ValidateOkIff(spec, params, order, stepName);
    if PageSizeName in params {
      assert EntryPasses(spec.checks, params, PageSizeName);
    } else {
      DefaultSizesParse();
    }
    if BatchSizeName in params {
      assert EntryPasses(spec.checks, params, BatchSizeName);
    } else {
      DefaultSizesParse();
    }
  }

  /** The default sizes, and the page size of the example below, parse. */
  lemma DefaultSizesParse()
    ensures ParseInt(DefaultPageSize) == Some(32768)
    ensures ParseInt(DefaultBatchSize) == Some(512)
    ensures ParseInt("100") == Some(100)
  {
    DefaultPageSizeParses();
    DefaultBatchSizeParses();
    HundredParses();
  }

  /** The sizes in effect are the parameters, or the default texts, parsed. */
  lemma SizeValuesParseDefaults(params: Params)
    ensures PageSizeValue(params) == ParseValue(GetOrDefault(params, PageSizeName, DefaultPageSize))
    ensures BatchSizeValue(params) == ParseValue(GetOrDefault(params, BatchSizeName, DefaultBatchSize))
  {
    DefaultSizesParse();
  }

  lemma DefaultPageSizeParses()
    ensures ParseInt(DefaultPageSize) == Some(32768)
  {
    var s := DefaultPageSize;
    assert s[..4] == "3276" && s[..4][..3] == "327" && s[..4][..3][..2] == "32" && s[..4][..3][..2][..1] == "3";
    assert DigitsValue("3") == 3;
    assert DigitsValue("32") == 32;
    assert DigitsValue("327") == 327;
    assert DigitsValue("3276") == 3276;
    assert DigitsValue(s) == 32768;
    ParseDigits(s);
  }

  lemma DefaultBatchSizeParses()
    ensures ParseInt(DefaultBatchSize) == Some(512)
  {
    var s := DefaultBatchSize;
    assert s[..2] == "51" && s[..2][..1] == "5";
    assert DigitsValue("5") == 5;
    assert DigitsValue("51") == 51;
    assert DigitsValue(s) == 512;
    ParseDigits(s);
  }

  lemma HundredParses()
    ensures ParseInt("100") == Some(100)
  {
    var s := "100";
    assert s[..2] == "10" && s[..2][..1] == "1";
    assert DigitsValue("1") == 1;
    assert DigitsValue("10") == 10;
    assert DigitsValue(s) == 100;
    ParseDigits(s);
  }

  /** The parameters of the example below: both table names and a page
      size of 100. */
  function SmallPageParams(): Params {
    map[TitledTableName := Some("t"), TableName := Some("u"), PageSizeName := Some("100")]
  }

  lemma SmallPageEntriesPass()
    ensures AllEntriesPass(CommonChecks(), SmallPageParams())
    ensures PageSizeValue(SmallPageParams()) == Some(100)
    ensures BatchSizeName !in SmallPageParams()
  {
    var params := SmallPageParams();
    NamesDistinct();
    CommonCheckEntries();
    ExampleTableNames();
    HundredParses();
    assert PageSizeValue(params) == Some(100);
    forall k | k in params ensures EntryPasses(CommonChecks(), params, k) {
      assert k == TitledTableName || k == TableName || k == PageSizeName;
    }
  }

  lemma SmallPageOrder()
    ensures IsIterationOrder([TitledTableName, TableName, PageSizeName], SmallPageParams())
  {
    NamesDistinct();
  }

  /** The batch-size check only runs on a batch size that is present: with
      a page size of 100 and no batch size, validation passes and the default
      batch of 512 exceeds the page. */
  lemma DefaultBatchMayExceedPage(stepName: string)
    ensures var params := map[TitledTableName := Some("t"), TableName := Some("u"), PageSizeName := Some("100")];
            && Validate(MakeSpec(map[], {}), params, [TitledTableName, TableName, PageSizeName], stepName).Ok?
            && PageSizeValue(params) == Some(100) && BatchSizeValue(params) == Some(512)
  {
    var params := SmallPageParams();
    var spec := MakeSpec(map[], {});
    var order := [TitledTableName, TableName, PageSizeName];
    CommonCheckEntries();
    SmallPageEntriesPass();
    SmallPageOrder();
    ValidateOkIff(spec, params, order, stepName);
  }

  // ---------------------------------------------------------------------
  // execute

  /** How the step's `run` ended. */
  datatype RunResult = Completed | Threw(exception: Exception)

  /** What `execute` did: whether validation passed, whether it began the
      transaction, ran the step, marked the transaction rollback-only and
      flushed the persistence layer, and what it threw. */
  datatype ExecTrace = ExecTrace(validated: bool, began: bool, ran: bool, rollbackOnly: bool,
                                 flushed: bool, error: Option<Exception>)

  /** `execute`. The transaction is fetched (which throws when the
      persistence layer is not running) and the parameters validated before
      the `try` block, so neither failure begins a transaction or flushes.
      Inside it the transaction is begun only when inactive, a
      `ProcessingException` or `PersistenceException` from `run` marks a
      transaction this call began as rollback-only (the latter leaving as a
      `ProcessingException` with the data access message), and the `finally`
      block always flushes. */
  function Execute(spec: StepSpec, params: Params, order: seq<string>, stepName: string,
                   running: bool, transactionActive: bool, run: RunResult): (t: ExecTrace)
    requires IsIterationOrder(order, params)
  {
    if !running then
      ExecTrace(false, false, false, false, false, Some(IllegalStateException(NotRunningMessage)))
    else
      match Validate(spec, params, order, stepName)
      case Err(e) => ExecTrace(false, false, false, false, false, Some(e))
      case Ok(_) =>
        var began := !transactionActive;
        match run
        case Completed => ExecTrace(true, began, true, false, true, None)
        case Threw(e) =>
          var caught := IsProcessingException(e) || e.PersistenceException?;
          var error := if e.PersistenceException? then ProcessingException(BatchScanner.DataAccessMessage) else e;
          ExecTrace(true, began, true, began && caught, true, Some(error))
  }

  /** A validation failure starts no transaction, runs nothing, flushes
      nothing and is what `execute` throws. */
  lemma ExecuteValidatesFirst(spec: StepSpec, params: Params, order: seq<string>, stepName: string,
                              transactionActive: bool, run: RunResult)
    requires IsIterationOrder(order, params)
    requires Validate(spec, params, order, stepName).Err?
    ensures var t := Execute(spec, params, order, stepName, true, transactionActive, run);
            !t.began && !t.ran && !t.flushed && t.error == Some(Validate(spec, params, order, stepName).error)
  {
  }

  /** The transaction bracket once validation passed: the step runs and the
      layer is flushed; the transaction is begun exactly when it was
      inactive; it is marked rollback-only exactly when this call began it
      and `run` threw a processing or persistence exception; `execute` throws
      exactly when `run` did, a persistence failure as a
      `ProcessingException`. */
  lemma ExecuteBracket(spec: StepSpec, params: Params, order: seq<string>, stepName: string,
                       transactionActive: bool, run: RunResult)
    requires IsIterationOrder(order, params)
    requires Validate(spec, params, order, stepName).Ok?
    ensures var t := Execute(spec, params, order, stepName, true, transactionActive, run);
            && t.validated && t.ran && t.flushed
            && (t.began <==> !transactionActive)
            && (t.rollbackOnly <==> !transactionActive && run.Threw?
                                    && (IsProcessingException(run.exception) || run.exception.PersistenceException?))
            && (t.error.None? <==> run.Completed?)
            && (run.Threw? && run.exception.PersistenceException? ==>
                  t.error == Some(ProcessingException(BatchScanner.DataAccessMessage)))
            && (run.Threw? && !run.exception.PersistenceException? ==> t.error == Some(run.exception))
  {
  }

  // ---------------------------------------------------------------------
  // saveProcessedDocument and deleteAllProcessedDocumentsOfType

  /** `"set" + a.substring(0, 1).toUpperCase() + a.substring(1)`; an empty
      attribute name makes `substring(0, 1)` throw. */
  function SetterName(attribute: string): (r: Result<string, Exception>)
    ensures r.Err? <==> attribute == []
    ensures r.Ok? ==> |r.value| == |attribute| + 3 && r.value[..3] == "set"
  {
    if attribute == [] then Err(IndexOutOfBoundsException)
    else Ok("set" + [UpperChar(attribute[0])] + attribute[1..])
  }

  /** The attribute a setter name was derived from, with its first letter in
      lower case: the JavaBeans reading of a setter name. */
  function AttributeOfSetter(setter: string): string
    requires |setter| > 3
  {
    [LowerChar(setter[3])] + setter[4..]
  }

  /** Setter names round-trip for attribute names that start with anything
      but an upper-case letter, and two attribute names share a setter
      exactly when they differ at most in the case of their first letter. */
  lemma SetterNameRoundTrip(a: string, b: string)
    requires a != [] && b != []
    ensures !('A' <= a[0] <= 'Z') ==> AttributeOfSetter(SetterName(a).value) == a
    ensures SetterName(a) == SetterName(b) <==> UpperChar(a[0]) == UpperChar(b[0]) && a[1..] == b[1..]
  {
    var s := SetterName(a).value;
    assert s[3] == UpperChar(a[0]) && s[4..] == a[1..];
    if !('A' <= a[0] <= 'Z') {
      assert [LowerChar(s[3])] + s[4..] == [a[0]] + a[1..];
      assert [a[0]] + a[1..] == a;
    }
    if SetterName(a) == SetterName(b) {
      var t := SetterName(b).value;
      assert t[3] == UpperChar(b[0]) && t[4..] == b[1..];
    }
  }

  /** What `saveProcessedDocument` did: whether it began the transaction and
      marked it rollback-only, whether the document was persisted (which sets
      the step's changed flag), the attributes applied through setters, in
      order, and what it threw. */
  datatype SaveTrace = SaveTrace(began: bool, rollbackOnly: bool, persisted: bool, changed: bool,
                                 applied: seq<(string, string)>, error: Option<Exception>)

  /** The setter loop: every attribute in iteration order, until one fails.
      A missing setter of the derived name is a reflective failure, caught
      and wrapped in the fixed `ProcessingException`; an empty attribute
      name makes the name derivation throw its index exception, which the
      reflective `catch` does not catch, so it escapes unwrapped. */
  function AssignAttributes(attributes: seq<(string, string)>, hasSetter: string -> bool)
    : (r: (seq<(string, string)>, Option<Exception>))
    ensures r.0 <= attributes
    ensures r.1.None? <==> r.0 == attributes
    ensures forall i :: 0 <= i < |r.0| ==> SetterName(r.0[i].0).Ok? && hasSetter(SetterName(r.0[i].0).value)
    ensures r.1.Some? ==> var a := attributes[|r.0|].0;
              || (a == [] && r.1.value == IndexOutOfBoundsException)
              || (a != [] && !hasSetter(SetterName(a).value) && r.1.value == ProcessingException(SetterFailureMessage))
  {
    if attributes == [] then ([], None)
    else
      var name := attributes[0].0;
      var setter := SetterName(name);
      if setter.Err? then ([], Some(setter.error))
      else if !hasSetter(setter.value) then ([], Some(ProcessingException(SetterFailureMessage)))
      else
        var rest := AssignAttributes(attributes[1..], hasSetter);
        ([attributes[0]] + rest.0, rest.1)
  }

  /** `saveProcessedDocument`: construct the document reflectively, begin the
      transaction if inactive, persist (a `PersistenceException` marks a
      transaction begun here rollback-only and propagates), set the changed
      flag, then assign the attributes. */
  function SaveDocument(changed: bool, constructible: bool, transactionActive: bool, persistFails: bool,
                        attributes: seq<(string, string)>, hasSetter: string -> bool): (t: SaveTrace)
  {
    if !constructible then
      SaveTrace(false, false, false, changed, [], Some(ProcessingException(ReflectionFailureMessage)))
    else
      var began := !transactionActive;
      if persistFails then
        SaveTrace(began, began, false, changed, [], Some(PersistenceException))
      else
        var (applied, error) := AssignAttributes(attributes, hasSetter);
        SaveTrace(began, false, true, true, applied, error)
  }

  /** The changed flag is set exactly when the document was persisted (it
      stays set even when a setter then fails), and the transaction is
      marked rollback-only exactly when this call began it and persisting
      failed. */
  lemma SaveSetsFlagIffPersisted(changed: bool, constructible: bool, transactionActive: bool, persistFails: bool,
                                 attributes: seq<(string, string)>, hasSetter: string -> bool)
    ensures var t := SaveDocument(changed, constructible, transactionActive, persistFails, attributes, hasSetter);
            && (t.persisted <==> constructible && !persistFails)
            && (t.changed <==> changed || t.persisted)
            && (t.rollbackOnly <==> constructible && !transactionActive && persistFails)
            && (t.error.None? <==> t.persisted && t.applied == attributes)
  {
  }

  /** An attribute with an empty name, saved inside a step's own
      transaction, throws the index exception after the document was
      persisted; `execute` catches neither it nor anything it is, so the
      transaction it began is not marked rollback-only and the final flush
      commits the persisted document. */
  lemma EmptyAttributeNameEscapes(spec: StepSpec, params: Params, order: seq<string>, stepName: string,
                                  value: string, hasSetter: string -> bool)
    requires IsIterationOrder(order, params)
    requires Validate(spec, params, order, stepName).Ok?
    ensures var save := SaveDocument(false, true, true, false, [("", value)], hasSetter);
            && save.persisted && save.applied == [] && save.error == Some(IndexOutOfBoundsException)
            && var t := Execute(spec, params, order, stepName, true, false, Threw(save.error.value));
               t.began && !t.rollbackOnly && t.flushed && t.error == save.error
  {
    var save := SaveDocument(false, true, true, false, [("", value)], hasSetter);
    assert save.error == Some(IndexOutOfBoundsException);
    ExecuteBracket(spec, params, order, stepName, false, Threw(IndexOutOfBoundsException));
  }

  /** `deleteAllProcessedDocumentsOfType`: the changed flag is set once the
      delete statement ran; a failing statement propagates its exception and
      leaves the flag alone. */
  function DeleteAll(changed: bool, deleteFails: bool): (r: (bool, Option<Exception>))
    ensures r.1.None? <==> !deleteFails
    ensures r.0 <==> changed || !deleteFails
  {
    if deleteFails then (changed, Some(PersistenceException)) else (true, None)
  }

  // ---------------------------------------------------------------------
  // SELECT statements

  /** `StringBuilder.append` of a string that may be null. */
  function AppendText(v: Option<string>): string {
    match v
    case Some(s) => s
    case None => "null"
  }

  /** The columns and table a SELECT statement names, as appended. */
  function SelectParts(params: Params, withTitle: bool): (parts: (seq<string>, string))
    ensures |parts.0| == if withTitle then 3 else 2
  {
    var pk := AppendText(GetOrDefault(params, PrimaryKeyColumnName, DefaultPrimaryKeyColumn));
    var title := AppendText(GetOrDefault(params, TitleColumnName, DefaultTitleColumn));
    var text := AppendText(GetOrDefault(params, TextColumnName, DefaultTextColumn));
    var table := AppendText(Get(params, if withTitle then TitledTableName else TableName));
    (if withTitle then [pk, title, text] else [pk, text], table)
  }

  /** `buildUnprocessedDocumentWithTitleSelectStatement` (`withTitle`) and
      `buildUnprocessedDocumentSelectStatement`: the builder appends the
      columns with ", " between them, then the table. The contract only
      puts the appends in `Join` form; what the statement selects is stated
      by `SelectDefaults` and `ValidatedSelectParts`. */
  function SelectStatement(params: Params, withTitle: bool): (sql: string)
    ensures sql == "SELECT " + Join(SelectParts(params, withTitle).0, ", ") + " FROM " + SelectParts(params, withTitle).1
  {
    var parts := SelectParts(params, withTitle);
    var cols := parts.0;
    if withTitle then
      JoinTriple(cols[0], cols[1], cols[2], ", ");
      assert cols == [cols[0], cols[1], cols[2]];
      "SELECT " + (cols[0] + ", " + cols[1] + ", " + cols[2]) + " FROM " + parts.1
    else
      JoinPair(cols[0], cols[1], ", ");
      assert cols == [cols[0], cols[1]];
      "SELECT " + (cols[0] + ", " + cols[1]) + " FROM " + parts.1
  }

  /** With only the table names given, the statements select the default
      columns `id`, `title` and `text` (`id` and `text` without a title),
      from the titled and the plain table respectively. */
  lemma SelectDefaults(t: string, u: string)
    ensures SelectParts(map[TitledTableName := Some(t), TableName := Some(u)], true) == (["id", "title", "text"], t)
    ensures SelectParts(map[TitledTableName := Some(t), TableName := Some(u)], false) == (["id", "text"], u)
  {
    var params := map[TitledTableName := Some(t), TableName := Some(u)];
    NamesDistinct();
    assert PrimaryKeyColumnName !in params && TitleColumnName !in params && TextColumnName !in params;
  }

  /** The name predicate a step inherits: non-blank. */
  predicate ChecksNonBlank(spec: StepSpec, name: string) {
    name in spec.checks && spec.checks[name] == NonBlankCheck
  }

  /** A step whose own predicates leave the table-name and column-name
      predicates in place. */
  predicate KeepsNameChecks(spec: StepSpec) {
    && ChecksNonBlank(spec, TitledTableName) && ChecksNonBlank(spec, TableName)
    && ChecksNonBlank(spec, PrimaryKeyColumnName) && ChecksNonBlank(spec, TextColumnName)
    && ChecksNonBlank(spec, TitleColumnName)
  }

  /** Every present entry has a predicate that accepts it. */
  predicate AllEntriesPass(checks: map<string, Check>, params: Params) {
    forall k :: k in params ==> EntryPasses(checks, params, k)
  }

  /** When every entry passes, a name checked for non-blankness reads, with
      a non-blank default, as a non-blank string. */
  lemma PassingNameNonBlank(spec: StepSpec, params: Params, name: string, default: string)
    requires AllEntriesPass(spec.checks, params)
    requires ChecksNonBlank(spec, name)
    requires !IsBlank(default)
    ensures !IsBlank(AppendText(GetOrDefault(params, name, default)))
  {
    if name in params {
      assert EntryPasses(spec.checks, params, name);
    }
  }

  /** The default column names are not blank. */
  lemma DefaultColumnsNonBlank()
    ensures !IsBlank(DefaultPrimaryKeyColumn) && !IsBlank(DefaultTitleColumn) && !IsBlank(DefaultTextColumn)
  {
    assert DefaultPrimaryKeyColumn[0] == 'i';
    assert DefaultTitleColumn[0] == 't';
    assert DefaultTextColumn[0] == 't';
  }

  /** The column names a statement reads when every entry passes. */
  lemma PassingColumnsNonBlank(spec: StepSpec, params: Params)
    requires AllEntriesPass(spec.checks, params) && KeepsNameChecks(spec)
    ensures !IsBlank(AppendText(GetOrDefault(params, PrimaryKeyColumnName, DefaultPrimaryKeyColumn)))
    ensures !IsBlank(AppendText(GetOrDefault(params, TitleColumnName, DefaultTitleColumn)))
    ensures !IsBlank(AppendText(GetOrDefault(params, TextColumnName, DefaultTextColumn)))
  {
    DefaultColumnsNonBlank();
    PassingNameNonBlank(spec, params, PrimaryKeyColumnName, DefaultPrimaryKeyColumn);
    PassingNameNonBlank(spec, params, TitleColumnName, DefaultTitleColumn);
    PassingNameNonBlank(spec, params, TextColumnName, DefaultTextColumn);
  }

  /** The parts of both statements when every entry passes and both table
      names are present. */
  lemma PassingSelectParts(spec: StepSpec, params: Params, withTitle: bool)
    requires AllEntriesPass(spec.checks, params) && KeepsNameChecks(spec)
    requires TitledTableName in params && TableName in params
    ensures var parts := SelectParts(params, withTitle);
            (forall i :: 0 <= i < |parts.0| ==> !IsBlank(parts.0[i])) && !IsBlank(parts.1)
  {
    PassingColumnsNonBlank(spec, params);
    var pk := AppendText(GetOrDefault(params, PrimaryKeyColumnName, DefaultPrimaryKeyColumn));
    var title := AppendText(GetOrDefault(params, TitleColumnName, DefaultTitleColumn));
    var text := AppendText(GetOrDefault(params, TextColumnName, DefaultTextColumn));
    NonBlankColumns(pk, title, text, withTitle);
    var table := if withTitle then TitledTableName else TableName;
    assert !IsBlank(DefaultTextColumn) by { DefaultColumnsNonBlank(); }
    PassingNameNonBlank(spec, params, table, DefaultTextColumn);
    var parts := SelectParts(params, withTitle);
    assert parts == (if withTitle then [pk, title, text] else [pk, text], AppendText(GetOrDefault(params, table, DefaultTextColumn)));
  }

  lemma NonBlankColumns(pk: string, title: string, text: string, withTitle: bool)
    requires !IsBlank(pk) && !IsBlank(title) && !IsBlank(text)
    ensures var cols := if withTitle then [pk, title, text] else [pk, text];
            forall i :: 0 <= i < |cols| ==> !IsBlank(cols[i])
  {
  }

  /** After successful validation every part of both statements is a
      non-blank name: no column or table reads as "null" or blank. */
  lemma ValidatedSelectParts(spec: StepSpec, params: Params, order: seq<string>, stepName: string, withTitle: bool)
    requires IsIterationOrder(order, params)
    requires KeepsNameChecks(spec) && TitledTableName in spec.required && TableName in spec.required
    requires Validate(spec, params, order, stepName).Ok?
    ensures var parts := SelectParts(params, withTitle);
            (forall i :: 0 <= i < |parts.0| ==> !IsBlank(parts.0[i])) && !IsBlank(parts.1)
  {
    ValidateOkIff(spec, params, order, stepName);
    PassingSelectParts(spec, params, withTitle);
  }
}

=== FILE: timestamped.dfy ===
/** `TimestampedEntityTransaction`: a dirty transaction record of the
    persistence layer, pairing a transaction with the value of a shared
    64-bit counter at the record's creation. Transactions are identified by
    a number; two records are equal when their transactions are. */
module TimestampedTransaction {
  import opened Wrappers
  import opened JavaLang

  datatype Timestamped = Timestamped(transaction: nat, creationId: int)

  /** The constructor: a null transaction is rejected, otherwise the record
      takes the counter's value and the counter moves on by one, in 64-bit
      arithmetic (`AtomicLong.getAndIncrement`). */
  function Create(transaction: Option<nat>, counter: int): (r: Result<(Timestamped, int), Exception>)
    requires IsLong(counter)
    ensures r.Err? <==> transaction.None?
    ensures r.Err? ==> r.error == NullPointerException
    ensures r.Ok? ==> r.value.0 == Timestamped(transaction.value, counter)
    ensures r.Ok? && counter < LongMax ==> r.value.1 == counter + 1
    ensures r.Ok? ==> IsLong(r.value.1)
  {
    match transaction
    case None => Err(NullPointerException)
    case Some(t) => Ok((Timestamped(t, counter), WrapLong(counter + 1)))
  }

  /** Records created one after the other, without the counter reaching its
      maximum, have increasing creation ids. */
  lemma CreationIdsIncrease(s: nat, t: nat, counter: int)
    requires 0 <= counter < LongMax - 1
    ensures var first := Create(Some(s), counter).value;
            var second := Create(Some(t), first.1).value;
            first.0.creationId < second.0.creationId && second.1 == counter + 2
  {
  }

  function Min(a: int, b: int): int {
    if a <= b then a else b
  }

  function Max(a: int, b: int): int {
    if a >= b then a else b
  }

  /** `compareTo` as written: the 64-bit difference of the creation ids is
      bounded with `min(Integer.MIN_VALUE, _)` and then
      `max(_, Integer.MAX_VALUE)`, the bounds the wrong way round, and cast
      to `int`. */
  function CompareToAsWritten(x: Timestamped, y: Timestamped): (c: int)
    requires IsLong(x.creationId) && IsLong(y.creationId)
    ensures c == IntMax
  {
    WrapInt(Max(Min(IntMin, WrapLong(x.creationId - y.creationId)), IntMax))
  }

  /** Whatever the two records, the comparison as written is
      `Integer.MAX_VALUE`: it never reports equality, not even of a record
      with itself, and both orders of any pair compare as "greater". */
  lemma CompareToAsWrittenIsConstant(x: Timestamped, y: Timestamped)
    requires IsLong(x.creationId) && IsLong(y.creationId)
    ensures CompareToAsWritten(x, y) == IntMax
    ensures CompareToAsWritten(x, x) != 0
    ensures CompareToAsWritten(x, y) > 0 && CompareToAsWritten(y, x) > 0
  {
  }

  /** The comparison the record's documentation describes: the 64-bit
      difference clamped into the `int` range. */
  function CompareTo(x: Timestamped, y: Timestamped): (c: int)
    requires IsLong(x.creationId) && IsLong(y.creationId)
    ensures IsInt(c)
    ensures 0 <= x.creationId && 0 <= y.creationId ==>
              (c < 0 <==> x.creationId < y.creationId) && (c == 0 <==> x.creationId == y.creationId)
  {
    WrapInt(Max(Min(IntMax, WrapLong(x.creationId - y.creationId)), IntMin))
  }

  /** For the non-negative ids the counter hands out, the corrected
      comparison orders records by creation id, is zero exactly on equal
      ids, and swapping the records flips its sign. */
  lemma CompareToOrdersByCreation(x: Timestamped, y: Timestamped)
    requires 0 <= x.creationId <= LongMax && 0 <= y.creationId <= LongMax
    ensures CompareTo(x, y) < 0 <==> x.creationId < y.creationId
    ensures CompareTo(x, y) == 0 <==> x.creationId == y.creationId
    ensures CompareTo(x, y) > 0 <==> x.creationId > y.creationId
    ensures CompareTo(x, y) < 0 <==> CompareTo(y, x) > 0
  {
    assert IsLong(x.creationId - y.creationId) && IsLong(y.creationId - x.creationId);
  }

  /** `equals`: records are equal exactly when their transactions are,
      whatever their creation ids. */
  predicate Equals(x: Timestamped, y: Timestamped) {
    x.transaction == y.transaction
  }

  /** `hashCode`: the transaction's hash code, for a hash function on
      transactions. */
  function HashCode(x: Timestamped, hash: nat -> int): int {
    hash(x.transaction)
  }

  /** Equality ignores creation ids, and equal records hash alike. */
  lemma EqualsAndHashCode(x: Timestamped, y: Timestamped, hash: nat -> int)
    ensures Equals(x, y) <==> x.transaction == y.transaction
    ensures Equals(x, y) ==> HashCode(x, hash) == HashCode(y, hash)
    ensures Equals(x, x.(creationId := y.creationId))
  {
  }
}

=== FILE: tpp.dfy ===
/** `TppHelper.processAttributes`: the request/response demultiplexer that
    sends a batch of documents to the Text Processing Python service and
    hands every processed attribute back to the right document.

    The HTTP exchange is a function parameter (`post`); the JSON values are
    the `Json` datatype below. The iteration orders of the `HashMap` of each
    document (irrelevant for a JSON object) and of the `HashSet` of
    attribute names (relevant: it orders the callbacks) are modelled as a
    parameter `order` that enumerates the set of names. */
module Tpp {
  import opened Wrappers
  import opened JavaLang
  import opened JavaText
  import opened JavaCollections

  datatype Json = JString(s: string) | JArray(items: seq<Json>) | JObject(fields: map<string, Json>) | JNumber(n: int) | JNull

  /** `JsonResponseAttributeType`: the type of the processed text in the
      response. */
  datatype ResponseType = StringArray | StringText

  /** `{"text": v}`. */
  function TextObject(v: Json): Json {
    JObject(map["text" := v])
  }

  /** The object used for a response entry the service left out:
      `{"text": [""]}` for `STRING_ARRAY` and `{"text": ""}` for `STRING`. */
  function DummyValue(t: ResponseType): Json {
    match t
    case StringArray => TextObject(JArray([JString("")]))
    case StringText => TextObject(JString(""))
  }

  const EmptyBatchMessage: string := "The attribute batch can't be empty"
  const LengthMismatchMessage: string :=
    "The length of the attribute values minus the start index must be equal to the attribute names array length"

  // ---------------------------------------------------------------------
  // The attribute map of each document

  /** The map `names[i] -> row[i + start]`, built by one `put` per name; an
      index outside the row is an `ArrayIndexOutOfBoundsException` (an
      `IndexOutOfBoundsException`). */
  function DocumentMap(row: seq<string>, start: int, names: seq<string>): (r: Result<map<string, string>, Exception>)
    ensures r.Ok? <==> names == [] || (0 <= start && start + |names| <= |row|)
    ensures r.Err? ==> r.error == IndexOutOfBoundsException
    ensures r.Ok? ==> forall a :: a in r.value <==> a in names
  {
    if names == [] then Ok(map[])
    else if start < 0 || start + |names| > |row| then Err(IndexOutOfBoundsException)
    else Ok(PutAll(map[], names, row[start..start + |names|]))
  }

  /** Each name is mapped to the column `start` places after its position;
      a repeated name keeps the column of its last position. */
  lemma DocumentMapValues(row: seq<string>, start: int, names: seq<string>, i: nat)
    requires DocumentMap(row, start, names).Ok? && i < |names| && LastPut(names, i)
    ensures 0 <= i + start < |row|
    ensures DocumentMap(row, start, names).value[names[i]] == row[i + start]
  {
    LastPutWins(map[], names, row[start..start + |names|], i);
  }

  /** The maps of all documents, in batch order; the first row that is too
      short aborts the loop. */
  function DocumentMaps(batch: seq<seq<string>>, start: int, names: seq<string>): (r: Result<seq<map<string, string>>, Exception>)
    ensures r.Ok? <==> forall d :: 0 <= d < |batch| ==> DocumentMap(batch[d], start, names).Ok?
    ensures r.Ok? ==> |r.value| == |batch|
    ensures r.Ok? ==> forall d :: 0 <= d < |batch| ==> DocumentMap(batch[d], start, names) == Ok(r.value[d])
    ensures r.Err? ==> r.error == IndexOutOfBoundsException
    decreases |batch|
  {
    if batch == [] then Ok([])
    else
      var first :- DocumentMap(batch[0], start, names);
      var rest :- DocumentMaps(batch[1..], start, names);
      assert forall d :: 1 <= d < |batch| ==> batch[d] == batch[1..][d - 1];
      Ok([first] + rest)
  }

  // ---------------------------------------------------------------------
  // The request

  /** The request key of attribute `a` of document `d`: `d + "_" + a`. */
  function RequestKey(d: nat, a: string): string {
    NatToDecimal(d) + "_" + a
  }

  /** Different (document, attribute) pairs never share a request key: the
      document number has no `_`, so the first `_` separates the two. */
  lemma RequestKeyInjective(d1: nat, a1: string, d2: nat, a2: string)
    requires RequestKey(d1, a1) == RequestKey(d2, a2)
    ensures d1 == d2 && a1 == a2
  {
    var s1, s2 := NatToDecimal(d1), NatToDecimal(d2);
    var k := RequestKey(d1, a1);
    assert k == s2 + "_" + a2;
    assert forall i :: 0 <= i < |s1| ==> k[i] == s1[i] && IsDigit(s1[i]);
    assert forall i :: 0 <= i < |s2| ==> k[i] == s2[i] && IsDigit(s2[i]);
    assert k[|s1|] == '_' && k[|s2|] == '_';
    assert |s1| == |s2|;
    assert s1 == k[..|s1|] == s2;
    NatToDecimalValue(d1);
    NatToDecimalValue(d2);
    assert a1 == k[|s1| + 1..] == a2;
  }

  /** The request sent to the service: the `documents` object, then what
      the request-parameters action wrote. */
  datatype Request = Request(documents: map<string, Json>, parameters: seq<(string, Json)>)

  /** The members written for document `d`: one `{"text": v}` per
      attribute, under the attribute's request key. */
  function DocumentEntries(d: nat, m: map<string, string>): (r: map<string, Json>)
    ensures forall a :: a in m ==> RequestKey(d, a) in r && r[RequestKey(d, a)] == TextObject(JString(m[a]))
    ensures forall d2: nat, a :: d2 != d ==> RequestKey(d2, a) !in r
  {
    assert forall d1: nat, a1, d2: nat, a2 :: RequestKey(d1, a1) == RequestKey(d2, a2) ==> d1 == d2 && a1 == a2 by {
      forall d1: nat, a1, d2: nat, a2 | RequestKey(d1, a1) == RequestKey(d2, a2) ensures d1 == d2 && a1 == a2 {
        RequestKeyInjective(d1, a1, d2, a2);
      }
    }
    map a | a in m :: RequestKey(d, a) := TextObject(JString(m[a]))
  }

  /** The members written for documents `d` onwards. */
  function EntriesFrom(maps: seq<map<string, string>>, d: nat): (r: map<string, Json>)
    ensures forall d2: nat, a :: d <= d2 < |maps| && a in maps[d2] ==>
              RequestKey(d2, a) in r && r[RequestKey(d2, a)] == TextObject(JString(maps[d2][a]))
    decreases |maps| - d
  {
    if d >= |maps| then map[] else EntriesFrom(maps, d + 1) + DocumentEntries(d, maps[d])
  }

  /** The `documents` object of the request: every attribute of every
      document, under its own key. */
  function RequestDocuments(maps: seq<map<string, string>>): (r: map<string, Json>)
    ensures forall d: nat, a :: d < |maps| && a in maps[d] ==>
              RequestKey(d, a) in r && r[RequestKey(d, a)] == TextObject(JString(maps[d][a]))
  {
    EntriesFrom(maps, 0)
  }

  // ---------------------------------------------------------------------
  // The response

  /** `readObject().getJsonObject("documents")`: a response that is not an
      object fails to parse, a missing member is `null`, and any other
      member fails the cast. */
  function DocumentsObject(response: Json): (r: Result<Option<map<string, Json>>, Exception>)
    ensures r.Ok? <==> response.JObject? && ("documents" in response.fields ==> response.fields["documents"].JObject?)
  {
    if !response.JObject? then Err(OtherRuntimeException)
    else if "documents" !in response.fields then Ok(None)
    else match response.fields["documents"]
      case JObject(f) => Ok(Some(f))
      case _ => Err(OtherRuntimeException)
  }

  /** The processed object of attribute `a` of document `d`: the response
      member at its request key, or the dummy when there is none. */
  function Lookup(documents: Option<map<string, Json>>, d: nat, a: string, t: ResponseType): (r: Result<Json, Exception>)
    ensures documents.None? ==> r == Err(NullPointerException)
    ensures documents.Some? && RequestKey(d, a) !in documents.value ==> r == Ok(DummyValue(t))
    ensures documents.Some? && RequestKey(d, a) in documents.value ==>
              (r.Ok? <==> documents.value[RequestKey(d, a)].JObject?)
    ensures r.Ok? ==> r.value.JObject?
  {
    if documents.None? then Err(NullPointerException)
    else
      var key := RequestKey(d, a);
      if key !in documents.value then Ok(DummyValue(t))
      else if documents.value[key].JObject? then Ok(documents.value[key])
      else Err(OtherRuntimeException)
  }

  /** The pairs the response loop visits for document `d`, in order. */
  function Block(d: nat, order: seq<string>): (ks: seq<(nat, string)>)
    ensures |ks| == |order|
    ensures forall j :: 0 <= j < |ks| ==> ks[j] == (d, order[j])
  {
    seq(|order|, j requires 0 <= j < |order| => (d, order[j]))
  }

  /** The pairs the response loop visits: documents `from` to `to - 1`, each
      with every name. */
  function ResponseKeys(from: nat, to: nat, order: seq<string>): (ks: seq<(nat, string)>)
    decreases to - from
  {
    if from >= to then [] else Block(from, order) + ResponseKeys(from + 1, to, order)
  }

  /** The store action: receives the attribute name, its processed object
      and the document's map, and returns the updated map. */
  type Store = (string, Json, map<string, string>) -> Result<map<string, string>, Exception>

  // ---------------------------------------------------------------------
  // The callback cursor

  /** The document and attribute indexes the callback keeps between calls. */
  datatype Cursor = Cursor(doc: nat, attr: nat)

  /** One callback: the attribute index moves on, and after `n` attributes
      the document index moves on and the attribute index restarts. */
  function Advance(c: Cursor, n: nat): Cursor {
    if c.attr + 1 >= n then Cursor(c.doc + 1, 0) else Cursor(c.doc, c.attr + 1)
  }

  function AdvanceBy(c: Cursor, n: nat, k: nat): Cursor
    decreases k
  {
    if k == 0 then c else AdvanceBy(Advance(c, n), n, k - 1)
  }

  lemma {:induction false} AdvanceByLast(c: Cursor, n: nat, k: nat)
    ensures AdvanceBy(c, n, k + 1) == Advance(AdvanceBy(c, n, k), n)
    decreases k
  {
    if k > 0 {
      AdvanceByLast(Advance(c, n), n, k - 1);
    }
  }

  lemma QuotientStep(k: nat, n: nat)
    requires n >= 1
    ensures k % n + 1 >= n ==> (k + 1) / n == k / n + 1 && (k + 1) % n == 0
    ensures k % n + 1 < n ==> (k + 1) / n == k / n && (k + 1) % n == k % n + 1
  {
    var q, r := k / n, k % n;
    assert k == n * q + r;
    if r + 1 >= n {
      DivModUnique(k + 1, n, q + 1, 0);
    } else {
      DivModUnique(k + 1, n, q, r + 1);
    }
  }

  /** After `k` callbacks from the start the cursor points at document
      `k / n`, attribute `k % n`. */
  lemma {:induction false} CursorPosition(n: nat, k: nat)
    requires n >= 1
    ensures AdvanceBy(Cursor(0, 0), n, k) == Cursor(k / n, k % n)
    decreases k
  {
    if k > 0 {
      CursorPosition(n, k - 1);
      AdvanceByLast(Cursor(0, 0), n, k - 1);
      QuotientStep(k - 1, n);
    }
  }

  /** `n - j` callbacks from attribute `j` reach the next document. */
  lemma {:induction false} BlockEndsAtNextDocument(d: nat, j: nat, n: nat)
    requires j < n
    ensures AdvanceBy(Cursor(d, j), n, n - j) == Cursor(d + 1, 0)
    decreases n - j
  {
    if j + 1 < n {
      BlockEndsAtNextDocument(d, j + 1, n);
    }
  }

  // ---------------------------------------------------------------------
  // Delivering the response

  /** The response loop as written: each visited pair's object goes to the
      map the cursor points at, whatever document the pair names. */
  function Deliver(maps: seq<map<string, string>>, c: Cursor, n: nat, keys: seq<(nat, string)>,
                   documents: Option<map<string, Json>>, t: ResponseType, store: Store): (r: Result<seq<map<string, string>>, Exception>)
    ensures r.Ok? ==> |r.value| == |maps|
    decreases |keys|
  {
    if keys == [] then Ok(maps)
    else
      var obj :- Lookup(documents, keys[0].0, keys[0].1, t);
      if c.doc >= |maps| then Err(IndexOutOfBoundsException)
      else
        var m :- store(keys[0].1, obj, maps[c.doc]);
        Deliver(maps[c.doc := m], Advance(c, n), n, keys[1..], documents, t, store)
  }

  /** The reference reading: document `d`'s objects, one per name in order,
      stored into `d`'s own map. */
  function StoreDocument(m: map<string, string>, d: nat, names: seq<string>,
                         documents: Option<map<string, Json>>, t: ResponseType, store: Store): Result<map<string, string>, Exception>
    decreases |names|
  {
    if names == [] then Ok(m)
    else
      var obj :- Lookup(documents, d, names[0], t);
      var m' :- store(names[0], obj, m);
      StoreDocument(m', d, names[1..], documents, t, store)
  }

  /** The reference reading for documents `d` onwards, in batch order. */
  function StoreDocuments(maps: seq<map<string, string>>, d: nat, order: seq<string>,
                          documents: Option<map<string, Json>>, t: ResponseType, store: Store): Result<seq<map<string, string>>, Exception>
    requires d <= |maps|
    decreases |maps| - d
  {
    if d == |maps| then Ok(maps)
    else
      var m :- StoreDocument(maps[d], d, order, documents, t, store);
      StoreDocuments(maps[d := m], d + 1, order, documents, t, store)
  }

  lemma {:induction false} DeliverAppend(maps: seq<map<string, string>>, c: Cursor, n: nat, k1: seq<(nat, string)>, k2: seq<(nat, string)>,
                                         documents: Option<map<string, Json>>, t: ResponseType, store: Store)
    ensures Deliver(maps, c, n, k1 + k2, documents, t, store)
         == match Deliver(maps, c, n, k1, documents, t, store)
            case Ok(ms) => Deliver(ms, AdvanceBy(c, n, |k1|), n, k2, documents, t, store)
            case Err(e) => Err(e)
    decreases |k1|
  {
    if k1 == [] {
      assert k1 + k2 == k2;
    } else {
      assert (k1 + k2)[0] == k1[0];
      assert (k1 + k2)[1..] == k1[1..] + k2;
      var obj := Lookup(documents, k1[0].0, k1[0].1, t);
      if obj.Ok? && c.doc < |maps| {
        var m := store(k1[0].1, obj.value, maps[c.doc]);
        if m.Ok? {
          DeliverAppend(maps[c.doc := m.value], Advance(c, n), n, k1[1..], k2, documents, t, store);
        }
      }
    }
  }

  /** The callbacks of one document, starting at attribute `j` of a cursor
      that counts `n` attributes per document, all reach that document's
      map. */
  lemma {:induction false} DeliverBlock(maps: seq<map<string, string>>, d: nat, j: nat, n: nat, names: seq<string>,
                                        documents: Option<map<string, Json>>, t: ResponseType, store: Store)
    requires d < |maps| && j + |names| == n
    ensures Deliver(maps, Cursor(d, j), n, Block(d, names), documents, t, store)
         == match StoreDocument(maps[d], d, names, documents, t, store)
            case Ok(m) => Ok(maps[d := m])
            case Err(e) => Err(e)
    decreases |names|
  {
    if names == [] {
      assert maps[d := maps[d]] == maps;
    } else {
      var ks := Block(d, names);
      assert ks[0] == (d, names[0]);
      assert ks[1..] == Block(d, names[1..]);
      var obj := Lookup(documents, d, names[0], t);
      if obj.Ok? {
        var m := store(names[0], obj.value, maps[d]);
        if m.Ok? {
          var maps' := maps[d := m.value];
          if |names| == 1 {
            assert names[1..] == [];
            assert maps'[d := m.value] == maps';
          } else {
            DeliverBlock(maps', d, j + 1, n, names[1..], documents, t, store);
            assert maps'[d] == m.value;
            var rest := StoreDocument(m.value, d, names[1..], documents, t, store);
            if rest.Ok? {
              assert maps'[d := rest.value] == maps[d := rest.value];
            }
          }
        }
      }
    }
  }

  /** With a cursor that counts as many attributes per document as there
      are names in the response loop, the callbacks reach the maps exactly
      as the by-document reading says. */
  lemma {:induction false} DeliverFollowsDocuments(maps: seq<map<string, string>>, d: nat, order: seq<string>,
                                                   documents: Option<map<string, Json>>, t: ResponseType, store: Store)
    requires d <= |maps| && |order| >= 1
    ensures Deliver(maps, Cursor(d, 0), |order|, ResponseKeys(d, |maps|, order), documents, t, store)
         == StoreDocuments(maps, d, order, documents, t, store)
    decreases |maps| - d
  {
    if d < |maps| {
      var n := |order|;
      var rest := ResponseKeys(d + 1, |maps|, order);
      DeliverAppend(maps, Cursor(d, 0), n, Block(d, order), rest, documents, t, store);
      DeliverBlock(maps, d, 0, n, order, documents, t, store);
      BlockEndsAtNextDocument(d, 0, n);
      var m := StoreDocument(maps[d], d, order, documents, t, store);
      if m.Ok? {
        DeliverFollowsDocuments(maps[d := m.value], d + 1, order, documents, t, store);
      }
    }
  }

  /** Without names the response loop visits nothing. */
  lemma {:induction false} NoNamesNoCallbacks(maps: seq<map<string, string>>, d: nat,
                                              documents: Option<map<string, Json>>, t: ResponseType, store: Store)
    requires d <= |maps|
    ensures ResponseKeys(d, |maps|, []) == []
    ensures StoreDocuments(maps, d, [], documents, t, store) == Ok(maps)
    decreases |maps| - d
  {
    if d < |maps| {
      assert maps[d := maps[d]] == maps;
      NoNamesNoCallbacks(maps, d + 1, documents, t, store);
    }
  }

  // ---------------------------------------------------------------------
  // processAttributes

  /** Everything inside the `try` block: build and send the request, then
      run the response loop with a cursor of `n` attributes per document. */
  function Exchange(maps: seq<map<string, string>>, parameters: Result<seq<(string, Json)>, Exception>,
                    post: Request -> Result<Json, Exception>, t: ResponseType, store: Store,
                    order: seq<string>, n: nat): (r: Result<seq<map<string, string>>, Exception>)
    ensures r.Ok? ==> |r.value| == |maps|
  {
    var extra :- parameters;
    var response :- post(Request(RequestDocuments(maps), extra));
    var documents :- DocumentsObject(response);
    Deliver(maps, Cursor(0, 0), n, ResponseKeys(0, |maps|, order), documents, t, store)
  }

  /** The by-document reading of the `try` block. */
  function ExchangeByDocument(maps: seq<map<string, string>>, parameters: Result<seq<(string, Json)>, Exception>,
                              post: Request -> Result<Json, Exception>, t: ResponseType, store: Store,
                              order: seq<string>): Result<seq<map<string, string>>, Exception>
  {
    var extra :- parameters;
    var response :- post(Request(RequestDocuments(maps), extra));
    var documents :- DocumentsObject(response);
    StoreDocuments(maps, 0, order, documents, t, store)
  }

  /** A cursor counting one attribute per name of the response loop makes
      the exchange deliver by document. */
  lemma ExchangeFollowsDocuments(maps: seq<map<string, string>>, parameters: Result<seq<(string, Json)>, Exception>,
                                 post: Request -> Result<Json, Exception>, t: ResponseType, store: Store,
                                 order: seq<string>)
    ensures Exchange(maps, parameters, post, t, store, order, |order|)
         == ExchangeByDocument(maps, parameters, post, t, store, order)
  {
    if parameters.Ok? {
      var response := post(Request(RequestDocuments(maps), parameters.value));
      if response.Ok? && DocumentsObject(response.value).Ok? {
        var documents := DocumentsObject(response.value).value;
        if order == [] {
          NoNamesNoCallbacks(maps, 0, documents, t, store);
        } else {
          DeliverFollowsDocuments(maps, 0, order, documents, t, store);
        }
      }
    }
  }

  /** `processAttributes`, with a cursor counting `n` attributes per
      document: the checks and the maps outside the `try` block, every
      failure inside it rethrown as a `ProcessingException`. */
  function ProcessWith(batch: seq<seq<string>>, start: int, names: seq<string>,
                       parameters: Result<seq<(string, Json)>, Exception>,
                       post: Request -> Result<Json, Exception>, t: ResponseType, store: Store,
                       order: seq<string>, n: nat): (r: Result<seq<map<string, string>>, Exception>)
    ensures batch == [] ==> r == Err(IllegalArgumentException(EmptyBatchMessage))
    ensures batch != [] && |batch[0]| - start != |names| ==> r == Err(IllegalArgumentException(LengthMismatchMessage))
    ensures r.Ok? ==> |r.value| == |batch|
    ensures r.Err? ==> r.error.IllegalArgumentException? || r.error == IndexOutOfBoundsException || IsProcessingException(r.error)
  {
    if batch == [] then Err(IllegalArgumentException(EmptyBatchMessage))
    else if |batch[0]| - start != |names| then Err(IllegalArgumentException(LengthMismatchMessage))
    else
      var maps :- DocumentMaps(batch, start, names);
      match Exchange(maps, parameters, post, t, store, order, n)
      case Ok(out) => Ok(out)
      case Err(e) => Err(AsProcessingException(e))
  }

  lemma ProcessWithExchange(batch: seq<seq<string>>, start: int, names: seq<string>,
                            parameters: Result<seq<(string, Json)>, Exception>,
                            post: Request -> Result<Json, Exception>, t: ResponseType, store: Store,
                            order: seq<string>, n: nat, out: seq<map<string, string>>)
    requires batch != [] && |batch[0]| - start == |names| && DocumentMaps(batch, start, names).Ok?
    requires Exchange(DocumentMaps(batch, start, names).value, parameters, post, t, store, order, n) == Ok(out)
    ensures ProcessWith(batch, start, names, parameters, post, t, store, order, n) == Ok(out)
  {
  }

  /** `processAttributes` as written: the cursor counts `attributeNames.length`
      callbacks per document, while the response loop visits each distinct
      name once per document. */
  function ProcessAttributes(batch: seq<seq<string>>, start: int, names: seq<string>,
                             parameters: Result<seq<(string, Json)>, Exception>,
                             post: Request -> Result<Json, Exception>, t: ResponseType, store: Store,
                             order: seq<string>): (r: Result<seq<map<string, string>>, Exception>)
    requires Enumerates(order, Elements(names))
    ensures batch == [] ==> r == Err(IllegalArgumentException(EmptyBatchMessage))
    ensures batch != [] && |batch[0]| - start != |names| ==> r == Err(IllegalArgumentException(LengthMismatchMessage))
    ensures r.Ok? ==> |r.value| == |batch|
  {
    ProcessWith(batch, start, names, parameters, post, t, store, order, |names|)
  }

  /** The correction: the cursor counts one callback per name the response
      loop visits, so every document receives exactly its own response
      objects, one per attribute name, whatever the names. */
  function ProcessAttributesCorrected(batch: seq<seq<string>>, start: int, names: seq<string>,
                                      parameters: Result<seq<(string, Json)>, Exception>,
                                      post: Request -> Result<Json, Exception>, t: ResponseType, store: Store,
                                      order: seq<string>): (r: Result<seq<map<string, string>>, Exception>)
    requires Enumerates(order, Elements(names))
    ensures batch == [] ==> r == Err(IllegalArgumentException(EmptyBatchMessage))
    ensures batch != [] && |batch[0]| - start != |names| ==> r == Err(IllegalArgumentException(LengthMismatchMessage))
    ensures r.Ok? ==> |r.value| == |batch|
    ensures r == ProcessByDocument(batch, start, names, parameters, post, t, store, order)
  {
    var maps := DocumentMaps(batch, start, names);
    if maps.Ok? then
      ExchangeFollowsDocuments(maps.value, parameters, post, t, store, order);
      ProcessWith(batch, start, names, parameters, post, t, store, order, |order|)
    else
      ProcessWith(batch, start, names, parameters, post, t, store, order, |order|)
  }

  /** The by-document reading of `processAttributes`. */
  function ProcessByDocument(batch: seq<seq<string>>, start: int, names: seq<string>,
                             parameters: Result<seq<(string, Json)>, Exception>,
                             post: Request -> Result<Json, Exception>, t: ResponseType, store: Store,
                             order: seq<string>): Result<seq<map<string, string>>, Exception>
  {
    if batch == [] then Err(IllegalArgumentException(EmptyBatchMessage))
    else if |batch[0]| - start != |names| then Err(IllegalArgumentException(LengthMismatchMessage))
    else
      var maps :- DocumentMaps(batch, start, names);
      match ExchangeByDocument(maps, parameters, post, t, store, order)
      case Ok(out) => Ok(out)
      case Err(e) => Err(AsProcessingException(e))
  }

  /** With distinct attribute names, as every caller passes, the code as
      written delivers by document too. */
  lemma DistinctNamesDeliverByDocument(batch: seq<seq<string>>, start: int, names: seq<string>,
                                       parameters: Result<seq<(string, Json)>, Exception>,
                                       post: Request -> Result<Json, Exception>, t: ResponseType, store: Store,
                                       order: seq<string>)
    requires Enumerates(order, Elements(names)) && NoDuplicates(names)
    ensures ProcessAttributes(batch, start, names, parameters, post, t, store, order)
         == ProcessByDocument(batch, start, names, parameters, post, t, store, order)
  {
    DistinctCount(names);
    DistinctCount(order);
    assert |order| == |names|;
    var corrected := ProcessAttributesCorrected(batch, start, names, parameters, post, t, store, order);
    assert ProcessAttributes(batch, start, names, parameters, post, t, store, order) == corrected;
  }

  /** The request carries attribute `names[i]` of document `d` under key
      `d_names[i]`, as `{"text": batch[d][i + start]}`. */
  lemma RequestCarriesEveryAttribute(batch: seq<seq<string>>, start: int, names: seq<string>, d: nat, i: nat)
    requires DocumentMaps(batch, start, names).Ok? && d < |batch| && i < |names| && LastPut(names, i)
    ensures 0 <= i + start < |batch[d]|
    ensures var docs := RequestDocuments(DocumentMaps(batch, start, names).value);
            RequestKey(d, names[i]) in docs && docs[RequestKey(d, names[i])] == TextObject(JString(batch[d][i + start]))
  {
    var maps := DocumentMaps(batch, start, names).value;
    DocumentMapValues(batch[d], start, names, i);
    assert names[i] in maps[d];
  }

  /** Only the first row is measured: a later row that is too short passes
      the check and fails on the array access, outside the `try` block. */
  lemma OnlyFirstRowIsChecked(parameters: Result<seq<(string, Json)>, Exception>,
                              post: Request -> Result<Json, Exception>, t: ResponseType, store: Store)
    ensures Enumerates(["text"], Elements(["text"]))
    ensures ProcessAttributes([["x"], []], 0, ["text"], parameters, post, t, store, ["text"]) == Err(IndexOutOfBoundsException)
  {
    ElementsOfShortLists("text", "text");
    assert DocumentMap([], 0, ["text"]).Err?;
  }

  /** A response object that is not a JSON object aborts the exchange with
      a wrapped exception. */
  lemma MalformedResponseIsProcessingFailure(batch: seq<seq<string>>, start: int, names: seq<string>,
                                             parameters: Result<seq<(string, Json)>, Exception>,
                                             post: Request -> Result<Json, Exception>, t: ResponseType, store: Store,
                                             order: seq<string>)
    requires Enumerates(order, Elements(names))
    requires batch != [] && |batch[0]| - start == |names| && DocumentMaps(batch, start, names).Ok?
    requires parameters.Ok?
    requires post(Request(RequestDocuments(DocumentMaps(batch, start, names).value), parameters.value)) == Ok(JNull)
    ensures ProcessAttributes(batch, start, names, parameters, post, t, store, order)
         == Err(WrappedProcessingException(OtherRuntimeException))
  {
  }

  // ---------------------------------------------------------------------
  // Repeated names

  /** The `text` string of a `{"text": "..."}` object. */
  function TextOf(obj: Json): string {
    if obj.JObject? && "text" in obj.fields && obj.fields["text"].JString? then obj.fields["text"].s else ""
  }

  /** A store action that records the processed text under the name. */
  function RecordText(a: string, obj: Json, m: map<string, string>): Result<map<string, string>, Exception> {
    Ok(m[a := TextOf(obj)])
  }

  /** The `documents` member of the answer below. */
  function EchoDocuments(): map<string, Json> {
    map[RequestKey(0, "a") := TextObject(JString("x")), RequestKey(1, "a") := TextObject(JString("y"))]
  }

  /** A service that answers document 0 with "x" and document 1 with "y". */
  function EchoService(request: Request): Result<Json, Exception> {
    Ok(JObject(map["documents" := JObject(EchoDocuments())]))
  }

  lemma EchoLookups()
    ensures Lookup(Some(EchoDocuments()), 0, "a", StringText) == Ok(TextObject(JString("x")))
    ensures Lookup(Some(EchoDocuments()), 1, "a", StringText) == Ok(TextObject(JString("y")))
  {
    assert RequestKey(0, "a") != RequestKey(1, "a") by {
      if RequestKey(0, "a") == RequestKey(1, "a") {
        RequestKeyInjective(0, "a", 1, "a");
      }
    }
  }

  lemma EchoMaps()
    ensures DocumentMaps([["p", "p"], ["q", "q"]], 0, ["a", "a"]) == Ok([map["a" := "p"], map["a" := "q"]])
  {
    var names := ["a", "a"];
    assert PutAll(map[], names, ["p", "p"]) == map["a" := "p"] by {
      assert names[1..] == ["a"] && names[1..][1..] == [];
      assert map[]["a" := "p"]["a" := "p"] == map["a" := "p"];
    }
    assert PutAll(map[], names, ["q", "q"]) == map["a" := "q"] by {
      assert names[1..] == ["a"] && names[1..][1..] == [];
      assert map[]["a" := "q"]["a" := "q"] == map["a" := "q"];
    }
    assert ["p", "p"][0..2] == ["p", "p"] && ["q", "q"][0..2] == ["q", "q"];
    assert DocumentMap(["p", "p"], 0, names) == Ok(map["a" := "p"]);
    assert DocumentMap(["q", "q"], 0, names) == Ok(map["a" := "q"]);
    var batch := [["p", "p"], ["q", "q"]];
    assert batch[1..] == [["q", "q"]] && batch[1..][1..] == [];
    assert DocumentMaps(batch[1..][1..], 0, names) == Ok([]);
    assert [map["a" := "q"]] + [] == [map["a" := "q"]];
    assert DocumentMaps(batch[1..], 0, names) == Ok([map["a" := "q"]]);
    assert [map["a" := "p"]] + [map["a" := "q"]] == [map["a" := "p"], map["a" := "q"]];
  }

  lemma EchoKeys()
    ensures ResponseKeys(0, 2, ["a"]) == [(0, "a"), (1, "a")]
  {
    assert ResponseKeys(2, 2, ["a"]) == [];
    assert Block(1, ["a"]) == [(1, "a")];
    assert Block(0, ["a"]) == [(0, "a")];
  }

  /** The exchange of the example, up to the response loop. */
  lemma EchoExchange(maps: seq<map<string, string>>, n: nat)
    ensures Exchange(maps, Ok([]), EchoService, StringText, RecordText, ["a"], n)
         == Deliver(maps, Cursor(0, 0), n, ResponseKeys(0, |maps|, ["a"]), Some(EchoDocuments()), StringText, RecordText)
  {
    assert DocumentsObject(EchoService(Request(RequestDocuments(maps), [])).value) == Ok(Some(EchoDocuments()));
  }

  /** The response loop of the example with a cursor of two attributes per
      document: both callbacks reach the first map. */
  lemma EchoDeliverTwoPerDocument()
    ensures Deliver([map["a" := "p"], map["a" := "q"]], Cursor(0, 0), 2, [(0, "a"), (1, "a")], Some(EchoDocuments()), StringText, RecordText)
         == Ok([map["a" := "y"], map["a" := "q"]])
  {
    EchoLookups();
    var maps := [map["a" := "p"], map["a" := "q"]];
    var keys: seq<(nat, string)> := [(0, "a"), (1, "a")];
    assert keys[1..] == [(1, "a")] && keys[1..][1..] == [];
    var maps1 := [map["a" := "x"], map["a" := "q"]];
    assert maps[0]["a" := "x"] == map["a" := "x"];
    assert maps[0 := map["a" := "x"]] == maps1;
    assert maps1[0]["a" := "y"] == map["a" := "y"];
    assert maps1[0 := map["a" := "y"]] == [map["a" := "y"], map["a" := "q"]];
    assert Deliver(maps1, Cursor(0, 1), 2, keys[1..], Some(EchoDocuments()), StringText, RecordText)
        == Deliver([map["a" := "y"], map["a" := "q"]], Cursor(1, 0), 2, [], Some(EchoDocuments()), StringText, RecordText);
  }

  /** The same loop with a cursor of one attribute per document. */
  lemma EchoDeliverOnePerDocument()
    ensures Deliver([map["a" := "p"], map["a" := "q"]], Cursor(0, 0), 1, [(0, "a"), (1, "a")], Some(EchoDocuments()), StringText, RecordText)
         == Ok([map["a" := "x"], map["a" := "y"]])
  {
    EchoLookups();
    var maps := [map["a" := "p"], map["a" := "q"]];
    var keys: seq<(nat, string)> := [(0, "a"), (1, "a")];
    assert keys[1..] == [(1, "a")] && keys[1..][1..] == [];
    var maps1 := [map["a" := "x"], map["a" := "q"]];
    assert maps[0]["a" := "x"] == map["a" := "x"];
    assert maps[0 := map["a" := "x"]] == maps1;
    assert maps1[1]["a" := "y"] == map["a" := "y"];
    assert maps1[1 := map["a" := "y"]] == [map["a" := "x"], map["a" := "y"]];
    assert Deliver(maps1, Cursor(1, 0), 1, keys[1..], Some(EchoDocuments()), StringText, RecordText)
        == Deliver([map["a" := "x"], map["a" := "y"]], Cursor(2, 0), 1, [], Some(EchoDocuments()), StringText, RecordText);
  }

  lemma EchoProcessWith(n: nat, out: seq<map<string, string>>)
    requires Deliver([map["a" := "p"], map["a" := "q"]], Cursor(0, 0), n, [(0, "a"), (1, "a")], Some(EchoDocuments()), StringText, RecordText)
          == Ok(out)
    ensures ProcessWith([["p", "p"], ["q", "q"]], 0, ["a", "a"], Ok([]), EchoService, StringText, RecordText, ["a"], n) == Ok(out)
  {
    EchoMaps();
    EchoKeys();
    EchoExchange([map["a" := "p"], map["a" := "q"]], n);
    ProcessWithExchange([["p", "p"], ["q", "q"]], 0, ["a", "a"], Ok([]), EchoService, StringText, RecordText, ["a"], n, out);
  }

  lemma ProcessAttributesUnfold(batch: seq<seq<string>>, start: int, names: seq<string>,
                                parameters: Result<seq<(string, Json)>, Exception>,
                                post: Request -> Result<Json, Exception>, t: ResponseType, store: Store,
                                order: seq<string>)
    requires Enumerates(order, Elements(names))
    ensures ProcessAttributes(batch, start, names, parameters, post, t, store, order)
         == ProcessWith(batch, start, names, parameters, post, t, store, order, |names|)
    ensures ProcessAttributesCorrected(batch, start, names, parameters, post, t, store, order)
         == ProcessWith(batch, start, names, parameters, post, t, store, order, |order|)
  {
  }

  /** The names of the example: "a" twice, visited once by the response
      loop. */
  lemma RepeatedNameOrder()
    ensures Enumerates(["a"], Elements(["a", "a"]))
  {
    ElementsOfShortLists("a", "a");
  }

  lemma EchoAsWritten()
    requires Enumerates(["a"], Elements(["a", "a"]))
    ensures ProcessAttributes([["p", "p"], ["q", "q"]], 0, ["a", "a"], Ok([]), EchoService, StringText, RecordText, ["a"])
         == Ok([map["a" := "y"], map["a" := "q"]])
  {
    EchoDeliverTwoPerDocument();
    EchoProcessWith(2, [map["a" := "y"], map["a" := "q"]]);
    ProcessAttributesUnfold([["p", "p"], ["q", "q"]], 0, ["a", "a"], Ok([]), EchoService, StringText, RecordText, ["a"]);
  }

  lemma EchoCorrected()
    requires Enumerates(["a"], Elements(["a", "a"]))
    ensures ProcessAttributesCorrected([["p", "p"], ["q", "q"]], 0, ["a", "a"], Ok([]), EchoService, StringText, RecordText, ["a"])
         == Ok([map["a" := "x"], map["a" := "y"]])
  {
    EchoDeliverOnePerDocument();
    EchoProcessWith(1, [map["a" := "x"], map["a" := "y"]]);
    ProcessAttributesUnfold([["p", "p"], ["q", "q"]], 0, ["a", "a"], Ok([]), EchoService, StringText, RecordText, ["a"]);
  }

  /** With the name "a" given twice, two documents produce two callbacks,
      both addressed to the first map: document 0 ends up with document 1's
      answer, and document 1 is never processed. */
  lemma RepeatedNameMisroutes()
    ensures Enumerates(["a"], Elements(["a", "a"]))
    ensures ProcessAttributes([["p", "p"], ["q", "q"]], 0, ["a", "a"], Ok([]), EchoService, StringText, RecordText, ["a"])
         == Ok([map["a" := "y"], map["a" := "q"]])
  {
    RepeatedNameOrder();
    EchoAsWritten();
  }

  /** The corrected demultiplexer routes the same answers to their own
      documents. */
  lemma RepeatedNameCorrected()
    ensures Enumerates(["a"], Elements(["a", "a"]))
    ensures ProcessAttributesCorrected([["p", "p"], ["q", "q"]], 0, ["a", "a"], Ok([]), EchoService, StringText, RecordText, ["a"])
         == Ok([map["a" := "x"], map["a" := "y"]])
  {
    RepeatedNameOrder();
    EchoCorrected();
  }
}

=== FILE: tpp_tokenization.dfy ===
/** `TppTokenizationProcessingStep`: the tokenization step that runs on the
    Text Processing Python service. It expects `STRING_ARRAY` responses,
    adds no request parameters, and stores each attribute's tokens joined
    with single spaces. */
module TppTokenization {
  import opened Wrappers
  import opened JavaLang
  import opened JavaText
  import opened JavaCollections
  import opened Tpp

  const FailureMessage: string := "An exception occurred while processing the tokenized document"

  /** The response type the step declares. */
  const StepResponseType: ResponseType := StringArray

  /** The strings of a JSON array whose elements are all strings. */
  function Strings(items: seq<Json>): (r: Option<seq<string>>)
    ensures r.Some? <==> forall k :: 0 <= k < |items| ==> items[k].JString?
    ensures r.Some? ==> |r.value| == |items| && forall k :: 0 <= k < |items| ==> r.value[k] == items[k].s
    decreases |items|
  {
    if items == [] then Some([])
    else if !items[0].JString? then None
    else
      var rest :- Strings(items[1..]);
      assert forall k :: 1 <= k < |items| ==> items[k] == items[1..][k - 1];
      Some([items[0].s] + rest)
  }

  /** The tokens of a response object: its `text` member, which must be an
      array of strings. */
  function Tokens(obj: Json): Option<seq<string>> {
    if obj.JObject? && "text" in obj.fields && obj.fields["text"].JArray? then Strings(obj.fields["text"].items)
    else None
  }

  /** `TokenStoreAction.accept`: the tokens appended with a space after
      each, the last space deleted, stored under the attribute's name; any
      failure (no `text` member, not an array, a non-string element) becomes
      a `ProcessingException`. */
  function StoreTokens(a: string, obj: Json, m: map<string, string>): (r: Result<map<string, string>, Exception>)
    ensures r.Ok? <==> Tokens(obj).Some?
    ensures r.Err? ==> r.error == ProcessingException(FailureMessage)
    ensures r.Ok? ==> r.value == m[a := Join(Tokens(obj).value, " ")]
  {
    match Tokens(obj)
    case None => Err(ProcessingException(FailureMessage))
    case Some(tokens) =>
      BuilderJoinIsJoin(tokens, ' ');
      Ok(m[a := BuilderJoin(tokens, ' ')])
  }

  /** No tokens, and the dummy `[""]` of a missing response entry, both
      give the empty text. */
  lemma EmptyTokenLists(a: string, m: map<string, string>)
    ensures StoreTokens(a, TextObject(JArray([])), m) == Ok(m[a := ""])
    ensures StoreTokens(a, DummyValue(StepResponseType), m) == Ok(m[a := ""])
  {
    assert Strings([JString("")]) == Some([""]) by {
      assert [JString("")][1..] == [];
      assert Strings([]) == Some([]);
      assert [""] + [] == [""];
    }
  }

  /** Tokens without spaces are recovered from the stored text by splitting
      at the spaces: the join puts exactly one space between neighbours and
      none at the end. */
  lemma TokensRoundTrip(a: string, obj: Json, m: map<string, string>)
    requires Tokens(obj).Some? && Tokens(obj).value != []
    requires forall k :: 0 <= k < |Tokens(obj).value| ==> ' ' !in Tokens(obj).value[k]
    ensures StoreTokens(a, obj, m).Ok?
    ensures SplitAll(StoreTokens(a, obj, m).value[a], ' ') == Tokens(obj).value
  {
    SplitAllJoin(Tokens(obj).value, ' ');
  }

  /** The step's call of the demultiplexer: no request parameters, string
      array responses, and the token store action. */
  function Tokenize(batch: seq<seq<string>>, start: int, names: seq<string>,
                    post: Request -> Result<Json, Exception>, order: seq<string>): (r: Result<seq<map<string, string>>, Exception>)
    requires Enumerates(order, Elements(names))
    ensures r.Ok? ==> |r.value| == |batch|
  {
    ProcessAttributes(batch, start, names, Ok([]), post, StepResponseType, StoreTokens, order)
  }
}

=== FILE: wrappers.dfy ===
/** Failure-carrying values shared by every module of the model: `Option`
    stands for a Java reference that may be null, `Result` for a call that
    either returns a value or throws. */
module Wrappers {

  datatype Option<+T> = None | Some(value: T) {
    predicate IsFailure() {
      None?
    }

    function PropagateFailure<U>(): Option<U>
      requires None?
    {
      None
    }

    function Extract(): T
      requires Some?
    {
      value
    }

    function GetOr(default: T): T {
      match this
      case Some(v) => v
      case None => default
    }
  }

  datatype Result<+T, +E> = Ok(value: T) | Err(error: E) {
    predicate IsFailure() {
      Err?
    }

    function PropagateFailure<U>(): Result<U, E>
      requires Err?
    {
      Err(error)
    }

    function Extract(): T
      requires Ok?
    {
      value
    }
  }
}
